=== FILE: README.md ===
# rios.conversion in Dafny

A Dafny model of the core of `rios.conversion`, the Python 2 package that converts instrument definitions between RIOS and two foreign formats: REDCap data dictionaries and Qualtrics surveys. The model covers the following.

- **The expression translator.** REDCap calculation and branching-logic expressions are rewritten into RIOS (Python-style) expressions by `convert_calc`, `convert_carat_function` and `convert_trigger`, and back by `convert_rexl_expression` and `convert_variables`. The parenthesis matcher `balanced_match` and the function and operator tables are part of it (modules `BalancedMatch`, `SymbolTables`, `RedcapExpr`, `RexlExpr`, `RefTokens`, `RexlRoundTrip`, `CalcRoundTrip`).
- **The REDCap pieces around it.**
  - `Names` covers identifier canonicalisation (`get_name`) and the choice-string parser and serialiser.
  - `RedcapRows` covers the type table and the 18-column rows of the RIOS-to-REDCap writer.
  - `RedcapCalcs` covers the registration of calculated fields, which decides whether `[x]` refers to `calculations` or `assessment`.
- **Qualtrics.**
  - `QualtricsSurvey` covers page names, reading a survey export and assigning questions to pages.
  - `QualtricsChoices` covers choice order and enumeration ids.
  - `QualtricsImport` covers the question processor and the importer.
  - `QualtricsExport` covers the line writer of the exporter.
- **Supporting structures.**
  - `Errors` covers the `Error`/`Paragraph` context trace and `guard`.
  - `Logger` covers `InMemoryLogger`.
  - `Storage` covers `InstrumentCalcStorage`.
  - `Structures` covers `DefinitionSpecification` construction, `clean` and the `add_*` methods.
  - `ConversionBase` covers the shared `ToRios`/`FromRios` defaults, validation order and packages.
- **`datediff`**, from the REDCap function library (`DateDiff`).

`Wrappers`, `Text` and `PyValues` hold the shared helpers: `Option`/`Result`, string functions, and the Python built-ins applied to decoded JSON values.

## Modelling decisions

- Every regular expression is a hand-written left-to-right scanner that finds the same non-overlapping matches as Python's `re`.
  - `\w` is `[A-Za-z0-9_]`.
  - The greedy reverse pow pattern `\bmath.pow\(\s*(.+)\s*,\s*(.+)\s*\)` is modelled with its backtracking outcome: the lexicographically greatest split (`RexlExpr.PowTailGreatest`). It does not understand nesting, and the `.` after `math` is a wildcard.
  - In the RIOS variable pattern, `[^\2\]]` is the character class "neither `\x02` nor `]`", because `\2` inside a class is an octal escape. The closing quote is the back-reference to the opening one.
- The code is followed where prose and code differ:
  - the emitted call is `math.pow`;
  - `balanced_match` never reports an unmatched delimiter;
  - the pass orders are references, functions, caret, operators (forward) and operators, pow, functions, variables (reverse);
  - `str.replace` is a single left-to-right pass.
- The assertion `0 <= start < len(string)` of `balanced_match` is a precondition, since it is a demand on callers. The other exceptions are `Result` errors.
- Python 2 dict iteration orders are not predictable. The model fixes the declaration order for `FUNCTION_TO_PYTHON`, insertion order for dicts built at run time, and `i`, `c` for the storage keys.
- A plain Python dict stored in a definition (the `options` the converters build, an empty `record`) is a `Structures.Spec` whose class is `dict` (`Structures.PlainDict`). It has no `clean`, so `clean` keeps it uncleaned when non-empty, deletes it when empty, and fails inside a list.
- The Qualtrics converter keeps its page names in a set and copies them into a plain dict, then walks that dict in hash order. The model walks the pages in ascending page-number order instead (`page_01`, `page_02`, …). This choice fixes which empty page's `KeyError` is raised (`QualtricsImport.WalkRaises`, `QualtricsImport.LayoutPages`) and the order of fields, warnings and pages.
- The following become parameters:
  - how a Python value prints with `str`/`repr` (`show`, for lists and mappings);
  - the foreign `get_full_type_definition` (`fullType`);
  - how a RIOS form element prints with `str` (`show` of `RedcapRows.ProcessPages`);
  - the RIOS validators' verdicts;
  - the current time for `today` (`now`).
- Seven of the source's defects are modelled twice, once as written and once corrected (`## Findings`). The corrected form is what the rest of the model uses:
  - the `median` target of FUNCTION_TO_PYTHON: `SymbolTables.FunctionToPython` and its inverse `SymbolTables.FunctionToRedcap`, used by `RedcapExpr.ConvertCalc`, `RedcapExpr.ConvertTrigger` and `RexlExpr.ConvertRexl`, and through them by `RedcapRows.QuestionRow`, `RedcapRows.CalculationRow` and `RedcapCalcs.Step`. The as-written forms are `RedcapExpr.ConvertCalcAsWritten`, `RedcapExpr.ConvertTriggerAsWritten` and `RexlExpr.ConvertRexlAsWritten`;
  - the reclassification of step 3 of `convert_calc`: `RedcapExpr.RefsToRios`, used by `RedcapExpr.ConvertCalc` and every `CalcRoundTrip` lemma not named `AsWritten`, and by `RefTokens.RefsRoundTrip`. The as-written form is `RedcapExpr.RefsToRiosAsWritten`;
  - the registration of calculated fields: `RedcapCalcs.Step` and `RedcapCalcs.Register`. The as-written form is `RedcapCalcs.StepAsWritten`;
  - `clean`: the `filter` flag of `Structures.CleanSpec`;
  - `package`: `ConversionBase.PackageOf`;
  - `get_local_text`: the `Intended` value of `QualtricsExport.Variant`;
  - `rmv_extra_strings`: `QualtricsExport.Trimmed`, used by the `Intended` variant.

## Model

| member | source | states |
|---|---|---|
| BalancedMatch.Balanced | prometheus-rios.conversion-efd445830c1e/src/rios/conversion/utils/balanced_match.py:14-40 | the loop of `balanced_match`: an error exactly when the start character is not a parenthesis (with the `unable to match` message); at `(` a span that starts there and ends after the closing partner or at the end of the text; at `)` a span that ends after it and starts at its partner or at 0 |
| BalancedMatch.Match | prometheus-rios.conversion-efd445830c1e/src/rios/conversion/utils/balanced_match.py:14-40 | the same outcome as a recursive scan: error iff the start is no delimiter; forward spans start at `start` and end in `(start, len]`, backward spans end at `start+1` |
| BalancedMatch.BalancedAgrees | prometheus-rios.conversion-efd445830c1e/src/rios/conversion/utils/balanced_match.py:29-40 | the loop and the recursive scan return the same result on every input |
| BalancedMatch.ScanForwardSpan | prometheus-rios.conversion-efd445830c1e/src/rios/conversion/utils/balanced_match.py:29-38 | the forward scan stops at the first position where the nesting level returns to 0, every proper prefix has positive level, or it runs to the end with positive level |
| BalancedMatch.ScanBackwardSpan | prometheus-rios.conversion-efd445830c1e/src/rios/conversion/utils/balanced_match.py:23-26 | the backward scan stops at the partner `(` where the level first returns to 0, or runs to index 0 |
| BalancedMatch.ForwardSpanUnique | prometheus-rios.conversion-efd445830c1e/src/rios/conversion/utils/balanced_match.py:29-38 | the span the forward scan is specified to return is unique, so the specification determines the result |
| BalancedMatch.BackwardSpanUnique | prometheus-rios.conversion-efd445830c1e/src/rios/conversion/utils/balanced_match.py:39-40 | the span the backward scan is specified to return is unique |
| BalancedMatch.ForwardMatchEndsOnClose | prometheus-rios.conversion-efd445830c1e/src/rios/conversion/utils/balanced_match.py:29-38 | when the level reaches 0, the last character of the span is `)` |
| BalancedMatch.BackwardMatchBeginsOnOpen | prometheus-rios.conversion-efd445830c1e/src/rios/conversion/utils/balanced_match.py:39-40 | when the level reaches 0, the first character of the span is `(` |
| BalancedMatch.LevelSnoc | prometheus-rios.conversion-efd445830c1e/src/rios/conversion/utils/balanced_match.py:31-36 | the level rises by one on `(` and falls by one on `)`, character by character |
| BalancedMatch.MatchForwardOverFree | prometheus-rios.conversion-efd445830c1e/src/rios/conversion/utils/balanced_match.py:29-38 | a `(` followed by parenthesis-free text and a `)` matches exactly that `)` |
| BalancedMatch.MatchBackOverFree | prometheus-rios.conversion-efd445830c1e/src/rios/conversion/utils/balanced_match.py:23-26 | a `)` preceded by parenthesis-free text and a `(` matches exactly that `(` |
| BalancedMatch.MatchExample | prometheus-rios.conversion-efd445830c1e/tests/test_coverage.py:46-47 | `balanced_match('((a))+1', 0)` returns `(0, 5)` |
| BalancedMatch.MatchRejectsNonDelimiter | prometheus-rios.conversion-efd445830c1e/tests/test_coverage.py:41-45 | `balanced_match('x', 0)` raises: `x` is no parenthesis |
| BalancedMatch.UnclosedRunsToEnd | prometheus-rios.conversion-efd445830c1e/src/rios/conversion/utils/balanced_match.py:30 | an unclosed `(` is not an error: `balanced_match('(a', 0)` spans the whole text |
| SymbolTables.Lookup | prometheus-rios.conversion-efd445830c1e/src/rios/conversion/redcap/to_rios.py:48-61 | a key found in a table maps to the value of an entry with that key; a missing key is in no entry |
| SymbolTables.Invert | prometheus-rios.conversion-efd445830c1e/src/rios/conversion/redcap/from_rios.py:50 | FUNCTION_TO_REDCAP swaps key and value of every entry, entry by entry |
| SymbolTables.InvertLookup | prometheus-rios.conversion-efd445830c1e/src/rios/conversion/redcap/from_rios.py:50 | when the values of a table are distinct, the inverted table maps each value back to its key |
| SymbolTables.FunctionTablesDistinct | prometheus-rios.conversion-efd445830c1e/src/rios/conversion/redcap/to_rios.py:48-61 | the twelve keys are pairwise distinct and so are the twelve values, both in the corrected and the as-written table |
| SymbolTables.FunctionTablesInverse | prometheus-rios.conversion-efd445830c1e/src/rios/conversion/redcap/from_rios.py:50 | FUNCTION_TO_REDCAP[FUNCTION_TO_PYTHON[k]] == k for every REDCap function name k |
| SymbolTables.LookupEntry | prometheus-rios.conversion-efd445830c1e/src/rios/conversion/redcap/to_rios.py:48-61 | with distinct keys, looking up an entry's key gives that entry's value |
| SymbolTables.EveryTargetResolves | prometheus-rios.conversion-efd445830c1e/src/rios/conversion/redcap/to_rios.py:48-61 | every corrected target is a bare builtin, `math.sqrt` or a function of the `redcap.functions` module |
| SymbolTables.MedianTargetAsWrittenDoesNotResolve | prometheus-rios.conversion-efd445830c1e/src/rios/conversion/redcap/to_rios.py:52 | as written, `median` maps to a name in a module `redcap.function` that does not exist |
| RedcapExpr.TableOf | prometheus-rios.conversion-efd445830c1e/src/rios/conversion/redcap/to_rios.py:308-314 | a referenced variable goes to `calculations` exactly when it is a known calculation and to `assessment` otherwise |
| RedcapExpr.FindNames | prometheus-rios.conversion-efd445830c1e/src/rios/conversion/redcap/to_rios.py:308 | every name `findall` collects is a non-empty run of word characters, and text without `[` yields no name |
| RedcapExpr.DbRefAtComplete | prometheus-rios.conversion-efd445830c1e/src/rios/conversion/redcap/to_rios.py:39-41 | at an occurrence of `[t][f]` with word-character names the database-reference scanner matches it, with its end right after the second `]` |
| RedcapExpr.BracketAtComplete | prometheus-rios.conversion-efd445830c1e/src/rios/conversion/redcap/to_rios.py:43-45 | at an occurrence of `[x]` the variable-reference scanner matches it |
| RedcapExpr.SubDbRefs | prometheus-rios.conversion-efd445830c1e/src/rios/conversion/redcap/to_rios.py:307 | the database-reference substitution copies any text that holds no `[` |
| RedcapExpr.SubVarRefs | prometheus-rios.conversion-efd445830c1e/src/rios/conversion/redcap/to_rios.py:309 | the variable substitution copies any text that holds no `[` |
| RedcapExpr.RefsToRiosAsWritten | prometheus-rios.conversion-efd445830c1e/src/rios/conversion/redcap/to_rios.py:307-314 | (as written) the reference steps of `convert_calc` keep an expression that holds no `[`: with no reference there is nothing to rewrite or reclassify |
| RedcapExpr.RefsToRios | prometheus-rios.conversion-efd445830c1e/src/rios/conversion/redcap/to_rios.py:307-314 | (corrected: each `[v]` classified where it is rewritten) the reference steps keep an expression that holds no `[` |
| RedcapExpr.SubDbRefsCopies | prometheus-rios.conversion-efd445830c1e/src/rios/conversion/redcap/to_rios.py:307 | text without `[` is copied unchanged by the database-reference substitution |
| RedcapExpr.SubVarRefsCopies | prometheus-rios.conversion-efd445830c1e/src/rios/conversion/redcap/to_rios.py:308-309 | text without `[` is copied unchanged by the variable substitution and contributes no name |
| RedcapExpr.RenameCalls | prometheus-rios.conversion-efd445830c1e/src/rios/conversion/redcap/to_rios.py:315-317 | the function-renaming passes keep a text that holds no `(`, since every pattern ends in `(` |
| RedcapExpr.RenameCallsCopies | prometheus-rios.conversion-efd445830c1e/src/rios/conversion/redcap/to_rios.py:64-67 | where no `name(` starts at a word boundary, the rename pass copies the text |
| RedcapExpr.RenameCallsSame | prometheus-rios.conversion-efd445830c1e/src/rios/conversion/redcap/to_rios.py:315-317 | renaming a function to itself (`min`, `max`, `abs`) never changes the text |
| RedcapExpr.RenameStep | prometheus-rios.conversion-efd445830c1e/src/rios/conversion/redcap/to_rios.py:64-67 | renaming a function to itself: at a word-boundary `name(` the pass emits `name(` and resumes after it, elsewhere it copies one character |
| RedcapExpr.CaretFrom | prometheus-rios.conversion-efd445830c1e/src/rios/conversion/redcap/to_rios.py:323-336 | without a further `)^(` the rest of the text is copied unchanged |
| RedcapExpr.ConvertCaratFunction | prometheus-rios.conversion-efd445830c1e/src/rios/conversion/redcap/to_rios.py:323-336 | the loop of `convert_carat_function` computes the recursive definition of the caret pass |
| RedcapExpr.CaretFindsFirst | prometheus-rios.conversion-efd445830c1e/src/rios/conversion/redcap/to_rios.py:326 | when no `)` comes before an occurrence of `)^(`, `find` returns that occurrence |
| RedcapExpr.CaretOnce | prometheus-rios.conversion-efd445830c1e/src/rios/conversion/redcap/to_rios.py:323-336 | one `(b)^(e)` between balanced groups becomes `math.pow(b, e)`, with the text before and after unchanged |
| RedcapExpr.CaretSimple | prometheus-rios.conversion-efd445830c1e/src/rios/conversion/redcap/to_rios.py:323-336 | `p + (b)^(e) + q` becomes `p + math.pow(b, e) + q` for parenthesis-free operands, a `p` without `)` and a `q` without `)^(` |
| RedcapExpr.CaretChain | prometheus-rios.conversion-efd445830c1e/src/rios/conversion/redcap/to_rios.py:333-334 | in `(a)^(b)^(c)` only the first caret is rewritten, because scanning resumes after the exponent group |
| RedcapExpr.CaretToPow | prometheus-rios.conversion-efd445830c1e/src/rios/conversion/redcap/to_rios.py:323-336 | `convert_carat_function` keeps a text that holds no `(`, since there is then no `)^(` |
| RedcapExpr.ReplaceAll | prometheus-rios.conversion-efd445830c1e/src/rios/conversion/redcap/to_rios.py:319-320 | the operator passes keep a text in which no operator key occurs |
| RedcapExpr.ConvertCalcAsWritten | prometheus-rios.conversion-efd445830c1e/src/rios/conversion/redcap/to_rios.py:296-321 | (as written: reclassifying step 3 and the `redcap.function.median` target) `convert_calc` keeps an expression with no reference, no call or power and no `<>` |
| RedcapExpr.ConvertCalc | prometheus-rios.conversion-efd445830c1e/src/rios/conversion/redcap/to_rios.py:296-321 | (corrected: classification where each `[v]` is rewritten, `redcap.functions.median` target) `convert_calc` keeps an expression with no reference, no call or power and no `<>` |
| RedcapExpr.ConvertTriggerAsWritten | prometheus-rios.conversion-efd445830c1e/src/rios/conversion/redcap/to_rios.py:348-350 | (as written) the trigger is `!(`…`)` around the converted logic, and exactly `!(e)` for an expression `e` the conversion keeps |
| RedcapExpr.ConvertTrigger | prometheus-rios.conversion-efd445830c1e/src/rios/conversion/redcap/to_rios.py:348-350 | (corrected) the trigger is `!(`…`)` around the converted logic, and exactly `!(e)` for an expression `e` the conversion keeps |
| RefTokens.RefsToRiosTokens | prometheus-rios.conversion-efd445830c1e/src/rios/conversion/redcap/to_rios.py:307-314 | on an expression built from plain characters, `[v]` and `[t][f]` references, the reference passes give `t["f"]` for each database reference and `calculations["v"]` or `assessment["v"]` for each variable |
| RefTokens.SubDbRefsTokens | prometheus-rios.conversion-efd445830c1e/src/rios/conversion/redcap/to_rios.py:307 | the database-reference pass rewrites exactly the `[t][f]` tokens |
| RefTokens.SubVarRefsTokens | prometheus-rios.conversion-efd445830c1e/src/rios/conversion/redcap/to_rios.py:308-309 | the variable pass rewrites exactly the `[v]` tokens and `findall` lists their names in order |
| RefTokens.VarsFromTokens | prometheus-rios.conversion-efd445830c1e/src/rios/conversion/redcap/from_rios.py:64-70 | `convert_variables` turns every RIOS reference of a token list back into its REDCap form and copies the rest |
| RefTokens.RefsRoundTrip | prometheus-rios.conversion-efd445830c1e/src/rios/conversion/redcap/from_rios.py:210-227 | `convert_variables` undoes the reference passes of `convert_calc` on every well-formed expression |
| RefTokens.TableRefReadsAsVariable | prometheus-rios.conversion-efd445830c1e/src/rios/conversion/redcap/from_rios.py:218-219 | `[assessment][f]` and `[calculations][f]` go to `assessment["f"]` and `calculations["f"]`, which `convert_variables` reads back as `[f]`, so the reference round trip cannot hold for them |
| RefTokens.AsWrittenTokens | prometheus-rios.conversion-efd445830c1e/src/rios/conversion/redcap/to_rios.py:308-314 | as written, the variable pass first emits `calculations["v"]` for every variable and then runs a textual replace per non-calculation |
| RefTokens.ReclassifyOne | prometheus-rios.conversion-efd445830c1e/src/rios/conversion/redcap/to_rios.py:310-314 | the as-written reclassification of one variable is a literal replace of `calculations["v"]` by `assessment["v"]` over the whole text |
| RefTokens.ReclassifyRewritesDbRefs | prometheus-rios.conversion-efd445830c1e/src/rios/conversion/redcap/to_rios.py:310-314 | as written, `[wcalculations][v] [v]` with `v` not a calculation becomes `wassessment["v"] assessment["v"]`: the database reference is rewritten too; the corrected pass gives `wcalculations["v"] assessment["v"]` |
| RefTokens.ConvertVariablesExample | prometheus-rios.conversion-efd445830c1e/tests/test_coverage.py:49-55 | `assessment["a"] + calculations["c"] + t["f"]` becomes `[a] + [c] + [t][f]` |
| RexlExpr.PowAt | prometheus-rios.conversion-efd445830c1e/src/rios/conversion/redcap/from_rios.py:60-62 | a `math.pow(` match found by the pow scanner starts with the 9-character prefix and ends inside the text |
| RexlExpr.PowTail | prometheus-rios.conversion-efd445830c1e/src/rios/conversion/redcap/from_rios.py:62 | the chosen split of the remainder of the line into base, comma and exponent fits the pattern |
| RexlExpr.PowTailGreatest | prometheus-rios.conversion-efd445830c1e/src/rios/conversion/redcap/from_rios.py:62 | the chosen split is the greediest one the pattern admits, which is the one the backtracking regex finds |
| RexlExpr.BaseSearchGreatest | prometheus-rios.conversion-efd445830c1e/src/rios/conversion/redcap/from_rios.py:62 | the base search returns the lexicographically greatest split that fits (greedy `(.+)`) |
| RexlExpr.PowGroups | prometheus-rios.conversion-efd445830c1e/src/rios/conversion/redcap/from_rios.py:62 | the captured base and exponent have the lengths of the chosen split |
| RexlExpr.VarRefAt | prometheus-rios.conversion-efd445830c1e/src/rios/conversion/redcap/from_rios.py:64-70 | a variable-reference match ends after its closing `]` |
| RexlExpr.SearchVar | prometheus-rios.conversion-efd445830c1e/src/rios/conversion/redcap/from_rios.py:215 | `search` on the unconsumed suffix finds a match at or after the current position |
| RexlExpr.SearchVarSplits | prometheus-rios.conversion-efd445830c1e/src/rios/conversion/redcap/from_rios.py:212-227 | with no match the rest is copied; with a match, the text before it is copied, the replacement emitted, and scanning resumes after the match |
| RexlExpr.ConvertVariables | prometheus-rios.conversion-efd445830c1e/src/rios/conversion/redcap/from_rios.py:210-227 | the loop of `convert_variables` computes the recursive definition of the pass |
| RexlExpr.OpsToRedcap | prometheus-rios.conversion-efd445830c1e/src/rios/conversion/redcap/from_rios.py:201-202 | the operator pass of `convert_rexl_expression` (`!=` to `<>`) keeps a text without `!=` |
| RexlExpr.PowToCaret | prometheus-rios.conversion-efd445830c1e/src/rios/conversion/redcap/from_rios.py:203 | the pow pass keeps a text that holds no `(`, since the pattern needs the `(` after `math.pow` |
| RexlExpr.VarsFrom | prometheus-rios.conversion-efd445830c1e/src/rios/conversion/redcap/from_rios.py:210-227 | `convert_variables` copies any text that holds no `[`, since every reference it rewrites contains one |
| RexlExpr.ConvertRexlAsWritten | prometheus-rios.conversion-efd445830c1e/src/rios/conversion/redcap/from_rios.py:188-208 | (as written: the inverse of the as-written FUNCTION_TO_PYTHON) `convert_rexl_expression` keeps an expression with no reference, no call and no `!=` |
| RexlExpr.ConvertRexl | prometheus-rios.conversion-efd445830c1e/src/rios/conversion/redcap/from_rios.py:188-208 | (corrected: the inverse of the corrected FUNCTION_TO_PYTHON) `convert_rexl_expression` keeps an expression with no reference, no call and no `!=` |
| RexlExpr.PowAtNeedsParen | prometheus-rios.conversion-efd445830c1e/src/rios/conversion/redcap/from_rios.py:62 | the pow pattern can only match where `(` follows `math.pow` |
| RexlExpr.PowCopies | prometheus-rios.conversion-efd445830c1e/src/rios/conversion/redcap/from_rios.py:203 | where no pow match starts, the text is copied |
| RexlRoundTrip.CallStep | prometheus-rios.conversion-efd445830c1e/src/rios/conversion/redcap/from_rios.py:203 | a `math.pow(b, e)` call becomes `(b)^(e)` and scanning resumes after it |
| RexlRoundTrip.PowToCaretCall | prometheus-rios.conversion-efd445830c1e/src/rios/conversion/redcap/from_rios.py:203 | `p + math.pow(b, e) + q` becomes `p + (b)^(e) + q` for simple operands and context |
| RexlRoundTrip.PowToCaretShape | prometheus-rios.conversion-efd445830c1e/src/rios/conversion/redcap/from_rios.py:203 | a text with exactly one call shape is rewritten at that call and nowhere else |
| RexlRoundTrip.CaretRoundTrip | prometheus-rios.conversion-efd445830c1e/src/rios/conversion/redcap/to_rios.py:323-336 | the reverse pow pass undoes the caret pass: `(b)^(e)` survives a round trip for simple operands |
| RexlRoundTrip.OpsRoundTrip | prometheus-rios.conversion-efd445830c1e/src/rios/conversion/redcap/from_rios.py:58 | `!=` back to `<>` undoes `<>` to `!=` on text that has no `!=` |
| RexlRoundTrip.OpsRoundTripBack | prometheus-rios.conversion-efd445830c1e/src/rios/conversion/redcap/to_rios.py:70-75 | `<>` to `!=` undoes `!=` to `<>` on text that has no `<>` |
| CalcRoundTrip.ConvertCalcTokens | prometheus-rios.conversion-efd445830c1e/src/rios/conversion/redcap/to_rios.py:296-321 | (corrected translator) on an expression of references and plain characters other than `(`, `<` and `!`, `convert_calc` rewrites only the references, with the calculation set choosing the table |
| CalcRoundTrip.ConvertTriggerTokens | prometheus-rios.conversion-efd445830c1e/src/rios/conversion/redcap/to_rios.py:348-350 | (corrected translator) `convert_trigger` is the negation `!( … )` of the converted expression |
| CalcRoundTrip.ConvertRexlTokens | prometheus-rios.conversion-efd445830c1e/src/rios/conversion/redcap/from_rios.py:188-208 | (corrected translator) `convert_rexl_expression` turns the RIOS text of such an expression back into its REDCap text |
| CalcRoundTrip.ConvertRoundTrip | prometheus-rios.conversion-efd445830c1e/src/rios/conversion/redcap/from_rios.py:188-208 | (corrected translators) `convert_rexl_expression(convert_calc(e)) == e` on such expressions, whatever the calculation set |
| CalcRoundTrip.TableRefRoundTripFails | prometheus-rios.conversion-efd445830c1e/src/rios/conversion/redcap/from_rios.py:210-224 | even the corrected pair returns `[f]` for `[assessment][f]` and `[calculations][f]`, whatever the calculation set |
| CalcRoundTrip.ConvertCalcAsWrittenTokens | prometheus-rios.conversion-efd445830c1e/src/rios/conversion/redcap/to_rios.py:296-321 | (as written) on the same expressions `convert_calc` writes `calculations["v"]` for every `[v]` and `t["f"]` for every `[t][f]`, then replaces `calculations["v"]` by `assessment["v"]` over the whole text for each non-calculation `v` |
| CalcRoundTrip.ConvertTriggerAsWrittenTokens | prometheus-rios.conversion-efd445830c1e/src/rios/conversion/redcap/to_rios.py:348-350 | (as written) `convert_trigger` is the negation of that as-written conversion |
| CalcRoundTrip.ReplaceMoves | prometheus-rios.conversion-efd445830c1e/src/rios/conversion/redcap/to_rios.py:311-313 | one `str.replace` of `calculations["v"]` by `assessment["v"]`, on the text of variable references and plain characters, moves exactly the variable `v` to `assessment` and leaves every other character in place |
| CalcRoundTrip.ReclassifyMoves | prometheus-rios.conversion-efd445830c1e/src/rios/conversion/redcap/to_rios.py:309-313 | the replace loop moves exactly the listed variables that are not calculations to `assessment` |
| CalcRoundTrip.ReclassifyAgrees | prometheus-rios.conversion-efd445830c1e/src/rios/conversion/redcap/to_rios.py:307-313 | on expressions without database references, step 3 as written places every variable in the table the corrected classification gives it |
| CalcRoundTrip.ConvertCalcAgrees | prometheus-rios.conversion-efd445830c1e/src/rios/conversion/redcap/to_rios.py:296-321 | on expressions of variable references and characters other than `(`, `<` and `!`, `convert_calc` as written gives the corrected result |
| CalcRoundTrip.ConvertTriggerAgrees | prometheus-rios.conversion-efd445830c1e/src/rios/conversion/redcap/to_rios.py:348-350 | on the same expressions, `convert_trigger` as written gives the corrected result |
| CalcRoundTrip.ConvertRexlAsWrittenTokens | prometheus-rios.conversion-efd445830c1e/src/rios/conversion/redcap/from_rios.py:188-208 | (as written) `convert_rexl_expression` reads the RIOS text of such an expression back into its REDCap text, as the corrected one does |
| CalcRoundTrip.AsWrittenRoundTripFails | prometheus-rios.conversion-efd445830c1e/src/rios/conversion/redcap/to_rios.py:310-314 | (as written) the round trip changes `[wcalculations][v] [v]` into `[wassessment][v] [v]` when there are no calculations; the corrected pair returns it unchanged |
| CalcRoundTrip.ForwardKeepsInert | prometheus-rios.conversion-efd445830c1e/src/rios/conversion/redcap/to_rios.py:315-320 | the function, caret and operator passes of `convert_calc` keep a text of characters other than `(`, `<` and `!`, whatever the function table |
| CalcRoundTrip.BackwardKeepsInert | prometheus-rios.conversion-efd445830c1e/src/rios/conversion/redcap/from_rios.py:201-206 | the operator, pow and function passes of `convert_rexl_expression` keep such a text, whatever the function table |
| CalcRoundTrip.ReclassifyInert | prometheus-rios.conversion-efd445830c1e/src/rios/conversion/redcap/to_rios.py:310-314 | the as-written reclassification keeps such a text free of `(`, `<` and `!` |
| Names.GetName | prometheus-rios.conversion-efd445830c1e/src/rios/conversion/redcap/to_rios.py:92-118 | `None` is the only error; otherwise the name is canonical (lower case, word characters, no doubled or outer `_` unless all underscores) and never starts with a digit |
| Names.CanonicalIsCanonical | prometheus-rios.conversion-efd445830c1e/src/rios/conversion/redcap/to_rios.py:106-118 | every result of the normalisation and the special cases is canonical and starts with no digit |
| Names.CanonicalKeeps | prometheus-rios.conversion-efd445830c1e/src/rios/conversion/redcap/to_rios.py:106-118 | a canonical name is left unchanged |
| Names.GetNameIdempotent | prometheus-rios.conversion-efd445830c1e/src/rios/conversion/redcap/to_rios.py:92-118 | `get_name(get_name(x)) == get_name(x)` |
| Names.SquashKeepsWords | prometheus-rios.conversion-efd445830c1e/src/rios/conversion/redcap/to_rios.py:106-108 | a run-free word-character string survives the non-word substitution |
| Names.StripOuterUnderbarsKeeps | prometheus-rios.conversion-efd445830c1e/src/rios/conversion/redcap/to_rios.py:37 | a name without outer `_` (or made only of `_`) survives the strip |
| Names.SettledByFirst | prometheus-rios.conversion-efd445830c1e/src/rios/conversion/redcap/to_rios.py:109-117 | the special cases only apply to names starting with `c`, `b`, `t` or a digit |
| Names.SpecialNamesCanonical | prometheus-rios.conversion-efd445830c1e/src/rios/conversion/redcap/to_rios.py:109-118 | the special cases keep a normalised name canonical |
| Names.ChoicesFieldCanonical | prometheus-rios.conversion-efd445830c1e/src/rios/conversion/redcap/to_rios.py:109-110 | `choices_or_calculations` is itself canonical |
| Names.ChoicesForm | prometheus-rios.conversion-efd445830c1e/src/rios/conversion/redcap/to_rios.py:360-375 | one choice per `\|` segment |
| Names.ChoicesFormShape | prometheus-rios.conversion-efd445830c1e/src/rios/conversion/redcap/to_rios.py:360-375 | every id is canonical and every label is stripped |
| Names.ParseChoiceShape | prometheus-rios.conversion-efd445830c1e/src/rios/conversion/redcap/to_rios.py:369-372 | a parsed segment has a canonical id (the name of the text before the first comma) and a stripped label |
| Names.AddKeys | prometheus-rios.conversion-efd445830c1e/src/rios/conversion/base/structures.py:119-124 | adding names to an enumeration collection keeps existing keys first and the keys are exactly the old ones plus the new ids |
| Names.AddKeysDistinct | prometheus-rios.conversion-efd445830c1e/src/rios/conversion/base/structures.py:119-124 | the keys stay distinct |
| Names.ChoicesInstrumentNames | prometheus-rios.conversion-efd445830c1e/src/rios/conversion/redcap/to_rios.py:377-388 | the collection holds exactly the ids of the choice segments, each once |
| Names.ParseRendered | prometheus-rios.conversion-efd445830c1e/src/rios/conversion/redcap/from_rios.py:229-233 | parsing the `id, text` item `get_choices` renders gives back the choice |
| Names.ChoicesRoundTrip | prometheus-rios.conversion-efd445830c1e/src/rios/conversion/redcap/from_rios.py:229-233 | `get_choices_form` parses what `get_choices` renders: every non-empty list of renderable choices comes back |
| Names.RoundTripOne | prometheus-rios.conversion-efd445830c1e/src/rios/conversion/redcap/to_rios.py:360-375 | a single rendered choice parses back |
| RedcapRows.Cells | prometheus-rios.conversion-efd445830c1e/src/rios/conversion/redcap/from_rios.py:28-47 | a sheet row has exactly the 18 columns, name, section header and branching logic in their places |
| RedcapRows.TypeTuple | prometheus-rios.conversion-efd445830c1e/src/rios/conversion/redcap/from_rios.py:235-251 | float and integer become text fields validated `number` and `integer` (and only they carry a validation); `checkbox` exactly for enumerationSet; `notes` exactly for text with a textArea widget; `dropdown` exactly for an enumeration without radioGroup widget; `radio` for a matrix or a radioGroup enumeration |
| RedcapRows.ConvertTextType | prometheus-rios.conversion-efd445830c1e/src/rios/conversion/redcap/to_rios.py:338-346 | `dateTime` exactly for validations starting with `date`, `float` exactly for `number`/`numeric`; only text, integer, float or dateTime result |
| RedcapRows.FieldBase | prometheus-rios.conversion-efd445830c1e/src/rios/conversion/redcap/to_rios.py:840-864 | an unknown field type is an error, and `calc` is the one type that produces no field |
| RedcapRows.TextWidget | prometheus-rios.conversion-efd445830c1e/src/rios/conversion/redcap/to_rios.py:669-679 | a widget exists exactly for the four text types |
| RedcapRows.TextWidgetTotal | prometheus-rios.conversion-efd445830c1e/src/rios/conversion/redcap/to_rios.py:338-346 | every converted text type has a widget |
| RedcapRows.TypeRoundTrip | prometheus-rios.conversion-efd445830c1e/src/rios/conversion/redcap/from_rios.py:235-251 | reading back the REDCap type of a float, integer, text, enumeration or enumerationSet field gives the same base |
| RedcapRows.QuestionRow | prometheus-rios.conversion-efd445830c1e/src/rios/conversion/redcap/from_rios.py:351-407 | a question row carries the field id, form and section header, the type tuple, the question text as label, the rendered enumerations as choices, the help as note, the range bounds as validation minimum and maximum, the converted trigger and the identifiable and required flags |
| RedcapRows.QuestionChoicesRoundTrip | prometheus-rios.conversion-efd445830c1e/src/rios/conversion/redcap/from_rios.py:351-358 | the choices cell of a question row parses back into its enumerations |
| RedcapRows.MatrixSheetRow | prometheus-rios.conversion-efd445830c1e/src/rios/conversion/redcap/from_rios.py:325-348 | a matrix row names the row id, the matrix group and the ranking flag |
| RedcapRows.ProcessMatrix | prometheus-rios.conversion-efd445830c1e/src/rios/conversion/redcap/from_rios.py:293-349 | one row per matrix row; success exactly for a single column with enumerations, so an empty question list, several columns or a column without enumerations is an error |
| RedcapRows.MatrixHeaderOnce | prometheus-rios.conversion-efd445830c1e/src/rios/conversion/redcap/from_rios.py:316-349 | the section header appears on the first matrix row only and is `''` afterwards |
| RedcapRows.MatrixSectionHeader | prometheus-rios.conversion-efd445830c1e/src/rios/conversion/redcap/from_rios.py:316-349 | the section header appears on the first matrix row only |
| RedcapRows.ProcessElement | prometheus-rios.conversion-efd445830c1e/src/rios/conversion/redcap/from_rios.py:272-291 | a header only sets the section header; a question appends its row and clears the header; an element of another kind, or a matrix that fails, is an error; earlier rows and warnings never change |
| RedcapRows.ProcessElements | prometheus-rios.conversion-efd445830c1e/src/rios/conversion/redcap/from_rios.py:158-187 | element processing only appends rows and logs nothing |
| RedcapRows.HeaderThenQuestion | prometheus-rios.conversion-efd445830c1e/src/rios/conversion/redcap/from_rios.py:287-291 | a header followed by a question puts the header on that question's row and then clears it |
| RedcapRows.SkippedElement | prometheus-rios.conversion-efd445830c1e/src/rios/conversion/redcap/from_rios.py:174-187 | an element of an unknown kind is skipped and the rest is processed |
| RedcapRows.ProcessPage | prometheus-rios.conversion-efd445830c1e/src/rios/conversion/redcap/from_rios.py:149-157 | a page without id or elements is a format error and changes nothing |
| RedcapRows.ProcessPages | prometheus-rios.conversion-efd445830c1e/src/rios/conversion/redcap/from_rios.py:81-118 | pages only append rows and warnings; a value error never escapes |
| RedcapRows.NoIdentifierMessage | prometheus-rios.conversion-efd445830c1e/src/rios/conversion/redcap/from_rios.py:164-173 | the error for an element without identifier reads `Form element has no identifier. Invalid element data:` on its first line, the element's text following as payload |
| RedcapRows.NoIdentifierWarning | prometheus-rios.conversion-efd445830c1e/src/rios/conversion/redcap/from_rios.py:87-94 | a page whose first element has no identifier adds exactly one warning, `WARNING: ` and the error text, and the loop goes on with the next page |
| RedcapRows.CalculationRow | prometheus-rios.conversion-efd445830c1e/src/rios/conversion/redcap/from_rios.py:253-270 | a calculation row is a `calc` row of form `calculations` named by the calculation and labelled by its description; its choices cell holds the expression, converted back to REDCap syntax when the method is `python` and copied otherwise; every later cell is blank |
| RedcapRows.CalculationRowIsCalc | prometheus-rios.conversion-efd445830c1e/src/rios/conversion/redcap/from_rios.py:253-270 | reading back a calculation row gives the `calc` type, which makes no field |
| RedcapRows.ProcessCalculations | prometheus-rios.conversion-efd445830c1e/src/rios/conversion/redcap/from_rios.py:120-145 | one row per calculation appended after the existing rows; an error exactly when a calculation has an empty id (a format error) or no description (the KeyError of the row build), never a value error |
| RedcapRows.FromRios | prometheus-rios.conversion-efd445830c1e/src/rios/conversion/redcap/from_rios.py:76-147 | a form without pages is a format error; a value error never escapes |
| RedcapRows.SheetLines | prometheus-rios.conversion-efd445830c1e/src/rios/conversion/redcap/from_rios.py:77-78 | the sheet is the header row followed by the data rows, every line 18 cells long |
| RedcapCalcs.Trigger | prometheus-rios.conversion-efd445830c1e/src/rios/conversion/redcap/to_rios.py:494-499 | a branching logic is converted exactly when it is non-empty |
| RedcapCalcs.StepAsWritten | prometheus-rios.conversion-efd445830c1e/src/rios/conversion/redcap/to_rios.py:425-426 | as written, a `calc` row changes nothing and any other row only adds its converted trigger |
| RedcapCalcs.AsWrittenNeverRegisters | prometheus-rios.conversion-efd445830c1e/src/rios/conversion/redcap/to_rios.py:425-426 | as written, no run of rows ever adds a calculation or a calculation name |
| RedcapCalcs.Step | prometheus-rios.conversion-efd445830c1e/src/rios/conversion/redcap/to_rios.py:681-695 | a `calc` row converts its expression against the names known before it, then registers its name; a repeated name is the assertion error |
| RedcapCalcs.Register | prometheus-rios.conversion-efd445830c1e/src/rios/conversion/redcap/to_rios.py:681-695 | the set of calculation names only grows |
| RedcapCalcs.RegisterConsistent | prometheus-rios.conversion-efd445830c1e/src/rios/conversion/redcap/to_rios.py:681-695 | the registered names are exactly the ids of the registered calculations |
| RedcapCalcs.RegisterSucceeds | prometheus-rios.conversion-efd445830c1e/src/rios/conversion/redcap/to_rios.py:693 | registration succeeds exactly when no calculation name repeats or clashes with one already registered |
| RedcapCalcs.NoCalcRowsAgree | prometheus-rios.conversion-efd445830c1e/src/rios/conversion/redcap/to_rios.py:425-426 | without `calc` rows the corrected and the as-written passes agree |
| RedcapCalcs.CalcThenQuestion | prometheus-rios.conversion-efd445830c1e/src/rios/conversion/redcap/to_rios.py:681-695 | a question that refers to an earlier calculation gets `assessment[…]` as written and `calculations[…]` corrected |
| RedcapCalcs.VarRefTable | prometheus-rios.conversion-efd445830c1e/src/rios/conversion/redcap/to_rios.py:308-314 | a lone `[n]` becomes a reference into the table chosen by the calculation set |
| Errors.NewError | prometheus-rios.conversion-efd445830c1e/src/rios/conversion/exception.py:70-72 | a new error has exactly one paragraph, the given message and payload |
| Errors.Wrap | prometheus-rios.conversion-efd445830c1e/src/rios/conversion/exception.py:74-80 | `wrap` appends one paragraph at the end and leaves the earlier ones and the class alone |
| Errors.WrapStr | prometheus-rios.conversion-efd445830c1e/src/rios/conversion/exception.py:86-87 | `str` of a wrapped error is the old text, a newline and the new paragraph |
| Errors.ParagraphStr | prometheus-rios.conversion-efd445830c1e/src/rios/conversion/exception.py:34-39 | a paragraph without payload is its message; with one it starts with the message and a newline |
| Errors.ParagraphLines | prometheus-rios.conversion-efd445830c1e/src/rios/conversion/exception.py:34-39 | the lines of a paragraph are the message and each payload line indented by four spaces (empty lines stay empty) |
| Errors.Indent | prometheus-rios.conversion-efd445830c1e/src/rios/conversion/exception.py:37 | a non-empty line gets four leading spaces, an empty one stays empty |
| Errors.SplitLines | prometheus-rios.conversion-efd445830c1e/src/rios/conversion/exception.py:38 | `splitlines` produces lines without line breaks, none for the empty text |
| Errors.SplitLinesJoin | prometheus-rios.conversion-efd445830c1e/src/rios/conversion/exception.py:38 | joining the lines with newlines gives the payload back |
| Errors.Repr | prometheus-rios.conversion-efd445830c1e/src/rios/conversion/exception.py:41-46 | `%r` of a string is quoted, with the quote Python chooses |
| Errors.ReprRoundTrip | prometheus-rios.conversion-efd445830c1e/src/rios/conversion/exception.py:41-46 | `%r` loses nothing: unquoting and unescaping gives the string back |
| Errors.NewErrorRepr | prometheus-rios.conversion-efd445830c1e/src/rios/conversion/exception.py:89-102 | the repr of a new error is the class name and the repr of its arguments |
| Errors.WrapRepr | prometheus-rios.conversion-efd445830c1e/src/rios/conversion/exception.py:89-102 | each later paragraph adds `.wrap(...)` to the repr |
| Errors.ArgsRepr | prometheus-rios.conversion-efd445830c1e/src/rios/conversion/exception.py:98-101 | the message's repr comes first between parentheses, and the payload is left out exactly when it is `None` |
| Errors.GuardExit | prometheus-rios.conversion-efd445830c1e/src/rios/conversion/exception.py:105-119 | `guard` wraps only `Error` exceptions, passes others through unchanged and never suppresses one |
| Errors.NestedGuards | prometheus-rios.conversion-efd445830c1e/src/rios/conversion/exception.py:105-119 | nested guards add their paragraphs innermost first |
| Logger.Append | prometheus-rios.conversion-efd445830c1e/src/rios/conversion/utils/log.py:58-64 | a string is appended as one entry, prefixed when the prefix is non-empty; a non-string is rejected and the log is unchanged |
| Logger.LevelsPrefix | prometheus-rios.conversion-efd445830c1e/src/rios/conversion/utils/log.py:49-56 | `info`, `warning`, `error` append one entry prefixed `INFO: `, `WARNING: `, `ERROR: ` |
| Logger.NotStrRejected | prometheus-rios.conversion-efd445830c1e/src/rios/conversion/utils/log.py:58-60 | every level rejects a non-string message |
| Logger.Check | prometheus-rios.conversion-efd445830c1e/src/rios/conversion/utils/log.py:66-72 | `check` is true exactly when something was logged |
| Logger.Clear | prometheus-rios.conversion-efd445830c1e/src/rios/conversion/utils/log.py:38-39 | after `clear` nothing is logged |
| Logger.PpLogsAppend | prometheus-rios.conversion-efd445830c1e/src/rios/conversion/utils/log.py:41-43 | `pplogs` grows by a newline and the new entry |
| Logger.PpLogsLines | prometheus-rios.conversion-efd445830c1e/src/rios/conversion/utils/log.py:41-43 | splitting `pplogs` at newlines gives the entries in order |
| Storage.Get | prometheus-rios.conversion-efd445830c1e/src/rios/conversion/utils/instrument_calc_storage.py:45-48 | only the keys `i` and `c` exist; any other key is a `KeyError` |
| Storage.Set | prometheus-rios.conversion-efd445830c1e/src/rios/conversion/utils/instrument_calc_storage.py:36-43 | an unknown key is a `KeyError`, an object of the wrong class a `ValueError`; success exactly for a field under `i` or a calculation under `c` |
| Storage.Delete | prometheus-rios.conversion-efd445830c1e/src/rios/conversion/utils/instrument_calc_storage.py:50-53 | only `i` and `c` can be deleted |
| Storage.Clear | prometheus-rios.conversion-efd445830c1e/src/rios/conversion/utils/instrument_calc_storage.py:61-65 | a cleared storage is well formed |
| Storage.Len | prometheus-rios.conversion-efd445830c1e/src/rios/conversion/utils/instrument_calc_storage.py:55-59 | the length is 2, the number of keys iteration yields |
| Storage.Iter | prometheus-rios.conversion-efd445830c1e/src/rios/conversion/utils/instrument_calc_storage.py:55-56 | iteration yields only keys that exist |
| Storage.NewStoreEmpty | prometheus-rios.conversion-efd445830c1e/src/rios/conversion/utils/instrument_calc_storage.py:33-34 | a new or cleared storage holds two empty lists |
| Storage.SetThenGet | prometheus-rios.conversion-efd445830c1e/src/rios/conversion/utils/instrument_calc_storage.py:36-43 | setting appends to the list of its key and leaves the other list alone |
| Storage.DeleteThenGet | prometheus-rios.conversion-efd445830c1e/src/rios/conversion/utils/instrument_calc_storage.py:50-53 | deleting resets only the list of its key |
| Storage.ValidKept | prometheus-rios.conversion-efd445830c1e/src/rios/conversion/utils/instrument_calc_storage.py:36-53 | set and delete keep the storage well formed |
| Structures.Update | prometheus-rios.conversion-efd445830c1e/src/rios/conversion/base/structures.py:65-74 | setting a key gives it the value, leaves every other key alone, and adds the key at the end only when it is new |
| Structures.UpdateUnique | prometheus-rios.conversion-efd445830c1e/src/rios/conversion/base/structures.py:65-74 | keys stay unique |
| Structures.Init | prometheus-rios.conversion-efd445830c1e/src/rios/conversion/base/structures.py:59-74 | a new definition has unique keys |
| Structures.InitZero | prometheus-rios.conversion-efd445830c1e/src/rios/conversion/base/structures.py:66 | a declared property nobody sets starts at the zero value of its type: `''`, `False`, `[]`, or for a nested definition class an instance whose own properties are zero |
| Structures.NestedZeroIsInit | prometheus-rios.conversion-efd445830c1e/src/rios/conversion/base/structures.py:59-74 | the zero of a nested definition class is exactly what constructing that class with no arguments gives |
| Structures.TypeObjectRangeZero | prometheus-rios.conversion-efd445830c1e/src/rios/conversion/base/structures.py:66 | an unset `range` of a TypeObject is a BoundConstraintObject with empty `min` and `max`, not an empty object |
| Structures.InitKwarg | prometheus-rios.conversion-efd445830c1e/src/rios/conversion/base/structures.py:71-74 | an admitted keyword argument sets its key, whatever came before |
| Structures.InitGiven | prometheus-rios.conversion-efd445830c1e/src/rios/conversion/base/structures.py:67-70 | an admitted mapping argument sets its key unless a keyword argument overrides it |
| Structures.InitKeys | prometheus-rios.conversion-efd445830c1e/src/rios/conversion/base/structures.py:59-74 | with declared properties the keys are exactly the properties: other keys are dropped |
| Structures.InitOpen | prometheus-rios.conversion-efd445830c1e/src/rios/conversion/base/structures.py:59-74 | without declared properties every given key is kept |
| Structures.UpdateAllLookup | prometheus-rios.conversion-efd445830c1e/src/rios/conversion/base/structures.py:67-74 | after the filtered updates a key holds the last admitted value given for it, or its earlier value |
| Structures.CleanValue | prometheus-rios.conversion-efd445830c1e/src/rios/conversion/base/structures.py:76-94 | booleans, integers and `None` are kept; empty strings and lists are removed; a plain dict is kept as it is when non-empty and removed when empty; a definition is cleaned and removed when it cleans to nothing; as written a list keeps its length |
| Structures.CleanItems | prometheus-rios.conversion-efd445830c1e/src/rios/conversion/base/structures.py:88-91 | list elements are cleaned one by one, and cleaning fails exactly when some element is not a definition object (a string, a number, a plain dict) or fails to clean; the filtering pass keeps only the non-empty ones |
| Structures.CleanSpec | prometheus-rios.conversion-efd445830c1e/src/rios/conversion/base/structures.py:76-94 | cleaning keeps the class and yields a clean definition: no empty string, empty list, empty dict or empty definition is left as a value, while the inside of a plain dict is left alone |
| Structures.CleanEntries | prometheus-rios.conversion-efd445830c1e/src/rios/conversion/base/structures.py:83-93 | cleaned entries keep their keys, and every scalar entry and every non-empty plain dict entry survives unchanged |
| Structures.CleanSpecFix | prometheus-rios.conversion-efd445830c1e/src/rios/conversion/base/structures.py:76-94 | a clean definition is left unchanged |
| Structures.CleanIdempotent | prometheus-rios.conversion-efd445830c1e/src/rios/conversion/base/structures.py:76-94 | cleaning twice is cleaning once |
| Structures.PlainDictKept | prometheus-rios.conversion-efd445830c1e/src/rios/conversion/base/structures.py:83-93 | a definition whose `options` is a non-empty plain dict holding an empty localized string comes out unchanged |
| Structures.EmptyDictDeleted | prometheus-rios.conversion-efd445830c1e/src/rios/conversion/base/structures.py:83-93 | an `options` entry holding an empty plain dict is deleted |
| Structures.DictInListFails | prometheus-rios.conversion-efd445830c1e/src/rios/conversion/base/structures.py:88-89 | a list holding a plain dict cannot be cleaned: the element has no `clean` |
| Structures.ListKeepsEmptyElement | prometheus-rios.conversion-efd445830c1e/src/rios/conversion/base/structures.py:88-91 | as written, `[kept, hollow]` comes out as `[kept, {}]`; the filtering pass gives `[kept]` |
| Structures.AppendTo | prometheus-rios.conversion-efd445830c1e/src/rios/conversion/base/structures.py:149-151 | `add_field` (and alike `add_column`, `add_row`, `add`, `add_page`, `add_enumeration`, `add_question`, `add_event`) asserts the item's class and appends it to its list; every other key stays; an item of the wrong class is the assertion error, a missing list a KeyError |
| Structures.AppendEach | prometheus-rios.conversion-efd445830c1e/src/rios/conversion/base/structures.py:285-292 | `add_element` appends the elements in order and changes nothing else |
| Structures.AppendEachContents | prometheus-rios.conversion-efd445830c1e/src/rios/conversion/base/structures.py:285-292 | `add_element` succeeds exactly when every element is an `ElementObject` and the list grows by exactly those elements |
| Structures.SetIn | prometheus-rios.conversion-efd445830c1e/src/rios/conversion/base/structures.py:153-156 | `add_type` (and alike `add_parameter`) asserts the class and sets one name inside the nested mapping, leaving the other names and keys alone |
| Structures.AddEnumeration | prometheus-rios.conversion-efd445830c1e/src/rios/conversion/base/structures.py:119-124 | `add` stores an enumeration with the description, or `None` when the description is empty |
| Structures.TypeAddEnumeration | prometheus-rios.conversion-efd445830c1e/src/rios/conversion/base/structures.py:196-197 | `TypeObject.add_enumeration` adds to its enumeration collection |
| Structures.SetWidget | prometheus-rios.conversion-efd445830c1e/src/rios/conversion/base/structures.py:344-346 | `set_widget` asserts the class and sets the `widget` key only |
| Structures.NewInstrumentAcceptsField | prometheus-rios.conversion-efd445830c1e/src/rios/conversion/base/structures.py:139-151 | a new instrument accepts `add_field` of any FieldObject |
| Structures.NewWebFormAcceptsPage | prometheus-rios.conversion-efd445830c1e/src/rios/conversion/base/structures.py:269-271 | a new web form accepts `add_page` |
| Structures.NewPageAcceptsElements | prometheus-rios.conversion-efd445830c1e/src/rios/conversion/base/structures.py:285-292 | a new page's elements are exactly the added elements |
| ConversionBase.UrnId | prometheus-rios.conversion-efd445830c1e/src/rios/conversion/base/to_rios.py:41 | an id containing `urn:` anywhere is kept, any other gets the `urn:` prefix |
| ConversionBase.UrnIdIdempotent | prometheus-rios.conversion-efd445830c1e/src/rios/conversion/base/to_rios.py:41 | applying the prefix rule twice is applying it once |
| ConversionBase.OrDefault | prometheus-rios.conversion-efd445830c1e/src/rios/conversion/base/to_rios.py:42-44 | a missing or empty version or localization takes its default |
| ConversionBase.LocalizedString | prometheus-rios.conversion-efd445830c1e/src/rios/conversion/base/base.py:26-27 | a one-entry mapping from the localization to the text |
| ConversionBase.NewInstrument | prometheus-rios.conversion-efd445830c1e/src/rios/conversion/base/to_rios.py:56-61 | the instrument carries the id and version and starts with an empty record |
| ConversionBase.NewForm | prometheus-rios.conversion-efd445830c1e/src/rios/conversion/base/to_rios.py:65-69 | the form refers to the instrument and carries the localization and the localized title |
| ConversionBase.Reference | prometheus-rios.conversion-efd445830c1e/src/rios/conversion/base/to_rios.py:62-66 | an instrument reference keeps exactly the instrument's id and version |
| ConversionBase.NewToRiosShape | prometheus-rios.conversion-efd445830c1e/src/rios/conversion/base/to_rios.py:33-69 | a new converter has the normalised id, defaulted version and localization, an empty calculation list and an empty log |
| ConversionBase.CalculationsetView | prometheus-rios.conversion-efd445830c1e/src/rios/conversion/base/to_rios.py:81-87 | the `calculationset` property is `{}` without calculations and the cleaned set otherwise |
| ConversionBase.AddCalculation | prometheus-rios.conversion-efd445830c1e/src/rios/conversion/base/structures.py:245-247 | adding a calculation appends it and leaves instrument, form and log alone |
| ConversionBase.FailingStage | prometheus-rios.conversion-efd445830c1e/src/rios/conversion/base/to_rios.py:95-108 | validation stops at the first failing stage in the order instrument, form, calculationset (the last only with calculations) |
| ConversionBase.Validate | prometheus-rios.conversion-efd445830c1e/src/rios/conversion/base/to_rios.py:89-118 | a failure cleaning the instrument or form escapes unchanged |
| ConversionBase.ValidateStages | prometheus-rios.conversion-efd445830c1e/src/rios/conversion/base/to_rios.py:89-118 | a failing stage raises `ConversionValidationError` naming it and logs one error; success logs one info line |
| ConversionBase.StageError | prometheus-rios.conversion-efd445830c1e/src/rios/conversion/base/to_rios.py:109-113 | the validation error is a `ConversionValidationError` |
| ConversionBase.LogsOf | prometheus-rios.conversion-efd445830c1e/src/rios/conversion/base/to_rios.py:136-139 | `logs` is present exactly when something was logged |
| ConversionBase.PackageAsWritten | prometheus-rios.conversion-efd445830c1e/src/rios/conversion/base/to_rios.py:120-140 | as written, the package fails exactly when there are calculations |
| ConversionBase.PackageOf | prometheus-rios.conversion-efd445830c1e/src/rios/conversion/base/to_rios.py:120-140 | the package holds instrument and form, the calculation set exactly when there are calculations, and the logs exactly when something was logged |
| ConversionBase.PackageWithCalculation | prometheus-rios.conversion-efd445830c1e/src/rios/conversion/base/to_rios.py:132-135 | once a calculation is added the as-written package fails while the corrected one carries the calculation set |
| ConversionBase.GetLocalText | prometheus-rios.conversion-efd445830c1e/src/rios/conversion/base/from_rios.py:34-36 | the entry for the localization, or `''` |
| ConversionBase.LocalTextRoundTrip | prometheus-rios.conversion-efd445830c1e/src/rios/conversion/base/from_rios.py:34-36 | reading a localized string in its own localization gives the text, in another gives `''` |
| ConversionBase.FieldsMap | prometheus-rios.conversion-efd445830c1e/src/rios/conversion/base/from_rios.py:32 | the map of fields exists exactly when every record entry has a hashable id |
| ConversionBase.FieldsDomain | prometheus-rios.conversion-efd445830c1e/src/rios/conversion/base/from_rios.py:32 | the map's keys are exactly the record ids |
| ConversionBase.FieldsLastWins | prometheus-rios.conversion-efd445830c1e/src/rios/conversion/base/from_rios.py:32 | on duplicate ids the later field wins |
| ConversionBase.NewFromRios | prometheus-rios.conversion-efd445830c1e/src/rios/conversion/base/from_rios.py:17-32 | the localization defaults to `en`, a missing or empty calculation set becomes `{}`, the definition and log start empty; the record is iterated as Python iterates it, and construction fails exactly when the record is missing, not iterable, or yields an entry with no usable id; the fields map each entry's id to the last entry with it |
| ConversionBase.RecordIteration | prometheus-rios.conversion-efd445830c1e/src/rios/conversion/base/from_rios.py:32 | an empty string or empty mapping as the record constructs with no fields; a non-empty string fails |
| ConversionBase.FromRiosPackage | prometheus-rios.conversion-efd445830c1e/src/rios/conversion/base/from_rios.py:42-53 | the package's instrument is the lines built, and `logs` is present exactly when something was logged |
| QualtricsSurvey.PageName | prometheus-rios.conversion-efd445830c1e/src/rios/conversion/qualtrics/to_rios.py:24-32 | page names are `page_` followed by at least two digits |
| QualtricsSurvey.PageNameNumber | prometheus-rios.conversion-efd445830c1e/src/rios/conversion/qualtrics/to_rios.py:30-32 | the digits are the page number |
| QualtricsSurvey.PageNameInjective | prometheus-rios.conversion-efd445830c1e/src/rios/conversion/qualtrics/to_rios.py:30-32 | different pages get different names |
| QualtricsSurvey.PageNameDigits | prometheus-rios.conversion-efd445830c1e/src/rios/conversion/qualtrics/to_rios.py:32 | pages 1-9 get one leading zero, later pages none |
| QualtricsSurvey.FirstBlock | prometheus-rios.conversion-efd445830c1e/src/rios/conversion/qualtrics/to_rios.py:67-74 | only the first block with non-empty `BlockElements` contributes |
| QualtricsSurvey.ReadElement | prometheus-rios.conversion-efd445830c1e/src/rios/conversion/qualtrics/to_rios.py:45-81 | an `SQ` element with a non-empty payload files the payload under its `QuestionID`; block elements only grow |
| QualtricsSurvey.ReadLastWins | prometheus-rios.conversion-efd445830c1e/src/rios/conversion/qualtrics/to_rios.py:81 | a later `SQ` with the same id wins |
| QualtricsSurvey.ReadUntouched | prometheus-rios.conversion-efd445830c1e/src/rios/conversion/qualtrics/to_rios.py:81 | ids no element files keep their earlier payload |
| QualtricsSurvey.Read | prometheus-rios.conversion-efd445830c1e/src/rios/conversion/qualtrics/to_rios.py:38-95 | every failure surfaces as a `QualtricsFormatError` carrying the original failure |
| QualtricsSurvey.Classify | prometheus-rios.conversion-efd445830c1e/src/rios/conversion/qualtrics/to_rios.py:142-182 | a `Page Break` advances the page, a known `Question` is filed, any other type is a format error |
| QualtricsSurvey.Classified | prometheus-rios.conversion-efd445830c1e/src/rios/conversion/qualtrics/to_rios.py:142-182 | the elements are classified in order and the first failing one raises |
| QualtricsSurvey.Assign | prometheus-rios.conversion-efd445830c1e/src/rios/conversion/qualtrics/to_rios.py:140-182 | assignment succeeds exactly when every element classifies; the last page is page 1 plus the number of breaks |
| QualtricsSurvey.AssignFiles | prometheus-rios.conversion-efd445830c1e/src/rios/conversion/qualtrics/to_rios.py:163-170 | every question is filed under page 1 plus the breaks before it |
| QualtricsSurvey.AssignKnown | prometheus-rios.conversion-efd445830c1e/src/rios/conversion/qualtrics/to_rios.py:140-182 | every filed page lies between 1 and the last page and every filed id is a known question |
| QualtricsSurvey.AssignConsistent | prometheus-rios.conversion-efd445830c1e/src/rios/conversion/qualtrics/to_rios.py:140-182 | the assignment is consistent with the classified steps |
| QualtricsSurvey.AddId | prometheus-rios.conversion-efd445830c1e/src/rios/conversion/qualtrics/to_rios.py:163-170 | filing an id already on the page changes nothing, a new id goes at the end |
| QualtricsChoices.Sort | prometheus-rios.conversion-efd445830c1e/src/rios/conversion/qualtrics/to_rios.py:311-315 | `sorted(keys)` is a sorted permutation of the keys |
| QualtricsChoices.SortedUnique | prometheus-rios.conversion-efd445830c1e/src/rios/conversion/qualtrics/to_rios.py:315 | there is only one sorted permutation, so the order is determined |
| QualtricsChoices.KeyLeTotal | prometheus-rios.conversion-efd445830c1e/src/rios/conversion/qualtrics/to_rios.py:313-315 | Python 2's mixed order (ints before strings) is total |
| QualtricsChoices.KeyLeTransitive | prometheus-rios.conversion-efd445830c1e/src/rios/conversion/qualtrics/to_rios.py:313-315 | and transitive |
| QualtricsChoices.DefaultOrder | prometheus-rios.conversion-efd445830c1e/src/rios/conversion/qualtrics/to_rios.py:311-315 | without `ChoiceOrder` the order has one key per choice |
| QualtricsChoices.ChoiceKeyRoundTrip | prometheus-rios.conversion-efd445830c1e/src/rios/conversion/qualtrics/to_rios.py:314-316 | `str(int(k)) == k` exactly for canonical digit strings, so the lookup `choices[str(x)]` finds them |
| QualtricsChoices.Dedup | prometheus-rios.conversion-efd445830c1e/src/rios/conversion/qualtrics/to_rios.py:343 | the enumeration keys are the ids without repeats |
| QualtricsChoices.EnumerationKeys | prometheus-rios.conversion-efd445830c1e/src/rios/conversion/qualtrics/to_rios.py:332-343 | adding ids to a new collection gives keys equal to the ids without repeats |
| QualtricsChoices.DedupDistinct | prometheus-rios.conversion-efd445830c1e/src/rios/conversion/qualtrics/to_rios.py:343 | distinct ids are kept as they are |
| QualtricsImport.CleanQuestion | prometheus-rios.conversion-efd445830c1e/src/rios/conversion/qualtrics/to_rios.py:274-276 | removing `<br>` never lengthens the text |
| QualtricsImport.CleanQuestionKeeps | prometheus-rios.conversion-efd445830c1e/src/rios/conversion/qualtrics/to_rios.py:274-276 | text without `<br>` is unchanged |
| QualtricsImport.CleanQuestionSinglePass | prometheus-rios.conversion-efd445830c1e/src/rios/conversion/qualtrics/to_rios.py:276 | the replace is single pass: `<<br>br>` becomes `<br>` |
| QualtricsImport.Pairs | prometheus-rios.conversion-efd445830c1e/src/rios/conversion/qualtrics/to_rios.py:316 | the pairs follow the order, each with its choice; a missing key is an error |
| QualtricsImport.Enumerate | prometheus-rios.conversion-efd445830c1e/src/rios/conversion/qualtrics/to_rios.py:317-318 | list choices are paired with their indices |
| QualtricsImport.Descriptors | prometheus-rios.conversion-efd445830c1e/src/rios/conversion/qualtrics/to_rios.py:326-342 | each descriptor id is `str(key).lower()` and its text the localized `Display` |
| QualtricsImport.ChoicePairs | prometheus-rios.conversion-efd445830c1e/src/rios/conversion/qualtrics/to_rios.py:307-325 | dict choices follow `ChoiceOrder` or the default order, list choices their indices, other shapes raise `ConversionValueError` |
| QualtricsImport.ListChoiceIds | prometheus-rios.conversion-efd445830c1e/src/rios/conversion/qualtrics/to_rios.py:317-329 | list choices get ids `0`, `1`, … without repeats |
| QualtricsImport.DefaultOrderFound | prometheus-rios.conversion-efd445830c1e/src/rios/conversion/qualtrics/to_rios.py:311-316 | the default order finds every choice when the digit keys are canonical or not all keys are digits |
| QualtricsImport.QuestionPart | prometheus-rios.conversion-efd445830c1e/src/rios/conversion/qualtrics/to_rios.py:292-355 | a question yields one field whose id is the lower-cased `DataExportTag`, with the question's description; the type is `text` exactly when there are no choices, else an enumeration of the choice ids without repeats |
| QualtricsImport.QuestionFieldProcessor | prometheus-rios.conversion-efd445830c1e/src/rios/conversion/qualtrics/to_rios.py:281-355 | `DB` yields a text element and no field; any other type yields a question and its field |
| QualtricsImport.Process | prometheus-rios.conversion-efd445830c1e/src/rios/conversion/qualtrics/to_rios.py:250-272 | any failure is re-raised as `ConversionValueError` with the repr of the cause |
| QualtricsImport.Outcomes | prometheus-rios.conversion-efd445830c1e/src/rios/conversion/qualtrics/to_rios.py:189-194 | each filed question is processed |
| QualtricsImport.Collect | prometheus-rios.conversion-efd445830c1e/src/rios/conversion/qualtrics/to_rios.py:191-209 | every question adds either an element or a warning; fields are added only with elements; the log gains only warnings |
| QualtricsImport.WalkCompletes | prometheus-rios.conversion-efd445830c1e/src/rios/conversion/qualtrics/to_rios.py:184-190 | the page loop completes exactly when every page received a question |
| QualtricsImport.WalkNames | prometheus-rios.conversion-efd445830c1e/src/rios/conversion/qualtrics/to_rios.py:184-189 | completed pages are named `page_01`, `page_02`, … in order |
| QualtricsImport.WalkRaises | prometheus-rios.conversion-efd445830c1e/src/rios/conversion/qualtrics/to_rios.py:189-190 | otherwise it raises `KeyError` for the first page without a question |
| QualtricsImport.LayoutPages | prometheus-rios.conversion-efd445830c1e/src/rios/conversion/qualtrics/to_rios.py:140-220 | after a successful assignment the layout completes exactly when every page is filed, and else raises `KeyError` on the first empty page |
| QualtricsImport.Layout | prometheus-rios.conversion-efd445830c1e/src/rios/conversion/qualtrics/to_rios.py:140-220 | an assignment failure is logged as an error and raised; the log only grows |
| QualtricsImport.ParseFailure | prometheus-rios.conversion-efd445830c1e/src/rios/conversion/qualtrics/to_rios.py:112-122 | a read failure becomes an error with the two parse paragraphs |
| QualtricsImport.ReadSurvey | prometheus-rios.conversion-efd445830c1e/src/rios/conversion/qualtrics/to_rios.py:109-122 | invalid JSON or a failing processor becomes the parse error; otherwise the survey read |
| QualtricsImport.Import | prometheus-rios.conversion-efd445830c1e/src/rios/conversion/qualtrics/to_rios.py:105-220 | a read failure is logged and raised; a completed import adds only warnings to the log |
| QualtricsExport.LocalText | prometheus-rios.conversion-efd445830c1e/src/rios/conversion/base/from_rios.py:34-36 | the local text of a mapping, an error for anything else |
| QualtricsExport.ChoiceLines | prometheus-rios.conversion-efd445830c1e/src/rios/conversion/qualtrics/from_rios.py:147-150 | one line per enumeration, in order, up to the first failing one |
| QualtricsExport.BlockShape | prometheus-rios.conversion-efd445830c1e/src/rios/conversion/qualtrics/from_rios.py:137-153 | the question block is `n. text`, `[[MultipleAnswer]]` only for enumerationSet, `''`, the choice lines, `''`, `''` |
| QualtricsExport.QuestionLayout | prometheus-rios.conversion-efd445830c1e/src/rios/conversion/qualtrics/from_rios.py:122-153 | corrected, a question renders its block and takes the next number exactly when it has an enumeration base and readable texts |
| QualtricsExport.QuestionAsWrittenFails | prometheus-rios.conversion-efd445830c1e/src/rios/conversion/qualtrics/from_rios.py:138-141 | as written, `get_local_text` gets one argument, so every enumeration question raises after taking a number and adds no line |
| QualtricsExport.ProcessQuestion | prometheus-rios.conversion-efd445830c1e/src/rios/conversion/qualtrics/from_rios.py:122-153 | the number advances by one on success; as written nothing is ever added |
| QualtricsExport.FieldOf | prometheus-rios.conversion-efd445830c1e/src/rios/conversion/qualtrics/from_rios.py:123-124 | the field lookup succeeds exactly for a known hashable id |
| QualtricsExport.SkippedQuestion | prometheus-rios.conversion-efd445830c1e/src/rios/conversion/qualtrics/from_rios.py:100-109 | a failing question raises `Skipping form field with ID: …. Error:` |
| QualtricsExport.RejectedElement | prometheus-rios.conversion-efd445830c1e/src/rios/conversion/qualtrics/from_rios.py:93-98 | an element without identifier, or not a question, raises `ConversionValueError` |
| QualtricsExport.Elements | prometheus-rios.conversion-efd445830c1e/src/rios/conversion/qualtrics/from_rios.py:82-120 | elements only append lines and advance the number by at most one each; as written no line is added |
| QualtricsExport.ProcessPage | prometheus-rios.conversion-efd445830c1e/src/rios/conversion/qualtrics/from_rios.py:77-80 | each page starts with `[[PageBreak]]` |
| QualtricsExport.HandlePageError | prometheus-rios.conversion-efd445830c1e/src/rios/conversion/qualtrics/from_rios.py:41-63 | a value error is logged as a warning and processing continues; any other failure is logged and aborts |
| QualtricsExport.Pages | prometheus-rios.conversion-efd445830c1e/src/rios/conversion/qualtrics/from_rios.py:38-63 | pages only append lines and log; completion logs only warnings |
| QualtricsExport.PagesAsWritten | prometheus-rios.conversion-efd445830c1e/src/rios/conversion/qualtrics/from_rios.py:38-45 | as written, the output is only page breaks |
| QualtricsExport.RmvAsWritten | prometheus-rios.conversion-efd445830c1e/src/rios/conversion/qualtrics/from_rios.py:65-72 | as written, `rmv_extra_strings` returns a copy equal to its input |
| QualtricsExport.RmvKeepsBreaks | prometheus-rios.conversion-efd445830c1e/src/rios/conversion/qualtrics/from_rios.py:65-72 | `[[PageBreak]]`, text, `''` stays as it is as written, and becomes just the text when trimmed |
| QualtricsExport.TrimmedSlice | prometheus-rios.conversion-efd445830c1e/src/rios/conversion/qualtrics/from_rios.py:65-71 | the trimmed lines are a contiguous slice of the input |
| QualtricsExport.TrimmedEnds | prometheus-rios.conversion-efd445830c1e/src/rios/conversion/qualtrics/from_rios.py:65-71 | the trimmed lines neither start with a page break nor end with a blank line |
| QualtricsExport.TrimmedIdempotent | prometheus-rios.conversion-efd445830c1e/src/rios/conversion/qualtrics/from_rios.py:65-71 | trimming twice is trimming once |
| QualtricsExport.Export | prometheus-rios.conversion-efd445830c1e/src/rios/conversion/qualtrics/from_rios.py:35-75 | the converter gains the lines (trimmed, corrected) or nothing on failure, and the log only grows |
| QualtricsExport.AsWrittenOnlyBreaks | prometheus-rios.conversion-efd445830c1e/src/rios/conversion/qualtrics/from_rios.py:35-75 | as written, an export that completes holds one page break per page and nothing else |
| DateDiff.DaysInMonth | prometheus-rios.conversion-efd445830c1e/src/rios/conversion/redcap/functions.py:23-28 | 28 to 31 days; February has 29 exactly in leap years |
| DateDiff.MonthStep | prometheus-rios.conversion-efd445830c1e/src/rios/conversion/redcap/functions.py:53 | the day numbers of consecutive month starts differ by the length of the month |
| DateDiff.YearLength | prometheus-rios.conversion-efd445830c1e/src/rios/conversion/redcap/functions.py:53 | a year has 366 days exactly when it is a leap year |
| DateDiff.FormatParts | prometheus-rios.conversion-efd445830c1e/src/rios/conversion/redcap/functions.py:25-27 | each letter of the format maps to year, month or day; any other letter is a `KeyError` |
| DateDiff.Numbers | prometheus-rios.conversion-efd445830c1e/src/rios/conversion/redcap/functions.py:28 | every `-` piece is parsed as an int; a bad piece is a `ValueError` |
| DateDiff.NumbersParse | prometheus-rios.conversion-efd445830c1e/src/rios/conversion/redcap/functions.py:28 | the pieces parse exactly when each one does, to the same values |
| DateDiff.ParseDate | prometheus-rios.conversion-efd445830c1e/src/rios/conversion/redcap/functions.py:24-28 | a format letter other than y, m, d is a KeyError; a piece that is no integer a ValueError |
| DateDiff.ParseMdy | prometheus-rios.conversion-efd445830c1e/src/rios/conversion/redcap/functions.py:24-28 | `m-d-y` text of a valid date parses to that date's day number |
| DateDiff.Difference | prometheus-rios.conversion-efd445830c1e/src/rios/conversion/redcap/functions.py:53 | the seconds part of a difference lies in `[0, 86400)`, and for valid moments days and seconds together are the whole seconds between them, rounded down over the microseconds |
| DateDiff.InUnits | prometheus-rios.conversion-efd445830c1e/src/rios/conversion/redcap/functions.py:30-47 | `y` and `M` floor days by 365 and 30, `d` gives days, `h`/`m`/`s` floor the seconds; any other unit is a `ValueError` |
| DateDiff.Operand | prometheus-rios.conversion-efd445830c1e/src/rios/conversion/redcap/functions.py:49-52 | `today` is the given clock reading, anything else the parsed date at midnight |
| DateDiff.Datediff | prometheus-rios.conversion-efd445830c1e/src/rios/conversion/redcap/functions.py:23-54 | the first operand's error, else the second's, else the difference in the units |
| DateDiff.DatesInFinerUnits | prometheus-rios.conversion-efd445830c1e/src/rios/conversion/redcap/functions.py:38-45 | between two dates, hours, minutes and seconds are exact multiples of the days |
| DateDiff.DatesAntisymmetric | prometheus-rios.conversion-efd445830c1e/src/rios/conversion/redcap/functions.py:53 | swapping the dates negates the day difference |
| DateDiff.UnknownUnit | prometheus-rios.conversion-efd445830c1e/tests/test_date.py:24-28 | a unit other than y, M, d, h, m, s raises ValueError |
| DateDiff.ConsecutiveMonths | prometheus-rios.conversion-efd445830c1e/tests/test_date.py:5-8 | consecutive month starts in `mdy` are the month length apart, and December to January 31 days |
| DateDiff.TestYears | prometheus-rios.conversion-efd445830c1e/tests/test_date.py:10-16 | the month lengths are 31,29,31,… in 2000 and February has 28 days in 2001 |

## Left out

- File and stream readers (`csv_reader.py`, `json_reader.py`, the `.qsf` and CSV loading): REDCap rows and Qualtrics JSON are given as decoded values. A JSON decoding failure is a parameter of `QualtricsImport.ReadSurvey`.
- The top-level API in `conversion/__init__.py`, the RIOS validators and `get_full_type_definition`: these are foreign `rios.core` code. Their results are parameters.
- Tree assembly is not modelled, because it is mechanical nested-dict construction:
  - `RedcapToRios.__call__`, the per-row layout of `page_processor` and `get_type`;
  - `question_and_field_processor`;
  - `LegacyProcessor`, which relies on Python 2-only `keys()[0]`;
  - `DefinitionSpecification.as_dict`.
- Floating-point code is not modelled: `mean`, `median`, `stdev`, `round_`, `roundup`, `rounddown`, `isint`, `convert_value` and the slider bounds. `datediff`'s results are whole numbers, because integer division floors in Python 2.
- The wall clock: `today` in `datediff` is the parameter `now`. Python's `datetime` is replaced by an explicit proleptic Gregorian day count.
- `Error.__call__` (a WSGI hook), the abstract `base/base.py` classes and the package re-exports.
- Object identity: `clean` and `wrap` return `self` in the source. The model returns the new value.
- `str` and `repr` of non-ASCII text, case folding beyond ASCII, and `isdigit` beyond ASCII digits are not modelled. `LowerStr` only changes `A`–`Z`, and `repr` is modelled for byte strings only (`Errors.IsByteString`).
- `True == 1` and `hash` equality of Python keys: mapping keys are compared as model values.
- The function, caret and operator passes of the two translators are not inverse on every expression (a `(`, `<` or `!` can be consumed differently in each direction). The round trip is therefore proved in two forms:
  - as a whole on expressions of references and characters other than `(`, `<` and `!` (`CalcRoundTrip.ConvertRoundTrip`);
  - pass by pass on the shapes each pass rewrites (`RexlRoundTrip.CaretRoundTrip`, `RexlRoundTrip.OpsRoundTrip`, `RefTokens.RefsRoundTrip`, `SymbolTables.FunctionTablesInverse`).
- CalcRoundTrip.ConvertRoundTrip: stated for expressions whose plain characters are not `(`, `<` or `!`, because beyond those the reverse greedy pow pattern and the literal operator replaces are not inverse to the forward passes.
- RefTokens.RefsRoundTrip: stated for the corrected reference steps (`RedcapExpr.RefsToRios`). As written, step 3 can rewrite a database reference, and the round trip then fails (`CalcRoundTrip.AsWrittenRoundTripFails`).
- RefTokens.RefsRoundTrip: stated for well-formed token lists (`RefTokens.WellFormed`), which leave out the shapes the source does not read back:
  - a word character glued to a variable, `x[v]`, which becomes `xassessment["v"]` and reads back as `[xassessment][v]`;
  - a database reference into `assessment` or `calculations`, `[assessment][f]`, which reads back as `[f]` (`RefTokens.TableRefReadsAsVariable`);
  - a table that does not start with a letter, `[1t][f]`, which becomes `1t["f"]` and stays so, since the reverse pattern needs a letter after a word boundary;
  - a variable followed by `[`, `[a][b]`, which is a database reference, and a plain `[`.
- CalcRoundTrip.ConvertCalcTokens: stated for the corrected `convert_calc` (`RedcapExpr.ConvertCalc`). The as-written result on the same expressions is `CalcRoundTrip.ConvertCalcAsWrittenTokens`.
- CalcRoundTrip.ConvertTriggerTokens: stated for the corrected `convert_trigger`. The as-written result is `CalcRoundTrip.ConvertTriggerAsWrittenTokens`.
- CalcRoundTrip.ConvertRexlTokens: stated for the corrected `convert_rexl_expression`. The as-written one gives the same result on these expressions (`CalcRoundTrip.ConvertRexlAsWrittenTokens`).
- CalcRoundTrip.ConvertRoundTrip: holds for the corrected pair only. The as-written pair loses `[wcalculations][v] [v]` (`CalcRoundTrip.AsWrittenRoundTripFails`).
- CalcRoundTrip.ConvertRoundTrip: stated for well-formed token lists, with the exclusions listed for `RefTokens.RefsRoundTrip`: `x[v]` comes back as `[xassessment][v]`, `[assessment][f]` and `[calculations][f]` as `[f]` (`CalcRoundTrip.TableRefRoundTripFails`), and `[1t][f]` as `1t["f"]`.
- RedcapRows.QuestionRow: the branching cell uses the corrected `convert_rexl_expression` (`RexlExpr.ConvertRexl`). As written, a call to `rios.conversion.redcap.functions.median` is not renamed back to `median`.
- RedcapRows.CalculationRow: a python expression is converted with the corrected `RexlExpr.ConvertRexl`, with the same `median` difference.
- RedcapCalcs.Step: the expression and the triggers use the corrected `RedcapExpr.ConvertCalc` and `RedcapExpr.ConvertTrigger` (the classification where each `[v]` is rewritten, the `redcap.functions.median` target). On expressions of variable references and characters other than `(`, `<` and `!` the as-written and corrected forms agree (`CalcRoundTrip.ConvertCalcAgrees`, `CalcRoundTrip.ConvertTriggerAgrees`).
- ConversionBase.CalculationsetView: the cleaned calculation set is the filtering clean (`Structures.CleanSpec` with `filter`). As written, `clean` leaves a list element that cleans to `{}` in the stored list (`Structures.ListKeepsEmptyElement`), so the source's property keeps such elements and the model's view does not. The same holds for the `instrument` and `form` views (`ConversionBase.View`) that `ConversionBase.Validate` and `ConversionBase.PackageAsWritten` pass on.
- ConversionBase.PackageOf: the instrument, form and calculation set in the package are the filtered views. As written, they keep list elements that clean to `{}`, as for `ConversionBase.CalculationsetView`.
- RexlRoundTrip.CaretRoundTrip: stated for one `(b)^(e)` with parenthesis-free operands, because the greedy reverse pattern mis-splits nested or repeated calls.
- QualtricsChoices.DefaultOrder: its contract gives only the length. The numeric-or-text sort is stated through `QualtricsChoices.Sort`, `QualtricsChoices.SortedUnique` and `QualtricsChoices.ChoiceKeyRoundTrip`.
- QualtricsImport.CleanQuestion: its contract gives a length bound. The removal itself is stated by `QualtricsImport.CleanQuestionKeeps` and `QualtricsImport.CleanQuestionSinglePass`.
- DateDiff.ParseDate: the contract names the KeyError and ValueError cases. The successful parse is stated for the `mdy` layout by `DateDiff.ParseMdy`. The TypeError raised for a format that leaves out a part, and the ValueError for an impossible date, are in the body only.
- Storage.Clear: the contract says the result is well formed. Its contents are stated by `Storage.NewStoreEmpty`.
- `QuestionNumber` is not a member of its own. Its counter is the `number` argument of `QualtricsExport.ProcessQuestion`, whose contract says it advances by exactly one per question.

## Findings

| source | as written | input that shows it | evidently intended | confidence | as-written member | corrected member |
|---|---|---|---|---|---|---|
| prometheus-rios.conversion-efd445830c1e/src/rios/conversion/redcap/to_rios.py:52 | `median` maps to `rios.conversion.redcap.function.median` | any calculation that calls `median(...)`: the target names a module `redcap.function` that does not exist | `rios.conversion.redcap.functions.median` | not executed | SymbolTables.MedianTargetAsWrittenDoesNotResolve | SymbolTables.EveryTargetResolves |
| prometheus-rios.conversion-efd445830c1e/src/rios/conversion/redcap/to_rios.py:310-314 | every `[v]` first becomes `calculations["v"]`, then a plain text replace turns `calculations["v"]` into `assessment["v"]` for each non-calculation `v` | `[wcalculations][v] [v]` with no calculations: the database reference `wcalculations["v"]` is rewritten to `wassessment["v"]` | only the variable references are reclassified | not executed | RefTokens.ReclassifyRewritesDbRefs | RefTokens.RefsToRiosTokens |
| prometheus-rios.conversion-efd445830c1e/src/rios/conversion/redcap/to_rios.py:425-426 | a `calc` row gets no question, so `get_type` and its `process_calculation` never run for it | a `calc` row `n` followed by a question whose branching logic is `[n]`: no calculation is produced and `[n]` becomes `assessment["n"]` | calculated fields are registered and later references read `calculations["n"]` | not executed | RedcapCalcs.AsWrittenNeverRegisters | RedcapCalcs.CalcThenQuestion |
| prometheus-rios.conversion-efd445830c1e/src/rios/conversion/base/structures.py:88-91 | the filtered list is bound to the local `v` only, so the stored list keeps elements that cleaned to nothing | a list holding a non-empty descriptor and one whose only entry is an empty string: the second stays as `{}` | the list keeps only the elements that are non-empty after cleaning | not executed | Structures.ListKeepsEmptyElement | Structures.CleanItems |
| prometheus-rios.conversion-efd445830c1e/src/rios/conversion/base/to_rios.py:132-135 | `package` reads `self.calculations`, an attribute `ToRios` does not have | any converter with at least one calculation: `package` raises `AttributeError` | the package carries the `calculationset` view | not executed | ConversionBase.PackageWithCalculation | ConversionBase.PackageOf |
| prometheus-rios.conversion-efd445830c1e/src/rios/conversion/qualtrics/from_rios.py:138-141 | `get_local_text` is called with one argument, but it takes the localization and the text | any enumeration question: the call raises `TypeError` after the question number is taken, and the page is skipped with a warning | the text is looked up in the converter's localization | not executed | QualtricsExport.QuestionAsWrittenFails | QualtricsExport.QuestionLayout |
| prometheus-rios.conversion-efd445830c1e/src/rios/conversion/qualtrics/from_rios.py:65-72 | `rmv_extra_strings` discards its recursive results and returns a copy of its input | `[[PageBreak]]`, `1. Q`, `''`: all three lines are kept | the leading page break and the trailing blank lines are dropped | not executed | QualtricsExport.RmvKeepsBreaks | QualtricsExport.TrimmedEnds |

=== FILE: balanced_match.dfy ===
/**
 * The parenthesis matcher of utils/balanced_match.py.
 *
 * The delimiter table holds one pair, "()".  From an opening parenthesis
 * the scan runs forward, from a closing one it runs backward; the nesting
 * level starts at 1, rises on another copy of the start character and
 * falls on its counterpart.  Running off either end of the string is not an
 * error: the scan simply stops there.
 */
module BalancedMatch {
  import opened Wrappers

  /** The delimiter pairs (PAIRS); LEFTS and RIGHTS are derived from it. */
  const Pairs: seq<(char, char)> := [('(', ')')]

  predicate IsLeft(c: char) { exists k :: 0 <= k < |Pairs| && Pairs[k].0 == c }
  predicate IsRight(c: char) { exists k :: 0 <= k < |Pairs| && Pairs[k].1 == c }

  /** The half-open span [begin, end) returned as the tuple (begin, end). */
  datatype Span = Span(begin: nat, end: nat)

  /** The ValueError raised for a start character that is not a delimiter. */
  datatype MatchError = UnableToMatch(c: char, s: string)

  /** Number of '(' minus number of ')' in `t`. */
  function Level(t: string): int
  {
    multiset(t)['('] as int - multiset(t)[')'] as int
  }

  /** Level of s[k..start+1], the text a backward scan has passed over. */
  function LevelBack(s: string, k: nat, start: nat): int
    requires k <= start + 1 <= |s|
  {
    Level(s[k..start + 1])
  }

  lemma LevelSingle(s: string, i: nat)
    requires i < |s|
    ensures Level(s[i..i + 1]) == Delta(s[i])
  {
    assert s[i..i + 1] == [s[i]];
  }

  function Delta(c: char): int
  {
    if c == '(' then 1 else if c == ')' then -1 else 0
  }

  lemma LevelSnoc(s: string, i: nat, j: nat)
    requires i <= j < |s|
    ensures Level(s[i..j + 1]) == Level(s[i..j]) + Delta(s[j])
  {
    assert s[i..j + 1] == s[i..j] + [s[j]];
  }

  lemma LevelCons(s: string, i: nat, j: nat)
    requires i < j <= |s|
    ensures Level(s[i..j]) == Delta(s[i]) + Level(s[i + 1..j])
  {
    assert s[i..j] == [s[i]] + s[i + 1..j];
  }

  /** s[i..j] holds no parenthesis. */
  ghost predicate ParenFree(s: string, i: nat, j: nat)
    requires i <= j <= |s|
  {
    forall k :: i <= k < j ==> s[k] != '(' && s[k] != ')'
  }

  lemma LevelParenFree(s: string, i: nat, j: nat)
    requires i <= j <= |s| && ParenFree(s, i, j)
    ensures Level(s[i..j]) == 0
  {
    assert '(' !in s[i..j] && ')' !in s[i..j];
  }

  /**
   * What a forward scan from the '(' at `start` returns: every proper
   * non-empty prefix of s[start..end] is still open, and either the span is
   * balanced or the scan ran off the end of the string.
   */
  ghost predicate ForwardSpan(s: string, start: nat, r: Span)
    requires start < |s|
  {
    && r.begin == start && start < r.end <= |s|
    && (forall k :: start < k < r.end ==> Level(s[start..k]) > 0)
    && (r.end == |s| || Level(s[start..r.end]) == 0)
  }

  /**
   * What a backward scan from the ')' at `start` returns: every proper
   * non-empty suffix of s[begin..start+1] is still open, and either the span
   * is balanced or the scan ran off the front of the string.
   */
  ghost predicate BackwardSpan(s: string, start: nat, r: Span)
    requires start < |s|
  {
    && r.end == start + 1 && r.begin <= start
    && (forall k :: r.begin < k <= start ==> LevelBack(s, k, start) < 0)
    && (r.begin == 0 || LevelBack(s, r.begin, start) == 0)
  }

  /** The forward scan, as a function of the position reached and the level. */
  function ScanForward(s: string, start: nat, pos: nat, level: nat): (e: nat)
    requires start < pos <= |s| && level > 0
    requires level == Level(s[start..pos])
    requires forall k :: start < k < pos ==> Level(s[start..k]) > 0
    ensures pos <= e <= |s|
    decreases |s| - pos
  {
    if pos == |s| then pos
    else
      LevelSnoc(s, start, pos);
      var next := level + Delta(s[pos]);
      if next == 0 then pos + 1 else ScanForward(s, start, pos + 1, next)
  }

  /** The backward scan; `pos` is one past the next character to read. */
  function ScanBackward(s: string, start: nat, pos: nat, level: nat): (b: nat)
    requires pos <= start < |s| && level > 0
    requires level == -LevelBack(s, pos, start)
    requires forall k :: pos <= k <= start ==> LevelBack(s, k, start) < 0
    ensures b <= pos
    decreases pos
  {
    if pos == 0 then 0
    else
      LevelCons(s, pos - 1, start + 1);
      var next := level - Delta(s[pos - 1]);
      if next == 0 then pos - 1 else ScanBackward(s, start, pos - 1, next)
  }

  /** What the forward scan returns is the span ForwardSpan describes. */
  lemma {:induction false} ScanForwardSpan(s: string, start: nat, pos: nat, level: nat)
    requires start < pos <= |s| && level > 0
    requires level == Level(s[start..pos])
    requires forall k :: start < k < pos ==> Level(s[start..k]) > 0
    ensures ForwardSpan(s, start, Span(start, ScanForward(s, start, pos, level)))
    decreases |s| - pos
  {
    if pos < |s| {
      LevelSnoc(s, start, pos);
      var next := level + Delta(s[pos]);
      if next != 0 {
        ScanForwardSpan(s, start, pos + 1, next);
      }
    }
  }

  /** What the backward scan returns is the span BackwardSpan describes. */
  lemma {:induction false} ScanBackwardSpan(s: string, start: nat, pos: nat, level: nat)
    requires pos <= start < |s| && level > 0
    requires level == -LevelBack(s, pos, start)
    requires forall k :: pos <= k <= start ==> LevelBack(s, k, start) < 0
    ensures BackwardSpan(s, start, Span(ScanBackward(s, start, pos, level), start + 1))
    decreases pos
  {
    if pos > 0 {
      LevelCons(s, pos - 1, start + 1);
      var next := level - Delta(s[pos - 1]);
      if next != 0 {
        ScanBackwardSpan(s, start, pos - 1, next);
      }
    }
  }

  /** balanced_match(s, start) as a function. */
  function Match(s: string, start: nat): (r: Result<Span, MatchError>)
    requires start < |s|
    ensures r.Err? <==> !IsLeft(s[start]) && !IsRight(s[start])
    ensures r.Ok? <==> s[start] == '(' || s[start] == ')'
    ensures r.Ok? && s[start] == '(' ==> r.value.begin == start < r.value.end <= |s|
    ensures r.Ok? && s[start] == ')' ==> r.value.begin <= start && r.value.end == start + 1
  {
    assert IsLeft('(') by { assert Pairs[0].0 == '('; }
    assert IsRight(')') by { assert Pairs[0].1 == ')'; }
    if s[start] == '(' then
      assert s[start..start + 1] == [s[start]];
      Ok(Span(start, ScanForward(s, start, start + 1, 1)))
    else if s[start] == ')' then
      assert s[start..start + 1] == [s[start]];
      Ok(Span(ScanBackward(s, start, start, 1), start + 1))
    else
      Err(UnableToMatch(s[start], s))
  }

  /** The loop of balanced_match, with the nesting level as its invariant. */
  method Balanced(s: string, start: nat) returns (r: Result<Span, MatchError>)
    requires start < |s|
    ensures r.Err? <==> s[start] != '(' && s[start] != ')'
    ensures r.Err? ==> r.error == UnableToMatch(s[start], s)
    ensures r.Ok? && s[start] == '(' ==> ForwardSpan(s, start, r.value)
    ensures r.Ok? && s[start] == ')' ==> BackwardSpan(s, start, r.value)
  {
    var c := s[start];
    if c == '(' {
      var position := ScanRight(s, start);
      return Ok(Span(start, position));
    } else if c == ')' {
      var position := ScanLeft(s, start);
      return Ok(Span(position, start + 1));
    }
    return Err(UnableToMatch(c, s));
  }

  /** The forward loop of balanced_match, from the '(' at `start`. */
  method ScanRight(s: string, start: nat) returns (position: nat)
    requires start < |s| && s[start] == '('
    ensures ForwardSpan(s, start, Span(start, position))
  {
    var level := 1;
    position := start + 1;
    assert s[start..start + 1] == [s[start]];
    while level > 0 && position != |s|
      invariant start < position <= |s| && level >= 0
      invariant level == Level(s[start..position])
      invariant forall k :: start < k < position ==> Level(s[start..k]) > 0
      decreases |s| - position
    {
      LevelSnoc(s, start, position);
      level := level + Delta(s[position]);
      position := position + 1;
    }
  }

  /**
   * The backward loop of balanced_match, from the ')' at `start`; the
   * result is the Python position plus one, so that it stays a nat.
   */
  method ScanLeft(s: string, start: nat) returns (position: nat)
    requires start < |s| && s[start] == ')'
    ensures BackwardSpan(s, start, Span(position, start + 1))
  {
    var level := 1;
    position := start;
    assert s[start..start + 1] == [s[start]];
    while level > 0 && position != 0
      invariant position <= start && level >= 0
      invariant level == -LevelBack(s, position, start)
      invariant forall k :: position < k <= start ==> LevelBack(s, k, start) < 0
      decreases position
    {
      LevelCons(s, position - 1, start + 1);
      level := level - Delta(s[position - 1]);
      position := position - 1;
    }
  }

  /** balanced_match returns the span that the nesting level determines. */
  lemma MatchSpan(s: string, start: nat)
    requires start < |s|
    ensures Match(s, start).Ok? && s[start] == '(' ==> ForwardSpan(s, start, Match(s, start).value)
    ensures Match(s, start).Ok? && s[start] == ')' ==> BackwardSpan(s, start, Match(s, start).value)
  {
    assert s[start..start + 1] == [s[start]];
    if s[start] == '(' {
      ScanForwardSpan(s, start, start + 1, 1);
    } else if s[start] == ')' {
      ScanBackwardSpan(s, start, start, 1);
    }
  }

  /** The span properties fix the result: at most one span satisfies them. */
  lemma ForwardSpanUnique(s: string, start: nat, r1: Span, r2: Span)
    requires start < |s|
    requires ForwardSpan(s, start, r1) && ForwardSpan(s, start, r2)
    ensures r1 == r2
  {
  }

  lemma BackwardSpanUnique(s: string, start: nat, r1: Span, r2: Span)
    requires start < |s|
    requires BackwardSpan(s, start, r1) && BackwardSpan(s, start, r2)
    ensures r1 == r2
  {
  }

  /** The method and the function agree on every input. */
  method BalancedAgrees(s: string, start: nat) returns (r: Result<Span, MatchError>)
    requires start < |s|
    ensures r == Match(s, start)
  {
    r := Balanced(s, start);
    var m := Match(s, start);
    MatchSpan(s, start);
    if r.Ok? && s[start] == '(' { ForwardSpanUnique(s, start, r.value, m.value); }
    if r.Ok? && s[start] == ')' { BackwardSpanUnique(s, start, r.value, m.value); }
    if r.Err? { assert r.error == m.error; }
  }

  /** A balanced forward span ends on the matching ')'. */
  lemma ForwardMatchEndsOnClose(s: string, start: nat)
    requires start < |s| && s[start] == '('
    requires Level(s[start..Match(s, start).value.end]) == 0
    ensures s[Match(s, start).value.end - 1] == ')'
  {
    var e := Match(s, start).value.end;
    MatchSpan(s, start);
    LevelSingle(s, start);
    if e - 1 > start {
      LevelSnoc(s, start, e - 1);
    }
  }

  /** A balanced backward span begins on the matching '('. */
  lemma BackwardMatchBeginsOnOpen(s: string, start: nat)
    requires start < |s| && s[start] == ')'
    requires LevelBack(s, Match(s, start).value.begin, start) == 0
    ensures s[Match(s, start).value.begin] == '('
  {
    var b := Match(s, start).value.begin;
    MatchSpan(s, start);
    LevelSingle(s, start);
    if b < start {
      LevelCons(s, b, start + 1);
      assert LevelBack(s, b + 1, start) < 0;
    }
  }

  /** From a ')' with only non-parentheses back to a '(', the scan stops at that '('. */
  lemma MatchBackOverFree(s: string, begin: nat, start: nat)
    requires begin < start < |s| && s[begin] == '(' && s[start] == ')'
    requires ParenFree(s, begin + 1, start)
    ensures Match(s, start) == Ok(Span(begin, start + 1))
  {
    MatchSpan(s, start);
    forall k | begin < k <= start ensures LevelBack(s, k, start) == -1 {
      LevelParenFree(s, k, start);
      LevelSnoc(s, k, start);
    }
    LevelCons(s, begin, start + 1);
    assert LevelBack(s, begin + 1, start) == -1;
    assert LevelBack(s, begin, start) == 0;
    BackwardSpanUnique(s, start, Match(s, start).value, Span(begin, start + 1));
  }

  /** From a '(' with only non-parentheses up to a ')', the scan stops after that ')'. */
  lemma MatchForwardOverFree(s: string, start: nat, close: nat)
    requires start < close < |s| && s[start] == '(' && s[close] == ')'
    requires ParenFree(s, start + 1, close)
    ensures Match(s, start) == Ok(Span(start, close + 1))
  {
    MatchSpan(s, start);
    forall k | start < k <= close ensures Level(s[start..k]) == 1 {
      LevelParenFree(s, start + 1, k);
      LevelCons(s, start, k);
    }
    LevelSnoc(s, start, close);
    ForwardSpanUnique(s, start, Match(s, start).value, Span(start, close + 1));
  }

  /** The example of tests/test_coverage.py: balanced_match('((a))+1', 0) == (0, 5). */
  lemma MatchExample()
    ensures Match("((a))+1", 0) == Ok(Span(0, 5))
  {
    var s := "((a))+1";
    ExampleSpan();
    hide Level;
    MatchSpan(s, 0);
    ForwardSpanUnique(s, 0, Match(s, 0).value, Span(0, 5));
  }

  /** The nesting levels of "((a))+1" close at index 5. */
  lemma ExampleSpan()
    ensures ForwardSpan("((a))+1", 0, Span(0, 5))
  {
    var s := "((a))+1";
    assert Level(s[0..5]) == 0 by { assert s[0..5] == "((a))"; }
    assert Level(s[0..1]) == 1 && Level(s[0..2]) == 2 && Level(s[0..3]) == 2 && Level(s[0..4]) == 1 by {
      assert s[0..1] == "(" && s[0..2] == "((" && s[0..3] == "((a" && s[0..4] == "((a)";
    }
  }

  /** balanced_match('x', 0) raises ValueError. */
  lemma MatchRejectsNonDelimiter()
    ensures Match("x", 0).Err?
  {
    assert !IsLeft('x') && !IsRight('x');
  }

  /** An unclosed '(' is not reported: the span runs to the end of the string. */
  lemma UnclosedRunsToEnd()
    ensures Match("(a", 0) == Ok(Span(0, 2))
  {
    var s := "(a";
    assert s[0..1] == "(";
    MatchSpan(s, 0);
    ForwardSpanUnique(s, 0, Match(s, 0).value, Span(0, 2));
  }
}

=== FILE: calc_round_trip.dfy ===
/**
 * The whole translators on expressions made of references: convert_calc
 * (REDCap to RIOS, redcap/to_rios.py) and convert_rexl_expression (RIOS
 * back to REDCap, redcap/from_rios.py).
 *
 * When no plain character of the expression is `(`, `<` or `!`, the
 * function, power and operator passes of both translators find nothing to
 * rewrite, so each translator is its reference passes alone, and the
 * corrected reverse translator undoes the corrected forward one.  As
 * written, the forward translator reclassifies by text replacement, and
 * the round trip fails on a database table whose name ends in
 * `calculations`.
 */
module CalcRoundTrip {
  import opened Text
  import opened SymbolTables
  import opened RedcapExpr
  import opened RexlExpr
  import opened RefTokens
  import opened RexlRoundTrip

  /** A character no function, power or operator pattern can start or end on. */
  predicate Inert(c: char) { c != '(' && c != '<' && c != '!' }

  predicate AllInert(s: string) { forall k :: 0 <= k < |s| ==> Inert(s[k]) }

  /** Every plain character of the token list is inert. */
  predicate InertTokens(ts: seq<Token>)
  {
    forall k :: 0 <= k < |ts| ==> ts[k].Plain? ==> Inert(ts[k].c)
  }

  lemma InertConcat(a: string, b: string)
    requires AllInert(a) && AllInert(b)
    ensures AllInert(a + b)
  {
    forall k | 0 <= k < |a + b| ensures Inert((a + b)[k]) {
      if k >= |a| { assert (a + b)[k] == b[k - |a|]; }
    }
  }

  /** Word characters are inert. */
  lemma WordsInert(s: string)
    requires AllWordChars(s)
    ensures AllInert(s)
  {
    forall k | 0 <= k < |s| ensures Inert(s[k]) {
      assert IsWordChar(s[k]);
    }
  }

  /** The RIOS text `tb["f"]` of a reference is inert. */
  lemma RiosRefInert(tb: string, f: string)
    requires AllWordChars(tb) && AllWordChars(f)
    ensures AllInert(RiosRef(tb, f))
  {
    WordsInert(tb);
    WordsInert(f);
    InertConcat(tb, "[\"");
    InertConcat(tb + "[\"", f);
    InertConcat(tb + "[\"" + f, "\"]");
  }

  /** A variable placement that only ever names tables spelled in word characters. */
  ghost predicate WordTable(table: string -> string)
  {
    forall n :: AllWordChars(table(n))
  }

  /** Both placements of the variable pass name word-character tables. */
  lemma TablesAreWords(calcs: set<string>)
    ensures WordTable(Classify(calcs)) && WordTable(OneTable("calculations"))
  {
    forall n ensures AllWordChars(Classify(calcs)(n)) {
      var tb := TableOf(n, calcs);
      assert forall k :: 0 <= k < |tb| ==> IsAsciiLetter(tb[k]);
    }
    var c := "calculations";
    assert forall k :: 0 <= k < |c| ==> IsAsciiLetter(c[k]);
  }

  /** The RIOS text of one well-formed token with an inert plain character is inert. */
  lemma RiosOfInert(t: Token, table: string -> string)
    requires TokenOk(t) && (t.Plain? ==> Inert(t.c)) && WordTable(table)
    ensures AllInert(RiosOf(t, table))
  {
    match t
    case Plain(c) =>
    case Var(n) =>
      RiosRefInert(table(n), n);
    case Db(tb, f) =>
      RiosRefInert(tb, f);
  }

  /** The RIOS text of a well-formed list with inert plain characters is inert. */
  lemma {:induction false} RiosTextInert(ts: seq<Token>, table: string -> string)
    requires WellFormed(ts) && InertTokens(ts) && WordTable(table)
    ensures AllInert(RiosText(ts, table))
    decreases |ts|
  {
    if |ts| > 0 {
      Unfold(ts, table);
      assert InertTokens(ts[1..]) by {
        forall k | 0 <= k < |ts[1..]| ensures ts[1..][k].Plain? ==> Inert(ts[1..][k].c) {
          assert ts[1..][k] == ts[k + 1];
        }
      }
      RiosTextInert(ts[1..], table);
      RiosOfInert(ts[0], table);
      InertConcat(RiosOf(ts[0], table), RiosText(ts[1..], table));
    }
  }

  /** An inert text has no `(` and neither operator. */
  lemma InertFree(x: string)
    requires AllInert(x)
    ensures '(' !in x && !Contains(x, "<>") && !Contains(x, "!=")
  {
    forall k | 0 <= k <= |x| ensures !OccursAt(x, "<>", k) && !OccursAt(x, "!=", k) {
      if k + 2 <= |x| {
        assert x[k] == x[k..k + 2][0];
        assert Inert(x[k]);
      }
    }
  }

  /** The function, power and operator passes of convert_calc keep an inert text, whatever the function table. */
  lemma ForwardKeepsInert(x: string, t: Table)
    requires AllInert(x)
    ensures ReplaceAll(CaretToPow(RenameCalls(x, t)), OperatorToRexl) == x
  {
    InertFree(x);
    assert OperatorToRexl[0].0 == "<>";
  }

  /** The operator, power and function passes of convert_rexl_expression keep an inert text, whatever the function table. */
  lemma BackwardKeepsInert(x: string, t: Table)
    requires AllInert(x)
    ensures RenameCalls(PowToCaret(OpsToRedcap(x)), t) == x
  {
    InertFree(x);
  }

  /** A literal replace of inert text by inert text leaves an inert text. */
  lemma {:induction false} ReplaceFromInert(s: string, pat: string, rep: string, i: nat)
    requires |pat| > 0 && i <= |s| && AllInert(s) && AllInert(rep)
    ensures AllInert(ReplaceFrom(s, pat, rep, i))
    decreases |s| - i
  {
    if OccursAt(s, pat, i) {
      ReplaceFromInert(s, pat, rep, i + |pat|);
      InertConcat(rep, ReplaceFrom(s, pat, rep, i + |pat|));
    } else if i < |s| {
      ReplaceFromInert(s, pat, rep, i + 1);
      InertConcat([s[i]], ReplaceFrom(s, pat, rep, i + 1));
    }
  }

  /** Step 3 as written keeps an inert text inert: it only writes `assessment["v"]`. */
  lemma {:induction false} ReclassifyInert(s: string, names: seq<string>, calcs: set<string>)
    requires AllInert(s) && forall k :: 0 <= k < |names| ==> IsName(names[k])
    ensures AllInert(ReclassifyAsWritten(s, names, calcs))
    decreases |names|
  {
    if |names| > 0 {
      var v := names[0];
      var a := "assessment";
      assert forall k :: 0 <= k < |a| ==> IsAsciiLetter(a[k]);
      RiosRefInert(a, v);
      if v !in calcs {
        ReplaceFromInert(s, RiosRef("calculations", v), RiosRef(a, v), 0);
      }
      var s' := if v in calcs then s else Replace(s, RiosRef("calculations", v), RiosRef("assessment", v));
      assert forall k :: 0 <= k < |names[1..]| ==> IsName(names[1..][k]) by {
        forall k | 0 <= k < |names[1..]| ensures IsName(names[1..][k]) {
          assert names[1..][k] == names[k + 1];
        }
      }
      ReclassifyInert(s', names[1..], calcs);
    }
  }

  /** The names `findall` collects from a well-formed expression are names. */
  lemma {:induction false} VarNamesAreNames(ts: seq<Token>)
    requires WellFormed(ts)
    ensures forall k :: 0 <= k < |VarNames(ts)| ==> IsName(VarNames(ts)[k])
    decreases |ts|
  {
    if |ts| > 0 {
      Unfold(ts, OneTable(""));
      VarNamesAreNames(ts[1..]);
    }
  }

  /**
   * convert_calc on an expression of references and inert characters:
   * each `[v]` becomes `calculations["v"]` or `assessment["v"]` as `v` is
   * a calculation or not, each `[t][f]` becomes `t["f"]`, and nothing else
   * changes.
   */
  lemma ConvertCalcTokens(ts: seq<Token>, calcs: set<string>)
    requires WellFormed(ts) && InertTokens(ts)
    ensures ConvertCalc(RedcapText(ts), calcs) == RiosText(ts, Classify(calcs))
  {
    RefsToRiosTokens(ts, calcs);
    TablesAreWords(calcs);
    RiosTextInert(ts, Classify(calcs));
    ForwardKeepsInert(RiosText(ts, Classify(calcs)), FunctionToPython);
  }

  /** convert_trigger negates the converted expression. */
  lemma ConvertTriggerTokens(ts: seq<Token>, calcs: set<string>)
    requires WellFormed(ts) && InertTokens(ts)
    ensures ConvertTrigger(RedcapText(ts), calcs) == "!(" + RiosText(ts, Classify(calcs)) + ")"
  {
    ConvertCalcTokens(ts, calcs);
  }

  /** convert_rexl_expression turns the RIOS text of such an expression back into its REDCap text. */
  lemma ConvertRexlTokens(ts: seq<Token>, calcs: set<string>)
    requires WellFormed(ts) && InertTokens(ts)
    ensures ConvertRexl(RiosText(ts, Classify(calcs))) == RedcapText(ts)
  {
    var x := RiosText(ts, Classify(calcs));
    TablesAreWords(calcs);
    RiosTextInert(ts, Classify(calcs));
    BackwardKeepsInert(x, FunctionToRedcap);
    RefsToRiosTokens(ts, calcs);
    RefsRoundTrip(ts, calcs);
  }

  /** The two corrected translators are inverse on expressions of references and inert characters. */
  lemma ConvertRoundTrip(ts: seq<Token>, calcs: set<string>)
    requires WellFormed(ts) && InertTokens(ts)
    ensures ConvertRexl(ConvertCalc(RedcapText(ts), calcs)) == RedcapText(ts)
  {
    ConvertCalcTokens(ts, calcs);
    ConvertRexlTokens(ts, calcs);
  }

  /**
   * convert_calc as written on the same expressions: every `[v]` becomes
   * `calculations["v"]`, and then each non-calculation `v` has
   * `calculations["v"]` replaced by `assessment["v"]` all over the text.
   */
  lemma ConvertCalcAsWrittenTokens(ts: seq<Token>, calcs: set<string>)
    requires WellFormed(ts) && InertTokens(ts)
    ensures ConvertCalcAsWritten(RedcapText(ts), calcs)
         == ReclassifyAsWritten(RiosText(ts, OneTable("calculations")), VarNames(ts), calcs)
  {
    var x := RiosText(ts, OneTable("calculations"));
    AsWrittenTokens(ts, calcs);
    TablesAreWords(calcs);
    RiosTextInert(ts, OneTable("calculations"));
    VarNamesAreNames(ts);
    ReclassifyInert(x, VarNames(ts), calcs);
    ForwardKeepsInert(ReclassifyAsWritten(x, VarNames(ts), calcs), FunctionToPythonAsWritten);
  }

  /** convert_trigger as written negates the as-written conversion. */
  lemma ConvertTriggerAsWrittenTokens(ts: seq<Token>, calcs: set<string>)
    requires WellFormed(ts) && InertTokens(ts)
    ensures ConvertTriggerAsWritten(RedcapText(ts), calcs)
         == "!(" + ReclassifyAsWritten(RiosText(ts, OneTable("calculations")), VarNames(ts), calcs) + ")"
  {
    ConvertCalcAsWrittenTokens(ts, calcs);
  }

  /**
   * convert_rexl_expression as written reads the RIOS text of such an
   * expression back just as the corrected one does: the two differ only in
   * the `median` entry, which an expression without calls never meets.
   */
  lemma ConvertRexlAsWrittenTokens(ts: seq<Token>, calcs: set<string>)
    requires WellFormed(ts) && InertTokens(ts)
    ensures ConvertRexlAsWritten(RiosText(ts, Classify(calcs))) == RedcapText(ts)
  {
    var x := RiosText(ts, Classify(calcs));
    TablesAreWords(calcs);
    RiosTextInert(ts, Classify(calcs));
    BackwardKeepsInert(x, FunctionToRedcapAsWritten);
    RefsToRiosTokens(ts, calcs);
    RefsRoundTrip(ts, calcs);
  }

  /**
   * As written, the round trip loses `[wcalculations][v] [v]` (with `w` a
   * letter other than `c` and no calculations): the forward translator
   * rewrites the database reference to `wassessment["v"]`, so the reverse
   * one returns `[wassessment][v] [v]`.  The corrected pair returns the
   * expression unchanged.
   */
  lemma AsWrittenRoundTripFails(w: char, v: string)
    requires IsAsciiLetter(w) && w != 'c' && IsName(v)
    ensures var expr := RedcapText(GluedExample(w, v));
      ConvertRexlAsWritten(ConvertCalcAsWritten(expr, {})) == RedcapText(Glued([w] + "assessment", v))
      && RedcapText(Glued([w] + "assessment", v)) != expr
      && ConvertRexl(ConvertCalc(expr, {})) == expr
  {
    hide *;
    GluedAsWrittenTrip(w, v);
    GluedMoved(w, v);
    GluedCorrectedTrip(w, v);
  }

  /**
   * Even the corrected pair loses `[assessment][f]` and `[calculations][f]`:
   * convert_calc writes `assessment["f"]` or `calculations["f"]`, and
   * convert_rexl_expression reads that back as the variable `[f]`.
   */
  lemma TableRefRoundTripFails(tb: string, f: string, calcs: set<string>)
    requires (tb == "assessment" || tb == "calculations") && IsName(f)
    ensures ConvertRexl(ConvertCalc(DbRefText(tb, f), calcs)) == "[" + f + "]" != DbRefText(tb, f)
  {
    var placed: set<string> := if tb == "calculations" then {f} else {};
    var table := Classify(placed);
    assert table(f) == tb;
    OneToken(Var(f), table);
    assert RedcapOf(Var(f)) == "[" + f + "]" && RiosOf(Var(f), table) == RiosRef(tb, f);
    assert InertTokens([Var(f)]);
    hide *;
    TableNames();
    DbRefToRios(tb, f, calcs);
    RefsToRiosTokens([Var(f)], placed);
    SameRefsSameCalc(DbRefText(tb, f), calcs, "[" + f + "]", placed);
    ConvertRoundTrip([Var(f)], placed);
    TableRefReadsAsVariable(tb, f, calcs);
  }

  /** convert_calc depends on the expression only through its reference steps. */
  lemma SameRefsSameCalc(a: string, ca: set<string>, b: string, cb: set<string>)
    requires RefsToRios(a, ca) == RefsToRios(b, cb)
    ensures ConvertCalc(a, ca) == ConvertCalc(b, cb)
  {
  }

  lemma GluedAsWrittenTrip(w: char, v: string)
    requires IsAsciiLetter(w) && w != 'c' && IsName(v)
    ensures ConvertRexlAsWritten(ConvertCalcAsWritten(RedcapText(GluedExample(w, v)), {})) == RedcapText(Glued([w] + "assessment", v))
  {
    var moved := Glued([w] + "assessment", v);
    GluedTable(w, "assessment");
    GluedTexts([w] + "assessment", v, Classify({}));
    assert InertTokens(moved) by { assert moved[1] == Plain(' '); }
    hide *;
    GluedForward(w, v);
    ConvertRexlAsWrittenTokens(moved, {});
  }

  /** `[wassessment][v] [v]` is not `[wcalculations][v] [v]`. */
  lemma GluedMoved(w: char, v: string)
    ensures RedcapText(Glued([w] + "assessment", v)) != RedcapText(GluedExample(w, v))
  {
    GluedRedcap([w] + "assessment", v);
    GluedRedcap([w] + "calculations", v);
    ThirdChar([w] + "assessment", v);
    ThirdChar([w] + "calculations", v);
  }

  lemma GluedCorrectedTrip(w: char, v: string)
    requires IsAsciiLetter(w) && IsName(v)
    ensures ConvertRexl(ConvertCalc(RedcapText(GluedExample(w, v)), {})) == RedcapText(GluedExample(w, v))
  {
    GluedTable(w, "calculations");
    assert InertTokens(GluedExample(w, v)) by { assert GluedExample(w, v)[1] == Plain(' '); }
    GluedExampleTexts(w, v, Classify({}));
    ConvertRoundTrip(GluedExample(w, v), {});
  }

  /** As written, `[wcalculations][v] [v]` converts to the RIOS text of `[wassessment][v] [v]`. */
  lemma GluedForward(w: char, v: string)
    requires IsAsciiLetter(w) && w != 'c' && IsName(v)
    ensures ConvertCalcAsWritten(RedcapText(GluedExample(w, v)), {}) == RiosText(Glued([w] + "assessment", v), Classify({}))
  {
    var moved := Glued([w] + "assessment", v);
    GluedTable(w, "assessment");
    GluedTexts([w] + "assessment", v, Classify({}));
    assert Classify({})(v) == "assessment";
    GluedRef(w, "assessment", v);
    GluedAsWritten(w, v);
    assert InertTokens(moved) by { assert moved[1] == Plain(' '); }
    TablesAreWords({});
    RiosTextInert(moved, Classify({}));
    ForwardKeepsInert(RiosText(moved, Classify({})), FunctionToPythonAsWritten);
  }

  /** The third character of `[tb][v] [v]` is the second of the table's name. */
  lemma ThirdChar(tb: string, v: string)
    requires |tb| > 1
    ensures |DbRefText(tb, v) + " " + "[" + v + "]"| > 2 && (DbRefText(tb, v) + " " + "[" + v + "]")[2] == tb[1]
  {
  }

  // ---------------------------------------------------------------------
  // Without database references, as written and corrected agree

  predicate NoDbTokens(ts: seq<Token>) { forall k :: 0 <= k < |ts| ==> !ts[k].Db? }

  /** Every variable token is placed in one of the two tables a bare variable can go to. */
  predicate TwoTables(ts: seq<Token>, table: string -> string)
  {
    forall k :: 0 <= k < |ts| ==> ts[k].Var? ==> table(ts[k].name) == "calculations" || table(ts[k].name) == "assessment"
  }

  /** `table` with `v` moved to `assessment`: one replace of step 3 as written. */
  function MoveTo(table: string -> string, v: string): string -> string
  {
    n => if n == v then "assessment" else table(n)
  }

  /** `table` after step 3 as written over `names`: the listed non-calculations go to `assessment`. */
  function Reclassified(table: string -> string, names: seq<string>, calcs: set<string>): string -> string
  {
    n => if n in names && n !in calcs then "assessment" else table(n)
  }

  /** The RIOS text reads the table only at the variable names. */
  lemma {:induction false} RiosTextAgree(ts: seq<Token>, t1: string -> string, t2: string -> string)
    requires forall k :: 0 <= k < |ts| ==> ts[k].Var? ==> t1(ts[k].name) == t2(ts[k].name)
    ensures RiosText(ts, t1) == RiosText(ts, t2)
    decreases |ts|
  {
    if |ts| > 0 {
      RiosTextAgree(ts[1..], t1, t2);
    }
  }

  lemma Mismatch(s: string, pat: string, p: nat, j: nat)
    requires j < |pat| && p + j < |s| && s[p + j] != pat[j]
    ensures !OccursAt(s, pat, p)
  {
    if p + |pat| <= |s| {
      assert s[p..p + |pat|][j] == s[p + j];
    }
  }

  /**
   * A text starting with a plain token does not start with a word and a
   * `[`: the word would have to be plain characters, and the `[` too.
   */
  lemma {:induction false} NoWordBracket(ts: seq<Token>, table: string -> string, w: string)
    requires WellFormed(ts) && |ts| > 0 && ts[0].Plain? && AllWordChars(w)
    ensures !StartsWith(RiosText(ts, table), w + "[")
    decreases |w|
  {
    var s := RiosText(ts, table);
    var r := RiosText(ts[1..], table);
    var c := ts[0].c;
    assert s == [c] + r;
    var u := w + "[";
    if |w| == 0 {
      Mismatch(s, u, 0, 0);
    } else if c != w[0] {
      Mismatch(s, u, 0, 0);
    } else if |ts| == 1 {
      assert |s| == 1 < |u|;
    } else {
      assert IsWordChar(c) && ts[1].Plain?;
      NoWordBracket(ts[1..], table, w[1..]);
      assert u == [c] + (w[1..] + "[");
      StartsWithCons(c, r, w[1..] + "[");
    }
  }

  lemma StartsWithCons(c: char, r: string, u: string)
    ensures StartsWith([c] + r, [c] + u) <==> StartsWith(r, u)
  {
    if StartsWith(r, u) {
      assert ([c] + r)[..|u| + 1] == [c] + r[..|u|];
    }
    if StartsWith([c] + r, [c] + u) {
      assert r[..|u|] == ([c] + r)[1..|u| + 1];
    }
  }

  /** An occurrence of a pattern is an occurrence of each of its prefixes. */
  lemma PrefixOccurs(s: string, pat: string, q: string)
    requires |q| <= |pat| && pat[..|q|] == q
    ensures OccursAt(s, pat, 0) ==> StartsWith(s, q)
  {
    if OccursAt(s, pat, 0) {
      assert s[..|q|] == s[..|pat|][..|q|];
    }
  }

  /** Where `calculations["v"]` can be seen to start or to fail. */
  lemma PatternShape(v: string)
    requires IsName(v)
    ensures var pat := RiosRef("calculations", v);
      && |pat| == |v| + 16 && pat[..13] == "calculations[" && pat[12] == '['
      && (forall j :: 0 <= j < 12 ==> IsWordChar(pat[j]))
      && pat[14..14 + |v|] == v && pat[14 + |v|] == '"'
  {
    var pat := RiosRef("calculations", v);
    RiosRefShape("calculations", v);
    var c := "calculations";
    assert forall k :: 0 <= k < |c| ==> IsAsciiLetter(c[k]);
    assert pat[..12] == c;
    assert pat[..13] == pat[..12] + [pat[12]];
    forall j | 0 <= j < 12 ensures IsWordChar(pat[j]) {
      assert pat[j] == pat[..12][j];
    }
  }

  /** `calculations["n"]` at the start hides no `calculations["v"]` of another name there. */
  lemma OtherName(s: string, n: string, v: string)
    requires IsName(n) && IsName(v) && n != v && OccursAt(s, RiosRef("calculations", n), 0)
    ensures !OccursAt(s, RiosRef("calculations", v), 0)
  {
    var pat := RiosRef("calculations", v);
    RiosRefChars(s, 0, "calculations", n);
    PatternShape(v);
    if |n| < |v| {
      assert IsWordChar(v[|n|]) && pat[14 + |n|] == pat[14..14 + |v|][|n|];
      Mismatch(s, pat, 0, 14 + |n|);
    } else if |n| > |v| {
      assert IsWordChar(n[|v|]) && s[14 + |v|] == s[14..14 + |n|][|v|];
      Mismatch(s, pat, 0, 14 + |v|);
    } else {
      var k :| 0 <= k < |n| && n[k] != v[k];
      assert s[14 + k] == s[14..14 + |n|][k] && pat[14 + k] == pat[14..14 + |v|][k];
      Mismatch(s, pat, 0, 14 + k);
    }
  }

  /**
   * Inside a variable reference other than `calculations["v"]` itself,
   * no `calculations["v"]` starts: its `[` would have to sit twelve word
   * characters on, and the reference has its only `[` right after the
   * table and ends in `]`.
   */
  lemma RefNotMatched(s: string, tb: string, n: string, v: string)
    requires tb == "calculations" || tb == "assessment"
    requires IsName(n) && IsName(v) && OccursAt(s, RiosRef(tb, n), 0)
    requires !(tb == "calculations" && n == v)
    ensures forall p :: 0 <= p < |RiosRef(tb, n)| ==> !OccursAt(s, RiosRef("calculations", v), p)
  {
    forall p | 0 <= p < |RiosRef(tb, n)| ensures !OccursAt(s, RiosRef("calculations", v), p) {
      NotMatchedAt(s, tb, n, v, p);
    }
  }

  lemma NotMatchedAt(s: string, tb: string, n: string, v: string, p: nat)
    requires tb == "calculations" || tb == "assessment"
    requires IsName(n) && IsName(v) && OccursAt(s, RiosRef(tb, n), 0)
    requires !(tb == "calculations" && n == v) && p < |RiosRef(tb, n)|
    ensures !OccursAt(s, RiosRef("calculations", v), p)
  {
    var pat := RiosRef("calculations", v);
    var e := |tb| + |n| + 3;
    assert forall k :: 0 <= k < |tb| ==> IsAsciiLetter(tb[k]);
    RefBrackets(s, tb, n);
    PatternShape(v);
    if p == 0 && tb == "calculations" {
      OtherName(s, n, v);
    } else if p + 12 < e {
      assert p + 12 != |tb|;
      Mismatch(s, pat, p, 12);
    } else {
      Mismatch(s, pat, p, e - p);
    }
  }

  /** In the text of `tb["f"]`, the only `[` follows the table, and the last character is `]`. */
  lemma RefBrackets(s: string, tb: string, f: string)
    requires IsName(tb) && IsName(f) && OccursAt(s, RiosRef(tb, f), 0)
    ensures |RiosRef(tb, f)| == |tb| + |f| + 4 && s[|tb| + |f| + 3] == ']'
    ensures forall i :: 0 <= i < |tb| + |f| + 3 && i != |tb| ==> s[i] != '['
  {
    RiosRefChars(s, 0, tb, f);
    RiosRefLayout(s, 0, tb, f);
    RiosRefShape(tb, f);
    var e := |tb| + |f| + 4;
    forall i | 0 <= i < e - 1 && i != |tb| ensures s[i] != '[' {
      if i < |tb| {
        assert s[i] == s[0..|tb|][i];
      } else {
        assert s[i] == s[|tb| + 1..e][i - |tb| - 1];
      }
    }
  }

  /** The replace over the text of the first token: a plain character is copied. */
  lemma PlainHead(ts: seq<Token>, table: string -> string, v: string)
    requires WellFormed(ts) && |ts| > 0 && ts[0].Plain? && IsName(v)
    ensures var s, pat, rep := RiosText(ts, table), RiosRef("calculations", v), RiosRef("assessment", v);
      0 < |s| && ReplaceFrom(s, pat, rep, 0) == [ts[0].c] + ReplaceFrom(s, pat, rep, 1)
  {
    var s, pat, rep := RiosText(ts, table), RiosRef("calculations", v), RiosRef("assessment", v);
    FirstChar(ts, table);
    PatternShape(v);
    NoWordBracket(ts, table, "calculations");
    PrefixOccurs(s, pat, "calculations[");
  }

  /** The replace over the text of a variable token: moved if it is `calculations["v"]`, copied otherwise. */
  lemma VarHead(ts: seq<Token>, table: string -> string, v: string)
    requires WellFormed(ts) && |ts| > 0 && ts[0].Var? && TwoTables(ts, table) && IsName(v)
    ensures var s, pat, rep := RiosText(ts, table), RiosRef("calculations", v), RiosRef("assessment", v);
      |RiosOf(ts[0], table)| <= |s|
      && ReplaceFrom(s, pat, rep, 0) == RiosOf(ts[0], MoveTo(table, v)) + ReplaceFrom(s, pat, rep, |RiosOf(ts[0], table)|)
  {
    var s, pat, rep := RiosText(ts, table), RiosRef("calculations", v), RiosRef("assessment", v);
    var n := ts[0].name;
    var x := RiosRef(table(n), n);
    assert s == x + RiosText(ts[1..], table);
    assert OccursAt(s, x, 0);
    if table(n) == "calculations" && n == v {
      assert ReplaceFrom(s, pat, rep, 0) == rep + ReplaceFrom(s, pat, rep, |x|);
    } else {
      RefNotMatched(s, table(n), n, v);
      ReplaceSkips(s, pat, rep, 0, |x|);
    }
  }

  /** One replace of step 3 as written moves exactly the variable `v` to `assessment`. */
  lemma {:induction false} ReplaceMoves(ts: seq<Token>, table: string -> string, v: string)
    requires WellFormed(ts) && NoDbTokens(ts) && TwoTables(ts, table) && IsName(v)
    ensures Replace(RiosText(ts, table), RiosRef("calculations", v), RiosRef("assessment", v))
         == RiosText(ts, MoveTo(table, v))
    decreases |ts|
  {
    var pat, rep := RiosRef("calculations", v), RiosRef("assessment", v);
    var s := RiosText(ts, table);
    if |ts| == 0 {
      assert ReplaceFrom(s, pat, rep, 0) == "";
    } else {
      var x, r := RiosOf(ts[0], table), RiosText(ts[1..], table);
      assert s == x + r;
      assert RiosText(ts, MoveTo(table, v)) == RiosOf(ts[0], MoveTo(table, v)) + RiosText(ts[1..], MoveTo(table, v));
      if ts[0].Plain? {
        PlainHead(ts, table, v);
      } else {
        VarHead(ts, table, v);
      }
      ReplaceMoves(ts[1..], table, v);
      ReplaceFromShift(x, r, pat, rep, 0);
    }
  }

  /** Step 3 as written over a list of names moves each listed non-calculation to `assessment`. */
  lemma {:induction false} ReclassifyMoves(ts: seq<Token>, table: string -> string, names: seq<string>, calcs: set<string>)
    requires WellFormed(ts) && NoDbTokens(ts) && TwoTables(ts, table)
    requires forall k :: 0 <= k < |names| ==> IsName(names[k])
    ensures ReclassifyAsWritten(RiosText(ts, table), names, calcs) == RiosText(ts, Reclassified(table, names, calcs))
    decreases |names|
  {
    if |names| == 0 {
      RiosTextAgree(ts, table, Reclassified(table, names, calcs));
    } else {
      var v := names[0];
      var t1 := if v in calcs then table else MoveTo(table, v);
      if v !in calcs {
        ReplaceMoves(ts, table, v);
      }
      ReclassifyMoves(ts, t1, names[1..], calcs);
      RiosTextAgree(ts, Reclassified(t1, names[1..], calcs), Reclassified(table, names, calcs));
    }
  }

  lemma {:induction false} VarNamesListed(ts: seq<Token>)
    ensures forall k :: 0 <= k < |ts| ==> ts[k].Var? ==> ts[k].name in VarNames(ts)
    decreases |ts|
  {
    if |ts| > 0 {
      VarNamesListed(ts[1..]);
      assert forall k :: 1 <= k < |ts| ==> ts[k] == ts[1..][k - 1];
    }
  }

  /**
   * Without database references, convert_calc as written gives the
   * corrected result: only a variable reference can hold
   * `calculations["v"]`, so the replaces of step 3 move exactly the
   * variables that are not calculations.
   */
  lemma ConvertCalcAgrees(ts: seq<Token>, calcs: set<string>)
    requires WellFormed(ts) && InertTokens(ts) && NoDbTokens(ts)
    ensures ConvertCalcAsWritten(RedcapText(ts), calcs) == ConvertCalc(RedcapText(ts), calcs)
  {
    ConvertCalcTokens(ts, calcs);
    ConvertCalcAsWrittenTokens(ts, calcs);
    ReclassifyAgrees(ts, calcs);
  }

  /** The same for convert_trigger. */
  lemma ConvertTriggerAgrees(ts: seq<Token>, calcs: set<string>)
    requires WellFormed(ts) && InertTokens(ts) && NoDbTokens(ts)
    ensures ConvertTriggerAsWritten(RedcapText(ts), calcs) == ConvertTrigger(RedcapText(ts), calcs)
  {
    ConvertTriggerTokens(ts, calcs);
    ConvertTriggerAsWrittenTokens(ts, calcs);
    ReclassifyAgrees(ts, calcs);
  }

  /** Step 3 as written over all variable names classifies each variable as the corrected step does. */
  lemma ReclassifyAgrees(ts: seq<Token>, calcs: set<string>)
    requires WellFormed(ts) && NoDbTokens(ts)
    ensures ReclassifyAsWritten(RiosText(ts, OneTable("calculations")), VarNames(ts), calcs) == RiosText(ts, Classify(calcs))
  {
    VarNamesAreNames(ts);
    OneTableTwoTables(ts);
    FinalTables(ts, calcs);
    hide *;
    ReclassifyMoves(ts, OneTable("calculations"), VarNames(ts), calcs);
    RiosTextAgree(ts, Reclassified(OneTable("calculations"), VarNames(ts), calcs), Classify(calcs));
  }

  lemma OneTableTwoTables(ts: seq<Token>)
    ensures TwoTables(ts, OneTable("calculations"))
  {
  }

  /** After step 3 as written over all variable names, each variable sits where the corrected step puts it. */
  lemma FinalTables(ts: seq<Token>, calcs: set<string>)
    ensures forall k :: 0 <= k < |ts| ==> ts[k].Var? ==>
      Reclassified(OneTable("calculations"), VarNames(ts), calcs)(ts[k].name) == Classify(calcs)(ts[k].name)
  {
    VarNamesListed(ts);
  }
}

=== FILE: conversion_base.dfy ===
/**
 * The two conversion directions' common parts: `ToRios`, which builds the
 * RIOS instrument, form and calculation set of a foreign instrument,
 * validates them and packages them; and `FromRios`, which reads a RIOS
 * definition and packages the lines of a foreign one.
 *
 * The RIOS validators are outside this model: their verdicts are
 * parameters.
 */
module ConversionBase {
  import opened Wrappers
  import opened Text
  import opened Structures
  import opened Logger
  import opened Errors
  import opened PyValues

  const DefaultLocalization := "en"
  const DefaultVersion := "1.0"
  const SuccessMessage := "Conversion process was successful"

  /** `x or default` for an optional string: a missing or empty value takes the default. */
  function OrDefault(v: Option<string>, default: string): (r: string)
    ensures v.Some? && v.value != "" ==> r == v.value
    ensures v.None? || v.value == "" ==> r == default
  {
    if v.Some? && v.value != "" then v.value else default
  }

  /** The instrument id: kept when it already mentions `urn:`, prefixed with it otherwise. */
  function UrnId(id: string): (r: string)
    ensures Contains(r, "urn:")
    ensures Contains(id, "urn:") ==> r == id
    ensures !Contains(id, "urn:") ==> r == "urn:" + id
  {
    if Contains(id, "urn:") then id
    else
      assert OccursAt("urn:" + id, "urn:", 0);
      "urn:" + id
  }

  /** Prefixing is done once: an id already made a URN stays as it is. */
  lemma UrnIdIdempotent(id: string)
    ensures UrnId(UrnId(id)) == UrnId(id)
  {
  }

  /** `localized_string_object(localization, text)`: a one-entry mapping. */
  function LocalizedString(localization: string, text: string): (r: Spec)
    ensures r.cls == "LocalizedStringObject"
    ensures Lookup(r, localization) == Some(VStr(text))
    ensures Keys(r) == [localization]
  {
    var r := Spec("LocalizedStringObject", [Entry(localization, VStr(text))]);
    assert IndexOf(r, localization) == Some(0);
    r
  }

  // ---------------------------------------------------------------------
  // ToRios

  datatype ToRios = ToRios(
    id: string,
    version: string,
    title: string,
    localization: string,
    description: string,
    instrument: Spec,
    calculationset: Spec,
    form: Spec,
    log: Log)

  /** The keyword arguments the instrument is built with. */
  function InstrumentArgs(id: string, version: string, title: string, description: string): seq<Entry>
  {
    [Entry("id", VStr(id)), Entry("version", VStr(version)), Entry("title", VStr(title)), Entry("description", VStr(description))]
  }

  /** The new instrument: the given id and version, the other properties empty. */
  function NewInstrument(id: string, version: string, title: string, description: string): (r: Spec)
    ensures r.cls == "Instrument" && UniqueKeys(r)
    ensures Lookup(r, "id") == Some(VStr(id)) && Lookup(r, "version") == Some(VStr(version))
    ensures Lookup(r, "record") == Some(VList([]))
  {
    NewInstrumentShape(id, version, title, description);
    Init("Instrument", InstrumentProps, [], InstrumentArgs(id, version, title, description))
  }

  lemma NewInstrumentShape(id: string, version: string, title: string, description: string)
    ensures var r := Init("Instrument", InstrumentProps, [], InstrumentArgs(id, version, title, description));
      Lookup(r, "id") == Some(VStr(id)) && Lookup(r, "version") == Some(VStr(version)) && Lookup(r, "record") == Some(VList([]))
  {
    InstrumentArg(id, version, title, description, 0);
    InstrumentArg(id, version, title, description, 1);
    InstrumentRecord(id, version, title, description);
  }

  lemma InstrumentArg(id: string, version: string, title: string, description: string, j: nat)
    requires j < 4
    ensures var args := InstrumentArgs(id, version, title, description);
      Lookup(Init("Instrument", InstrumentProps, [], args), args[j].key) == Some(args[j].value)
  {
    var args := InstrumentArgs(id, version, title, description);
    assert PropKeys(InstrumentProps)[j] == args[j].key;
    assert Admits(InstrumentProps, args[j].key);
    assert forall a, b :: 0 <= a < b < |args| ==> args[a].key != args[b].key;
    hide *;
    InitKwarg("Instrument", InstrumentProps, [], args, j);
  }

  lemma InstrumentRecord(id: string, version: string, title: string, description: string)
    ensures Lookup(Init("Instrument", InstrumentProps, [], InstrumentArgs(id, version, title, description)), "record") == Some(VList([]))
  {
    var args := InstrumentArgs(id, version, title, description);
    assert InstrumentProps[5] == Prop("record", TList);
    assert Zero(TList) == VList([]);
    assert forall a, b :: 0 <= a < b < |InstrumentProps| ==> InstrumentProps[a].key != InstrumentProps[b].key;
    assert forall t :: 0 <= t < |args| ==> args[t].key != "record";
    hide *;
    InitZero("Instrument", InstrumentProps, [], args, 5);
  }

  /** `CalculationSetObject(instrument=reference)`: no calculations yet. */
  function NewCalculationSet(reference: Spec): (r: Spec)
    ensures r.cls == "CalculationSetObject"
    ensures Lookup(r, "instrument") == Some(VSpec(reference))
    ensures Lookup(r, "calculations") == Some(VList([]))
  {
    NewCalculationSetShape(reference);
    Init("CalculationSetObject", CalculationSetProps, [], [Entry("instrument", VSpec(reference))])
  }

  lemma NewCalculationSetShape(reference: Spec)
    ensures var r := Init("CalculationSetObject", CalculationSetProps, [], [Entry("instrument", VSpec(reference))]);
      Lookup(r, "instrument") == Some(VSpec(reference)) && Lookup(r, "calculations") == Some(VList([]))
  {
    var args := [Entry("instrument", VSpec(reference))];
    assert CalculationSetProps[0].key == "instrument" && CalculationSetProps[1] == Prop("calculations", TList);
    assert PropKeys(CalculationSetProps)[0] == "instrument";
    assert Admits(CalculationSetProps, args[0].key);
    assert Zero(TList) == VList([]);
    assert forall a, b :: 0 <= a < b < |CalculationSetProps| ==> CalculationSetProps[a].key != CalculationSetProps[b].key;
    assert forall t :: 0 <= t < |args| ==> args[t].key != CalculationSetProps[1].key;
    hide *;
    InitKwarg("CalculationSetObject", CalculationSetProps, [], args, 0);
    InitZero("CalculationSetObject", CalculationSetProps, [], args, 1);
  }

  /** `WebForm(instrument=reference, defaultLocalization=..., title=...)`: no pages yet. */
  function NewForm(reference: Spec, localization: string, title: string): (r: Spec)
    ensures r.cls == "WebForm"
    ensures Lookup(r, "instrument") == Some(VSpec(reference))
    ensures Lookup(r, "defaultLocalization") == Some(VStr(localization))
    ensures Lookup(r, "title") == Some(VSpec(LocalizedString(localization, title)))
  {
    NewFormShape(reference, localization, title);
    Init("WebForm", WebFormProps, [], FormArgs(reference, localization, title))
  }

  function FormArgs(reference: Spec, localization: string, title: string): seq<Entry>
  {
    [Entry("instrument", VSpec(reference)), Entry("defaultLocalization", VStr(localization)),
      Entry("title", VSpec(LocalizedString(localization, title)))]
  }

  lemma NewFormShape(reference: Spec, localization: string, title: string)
    ensures var r := Init("WebForm", WebFormProps, [], FormArgs(reference, localization, title));
      Lookup(r, "instrument") == Some(VSpec(reference)) && Lookup(r, "defaultLocalization") == Some(VStr(localization)) &&
      Lookup(r, "title") == Some(VSpec(LocalizedString(localization, title)))
  {
    var args := FormArgs(reference, localization, title);
    assert PropKeys(WebFormProps)[0] == "instrument" && PropKeys(WebFormProps)[1] == "defaultLocalization" && PropKeys(WebFormProps)[2] == "title";
    assert args[0].key == "instrument" && args[1].key == "defaultLocalization" && args[2].key == "title";
    assert Admits(WebFormProps, args[0].key) && Admits(WebFormProps, args[1].key) && Admits(WebFormProps, args[2].key);
    assert forall a, b :: 0 <= a < b < |args| ==> args[a].key != args[b].key;
    hide *;
    InitKwarg("WebForm", WebFormProps, [], args, 0);
    InitKwarg("WebForm", WebFormProps, [], args, 1);
    InitKwarg("WebForm", WebFormProps, [], args, 2);
  }

  /** `InstrumentReferenceObject(instrument)`: the instrument's id and version, and no other key. */
  function Reference(instrument: Spec): (r: Spec)
    requires UniqueKeys(instrument)
    ensures r.cls == "InstrumentReferenceObject"
    ensures forall k :: k in Keys(r) <==> k == "id" || k == "version"
    ensures Lookup(instrument, "id").Some? ==> Lookup(r, "id") == Lookup(instrument, "id")
    ensures Lookup(instrument, "version").Some? ==> Lookup(r, "version") == Lookup(instrument, "version")
  {
    InitKeys("InstrumentReferenceObject", InstrumentReferenceProps, instrument.entries, []);
    assert PropKeys(InstrumentReferenceProps) == ["id", "version"];
    ReferenceCopies(instrument, "id");
    ReferenceCopies(instrument, "version");
    Init("InstrumentReferenceObject", InstrumentReferenceProps, instrument.entries, [])
  }

  lemma ReferenceCopies(instrument: Spec, key: string)
    requires UniqueKeys(instrument) && key in PropKeys(InstrumentReferenceProps)
    ensures Lookup(instrument, key).Some? ==> Lookup(Init("InstrumentReferenceObject", InstrumentReferenceProps, instrument.entries, []), key) == Lookup(instrument, key)
  {
    var j := IndexOf(instrument, key);
    if j.Some? {
      InitGiven("InstrumentReferenceObject", InstrumentReferenceProps, instrument.entries, [], j.value);
    }
  }

  /**
   * `ToRios.__init__`: the id made a URN, the version and localization
   * defaulted, an instrument with those values, and a calculation set and
   * a form that refer to it; the log starts empty.
   */
  function NewToRios(id: string, title: string, description: string, localization: Option<string>, version: Option<string>): ToRios
  {
    var uid := UrnId(id);
    var ver := OrDefault(version, DefaultVersion);
    var loc := OrDefault(localization, DefaultLocalization);
    var instrument := NewInstrument(uid, ver, title, description);
    var reference := Reference(instrument);
    ToRios(uid, ver, title, loc, description, instrument, NewCalculationSet(reference), NewForm(reference, loc, title), EmptyLog)
  }

  /**
   * The new converter's instrument carries the URN id and the version;
   * the calculation set and the form refer to the same instrument; the
   * form has the localization; there are no calculations and no log.
   */
  lemma NewToRiosShape(id: string, title: string, description: string, localization: Option<string>, version: Option<string>)
    ensures var t := NewToRios(id, title, description, localization, version);
      t.id == UrnId(id) && t.version == OrDefault(version, DefaultVersion) && t.localization == OrDefault(localization, DefaultLocalization) &&
      Lookup(t.instrument, "id") == Some(VStr(t.id)) && Lookup(t.instrument, "version") == Some(VStr(t.version)) &&
      Lookup(t.calculationset, "instrument") == Lookup(t.form, "instrument") &&
      Lookup(t.form, "defaultLocalization") == Some(VStr(t.localization)) &&
      Lookup(t.calculationset, "calculations") == Some(VList([])) && !Check(t.log)
  {
    hide Init;
  }

  /** Some value under `calculations`: `get('calculations', False)` is truthy. */
  predicate HasCalculations(sp: Spec)
  {
    Lookup(sp, "calculations").Some? && Truthy(Lookup(sp, "calculations").value)
  }

  /** The empty mapping `dict()`. */
  const EmptyDict := Spec("dict", [])

  /**
   * The `instrument` and `form` properties: the definition, cleaned. The
   * cleaning pass used is the evidently intended one, which also drops list
   * elements that clean to nothing (see Structures.ListKeepsEmptyElement).
   */
  function View(sp: Spec): Result<Spec, string>
  {
    CleanSpec(sp, true)
  }

  /** The `calculationset` property: the cleaned set when it has calculations, `{}` otherwise. */
  function CalculationsetView(sp: Spec): (r: Result<Spec, string>)
    ensures !HasCalculations(sp) ==> r == Ok(EmptyDict)
    ensures HasCalculations(sp) ==> r == CleanSpec(sp, true)
  {
    if HasCalculations(sp) then View(sp) else Ok(EmptyDict)
  }

  /** Adding a calculation object to the set, as the converters do; nothing else changes. */
  function AddCalculation(t: ToRios, calculation: Spec): (r: Result<ToRios, AddError>)
    ensures r.Ok? <==> calculation.cls == "CalculationObject" && Lookup(t.calculationset, "calculations").Some? && Lookup(t.calculationset, "calculations").value.VList?
    ensures r.Ok? ==> Lookup(r.value.calculationset, "calculations") == Some(VList(Lookup(t.calculationset, "calculations").value.items + [VSpec(calculation)]))
    ensures r.Ok? ==> HasCalculations(r.value.calculationset)
    ensures r.Ok? ==> r.value.instrument == t.instrument && r.value.form == t.form && r.value.log == t.log
  {
    var c := AppendTo(t.calculationset, "calculations", calculation, "CalculationObject");
    if c.Err? then Err(c.error) else Ok(t.(calculationset := c.value))
  }

  /** A new converter has no calculations, and accepts a calculation object. */
  lemma NewToRiosCalculations(id: string, title: string, description: string, localization: Option<string>, version: Option<string>, calculation: Spec)
    requires calculation.cls == "CalculationObject"
    ensures AddCalculation(NewToRios(id, title, description, localization, version), calculation).Ok?
  {
    NewToRiosShape(id, title, description, localization, version);
  }

  /** The validation stages, in the order they run. */
  datatype Stage = InstrumentStage | FormStage | CalculationsetStage

  function StageName(s: Stage): string
  {
    match s
    case InstrumentStage => "Instrument"
    case FormStage => "Form"
    case CalculationsetStage => "Calculationset"
  }

  /** What the RIOS validators say of each definition: None when valid, else the message of the ValidationError. */
  datatype Verdicts = Verdicts(instrument: Option<string>, form: Option<string>, calculationset: Option<string>)

  /** The log and the exception `validate` leaves. */
  datatype Validated = Validated(log: Log, raised: Option<Raised>)

  /** The first failing stage among those that run; the calculation set runs only when it has calculations. */
  function FailingStage(v: Verdicts, calcs: bool): (r: Option<Stage>)
    ensures r == Some(InstrumentStage) <==> v.instrument.Some?
    ensures r == Some(FormStage) <==> v.instrument.None? && v.form.Some?
    ensures r == Some(CalculationsetStage) <==> v.instrument.None? && v.form.None? && calcs && v.calculationset.Some?
    ensures r.None? <==> v.instrument.None? && v.form.None? && (!calcs || v.calculationset.None?)
  {
    if v.instrument.Some? then Some(InstrumentStage)
    else if v.form.Some? then Some(FormStage)
    else if calcs && v.calculationset.Some? then Some(CalculationsetStage)
    else None
  }

  function VerdictOf(v: Verdicts, s: Stage): Option<string>
  {
    match s
    case InstrumentStage => v.instrument
    case FormStage => v.form
    case CalculationsetStage => v.calculationset
  }

  /** The error a failing stage raises. */
  function StageError(s: Stage, message: string): (e: Failure)
    ensures e.cls == ConversionValidationError
  {
    NewError(ConversionValidationError, StageName(s) + " validation error:", Some(message))
  }

  /**
   * `validate`: the instrument, then the form, then the calculation set
   * when the cleaned set still has calculations. The first ValidationError
   * becomes a ConversionValidationError naming the stage, logged as an
   * error and raised; success logs the success message. A definition that
   * cannot be cleaned raises as it is.
   */
  function Validate(t: ToRios, v: Verdicts): (r: Validated)
    ensures View(t.instrument).Err? ==> r == Validated(t.log, Some(RaisedOther(View(t.instrument).error)))
    ensures View(t.instrument).Ok? && v.instrument.None? && View(t.form).Err? ==> r == Validated(t.log, Some(RaisedOther(View(t.form).error)))
  {
    var instrument := View(t.instrument);
    if instrument.Err? then Validated(t.log, Some(RaisedOther(instrument.error)))
    else if v.instrument.Some? then Failed(t.log, InstrumentStage, v.instrument.value)
    else
      var form := View(t.form);
      if form.Err? then Validated(t.log, Some(RaisedOther(form.error)))
      else if v.form.Some? then Failed(t.log, FormStage, v.form.value)
      else
        var cs := CalculationsetView(t.calculationset);
        if cs.Err? then Validated(t.log, Some(RaisedOther(cs.error)))
        else if HasCalculations(cs.value) && v.calculationset.Some? then Failed(t.log, CalculationsetStage, v.calculationset.value)
        else Validated(Info(t.log, Str(SuccessMessage)).value, None)
  }

  function Failed(log: Log, s: Stage, message: string): (r: Validated)
    ensures r.raised == Some(RaisedError(StageError(s, message)))
    ensures r.log == Error(log, Str(ErrorStr(StageError(s, message)))).value
  {
    var e := StageError(s, message);
    Validated(Error(log, Str(ErrorStr(e))).value, Some(RaisedError(e)))
  }

  /**
   * With definitions that clean, validate raises exactly when a stage
   * that runs fails, names the first such stage, and logs one line
   * either way: the error, or the success message.
   */
  lemma ValidateStages(t: ToRios, v: Verdicts)
    requires View(t.instrument).Ok? && View(t.form).Ok? && CalculationsetView(t.calculationset).Ok?
    ensures var stage := FailingStage(v, HasCalculations(CalculationsetView(t.calculationset).value));
      var r := Validate(t, v);
      (r.raised.None? <==> stage.None?) &&
      (stage.Some? ==> r.raised == Some(RaisedError(StageError(stage.value, VerdictOf(v, stage.value).value)))) &&
      |r.log.entries| == |t.log.entries| + 1 && r.log.entries[..|t.log.entries|] == t.log.entries &&
      (stage.None? ==> r.log.entries[|t.log.entries|] == InfoPrefix + SuccessMessage) &&
      (stage.Some? ==> r.log.entries[|t.log.entries|] == ErrorPrefix + ErrorStr(StageError(stage.value, VerdictOf(v, stage.value).value)))
  {
    var stage := FailingStage(v, HasCalculations(CalculationsetView(t.calculationset).value));
    LevelsPrefix(t.log, SuccessMessage);
    if stage.Some? {
      LevelsPrefix(t.log, ErrorStr(StageError(stage.value, VerdictOf(v, stage.value).value)));
    }
  }

  /** What `package` returns: the definitions, the calculation set when there is one, and the log lines when there are any. */
  datatype Package = Package(instrument: Spec, form: Spec, calculationset: Option<Spec>, logs: Option<seq<string>>)

  function LogsOf(log: Log): (r: Option<seq<string>>)
    ensures r.Some? <==> Check(log)
    ensures r.Some? ==> r.value == log.entries
  {
    if Check(log) then Some(log.entries) else None
  }

  /**
   * `package` as written: with calculations it reads an attribute
   * `calculations` the class does not have, an AttributeError.
   */
  function PackageAsWritten(t: ToRios): (r: Result<Package, string>)
    ensures View(t.instrument).Ok? && View(t.form).Ok? ==> (r.Ok? <==> !HasCalculations(t.calculationset))
    ensures r.Ok? ==> r.value.calculationset.None?
  {
    var instrument := View(t.instrument);
    var form := View(t.form);
    if instrument.Err? then Err(instrument.error)
    else if form.Err? then Err(form.error)
    else if HasCalculations(t.calculationset) then Err("AttributeError: 'ToRios' object has no attribute 'calculations'")
    else Ok(Package(instrument.value, form.value, None, LogsOf(t.log)))
  }

  /** `package` as evidently intended: the `calculationset` property is included when there are calculations. */
  function PackageOf(t: ToRios): (r: Result<Package, string>)
    ensures View(t.instrument).Ok? && View(t.form).Ok? && CalculationsetView(t.calculationset).Ok? ==> r.Ok?
    ensures r.Ok? ==> (r.value.calculationset.Some? <==> HasCalculations(t.calculationset))
    ensures r.Ok? && r.value.calculationset.Some? ==> Ok(r.value.calculationset.value) == View(t.calculationset)
    ensures r.Ok? ==> Ok(r.value.instrument) == View(t.instrument) && Ok(r.value.form) == View(t.form)
    ensures r.Ok? ==> r.value.logs == LogsOf(t.log)
  {
    var instrument := View(t.instrument);
    var form := View(t.form);
    var cs := CalculationsetView(t.calculationset);
    if instrument.Err? then Err(instrument.error)
    else if form.Err? then Err(form.error)
    else if !HasCalculations(t.calculationset) then Ok(Package(instrument.value, form.value, None, LogsOf(t.log)))
    else if cs.Err? then Err(cs.error)
    else Ok(Package(instrument.value, form.value, Some(cs.value), LogsOf(t.log)))
  }

  /** Without calculations the two agree; with one, the written package fails and the intended one carries it. */
  lemma PackageWithCalculation(t: ToRios, calculation: Spec)
    requires View(t.instrument).Ok? && View(t.form).Ok?
    requires AddCalculation(t, calculation).Ok?
    ensures !HasCalculations(t.calculationset) ==> PackageAsWritten(t) == PackageOf(t)
    ensures PackageAsWritten(AddCalculation(t, calculation).value).Err?
    ensures PackageOf(AddCalculation(t, calculation).value).Ok? ==> PackageOf(AddCalculation(t, calculation).value).value.calculationset.Some?
  {
  }

  // ---------------------------------------------------------------------
  // FromRios

  /** `get_local_text(localization, obj)`: the text for the localization, or `''`. */
  function GetLocalText(localization: string, obj: Spec): (r: Value)
    ensures Lookup(obj, localization).Some? ==> r == Lookup(obj, localization).value
    ensures Lookup(obj, localization).None? ==> r == VStr("")
  {
    var v := Lookup(obj, localization);
    if v.Some? then v.value else VStr("")
  }

  /** A localized string reads back in its own localization, and as `''` in any other. */
  lemma LocalTextRoundTrip(localization: string, other: string, text: string)
    requires other != localization
    ensures GetLocalText(localization, LocalizedString(localization, text)) == VStr(text)
    ensures GetLocalText(other, LocalizedString(localization, text)) == VStr("")
  {
    assert other !in Keys(LocalizedString(localization, text));
  }

  /** A record entry's `id`, when the entry is a mapping with a hashable id. */
  function FieldId(f: Value): (r: Result<Value, string>)
    ensures r.Ok? ==> f.VSpec? && Lookup(f.spec, "id") == Some(r.value) && !r.value.VList? && !r.value.VSpec?
  {
    if !f.VSpec? then Err("TypeError: indices must be integers")
    else
      match Lookup(f.spec, "id")
      case None => Err("KeyError: 'id'")
      case Some(id) => if id.VList? || id.VSpec? then Err("TypeError: unhashable type") else Ok(id)
  }

  /** `{f['id']: f for f in record}`: each field under its id, a later field replacing an earlier one. */
  function FieldsMap(record: seq<Value>): (r: Result<map<Value, Spec>, string>)
    ensures r.Ok? <==> forall j :: 0 <= j < |record| ==> FieldId(record[j]).Ok?
    decreases |record|
  {
    if |record| == 0 then Ok(map[])
    else
      var init := FieldsMap(record[..|record| - 1]);
      var last := record[|record| - 1];
      var id := FieldId(last);
      if init.Err? then init
      else if id.Err? then Err(id.error)
      else Ok(init.value[id.value := last.spec])
  }

  /** The map's keys are exactly the records' ids. */
  lemma {:induction false} FieldsDomain(record: seq<Value>, id: Value)
    requires FieldsMap(record).Ok?
    ensures id in FieldsMap(record).value <==> exists j :: 0 <= j < |record| && FieldId(record[j]) == Ok(id)
    decreases |record|
  {
    hide FieldId, Lookup;
    if |record| > 0 {
      var n := |record| - 1;
      var prefix := record[..n];
      FieldsSnoc(record);
      FieldsDomain(prefix, id);
      assert forall j :: 0 <= j < n ==> prefix[j] == record[j];
      if exists j :: 0 <= j < |record| && FieldId(record[j]) == Ok(id) {
        var j :| 0 <= j < |record| && FieldId(record[j]) == Ok(id);
        if j < n {
          assert prefix[j] == record[j];
        }
      }
    }
  }

  /** The map of a record is its prefix's map with the last field set. */
  lemma FieldsSnoc(record: seq<Value>)
    requires FieldsMap(record).Ok? && |record| > 0
    ensures FieldsMap(record[..|record| - 1]).Ok? && FieldId(record[|record| - 1]).Ok?
    ensures FieldsMap(record).value == FieldsMap(record[..|record| - 1]).value[FieldId(record[|record| - 1]).value := record[|record| - 1].spec]
  {
    hide FieldId, Lookup;
    var n := |record| - 1;
    var init, id := FieldsMap(record[..n]), FieldId(record[n]);
    assert init.Ok? && id.Ok?;
    assert FieldsMap(record) == Ok(init.value[id.value := record[n].spec]);
  }

  /** Under each id is the last field with that id. */
  lemma {:induction false} FieldsLastWins(record: seq<Value>, j: nat)
    requires FieldsMap(record).Ok? && j < |record|
    requires forall t :: j < t < |record| ==> FieldId(record[t]) != FieldId(record[j])
    ensures FieldId(record[j]).value in FieldsMap(record).value
    ensures FieldsMap(record).value[FieldId(record[j]).value] == record[j].spec
    decreases |record|
  {
    hide FieldId, Lookup;
    var n := |record| - 1;
    var prefix := record[..n];
    FieldsSnoc(record);
    if j < n {
      assert prefix[j] == record[j];
      assert forall t :: j < t < |prefix| ==> prefix[t] == record[t];
      FieldsLastWins(prefix, j);
    }
  }

  datatype FromRios = FromRios(
    localization: string,
    form: Spec,
    instrument: Spec,
    calculationset: Spec,
    fields: map<Value, Spec>,
    definition: seq<Value>,
    log: Log)

  /**
   * `FromRios.__init__`: the localization defaulted, a missing or empty
   * calculation set made `{}`, and the fields of the instrument's record
   * mapped by id. The record is iterated as Python iterates it: a list
   * gives its entries, a string its characters and a mapping its keys (so
   * an empty string or mapping gives no fields, and a non-empty one fails
   * at its first entry), and a number, boolean or None is not iterable.
   */
  function NewFromRios(form: Spec, instrument: Spec, calculationset: Option<Spec>, localization: Option<string>): (r: Result<FromRios, string>)
    ensures r.Ok? ==> r.value.localization == OrDefault(localization, DefaultLocalization)
    ensures r.Ok? ==> r.value.calculationset == if calculationset.Some? && calculationset.value.entries != [] then calculationset.value else EmptyDict
    ensures r.Ok? ==> r.value.definition == [] && !Check(r.value.log)
    ensures r.Ok? <==> Lookup(instrument, "record").Some? && Iterate(Lookup(instrument, "record").value).Ok? && FieldsMap(Iterate(Lookup(instrument, "record").value).value).Ok?
    ensures r.Ok? ==> r.value.fields == FieldsMap(Iterate(Lookup(instrument, "record").value).value).value
  {
    var loc := OrDefault(localization, DefaultLocalization);
    var cs := if calculationset.Some? && calculationset.value.entries != [] then calculationset.value else EmptyDict;
    match Lookup(instrument, "record")
    case None => Err("KeyError: 'record'")
    case Some(rec) =>
      var entries := Iterate(rec);
      if entries.Err? then Err(ExcDetail(entries.error))
      else
        var fields := FieldsMap(entries.value);
        if fields.Err? then Err(fields.error)
        else Ok(FromRios(loc, form, instrument, cs, fields.value, [], EmptyLog))
  }

  /**
   * An empty string or mapping as the record gives no fields, while a
   * non-empty string fails: its characters are not mappings.
   */
  lemma RecordIteration(form: Spec, instrument: Spec, calculationset: Option<Spec>, localization: Option<string>)
    ensures Lookup(instrument, "record") in {Some(VStr("")), Some(VSpec(Spec("dict", [])))} ==>
      NewFromRios(form, instrument, calculationset, localization).Ok? && NewFromRios(form, instrument, calculationset, localization).value.fields == map[]
    ensures Lookup(instrument, "record").Some? && Lookup(instrument, "record").value.VStr? && Lookup(instrument, "record").value.s != [] ==>
      NewFromRios(form, instrument, calculationset, localization).Err?
  {
    var rec := Lookup(instrument, "record");
    if rec.Some? && rec.value.VStr? && rec.value.s != [] {
      var items := Iterate(rec.value).value;
      assert !FieldId(items[0]).Ok?;
    }
  }

  /** What FromRios's `package` returns: the foreign instrument's lines, and the log lines when there are any. */
  datatype LinesPackage = LinesPackage(instrument: seq<Value>, logs: Option<seq<string>>)

  function FromRiosPackage(f: FromRios): (r: LinesPackage)
    ensures r.instrument == f.definition
    ensures r.logs.Some? <==> Check(f.log)
  {
    LinesPackage(f.definition, LogsOf(f.log))
  }
}

=== FILE: datediff.dfy ===
/**
 * The REDCap `datediff` function: two dates written as dash-separated
 * numbers in the order a format string gives (`ymd` by default, or
 * `mdy`), subtracted as proleptic Gregorian datetimes, and the difference
 * expressed in years, months, days, hours, minutes or seconds, rounded
 * down as Python 2 integer division does.
 *
 * The current time used for the date `today` is a parameter.
 */
module DateDiff {
  import opened Wrappers
  import opened Text

  /** The exceptions datediff can raise. */
  datatype DateError = KeyError | ValueError | TypeError

  // ---------------------------------------------------------------------
  // The Gregorian calendar

  predicate IsLeap(y: int) { y % 4 == 0 && (y % 100 != 0 || y % 400 == 0) }

  function DaysInMonth(y: int, m: int): (n: int)
    requires 1 <= m <= 12
    ensures 28 <= n <= 31
    ensures m == 2 ==> (n == 29 <==> IsLeap(y))
  {
    if m == 2 then (if IsLeap(y) then 29 else 28)
    else if m == 4 || m == 6 || m == 9 || m == 11 then 30
    else 31
  }

  /** The days of the months before month `m` of year `y`. */
  function DaysBeforeMonth(y: int, m: int): (n: int)
    requires 1 <= m <= 13
    ensures n == [0, 31, 59, 90, 120, 151, 181, 212, 243, 273, 304, 334, 365][m - 1] + (if m > 2 && IsLeap(y) then 1 else 0)
    ensures m == 13 ==> n == (if IsLeap(y) then 366 else 365)
    decreases m
  {
    if m == 1 then 0 else DaysBeforeMonth(y, m - 1) + DaysInMonth(y, m - 1)
  }

  /** The days of the years before year `y`, counted from 1 January of year 1. */
  function DaysBeforeYear(y: int): int
  {
    var p := y - 1;
    365 * p + p / 4 - p / 100 + p / 400
  }

  /** `date.toordinal()`: 1 January of year 1 is day 1. */
  function Ordinal(y: int, m: int, d: int): int
    requires 1 <= m <= 12
  {
    DaysBeforeYear(y) + DaysBeforeMonth(y, m) + d
  }

  predicate ValidDate(y: int, m: int, d: int)
  {
    1 <= y <= 9999 && 1 <= m <= 12 && 1 <= d <= DaysInMonth(y, m)
  }

  /** The first of a month is one month's length after the first of the month before. */
  lemma MonthStep(y: int, m: int)
    requires 1 <= m < 12
    ensures Ordinal(y, m + 1, 1) - Ordinal(y, m, 1) == DaysInMonth(y, m)
  {
  }

  /** A year has 366 days when it is a leap year and 365 otherwise. */
  lemma YearLength(y: int)
    ensures DaysBeforeYear(y + 1) - DaysBeforeYear(y) == if IsLeap(y) then 366 else 365
  {
    hide *;
    DaysBeforeYearStep(y);
    QuotientStep(y, 4);
    QuotientStep(y, 100);
    QuotientStep(y, 400);
    LeapByDivisors(y);
  }

  /** Consecutive year offsets differ by 365 plus the change in each of the three quotients. */
  lemma DaysBeforeYearStep(y: int)
    ensures DaysBeforeYear(y + 1) - DaysBeforeYear(y)
         == 365 + (y / 4 - (y - 1) / 4) - (y / 100 - (y - 1) / 100) + (y / 400 - (y - 1) / 400)
  {
  }

  /** The leap-year rule as a sum of three divisibility indicators. */
  lemma LeapByDivisors(y: int)
    ensures (if IsLeap(y) then 366 else 365)
         == 365 + (if y % 4 == 0 then 1 else 0) - (if y % 100 == 0 then 1 else 0) + (if y % 400 == 0 then 1 else 0)
  {
    if y % 400 == 0 {
      MultipleDivides(y, 4, 100);
    }
    if y % 100 == 0 {
      MultipleDivides(y, 25, 4);
    }
  }

  /** A multiple of `m * k` is a multiple of `k`. */
  lemma MultipleDivides(y: int, m: int, k: int)
    requires (m == 4 && k == 100) || (m == 25 && k == 4)
    requires y % (m * k) == 0
    ensures y % k == 0
  {
    var q := y / (m * k);
    assert y == (m * k) * q;
    assert y == k * (m * q);
  }

  /** Going from `y - 1` to `y`, the quotient by `k` grows exactly when `k` divides `y`. */
  lemma QuotientStep(y: int, k: int)
    requires k == 4 || k == 100 || k == 400
    ensures y / k == (y - 1) / k + (if y % k == 0 then 1 else 0)
  {
    if k == 4 {
      assert y / 4 == (y - 1) / 4 + (if y % 4 == 0 then 1 else 0);
    } else if k == 100 {
      assert y / 100 == (y - 1) / 100 + (if y % 100 == 0 then 1 else 0);
    } else {
      assert y / 400 == (y - 1) / 400 + (if y % 400 == 0 then 1 else 0);
    }
  }

  /** The first of January is 31 days after the first of December. */
  lemma YearStep(y: int)
    ensures Ordinal(y + 1, 1, 1) - Ordinal(y, 12, 1) == 31
  {
    YearLength(y);
    assert DaysBeforeMonth(y, 12) == if IsLeap(y) then 335 else 334;
  }

  // ---------------------------------------------------------------------
  // Parsing a date

  /** `int(s)`: optional surrounding blanks, an optional sign, then decimal digits. */
  function ParseInt(s: string): (r: Option<int>)
    ensures r.Some? && AllDigits(s) ==> r.value >= 0
  {
    var t := Strip(s);
    if |t| > 0 && (t[0] == '+' || t[0] == '-') then
      (if |t| > 1 && AllDigits(t[1..]) then Some(Signed(t[0] == '-', DecimalValue(t[1..]))) else None)
    else if |t| > 0 && AllDigits(t) then Some(DecimalValue(t))
    else None
  }

  function Signed(negative: bool, n: nat): (r: int)
    ensures r == if negative then 0 - n else n
  {
    if negative then 0 - n else n
  }

  /** A plain string of digits parses to its decimal value. */
  lemma ParseDigits(s: string)
    requires |s| > 0 && AllDigits(s)
    ensures ParseInt(s) == Some(DecimalValue(s))
  {
    assert !IsSpace(s[0]) && !IsSpace(s[|s| - 1]);
    StripKeepsTrimmed(s);
    assert s[0] != '+' && s[0] != '-';
  }

  datatype Part = Year | Month | Day

  /** The format letters as datetime keywords; any other letter is a KeyError. */
  function FormatParts(fmt: string): (r: Result<seq<Part>, DateError>)
    ensures r.Ok? ==> |r.value| == |fmt|
    ensures r.Ok? <==> forall k :: 0 <= k < |fmt| ==> fmt[k] in "ymd"
    ensures r.Err? ==> r.error == KeyError
  {
    if |fmt| == 0 then Ok([])
    else
      var rest := FormatParts(fmt[1..]);
      var p := if fmt[0] == 'y' then Some(Year) else if fmt[0] == 'm' then Some(Month) else if fmt[0] == 'd' then Some(Day) else None;
      if p.None? then Err(KeyError)
      else if rest.Err? then rest
      else Ok([p.value] + rest.value)
  }

  /** `map(int, date.split('-'))`: a piece that is not an integer is a ValueError. */
  function Numbers(pieces: seq<string>): (r: Result<seq<int>, DateError>)
    ensures r.Ok? ==> |r.value| == |pieces|
    ensures r.Err? ==> r.error == ValueError
  {
    if |pieces| == 0 then Ok([])
    else
      var n := ParseInt(pieces[0]);
      var rest := Numbers(pieces[1..]);
      if n.None? then Err(ValueError)
      else if rest.Err? then rest
      else Ok([n.value] + rest.value)
  }

  /** The pieces convert exactly when every one is an integer, and each converts to its own value. */
  lemma {:induction false} NumbersParse(pieces: seq<string>)
    ensures Numbers(pieces).Ok? <==> forall k :: 0 <= k < |pieces| ==> ParseInt(pieces[k]).Some?
    ensures Numbers(pieces).Ok? ==> forall k :: 0 <= k < |pieces| ==> ParseInt(pieces[k]) == Some(Numbers(pieces).value[k])
    decreases |pieces|
  {
    hide ParseInt;
    if |pieces| > 0 {
      NumbersParse(pieces[1..]);
      assert forall k :: 1 <= k < |pieces| ==> pieces[k] == pieces[1..][k - 1];
    }
  }

  /**
   * `dict(zip(parts, numbers))`: pairs up to the shorter list; a part
   * named twice takes its last number. None for a part never named.
   */
  function Assigned(parts: seq<Part>, nums: seq<int>, p: Part): (r: Option<int>)
    ensures r.Some? <==> exists k :: 0 <= k < |parts| && k < |nums| && parts[k] == p
    decreases |parts|
  {
    if |parts| == 0 || |nums| == 0 then None
    else
      var later := Assigned(parts[1..], nums[1..], p);
      if later.Some? then later
      else if parts[0] == p then Some(nums[0])
      else None
  }

  /**
   * `_datetime(date)`: the date's day number, or the error Python raises:
   * KeyError for a bad format letter, ValueError for a piece that is not
   * an integer or a date outside the calendar, TypeError for a part the
   * format leaves out.
   */
  function ParseDate(date: string, fmt: string): (r: Result<int, DateError>)
    ensures FormatParts(fmt).Err? ==> r == Err(KeyError)
    ensures FormatParts(fmt).Ok? && Numbers(Split(date, '-')).Err? ==> r == Err(ValueError)
  {
    var parts := FormatParts(fmt);
    if parts.Err? then Err(KeyError)
    else
      var nums := Numbers(Split(date, '-'));
      if nums.Err? then Err(ValueError)
      else
        var y := Assigned(parts.value, nums.value, Year);
        var m := Assigned(parts.value, nums.value, Month);
        var d := Assigned(parts.value, nums.value, Day);
        if y.None? || m.None? || d.None? then Err(TypeError)
        else if !ValidDate(y.value, m.value, d.value) then Err(ValueError)
        else Ok(Ordinal(y.value, m.value, d.value))
  }

  // ---------------------------------------------------------------------
  // The difference

  /** A point in time: a day number and the time of day in seconds and microseconds. */
  datatype Moment = Moment(day: int, second: int, micro: int)

  predicate ValidMoment(t: Moment) { 0 <= t.second < 86400 && 0 <= t.micro < 1000000 }

  const MicrosPerDay := 86400 * 1000000

  /** `(a - b).days` and `(a - b).seconds`: the day count rounds down; the seconds are the rest. */
  datatype Delta = Delta(days: int, seconds: int)

  function Difference(a: Moment, b: Moment): (r: Delta)
    ensures 0 <= r.seconds < 86400
    ensures ValidMoment(a) && ValidMoment(b) ==>
      r.days * 86400 + r.seconds == (a.day - b.day) * 86400 + (a.second - b.second) - (if a.micro < b.micro then 1 else 0)
  {
    var whole := (a.day - b.day) * 86400 + (a.second - b.second);
    var total := whole * 1000000 + (a.micro - b.micro);
    DaysAndSeconds(total);
    if ValidMoment(a) && ValidMoment(b) then
      WholeSeconds(whole, a.micro - b.micro);
      Delta(total / MicrosPerDay, (total % MicrosPerDay) / 1000000)
    else
      Delta(total / MicrosPerDay, (total % MicrosPerDay) / 1000000)
  }

  /** Division with a positive divisor has exactly one quotient and remainder. */
  lemma DivUnique(t: int, k: int, q: int, r: int)
    requires k > 0 && 0 <= r < k && t == q * k + r
    ensures t / k == q && t % k == r
  {
    var q', r' := t / k, t % k;
    assert (q - q') * k == r' - r;
    if q > q' {
      MulAtLeast(q - q', k);
    } else if q < q' {
      MulAtLeast(q' - q, k);
    }
  }

  lemma MulAtLeast(d: int, k: int)
    requires d >= 1 && k > 0
    ensures d * k >= k
  {
  }

  /** Days and the seconds left over make up the whole seconds of a microsecond count. */
  lemma DaysAndSeconds(t: int)
    ensures (t / MicrosPerDay) * 86400 + (t % MicrosPerDay) / 1000000 == t / 1000000
  {
    var q := t / MicrosPerDay;
    var rest := t % MicrosPerDay;
    var s := rest / 1000000;
    var u := rest % 1000000;
    assert t == (q * 86400 + s) * 1000000 + u;
    DivUnique(t, 1000000, q * 86400 + s, u);
  }

  /** Whole seconds of `w` seconds and `m` microseconds, `m` less than a second either way. */
  lemma WholeSeconds(w: int, m: int)
    requires -1000000 < m < 1000000
    ensures (w * 1000000 + m) / 1000000 == w - (if m < 0 then 1 else 0)
  {
    if m < 0 {
      DivUnique(w * 1000000 + m, 1000000, w - 1, m + 1000000);
    } else {
      DivUnique(w * 1000000 + m, 1000000, w, m);
    }
  }

  /** Two dates at midnight are whole days apart. */
  lemma DifferenceOfDates(a: int, b: int)
    ensures Difference(Moment(a, 0, 0), Moment(b, 0, 0)) == Delta(a - b, 0)
  {
    var total := (a - b) * MicrosPerDay;
    assert total == ((a - b) * 86400 + 0) * 1000000 + 0;
    assert total / MicrosPerDay == a - b;
    assert total % MicrosPerDay == 0;
  }

  /**
   * `_timedelta`: the difference in the requested unit, each quotient
   * rounded down (Python 2 `/` on integers); an unknown unit is a
   * ValueError.
   */
  function InUnits(delta: Delta, units: string): (r: Result<int, DateError>)
    ensures r.Err? <==> units !in ["y", "M", "d", "h", "m", "s"]
    ensures r.Err? ==> r.error == ValueError
    ensures units == "d" ==> r == Ok(delta.days)
    ensures units == "y" ==> r.value * 365 <= delta.days < (r.value + 1) * 365
    ensures units == "M" ==> r.value * 30 <= delta.days < (r.value + 1) * 30
    ensures units == "s" ==> r == Ok(delta.days * 86400 + delta.seconds)
    ensures units == "h" ==> r.value * 3600 <= delta.days * 86400 + delta.seconds < (r.value + 1) * 3600
    ensures units == "m" ==> r.value * 60 <= delta.days * 86400 + delta.seconds < (r.value + 1) * 60
  {
    if units == "y" then Ok(delta.days / 365)
    else if units == "M" then Ok(delta.days / 30)
    else if units == "d" then Ok(delta.days)
    else
      var seconds := delta.days * 24 * 3600 + delta.seconds;
      if units == "h" then Ok(seconds / 3600)
      else if units == "m" then Ok(seconds / 60)
      else if units == "s" then Ok(seconds)
      else Err(ValueError)
  }

  /** A date operand: the literal `today` stands for the current time. */
  function Operand(date: string, fmt: string, now: Moment): (r: Result<Moment, DateError>)
    ensures date == "today" ==> r == Ok(now)
    ensures date != "today" ==> (r.Ok? <==> ParseDate(date, fmt).Ok?)
    ensures date != "today" && r.Ok? ==> r.value == Moment(ParseDate(date, fmt).value, 0, 0)
  {
    if date == "today" then Ok(now)
    else
      var d := ParseDate(date, fmt);
      if d.Err? then Err(d.error) else Ok(Moment(d.value, 0, 0))
  }

  /**
   * datediff(date1, date2, units, date_fmt): date1 minus date2 in the
   * given unit. The first date is parsed first, then the second, and
   * only then is the unit looked at.
   */
  function Datediff(date1: string, date2: string, units: string, fmt: string, now: Moment): (r: Result<int, DateError>)
    requires ValidMoment(now)
    ensures Operand(date1, fmt, now).Err? ==> r == Err(Operand(date1, fmt, now).error)
    ensures Operand(date1, fmt, now).Ok? && Operand(date2, fmt, now).Err? ==> r == Err(Operand(date2, fmt, now).error)
    ensures Operand(date1, fmt, now).Ok? && Operand(date2, fmt, now).Ok? ==>
      r == InUnits(Difference(Operand(date1, fmt, now).value, Operand(date2, fmt, now).value), units)
  {
    var a := Operand(date1, fmt, now);
    if a.Err? then Err(a.error)
    else
      var b := Operand(date2, fmt, now);
      if b.Err? then Err(b.error)
      else InUnits(Difference(a.value, b.value), units)
  }

  /** Two dates (no `today`) are the difference of their day numbers, in any unit. */
  lemma DatesDelta(date1: string, date2: string, units: string, fmt: string, now: Moment)
    requires ValidMoment(now) && date1 != "today" && date2 != "today"
    requires ParseDate(date1, fmt).Ok? && ParseDate(date2, fmt).Ok?
    ensures Datediff(date1, date2, units, fmt, now) == InUnits(Delta(ParseDate(date1, fmt).value - ParseDate(date2, fmt).value, 0), units)
  {
    hide *;
    var a, b := ParseDate(date1, fmt).value, ParseDate(date2, fmt).value;
    DatesAsMoments(date1, date2, units, fmt, now);
    DifferenceOfDates(a, b);
  }

  lemma DatesAsMoments(date1: string, date2: string, units: string, fmt: string, now: Moment)
    requires ValidMoment(now) && date1 != "today" && date2 != "today"
    requires ParseDate(date1, fmt).Ok? && ParseDate(date2, fmt).Ok?
    ensures Datediff(date1, date2, units, fmt, now)
         == InUnits(Difference(Moment(ParseDate(date1, fmt).value, 0, 0), Moment(ParseDate(date2, fmt).value, 0, 0)), units)
  {
    var a, b := ParseDate(date1, fmt).value, ParseDate(date2, fmt).value;
    assert Operand(date1, fmt, now) == Ok(Moment(a, 0, 0));
    assert Operand(date2, fmt, now) == Ok(Moment(b, 0, 0));
    hide *;
  }

  /** A whole number of days in the finer units. */
  lemma WholeDays(n: int)
    ensures InUnits(Delta(n, 0), "d") == Ok(n)
    ensures InUnits(Delta(n, 0), "h") == Ok(24 * n)
    ensures InUnits(Delta(n, 0), "m") == Ok(1440 * n)
    ensures InUnits(Delta(n, 0), "s") == Ok(86400 * n)
  {
    assert (n * 24 * 3600 + 0) / 3600 == 24 * n;
    assert (n * 24 * 3600 + 0) / 60 == 1440 * n;
  }

  /** Between two dates (no `today`), the finer units are exact multiples of the day count. */
  lemma DatesInFinerUnits(date1: string, date2: string, fmt: string, now: Moment)
    requires ValidMoment(now) && date1 != "today" && date2 != "today"
    requires ParseDate(date1, fmt).Ok? && ParseDate(date2, fmt).Ok?
    ensures Datediff(date1, date2, "d", fmt, now) == Ok(ParseDate(date1, fmt).value - ParseDate(date2, fmt).value)
    ensures Datediff(date1, date2, "h", fmt, now) == Ok(24 * (ParseDate(date1, fmt).value - ParseDate(date2, fmt).value))
    ensures Datediff(date1, date2, "m", fmt, now) == Ok(1440 * (ParseDate(date1, fmt).value - ParseDate(date2, fmt).value))
    ensures Datediff(date1, date2, "s", fmt, now) == Ok(86400 * (ParseDate(date1, fmt).value - ParseDate(date2, fmt).value))
  {
    hide *;
    DatesDelta(date1, date2, "d", fmt, now);
    DatesDelta(date1, date2, "h", fmt, now);
    DatesDelta(date1, date2, "m", fmt, now);
    DatesDelta(date1, date2, "s", fmt, now);
    WholeDays(ParseDate(date1, fmt).value - ParseDate(date2, fmt).value);
  }

  /** Swapping two dates negates the day count. */
  lemma DatesAntisymmetric(date1: string, date2: string, fmt: string, now: Moment)
    requires ValidMoment(now) && date1 != "today" && date2 != "today"
    requires ParseDate(date1, fmt).Ok? && ParseDate(date2, fmt).Ok?
    ensures Datediff(date1, date2, "d", fmt, now) == Ok(0 - Datediff(date2, date1, "d", fmt, now).value)
  {
    hide *;
    DatesDelta(date1, date2, "d", fmt, now);
    DatesDelta(date2, date1, "d", fmt, now);
    WholeDays(ParseDate(date1, fmt).value - ParseDate(date2, fmt).value);
    WholeDays(ParseDate(date2, fmt).value - ParseDate(date1, fmt).value);
  }

  /** With valid dates, a unit outside y, M, d, h, m, s is a ValueError. */
  lemma UnknownUnit(date1: string, date2: string, units: string, fmt: string, now: Moment)
    requires ValidMoment(now) && Operand(date1, fmt, now).Ok? && Operand(date2, fmt, now).Ok?
    requires units !in ["y", "M", "d", "h", "m", "s"]
    ensures Datediff(date1, date2, units, fmt, now) == Err(ValueError)
  {
  }

  // ---------------------------------------------------------------------
  // Dates written with zero-padded numbers

  /** A zero-padded number parses back to the number. */
  lemma ParseZeroPad(n: nat, width: nat)
    ensures ParseInt(ZeroPad(n, width)) == Some(n)
  {
    ZeroPadValue(n, width);
    ParseDigits(ZeroPad(n, width));
  }

  /** `'%02d-%02d-%04d' % (m, d, y)`: a date in month-day-year order. */
  function MdyText(m: nat, d: nat, y: nat): string
  {
    ZeroPad(m, 2) + "-" + ZeroPad(d, 2) + "-" + ZeroPad(y, 4)
  }

  /** Three dash-free pieces joined by dashes split back into the pieces. */
  lemma SplitThree(a: string, b: string, c: string)
    requires '-' !in a && '-' !in b && '-' !in c
    ensures Split(a + "-" + b + "-" + c, '-') == [a, b, c]
  {
    SplitPrefix(a, '-', b + "-" + c);
    SplitPrefix(b, '-', c);
    SplitWithoutSeparator(c, '-');
    assert a + "-" + b + "-" + c == a + ['-'] + (b + ['-'] + c);
  }

  lemma NumbersThree(a: string, b: string, c: string, x: int, y: int, z: int)
    requires ParseInt(a) == Some(x) && ParseInt(b) == Some(y) && ParseInt(c) == Some(z)
    ensures Numbers([a, b, c]) == Ok([x, y, z])
  {
    hide ParseInt;
    assert [a, b, c][1..] == [b, c];
    assert [b, c][1..] == [c];
    assert [c][1..] == [];
    assert Numbers([]) == Ok([]);
    assert [z] + [] == [z] && [y] + [z] == [y, z] && [x] + [y, z] == [x, y, z];
    assert Numbers([c]) == Ok([z] + []);
    assert Numbers([c]) == Ok([z]);
    assert Numbers([b, c]) == Ok([y] + [z]);
    assert Numbers([b, c]) == Ok([y, z]);
    assert Numbers([a, b, c]) == Ok([x] + [y, z]);
  }

  /** Format `mdy` names the month, the day and the year, in that order. */
  lemma MdyParts(m: int, d: int, y: int)
    ensures FormatParts("mdy") == Ok([Month, Day, Year])
    ensures Assigned([Month, Day, Year], [m, d, y], Year) == Some(y)
    ensures Assigned([Month, Day, Year], [m, d, y], Month) == Some(m)
    ensures Assigned([Month, Day, Year], [m, d, y], Day) == Some(d)
  {
    assert "mdy"[1..] == "dy" && "dy"[1..] == "y" && "y"[1..] == "";
    assert [Year] + [] == [Year] && [Day] + [Year] == [Day, Year] && [Month] + [Day, Year] == [Month, Day, Year];
    assert FormatParts("") == Ok([]);
    assert FormatParts("y") == Ok([Year] + []);
    assert FormatParts("y") == Ok([Year]);
    assert FormatParts("dy") == Ok([Day] + [Year]);
    assert FormatParts("dy") == Ok([Day, Year]);
    assert FormatParts("mdy") == Ok([Month] + [Day, Year]);
    var ps, ns := [Month, Day, Year], [m, d, y];
    assert ps[1..] == [Day, Year] && ps[1..][1..] == [Year] && ps[1..][1..][1..] == [];
    assert ns[1..] == [d, y] && ns[1..][1..] == [y] && ns[1..][1..][1..] == [];
    assert Assigned([Year], [y], Year) == Some(y);
    assert Assigned([Year], [y], Month) == None;
    assert Assigned([Year], [y], Day) == None;
    assert Assigned([Day, Year], [d, y], Day) == Some(d);
    assert Assigned([Day, Year], [d, y], Month) == None;
  }

  /** A date written month-day-year parses, with format `mdy`, to its day number. */
  lemma ParseMdy(m: nat, d: nat, y: nat)
    requires ValidDate(y, m, d)
    ensures ParseDate(MdyText(m, d, y), "mdy") == Ok(Ordinal(y, m, d))
  {
    var pm, pd, py := ZeroPad(m, 2), ZeroPad(d, 2), ZeroPad(y, 4);
    assert '-' !in pm && '-' !in pd && '-' !in py by {
      assert AllDigits(pm) && AllDigits(pd) && AllDigits(py);
    }
    SplitThree(pm, pd, py);
    ParseZeroPad(m, 2);
    ParseZeroPad(d, 2);
    ParseZeroPad(y, 4);
    NumbersThree(pm, pd, py, m, d, y);
    MdyParts(m, d, y);
    assert Numbers(Split(MdyText(m, d, y), '-')) == Ok([m as int, d as int, y as int]);
  }

  /**
   * The month lengths the date tests list: the difference in days
   * between the firsts of consecutive months, written `mm-01-yyyy`, is
   * that month's length, February having 29 days in 2000 and 28 in 2001.
   */
  lemma ConsecutiveMonths(y: nat, m: nat, now: Moment)
    requires 1 <= y < 9999 && 1 <= m <= 12 && ValidMoment(now)
    ensures m < 12 ==> Datediff(MdyText(m + 1, 1, y), MdyText(m, 1, y), "d", "mdy", now) == Ok(DaysInMonth(y, m))
    ensures m == 12 ==> Datediff(MdyText(1, 1, y + 1), MdyText(m, 1, y), "d", "mdy", now) == Ok(31)
  {
    if m < 12 {
      NextMonthWithinYear(y, m, now);
    } else {
      NextMonthNewYear(y, now);
    }
  }

  /** Two dates written month-day-year are, in days, as far apart as their day numbers. */
  lemma MdyApart(m1: nat, d1: nat, y1: nat, m2: nat, d2: nat, y2: nat, now: Moment)
    requires ValidDate(y1, m1, d1) && ValidDate(y2, m2, d2) && ValidMoment(now)
    ensures Datediff(MdyText(m1, d1, y1), MdyText(m2, d2, y2), "d", "mdy", now) == Ok(Ordinal(y1, m1, d1) - Ordinal(y2, m2, d2))
  {
    ParseMdy(m1, d1, y1);
    ParseMdy(m2, d2, y2);
    assert |MdyText(m1, d1, y1)| >= 10 && |MdyText(m2, d2, y2)| >= 10;
    hide *;
    DatesDelta(MdyText(m1, d1, y1), MdyText(m2, d2, y2), "d", "mdy", now);
    WholeDays(Ordinal(y1, m1, d1) - Ordinal(y2, m2, d2));
  }

  /** The first of every month of a year in range is a valid date. */
  lemma FirstIsValid(y: int, m: int)
    requires 1 <= y <= 9999 && 1 <= m <= 12
    ensures ValidDate(y, m, 1)
  {
  }

  /** The step from the first of month `m` to the first of month `m + 1` of the same year. */
  lemma NextMonthWithinYear(y: nat, m: nat, now: Moment)
    requires 1 <= y < 9999 && 1 <= m < 12 && ValidMoment(now)
    ensures Datediff(MdyText(m + 1, 1, y), MdyText(m, 1, y), "d", "mdy", now) == Ok(DaysInMonth(y, m))
  {
    hide *;
    FirstIsValid(y, m);
    FirstIsValid(y, m + 1);
    MdyApart(m + 1, 1, y, m, 1, y, now);
    MonthStep(y, m);
  }

  /** The step from the first of December to the first of January of the next year. */
  lemma NextMonthNewYear(y: nat, now: Moment)
    requires 1 <= y < 9999 && ValidMoment(now)
    ensures Datediff(MdyText(1, 1, y + 1), MdyText(12, 1, y), "d", "mdy", now) == Ok(31)
  {
    hide *;
    FirstIsValid(y, 12);
    FirstIsValid(y + 1, 1);
    MdyApart(1, 1, y + 1, 12, 1, y, now);
    YearStep(y);
  }

  /** The month lengths of 2000 (a leap year) and 2001. */
  lemma TestYears()
    ensures seq(12, i requires 0 <= i < 12 => DaysInMonth(2000, i + 1)) == [31, 29, 31, 30, 31, 30, 31, 31, 30, 31, 30, 31]
    ensures seq(12, i requires 0 <= i < 12 => DaysInMonth(2001, i + 1)) == [31, 28, 31, 30, 31, 30, 31, 31, 30, 31, 30, 31]
  {
    assert IsLeap(2000) && !IsLeap(2001);
  }
}

=== FILE: errors.dfy ===
/**
 * The conversion errors: a context trace of paragraphs, each a message
 * with an optional payload, rendered as text (`str`) or as the Python
 * expression that rebuilds it (`repr`), and the `guard` context manager
 * that adds a paragraph to an error leaving a `with` block.
 *
 * Messages and payloads are Python 2 byte strings: every character is
 * below 256.
 */
module Errors {
  import opened Wrappers
  import opened Text

  predicate IsByteString(s: string) { forall i :: 0 <= i < |s| ==> s[i] as int < 256 }

  // ---------------------------------------------------------------------
  // repr of a byte string

  /** repr quotes with `'`, or with `"` when the text holds `'` and no `"`. */
  function ReprQuote(s: string): (q: char)
    ensures q == '\'' || q == '"'
  {
    if '\'' in s && '"' !in s then '"' else '\''
  }

  function HexDigit(d: nat): (c: char)
    requires d < 16
  {
    if d < 10 then ('0' as int + d) as char else ('a' as int + d - 10) as char
  }

  predicate IsHexDigit(c: char) { IsDigit(c) || 'a' <= c <= 'f' }

  function HexValue(c: char): (d: nat)
    requires IsHexDigit(c)
    ensures d < 16 && HexDigit(d) == c
  {
    if IsDigit(c) then c as int - '0' as int else c as int - 'a' as int + 10
  }

  /** A character as repr writes it inside quotes `q`. */
  function EscapeChar(c: char, q: char): (r: string)
    requires c as int < 256
    ensures |r| >= 1
    ensures r[0] == '\\' <==> (c == q || c == '\\' || c < ' ' || c as int >= 0x7f)
    ensures r[0] != '\\' ==> r == [c]
  {
    if c == q || c == '\\' then ['\\', c]
    else if c == '\t' then "\\t"
    else if c == '\n' then "\\n"
    else if c == '\r' then "\\r"
    else if c < ' ' || c as int >= 0x7f then ['\\', 'x', HexDigit(c as int / 16), HexDigit(c as int % 16)]
    else [c]
  }

  function Escape(s: string, q: char): string
    requires IsByteString(s)
    decreases |s|
  {
    if |s| == 0 then "" else EscapeChar(s[0], q) + Escape(s[1..], q)
  }

  /** Python 2 `repr` of a byte string. */
  function Repr(s: string): (r: string)
    requires IsByteString(s)
    ensures |r| >= 2 && r[0] == r[|r| - 1] == ReprQuote(s)
  {
    [ReprQuote(s)] + Escape(s, ReprQuote(s)) + [ReprQuote(s)]
  }

  /** Reads the body of a repr back: the escapes repr writes, and a backslash before any other character. */
  function Unescape(t: string): (r: Option<string>)
    decreases |t|
  {
    if |t| == 0 then Some("")
    else
      var n: nat := if t[0] != '\\' then 1 else if |t| < 2 then 0 else if t[1] == 'x' && |t| >= 4 then 4 else 2;
      if n == 0 then None
      else
        var c :=
          if n == 1 then t[0]
          else if n == 4 && IsHexDigit(t[2]) && IsHexDigit(t[3]) then (16 * HexValue(t[2]) + HexValue(t[3])) as char
          else if t[1] == 't' then '\t' else if t[1] == 'n' then '\n' else if t[1] == 'r' then '\r'
          else t[1];
        var rest := Unescape(t[n..]);
        if n == 4 && !(IsHexDigit(t[2]) && IsHexDigit(t[3])) then None
        else if rest.None? then None
        else Some([c] + rest.value)
  }

  /** Reads a repr back: a quoted body. */
  function UnRepr(r: string): Option<string>
  {
    if |r| >= 2 && r[0] == r[|r| - 1] && (r[0] == '\'' || r[0] == '"') then Unescape(r[1..|r| - 1]) else None
  }

  lemma UnescapeChar(c: char, q: char, rest: string)
    requires c as int < 256 && (q == '\'' || q == '"')
    ensures Unescape(EscapeChar(c, q) + rest) ==
      (if Unescape(rest).None? then None else Some([c] + Unescape(rest).value))
  {
    if c == q || c == '\\' {
      UnescapePair(c, rest);
    } else if c == '\t' {
      UnescapePair('t', rest);
    } else if c == '\n' {
      UnescapePair('n', rest);
    } else if c == '\r' {
      UnescapePair('r', rest);
    } else if c < ' ' || c as int >= 0x7f {
      UnescapeHex(c, rest);
    } else {
      UnescapePlain(c, rest);
    }
  }

  /** A character other than a backslash reads back as itself. */
  lemma UnescapePlain(c: char, rest: string)
    requires c != '\\'
    ensures Unescape([c] + rest) == (if Unescape(rest).None? then None else Some([c] + Unescape(rest).value))
  {
    assert ([c] + rest)[1..] == rest;
  }

  /** A two-character escape reads back as the character it names. */
  lemma UnescapePair(x: char, rest: string)
    requires x != 'x'
    ensures var c := if x == 't' then '\t' else if x == 'n' then '\n' else if x == 'r' then '\r' else x;
      Unescape(['\\', x] + rest) == (if Unescape(rest).None? then None else Some([c] + Unescape(rest).value))
  {
    assert (['\\', x] + rest)[2..] == rest;
  }

  /** A `\\xhh` escape reads back as the byte it spells. */
  lemma UnescapeHex(c: char, rest: string)
    requires c as int < 256
    ensures Unescape(['\\', 'x', HexDigit(c as int / 16), HexDigit(c as int % 16)] + rest)
         == (if Unescape(rest).None? then None else Some([c] + Unescape(rest).value))
  {
    var t := ['\\', 'x', HexDigit(c as int / 16), HexDigit(c as int % 16)] + rest;
    assert t[4..] == rest;
    HexDigitRoundTrip(c as int / 16);
    HexDigitRoundTrip(c as int % 16);
  }

  /** Every digit `HexDigit` writes is a hex digit that reads back as its value. */
  lemma HexDigitRoundTrip(d: nat)
    requires d < 16
    ensures IsHexDigit(HexDigit(d)) && HexValue(HexDigit(d)) == d
  {
  }


  lemma {:induction false} UnescapeEscape(s: string, q: char)
    requires IsByteString(s) && (q == '\'' || q == '"')
    ensures Unescape(Escape(s, q)) == Some(s)
    decreases |s|
  {
    if |s| > 0 {
      UnescapeEscape(s[1..], q);
      UnescapeChar(s[0], q, Escape(s[1..], q));
      assert [s[0]] + s[1..] == s;
    }
  }

  /** repr loses nothing: the text reads back from it. */
  lemma ReprRoundTrip(s: string)
    requires IsByteString(s)
    ensures UnRepr(Repr(s)) == Some(s)
  {
    var q := ReprQuote(s);
    var r := Repr(s);
    assert r[1..|r| - 1] == Escape(s, q);
    UnescapeEscape(s, q);
  }

  // ---------------------------------------------------------------------
  // Lines

  predicate IsLineBreak(c: char) { c == '\n' || c == '\r' }

  /** The length of the first line of `s`: up to the first line break or the end. */
  function LineLength(s: string): (n: nat)
    ensures n <= |s| && (n == |s| || IsLineBreak(s[n]))
    ensures forall k :: 0 <= k < n ==> !IsLineBreak(s[k])
    decreases |s|
  {
    if |s| == 0 || IsLineBreak(s[0]) then 0 else 1 + LineLength(s[1..])
  }

  /** `str.splitlines()`: lines end at `\n`, `\r` or `\r\n`; a final break adds no empty line. */
  function SplitLines(s: string): (lines: seq<string>)
    ensures forall i :: 0 <= i < |lines| ==> '\n' !in lines[i] && '\r' !in lines[i]
    ensures s == [] <==> lines == []
    decreases |s|
  {
    if |s| == 0 then []
    else
      var n := LineLength(s);
      if n == |s| then [s]
      else
        var skip := if s[n] == '\r' && n + 1 < |s| && s[n + 1] == '\n' then 2 else 1;
        [s[..n]] + SplitLines(s[n + skip..])
  }

  /** Text without carriage returns and without a final newline is its lines joined by newlines. */
  lemma {:induction false} SplitLinesJoin(s: string)
    requires '\r' !in s && (s == [] || s[|s| - 1] != '\n')
    ensures Join("\n", SplitLines(s)) == s
    decreases |s|
  {
    hide *;
    var n := LineLength(s);
    if n < |s| {
      var rest := s[n + 1..];
      SplitLinesBreak(s);
      BreakRest(s, n);
      SplitLinesJoin(rest);
      JoinCons(s[..n], SplitLines(rest));
      assert s == s[..n] + "\n" + rest;
    } else {
      SplitLinesWhole(s);
    }
  }

  /** Without carriage returns, the first line ends at a `\n` and the rest starts right after it. */
  lemma SplitLinesBreak(s: string)
    requires '\r' !in s && LineLength(s) < |s|
    ensures var n := LineLength(s);
      s[n] == '\n' && SplitLines(s) == [s[..n]] + SplitLines(s[n + 1..])
  {
    hide LineLength;
    var n := LineLength(s);
    assert s[n] in s;
    assert s[n] == '\n';
  }

  /** What follows a `\n` that is not the last character keeps the text's properties. */
  lemma BreakRest(s: string, n: nat)
    requires '\r' !in s && n < |s| && s[n] == '\n' && s[|s| - 1] != '\n'
    ensures s[n + 1..] != [] && '\r' !in s[n + 1..] && s[n + 1..][|s[n + 1..]| - 1] != '\n'
  {
    var rest := s[n + 1..];
    assert rest[|rest| - 1] == s[|s| - 1];
    assert '\r' !in rest by { forall k | 0 <= k < |rest| ensures rest[k] != '\r' { assert rest[k] == s[n + 1 + k]; } }
  }

  /** Text that is a single line, or empty, is its own split. */
  lemma SplitLinesWhole(s: string)
    requires LineLength(s) == |s|
    ensures Join("\n", SplitLines(s)) == s
  {
  }

  /** Joining a non-empty tail after a head puts one separator between them. */
  lemma JoinCons(head: string, tail: seq<string>)
    requires tail != []
    ensures Join("\n", [head] + tail) == head + "\n" + Join("\n", tail)
  {
    assert ([head] + tail)[1..] == tail;
  }

  /** A payload line as a paragraph shows it: four spaces in, empty lines kept empty. */
  function Indent(line: string): (r: string)
    ensures line == [] ==> r == []
    ensures line != [] ==> |r| == |line| + 4 && r[4..] == line && r[..4] == "    "
  {
    if line == [] then [] else "    " + line
  }

  function Dedent(line: string): string
  {
    if |line| >= 4 then line[4..] else []
  }

  function Indented(lines: seq<string>): (r: seq<string>)
    ensures |r| == |lines|
    ensures forall k :: 0 <= k < |lines| ==> r[k] == Indent(lines[k])
  {
    seq(|lines|, k requires 0 <= k < |lines| => Indent(lines[k]))
  }

  // ---------------------------------------------------------------------
  // Paragraphs and errors

  /** One piece of error context: a message and an optional payload. */
  datatype Paragraph = Paragraph(message: string, payload: Option<string>)

  /** str(Paragraph): the message, then the payload's lines indented. */
  function ParagraphStr(p: Paragraph): (r: string)
    ensures p.payload.None? ==> r == p.message
    ensures p.payload.Some? ==> StartsWith(r, p.message + "\n")
  {
    match p.payload
    case None => p.message
    case Some(text) => p.message + "\n" + Join("\n", Indented(SplitLines(text)))
  }

  /**
   * The lines of a rendered paragraph: the message, then each payload
   * line indented; dedenting them gives the payload's lines back.
   */
  lemma ParagraphLines(p: Paragraph)
    requires '\n' !in p.message && p.payload.Some? && p.payload.value != []
    ensures Split(ParagraphStr(p), '\n') == [p.message] + Indented(SplitLines(p.payload.value))
    ensures forall k :: 0 <= k < |SplitLines(p.payload.value)| ==>
      Dedent(Split(ParagraphStr(p), '\n')[k + 1]) == SplitLines(p.payload.value)[k]
  {
    var lines := Indented(SplitLines(p.payload.value));
    forall i | 0 <= i < |lines| ensures '\n' !in lines[i] {
      var l := SplitLines(p.payload.value)[i];
      assert '\n' !in l;
      if l != [] {
        assert lines[i] == "    " + l;
      }
    }
    SplitOfJoin('\n', lines);
    SplitPrefix(p.message, '\n', Join("\n", lines));
    assert ParagraphStr(p) == p.message + ['\n'] + Join("\n", lines);
  }

  /** The error classes of the conversion package; all derive from `Error`. */
  datatype ErrorClass =
    | BaseError
    | ConversionFailureError
    | ConversionValidationError
    | ConversionValueError
    | RedcapFormatError
    | QualtricsFormatError
    | RiosFormatError
    | RiosRelationshipError

  function ClassName(c: ErrorClass): (name: string)
    ensures |name| > 0
  {
    match c
    case BaseError => "Error"
    case ConversionFailureError => "ConversionFailureError"
    case ConversionValidationError => "ConversionValidationError"
    case ConversionValueError => "ConversionValueError"
    case RedcapFormatError => "RedcapFormatError"
    case QualtricsFormatError => "QualtricsFormatError"
    case RiosFormatError => "RiosFormatError"
    case RiosRelationshipError => "RiosRelationshipError"
  }

  /** An error: its class and its context trace, innermost paragraph first. */
  datatype Failure = Failure(cls: ErrorClass, paragraphs: seq<Paragraph>)

  /** Constructing an error gives it exactly one paragraph. */
  function NewError(cls: ErrorClass, message: string, payload: Option<string>): (e: Failure)
    ensures e.cls == cls && |e.paragraphs| == 1
    ensures e.paragraphs[0].message == message && e.paragraphs[0].payload == payload
  {
    Failure(cls, [Paragraph(message, payload)])
  }

  /** wrap: one more paragraph at the end; the earlier ones are kept. */
  function Wrap(e: Failure, message: string, payload: Option<string>): (r: Failure)
    ensures r.cls == e.cls && |r.paragraphs| == |e.paragraphs| + 1
    ensures r.paragraphs[..|e.paragraphs|] == e.paragraphs
    ensures r.paragraphs[|e.paragraphs|] == Paragraph(message, payload)
  {
    e.(paragraphs := e.paragraphs + [Paragraph(message, payload)])
  }

  function ParagraphStrs(ps: seq<Paragraph>): (r: seq<string>)
    ensures |r| == |ps|
    ensures forall k :: 0 <= k < |ps| ==> r[k] == ParagraphStr(ps[k])
  {
    seq(|ps|, k requires 0 <= k < |ps| => ParagraphStr(ps[k]))
  }

  /** str(Error): the paragraphs, in order, one after another on new lines. */
  function ErrorStr(e: Failure): string
  {
    Join("\n", ParagraphStrs(e.paragraphs))
  }

  /** After wrap, str(Error) is the old text, a newline, and the new paragraph. */
  lemma WrapStr(e: Failure, message: string, payload: Option<string>)
    requires |e.paragraphs| > 0
    ensures ErrorStr(Wrap(e, message, payload)) == ErrorStr(e) + "\n" + ParagraphStr(Paragraph(message, payload))
  {
    var p := Paragraph(message, payload);
    assert ParagraphStrs(e.paragraphs + [p]) == ParagraphStrs(e.paragraphs) + [ParagraphStr(p)];
    JoinSnoc("\n", ParagraphStrs(e.paragraphs), ParagraphStr(p));
  }

  predicate ByteParagraph(p: Paragraph)
  {
    IsByteString(p.message) && (p.payload.Some? ==> IsByteString(p.payload.value))
  }

  /** The argument list repr writes for a paragraph; a missing payload is left out. */
  function ArgsRepr(p: Paragraph): (r: string)
    requires ByteParagraph(p)
    ensures |r| >= 2 && r[0] == '(' && r[|r| - 1] == ')'
    ensures |r| >= |Repr(p.message)| + 2 && r[1..|Repr(p.message)| + 1] == Repr(p.message)
    ensures p.payload.None? <==> |r| == |Repr(p.message)| + 2
  {
    match p.payload
    case None => Parenthesized(Repr(p.message), "")
    case Some(x) => Parenthesized(Repr(p.message), ", " + Repr(x))
  }

  /** `(m` followed by `tail` and `)`. */
  function Parenthesized(m: string, tail: string): (r: string)
    ensures |r| == |m| + |tail| + 2 && r[0] == '(' && r[|r| - 1] == ')' && r[1..|m| + 1] == m
  {
    "(" + m + tail + ")"
  }

  /** The loop of `Error.__repr__` over the paragraphs, from `output` on. */
  function ReprFrom(cls: ErrorClass, ps: seq<Paragraph>, output: string): string
    requires forall k :: 0 <= k < |ps| ==> ByteParagraph(ps[k])
    decreases |ps|
  {
    if |ps| == 0 then output
    else
      var head := if output == "" then ClassName(cls) else output + ".wrap";
      ReprFrom(cls, ps[1..], head + ArgsRepr(ps[0]))
  }

  function ErrorRepr(e: Failure): string
    requires forall k :: 0 <= k < |e.paragraphs| ==> ByteParagraph(e.paragraphs[k])
  {
    ReprFrom(e.cls, e.paragraphs, "")
  }

  /** A new error's repr is the constructor call. */
  lemma NewErrorRepr(cls: ErrorClass, message: string, payload: Option<string>)
    requires ByteParagraph(Paragraph(message, payload))
    ensures ErrorRepr(NewError(cls, message, payload)) == ClassName(cls) + ArgsRepr(Paragraph(message, payload))
  {
    var e := NewError(cls, message, payload);
    assert e.paragraphs[1..] == [];
    var out := ClassName(cls) + ArgsRepr(Paragraph(message, payload));
    assert ReprFrom(cls, [], out) == out;
    assert ReprFrom(cls, e.paragraphs, "") == ReprFrom(cls, [], out);
  }

  lemma {:induction false} ReprFromSnoc(cls: ErrorClass, ps: seq<Paragraph>, p: Paragraph, output: string)
    requires forall k :: 0 <= k < |ps| ==> ByteParagraph(ps[k])
    requires ByteParagraph(p) && (output != "" || |ps| > 0)
    ensures ReprFrom(cls, ps + [p], output) == ReprFrom(cls, ps, output) + ".wrap" + ArgsRepr(p)
    decreases |ps|
  {
    if |ps| == 0 {
      assert ([] + [p])[1..] == [];
    } else {
      assert (ps + [p])[1..] == ps[1..] + [p];
      var head := if output == "" then ClassName(cls) else output + ".wrap";
      ReprFromSnoc(cls, ps[1..], p, head + ArgsRepr(ps[0]));
    }
  }

  /** After wrap, repr(Error) is the old repr followed by one `.wrap(...)` call. */
  lemma WrapRepr(e: Failure, message: string, payload: Option<string>)
    requires |e.paragraphs| > 0 && forall k :: 0 <= k < |e.paragraphs| ==> ByteParagraph(e.paragraphs[k])
    requires ByteParagraph(Paragraph(message, payload))
    ensures ErrorRepr(Wrap(e, message, payload)) == ErrorRepr(e) + ".wrap" + ArgsRepr(Paragraph(message, payload))
  {
    ReprFromSnoc(e.cls, e.paragraphs, Paragraph(message, payload), "");
  }

  // ---------------------------------------------------------------------
  // guard

  /** An exception leaving a `with` block: a conversion error, or any other exception. */
  datatype Raised = RaisedError(failure: Failure) | RaisedOther(name: string)

  /**
   * guard.__exit__: a conversion error gains the guard's paragraph;
   * nothing is suppressed, so whatever left the block keeps propagating.
   */
  function GuardExit(exc: Option<Raised>, message: string, payload: Option<string>): (r: Option<Raised>)
    ensures r.None? <==> exc.None?
    ensures exc.Some? && exc.value.RaisedOther? ==> r == exc
    ensures exc.Some? && exc.value.RaisedError? ==>
      r.value.RaisedError? && r.value.failure == Wrap(exc.value.failure, message, payload)
  {
    match exc
    case Some(RaisedError(e)) => Some(RaisedError(Wrap(e, message, payload)))
    case _ => exc
  }

  /** Nested guards add their paragraphs innermost first, and str shows them in that order. */
  lemma NestedGuards(e: Failure, m1: string, p1: Option<string>, m2: string, p2: Option<string>)
    requires |e.paragraphs| > 0
    ensures GuardExit(GuardExit(Some(RaisedError(e)), m1, p1), m2, p2)
      == Some(RaisedError(e.(paragraphs := e.paragraphs + [Paragraph(m1, p1), Paragraph(m2, p2)])))
    ensures ErrorStr(GuardExit(GuardExit(Some(RaisedError(e)), m1, p1), m2, p2).value.failure)
      == ErrorStr(e) + "\n" + ParagraphStr(Paragraph(m1, p1)) + "\n" + ParagraphStr(Paragraph(m2, p2))
  {
    var e1 := Wrap(e, m1, p1);
    assert e1.paragraphs + [Paragraph(m2, p2)] == e.paragraphs + [Paragraph(m1, p1), Paragraph(m2, p2)];
    WrapStr(e, m1, p1);
    WrapStr(e1, m2, p2);
  }
}

=== FILE: logger.dfy ===
/**
 * InMemoryLogger: a list of log lines, each a message behind an optional
 * level prefix, printable as one newline-separated text.
 */
module Logger {
  import opened Wrappers
  import opened Text

  const ErrorPrefix := "ERROR: "
  const WarningPrefix := "WARNING: "
  const InfoPrefix := "INFO: "

  /** What a caller hands to `log`: a string, or any other object. */
  datatype Loggable = Str(text: string) | NotStr

  datatype Log = Log(entries: seq<string>)

  const EmptyLog := Log([])

  /** Log entries from position `from` on are all warnings. */
  predicate WarningsFrom(entries: seq<string>, from: int)
  {
    forall k :: 0 <= k < |entries| && from <= k ==> StartsWith(entries[k], WarningPrefix)
  }

  /**
   * log(msg, pfx): a string message is appended behind the prefix, or as
   * it is when the prefix is missing or empty; anything else is a
   * ValueError and appends nothing.
   */
  function Append(l: Log, msg: Loggable, pfx: Option<string>): (r: Result<Log, string>)
    ensures r.Err? <==> msg.NotStr?
    ensures r.Ok? ==> |r.value.entries| == |l.entries| + 1 && r.value.entries[..|l.entries|] == l.entries
    ensures r.Ok? && pfx.Some? && pfx.value != "" ==> r.value.entries[|l.entries|] == pfx.value + msg.text
    ensures r.Ok? && (pfx.None? || pfx.value == "") ==> r.value.entries[|l.entries|] == msg.text
  {
    match msg
    case NotStr => Err("Loggable objects must be of type string")
    case Str(m) =>
      if pfx.Some? && pfx.value != "" then Ok(Log(l.entries + [pfx.value + m]))
      else Ok(Log(l.entries + [m]))
  }

  function Info(l: Log, msg: Loggable): Result<Log, string> { Append(l, msg, Some(InfoPrefix)) }

  function Warning(l: Log, msg: Loggable): Result<Log, string> { Append(l, msg, Some(WarningPrefix)) }

  function Error(l: Log, msg: Loggable): Result<Log, string> { Append(l, msg, Some(ErrorPrefix)) }

  /** check: whether anything has been logged. */
  function Check(l: Log): (b: bool)
    ensures b <==> l != EmptyLog
  {
    |l.entries| != 0
  }

  function Clear(l: Log): (r: Log)
    ensures !Check(r)
  {
    EmptyLog
  }

  /** pplogs: the entries joined by newlines. */
  function PpLogs(l: Log): string
  {
    Join("\n", l.entries)
  }

  /** Each level appends exactly one entry carrying its prefix, and the log then has something to show. */
  lemma LevelsPrefix(l: Log, m: string)
    ensures Info(l, Str(m)) == Ok(Log(l.entries + [InfoPrefix + m]))
    ensures Warning(l, Str(m)) == Ok(Log(l.entries + [WarningPrefix + m]))
    ensures Error(l, Str(m)) == Ok(Log(l.entries + [ErrorPrefix + m]))
    ensures Check(Info(l, Str(m)).value) && Check(Warning(l, Str(m)).value) && Check(Error(l, Str(m)).value)
  {
    assert InfoPrefix != "" && WarningPrefix != "" && ErrorPrefix != "";
  }

  /** A non-string message leaves the log as it was, at every level. */
  lemma NotStrRejected(l: Log)
    ensures Info(l, NotStr).Err? && Warning(l, NotStr).Err? && Error(l, NotStr).Err?
  {
  }

  /** Appending to a non-empty log adds one line to the printed text. */
  lemma PpLogsAppend(l: Log, m: string, pfx: Option<string>)
    requires Check(l)
    ensures PpLogs(Append(l, Str(m), pfx).value) == PpLogs(l) + "\n" + Append(l, Str(m), pfx).value.entries[|l.entries|]
  {
    var r := Append(l, Str(m), pfx).value;
    assert r.entries == l.entries + [r.entries[|l.entries|]];
    JoinSnoc("\n", l.entries, r.entries[|l.entries|]);
  }

  /** Entries without newlines read back from the printed text, in order. */
  lemma PpLogsLines(l: Log)
    requires Check(l) && forall k :: 0 <= k < |l.entries| ==> '\n' !in l.entries[k]
    ensures Split(PpLogs(l), '\n') == l.entries
  {
    SplitOfJoin('\n', l.entries);
  }
}

=== FILE: names.dfy ===
/**
 * REDCap identifier canonicalisation (CsvReaderWithGetName.get_name in
 * redcap/to_rios.py) and the REDCap choice strings: the parser used for
 * form descriptors and instrument enumerations, and the serialiser of the
 * RIOS to REDCap direction.
 */
module Names {
  import opened Wrappers
  import opened Text

  predicate NoUpper(s: string) { forall i :: 0 <= i < |s| ==> !IsUpper(s[i]) }
  predicate AllUnderbars(s: string) { forall i :: 0 <= i < |s| ==> s[i] == '_' }

  /** Drops the leading non-word characters. */
  function SkipNonWord(s: string): (r: string)
    ensures |r| <= |s| && r == s[|s| - |r|..]
    ensures r == [] || IsWordChar(r[0])
  {
    hide IsWordChar;
    if |s| > 0 && !IsWordChar(s[0]) then
      var r := SkipNonWord(s[1..]);
      assert s[1..][|s| - 1 - |r|..] == s[|s| - |r|..];
      r
    else s
  }

  /** `RE_non_alphanumeric.sub('_', s)`: each maximal run of `\W` characters becomes one `_`. */
  function SquashNonWord(s: string): (r: string)
    ensures AllWordChars(r)
    ensures NoUpper(s) ==> NoUpper(r)
    ensures |r| <= |s|
    decreases |s|
  {
    if |s| == 0 then ""
    else if IsWordChar(s[0]) then [s[0]] + SquashNonWord(s[1..])
    else "_" + SquashNonWord(SkipNonWord(s[1..]))
  }

  /** A string of word characters has no run to squash. */
  lemma {:induction false} SquashKeepsWords(s: string)
    requires AllWordChars(s)
    ensures SquashNonWord(s) == s
  {
    if |s| > 0 {
      SquashKeepsWords(s[1..]);
      assert [s[0]] + s[1..] == s;
    }
  }

  function LeadingUnderbars(s: string): (n: nat)
    ensures n <= |s| && AllUnderbars(s[..n])
    ensures n < |s| ==> s[n] != '_'
  {
    if |s| > 0 && s[0] == '_' then
      var m := LeadingUnderbars(s[1..]);
      assert s[..m + 1] == [s[0]] + s[1..][..m];
      m + 1
    else 0
  }

  function TrailingUnderbars(s: string): (n: nat)
    ensures n <= |s| && AllUnderbars(s[|s| - n..])
    ensures n < |s| ==> s[|s| - 1 - n] != '_'
  {
    if |s| > 0 && s[|s| - 1] == '_' then
      var t := s[..|s| - 1];
      var m := TrailingUnderbars(t);
      assert s[|s| - (m + 1)..] == t[|t| - m..] + [s[|s| - 1]];
      assert m + 1 < |s| ==> s[|s| - 1 - (m + 1)] == t[|t| - 1 - m];
      m + 1
    else 0
  }

  /** Leading and trailing underbar runs that meet cover the whole string. */
  lemma UnderbarRunsMeet(s: string)
    requires LeadingUnderbars(s) + TrailingUnderbars(s) >= |s|
    ensures AllUnderbars(s)
  {
    forall i | 0 <= i < |s| ensures s[i] == '_' {
      LeadingCovers(s, i);
      TrailingCovers(s, i);
    }
  }

  /** Every index inside the leading underbar run holds `_`. */
  lemma LeadingCovers(s: string, i: int)
    ensures 0 <= i < LeadingUnderbars(s) ==> s[i] == '_'
  {
    var l := LeadingUnderbars(s);
    if 0 <= i < l {
      assert s[..l][i] == s[i];
    }
  }

  /** Every index inside the trailing underbar run holds `_`. */
  lemma TrailingCovers(s: string, i: int)
    ensures |s| - TrailingUnderbars(s) <= i < |s| ==> s[i] == '_'
  {
    var t := TrailingUnderbars(s);
    if |s| - t <= i < |s| {
      assert s[|s| - t..][i - (|s| - t)] == s[i];
    }
  }

  /**
   * `RE_strip_outer_underbars.sub(r'\1', x)` on a string of word
   * characters: when some character is not `_` the pattern matches the
   * whole string and keeps it from the first to the last such character;
   * otherwise it does not match and `x` is returned unchanged.
   */
  function StripOuterUnderbars(x: string): (r: string)
    requires AllWordChars(x)
    ensures AllUnderbars(x) ==> r == x
    ensures !AllUnderbars(x) ==> |r| > 0 && r[0] != '_' && r[|r| - 1] != '_'
    ensures AllWordChars(r)
    ensures NoUpper(x) ==> NoUpper(r)
  {
    var l, t := LeadingUnderbars(x), TrailingUnderbars(x);
    if l + t >= |x| then
      UnderbarRunsMeet(x);
      x
    else
      var r := x[l..|x| - t];
      assert r[0] == x[l] && r[|r| - 1] == x[|x| - 1 - t];
      assert forall i :: 0 <= i < |r| ==> r[i] == x[l + i];
      r
  }

  /** A string without outer underbars is left alone. */
  lemma StripOuterUnderbarsKeeps(x: string)
    requires AllWordChars(x)
    requires AllUnderbars(x) || (x[0] != '_' && x[|x| - 1] != '_')
    ensures StripOuterUnderbars(x) == x
  {
    if !AllUnderbars(x) {
      assert LeadingUnderbars(x) == 0;
      assert TrailingUnderbars(x) == 0;
      assert x[0..|x|] == x;
    }
  }

  const ChoicesField := "choices_or_calculations"
  const BranchingField := "branching_logic"
  const ValidationField := "text_validation"

  /** REDCap has several headers for the choices column; all start with `choices` and contain `calc`. */
  function RenameChoices(x: string): string
  {
    if StartsWith(x, "choices") && Contains(x, "calc") then ChoicesField else x
  }

  function RenameBranching(x: string): string
  {
    if StartsWith(x, BranchingField) then BranchingField else x
  }

  /** Every `text_validation…` name but the min and max columns. */
  function RenameValidation(x: string): string
  {
    if x != ValidationField + "_min" && x != ValidationField + "_max" && StartsWith(x, ValidationField)
    then ValidationField else x
  }

  /** An identifier must not start with a digit. */
  function PrefixDigit(x: string): string
  {
    if |x| > 0 && IsDigit(x[0]) then "id_" + x else x
  }

  /** The four renamings of get_name, applied in source order. */
  function SpecialNames(x: string): string
  {
    PrefixDigit(RenameValidation(RenameBranching(RenameChoices(x))))
  }

  /** A canonical name: lower-case word characters, no outer underbars, no renaming left to apply. */
  predicate IsCanonical(x: string)
  {
    && AllWordChars(x)
    && NoUpper(x)
    && (AllUnderbars(x) || (x[0] != '_' && x[|x| - 1] != '_'))
    && SpecialNames(x) == x
  }

  /** get_name for a name that is present. */
  function Canonical(name: string): (r: string)
  {
    SpecialNames(StripOuterUnderbars(SquashNonWord(LowerStr(Strip(name)))))
  }

  /** get_name: a missing name is a ValueError. */
  function GetName(name: Option<string>): (r: Result<string, string>)
    ensures name.None? <==> r.Err?
    ensures r.Ok? ==> IsCanonical(r.value)
    ensures r.Ok? ==> r.value == [] || !IsDigit(r.value[0])
  {
    match name
    case None => Err("Name cannot be None")
    case Some(n) =>
      CanonicalIsCanonical(n);
      Ok(Canonical(n))
  }

  lemma LowerStrNoUpper(s: string)
    ensures NoUpper(LowerStr(s))
  {
  }

  lemma LowerStrKeeps(s: string)
    requires NoUpper(s)
    ensures LowerStr(s) == s
  {
  }

  lemma CanonicalIsCanonical(name: string)
    ensures IsCanonical(Canonical(name))
    ensures Canonical(name) == [] || !IsDigit(Canonical(name)[0])
  {
    LowerStrNoUpper(Strip(name));
    var y := StripOuterUnderbars(SquashNonWord(LowerStr(Strip(name))));
    SpecialNamesCanonical(y);
  }

  /** A canonical name is its own canonical form. */
  lemma CanonicalKeeps(x: string)
    requires IsCanonical(x)
    ensures Canonical(x) == x
  {
    forall i | 0 <= i < |x| ensures !IsSpace(x[i]) {
      assert IsWordChar(x[i]);
    }
    if |x| > 0 {
      StripKeepsTrimmed(x);
    }
    LowerStrKeeps(x);
    SquashKeepsWords(x);
    StripOuterUnderbarsKeeps(x);
  }

  /** get_name is idempotent: its results are names it leaves unchanged. */
  lemma GetNameIdempotent(name: string)
    ensures GetName(Some(name)).Ok?
    ensures GetName(Some(GetName(Some(name)).value)) == GetName(Some(name))
  {
    CanonicalIsCanonical(name);
    CanonicalKeeps(Canonical(name));
  }

  /** A string whose first character differs from every renaming's prefix, and that is no digit, is settled. */
  lemma SettledByFirst(x: string)
    requires |x| > 0 && x[0] != 'c' && x[0] != 'b' && x[0] != 't' && !IsDigit(x[0])
    ensures SpecialNames(x) == x
  {
    assert !StartsWith(x, "choices") by { assert "choices"[0] == 'c'; }
    assert !StartsWith(x, BranchingField) by { assert BranchingField[0] == 'b'; }
    assert !StartsWith(x, ValidationField) by { assert ValidationField[0] == 't'; }
  }

  lemma ChoicesFieldCanonical()
    ensures IsCanonical(ChoicesField)
  {
    ChoicesFieldWords();
    ChoicesFieldSettled();
    var c := ChoicesField;
    assert c[0] == 'c' && c[|c| - 1] == 's';
  }

  lemma ChoicesFieldWords()
    ensures AllWordChars(ChoicesField) && NoUpper(ChoicesField)
  {
  }

  lemma ChoicesFieldSettled()
    ensures SpecialNames(ChoicesField) == ChoicesField
  {
    var c := ChoicesField;
    assert c[0] == 'c';
    assert RenameChoices(c) == c;
    assert !StartsWith(c, BranchingField) by { assert BranchingField[0] == 'b'; }
    assert !StartsWith(c, ValidationField) by { assert ValidationField[0] == 't'; }
  }

  lemma BranchingFieldCanonical()
    ensures IsCanonical(BranchingField)
  {
    BranchingFieldWords();
    BranchingFieldSettled();
    var b := BranchingField;
    assert b[0] == 'b' && b[|b| - 1] == 'c';
  }

  lemma BranchingFieldWords()
    ensures AllWordChars(BranchingField) && NoUpper(BranchingField)
  {
  }

  lemma BranchingFieldSettled()
    ensures SpecialNames(BranchingField) == BranchingField
  {
    var b := BranchingField;
    assert b[0] == 'b';
    assert !StartsWith(b, "choices") by { assert "choices"[0] == 'c'; }
    assert RenameBranching(b) == b;
    assert !StartsWith(b, ValidationField) by { assert ValidationField[0] == 't'; }
  }

  lemma ValidationFieldCanonical()
    ensures IsCanonical(ValidationField)
  {
    ValidationFieldWords();
    ValidationFieldSettled();
    var v := ValidationField;
    assert v[0] == 't' && v[|v| - 1] == 'n';
  }

  lemma ValidationFieldWords()
    ensures AllWordChars(ValidationField) && NoUpper(ValidationField)
  {
  }

  lemma ValidationFieldSettled()
    ensures SpecialNames(ValidationField) == ValidationField
  {
    var v := ValidationField;
    assert v[0] == 't';
    assert !StartsWith(v, "choices") by { assert "choices"[0] == 'c'; }
    assert !StartsWith(v, BranchingField) by { assert BranchingField[0] == 'b'; }
    assert RenameValidation(v) == v;
  }

  /** The renamings keep a name of lower-case word characters without outer underbars in that form, and reach a fixed point. */
  lemma SpecialNamesCanonical(y: string)
    requires AllWordChars(y) && NoUpper(y)
    requires AllUnderbars(y) || (y[0] != '_' && y[|y| - 1] != '_')
    ensures IsCanonical(SpecialNames(y))
    ensures SpecialNames(y) == [] || !IsDigit(SpecialNames(y)[0])
  {
    var x3 := RenameValidation(RenameBranching(RenameChoices(y)));
    if x3 == ChoicesField {
      ChoicesFieldCanonical();
      assert !IsDigit(x3[0]) by { assert x3[0] == 'c'; }
    } else if x3 == BranchingField {
      BranchingFieldCanonical();
      assert !IsDigit(x3[0]) by { assert x3[0] == 'b'; }
    } else if x3 == ValidationField {
      ValidationFieldCanonical();
      assert !IsDigit(x3[0]) by { assert x3[0] == 't'; }
    } else {
      assert x3 == y;
      if |y| > 0 && IsDigit(y[0]) {
        var r := "id_" + y;
        assert !AllUnderbars(y) by { assert y[0] != '_'; }
        assert r[0] == 'i' && r[|r| - 1] == y[|y| - 1];
        SettledByFirst(r);
      } else {
        assert SpecialNames(y) == y;
      }
    }
  }

  /** Python's `s.count(c)` for one character. */
  function CountChar(s: string, c: char): nat
  {
    if |s| == 0 then 0 else (if s[0] == c then 1 else 0) + CountChar(s[1..], c)
  }

  /** `s.split(c)` has one part more than `s` has separators. */
  lemma {:induction false} SplitCount(s: string, c: char)
    ensures |Split(s, c)| == CountChar(s, c) + 1
  {
    if |s| > 0 {
      SplitCount(s[1..], c);
    }
  }

  predicate Trimmed(s: string) { s == [] || (!IsSpace(s[0]) && !IsSpace(s[|s| - 1])) }

  /** A descriptor of a REDCap choice list: internal id and label. */
  datatype Choice = Choice(id: string, text: string)

  /**
   * One `|` segment of a choice list: the id is get_name of the text
   * before the first comma, the label the rest, rejoined with commas and
   * stripped.
   */
  function ParseChoice(x: string): (c: Choice)
  {
    var parts := Split(Strip(x), ',');
    Choice(Canonical(parts[0]), Strip(Join(",", parts[1..])))
  }

  lemma ParseChoiceShape(x: string)
    ensures IsCanonical(ParseChoice(x).id) && Trimmed(ParseChoice(x).text)
  {
    var parts := Split(Strip(x), ',');
    CanonicalIsCanonical(parts[0]);
    StripResultTrimmed(Join(",", parts[1..]));
  }

  function ParseChoices(segments: seq<string>): (r: seq<Choice>)
  {
    seq(|segments|, k requires 0 <= k < |segments| => ParseChoice(segments[k]))
  }

  /** get_choices_form: one descriptor per `|` segment of the choices column. */
  function ChoicesForm(s: string): (r: seq<Choice>)
    ensures |r| == CountChar(s, '|') + 1
  {
    SplitCount(s, '|');
    ParseChoices(Split(s, '|'))
  }

  /** Every descriptor has a canonical id and a stripped label. */
  lemma ChoicesFormShape(s: string)
    ensures forall k :: 0 <= k < |ChoicesForm(s)| ==> IsCanonical(ChoicesForm(s)[k].id) && Trimmed(ChoicesForm(s)[k].text)
  {
    var parts := Split(s, '|');
    forall k | 0 <= k < |ChoicesForm(s)| ensures IsCanonical(ChoicesForm(s)[k].id) && Trimmed(ChoicesForm(s)[k].text) {
      assert ChoicesForm(s)[k] == ParseChoice(parts[k]);
      ParseChoiceShape(parts[k]);
    }
  }

  /**
   * EnumerationCollectionObject.add: the collection is an ordered
   * mapping, so a repeated id keeps its first position.
   */
  function AddKey(keys: seq<string>, k: string): (r: seq<string>)
  {
    if k in keys then keys else keys + [k]
  }

  /** The ids of a descriptor list. */
  function IdSet(cs: seq<Choice>): set<string>
  {
    set k | 0 <= k < |cs| :: cs[k].id
  }

  function AddKeys(keys: seq<string>, cs: seq<Choice>): (r: seq<string>)
    ensures |keys| <= |r| && r[..|keys|] == keys
    ensures forall x :: x in r <==> x in keys || x in IdSet(cs)
    decreases |cs|
  {
    if |cs| == 0 then keys
    else
      var r := AddKeys(AddKey(keys, cs[0].id), cs[1..]);
      assert AddKey(keys, cs[0].id)[..|keys|] == keys;
      r
  }

  /**
   * get_choices_instrument: the enumeration names, in first-occurrence
   * order.  Every value the source stores under them is None, so only the
   * names are kept.
   */
  function ChoicesInstrument(s: string): (names: seq<string>)
  {
    AddKeys([], ChoicesForm(s))
  }

  predicate Distinct(keys: seq<string>)
  {
    forall i, j :: 0 <= i < j < |keys| ==> keys[i] != keys[j]
  }

  lemma {:induction false} AddKeysDistinct(keys: seq<string>, cs: seq<Choice>)
    requires Distinct(keys)
    ensures Distinct(AddKeys(keys, cs))
    decreases |cs|
  {
    if |cs| > 0 {
      AddKeysDistinct(AddKey(keys, cs[0].id), cs[1..]);
    }
  }

  /** The instrument names are the form ids, each once. */
  lemma ChoicesInstrumentNames(s: string)
    ensures Distinct(ChoicesInstrument(s))
    ensures forall x :: x in ChoicesInstrument(s) <==> x in IdSet(ChoicesForm(s))
  {
    var cs := ChoicesForm(s);
    assert ChoicesInstrument(s) == AddKeys([], cs);
    AddKeysDistinct([], cs);
  }

  /** get_choices in from_rios.py: one `id, text` item per descriptor. */
  function RenderChoice(c: Choice): string
  {
    c.id + ", " + c.text
  }

  function RenderedItems(cs: seq<Choice>): seq<string>
  {
    seq(|cs|, k requires 0 <= k < |cs| => RenderChoice(cs[k]))
  }

  /** get_choices: the items joined by ` | `. */
  function RenderChoices(cs: seq<Choice>): string
  {
    Join(" | ", RenderedItems(cs))
  }

  lemma StripPadLeft(x: string)
    ensures Strip(" " + x) == Strip(x)
  {
    assert (" " + x)[1..] == x;
  }

  lemma StripPadRight(x: string)
    ensures Strip(x + " ") == Strip(x)
  {
    var l := StripLeft(x + " ");
    if |StripLeft(x)| == 0 {
      assert AllSpace(x + " ") by {
        assert AllSpace(x[..|x|]);
        assert x[..|x|] == x;
      }
      StripLeftAllSpace(x + " ");
    } else {
      StripLeftAppend(x, " ");
      assert l == StripLeft(x) + " ";
      assert l[..|l| - 1] == StripLeft(x);
    }
  }

  lemma {:induction false} StripLeftAllSpace(s: string)
    requires AllSpace(s)
    ensures StripLeft(s) == [] && Strip(s) == []
  {
    if |s| > 0 {
      StripLeftAllSpace(s[1..]);
    }
  }

  lemma {:induction false} StripLeftAppend(x: string, y: string)
    requires |StripLeft(x)| > 0
    ensures StripLeft(x + y) == StripLeft(x) + y
  {
    if IsSpace(x[0]) {
      assert (x + y)[1..] == x[1..] + y;
      StripLeftAppend(x[1..], y);
    }
  }

  /** The rest of an item after the id's comma, as it survives stripping. */
  function LabelPart(text: string): string
  {
    if text == [] then "" else " " + text
  }

  lemma WordsHaveNoComma(id: string)
    requires AllWordChars(id)
    ensures ',' !in id && '|' !in id
  {
    forall i | 0 <= i < |id| ensures id[i] != ',' && id[i] != '|' { assert IsWordChar(id[i]); }
  }

  /** A rendered choice without the space after its comma neither starts nor ends with whitespace. */
  lemma RenderedTrimmed(c: Choice)
    requires AllWordChars(c.id) && Trimmed(c.text)
    ensures var u := c.id + "," + LabelPart(c.text); u == [] || (!IsSpace(u[0]) && !IsSpace(u[|u| - 1]))
  {
    var u := c.id + "," + LabelPart(c.text);
    if |c.id| > 0 { assert u[0] == c.id[0] && IsWordChar(c.id[0]); }
  }

  lemma StripRendered(c: Choice)
    requires AllWordChars(c.id) && Trimmed(c.text)
    ensures Strip(c.id + ", " + c.text) == c.id + "," + LabelPart(c.text)
  {
    var u := c.id + "," + LabelPart(c.text);
    RenderedTrimmed(c);
    hide Strip, StripLeft, StripRight, IsSpace, IsWordChar, AllWordChars, Trimmed;
    StripKeepsTrimmed(u);
    if c.text == [] {
      assert c.id + ", " + c.text == u + " ";
      StripPadRight(u);
    } else {
      assert c.id + ", " + c.text == u;
    }
  }

  lemma LabelOfRendered(text: string)
    requires Trimmed(text)
    ensures Strip(Join(",", Split(LabelPart(text), ','))) == text
  {
    assert Join(",", Split(LabelPart(text), ',')) == LabelPart(text);
    if text != [] {
      StripPadLeft(text);
    }
    StripKeepsTrimmed(text);
  }

  /** ParseChoice on a string already known in stripped form. */
  lemma ParseStripped(x: string, u: string, id: string, rest: string)
    requires Strip(x) == u && Split(u, ',') == [id] + Split(rest, ',')
    ensures ParseChoice(x) == Choice(Canonical(id), Strip(Join(",", Split(rest, ','))))
  {
    var parts := Split(u, ',');
    assert parts[0] == id && parts[1..] == Split(rest, ',');
  }

  /** An item parses back to its descriptor. */
  lemma ParseRendered(c: Choice)
    requires IsCanonical(c.id) && Trimmed(c.text)
    ensures ParseChoice(c.id + ", " + c.text) == c
  {
    StripRendered(c);
    WordsHaveNoComma(c.id);
    SplitPrefix(c.id, ',', LabelPart(c.text));
    LabelOfRendered(c.text);
    CanonicalKeeps(c.id);
    hide *;
    ParseStripped(c.id + ", " + c.text, c.id + "," + LabelPart(c.text), c.id, LabelPart(c.text));
  }

  /** A leading space before the first segment is stripped away again. */
  lemma ChoicesFormPadLeft(t: string)
    ensures ChoicesForm(" " + t) == ChoicesForm(t)
  {
    hide ParseChoice;
    var parts := Split(t, '|');
    var padded := Split(" " + t, '|');
    SplitPadLeft(t);
    ParseChoicePadLeft(parts[0]);
    assert ChoicesForm(" " + t) == ParseChoices(padded) && ChoicesForm(t) == ParseChoices(parts);
    hide *;
    ParsePadded(parts, padded);
  }

  /** A leading blank lands in the first segment of a split on `|`. */
  lemma SplitPadLeft(t: string)
    ensures Split(" " + t, '|') == [" " + Split(t, '|')[0]] + Split(t, '|')[1..]
  {
    assert (" " + t)[1..] == t;
  }

  lemma ParseChoicePadLeft(x: string)
    ensures ParseChoice(" " + x) == ParseChoice(x)
  {
    StripPadLeft(x);
  }

  lemma ParsePadded(parts: seq<string>, padded: seq<string>)
    requires |parts| >= 1 && |padded| == |parts|
    requires ParseChoice(padded[0]) == ParseChoice(parts[0])
    requires padded[1..] == parts[1..]
    ensures ParseChoices(padded) == ParseChoices(parts)
  {
    hide ParseChoice;
    forall k | 0 <= k < |parts| ensures ParseChoices(padded)[k] == ParseChoices(parts)[k] {
      if k > 0 {
        assert padded[k] == padded[1..][k - 1];
      }
    }
  }

  lemma RoundTripOne(cs: seq<Choice>)
    requires |cs| == 1 && Renderable(cs[0])
    ensures ChoicesForm(RenderChoices(cs)) == cs
  {
    hide ParseChoice;
    RenderedItemHasNoBar(cs[0]);
    ParseRendered(cs[0]);
    var item := RenderChoice(cs[0]);
    assert RenderChoices(cs) == item;
    assert '|' !in item by { assert forall i :: 0 <= i < |item| ==> item[i] == (item + " ")[i]; }
    SplitWithoutSeparator(item, '|');
    assert ChoicesForm(item) == ParseChoices([item]);
    hide *;
    ParseCons(item, []);
    assert [item] + [] == [item];
  }

  /** A choice whose id is canonical and whose label is stripped and free of `|`. */
  predicate Renderable(c: Choice)
  {
    IsCanonical(c.id) && Trimmed(c.text) && '|' !in c.text
  }

  lemma RenderedItemHasNoBar(c: Choice)
    requires Renderable(c)
    ensures '|' !in RenderChoice(c) + " "
  {
    WordsHaveNoComma(c.id);
  }

  /** One rendered item followed by the rest of the list. */
  lemma RenderCons(cs: seq<Choice>)
    requires |cs| >= 2
    ensures RenderChoices(cs) == (RenderChoice(cs[0]) + " ") + "|" + (" " + RenderChoices(cs[1..]))
  {
    var items := RenderedItems(cs);
    assert items[1..] == RenderedItems(cs[1..]);
  }

  lemma ChoicesFormCons(x: string, t: string)
    requires '|' !in x + " "
    ensures ChoicesForm((x + " ") + "|" + (" " + t)) == [ParseChoice(x)] + ChoicesForm(t)
  {
    SplitPrefix(x + " ", '|', " " + t);
    StripPadRight(x);
    ChoicesFormPadLeft(t);
    var whole := (x + " ") + "|" + (" " + t);
    var rest := Split(" " + t, '|');
    assert Split(whole, '|') == [x + " "] + rest;
    assert ChoicesForm(whole) == ParseChoices([x + " "] + rest);
    assert ChoicesForm(" " + t) == ParseChoices(rest);
    assert ParseChoice(x + " ") == ParseChoice(x);
    hide *;
    ParseCons(x + " ", rest);
  }

  lemma ParseCons(x: string, rest: seq<string>)
    ensures ParseChoices([x] + rest) == [ParseChoice(x)] + ParseChoices(rest)
  {
    hide ParseChoice;
    var l, r := ParseChoices([x] + rest), [ParseChoice(x)] + ParseChoices(rest);
    forall k | 0 <= k < |l| ensures l[k] == r[k] {
      if k > 0 {
        assert ([x] + rest)[k] == rest[k - 1];
      }
    }
  }

  /**
   * get_choices_form reads back what get_choices writes, for every
   * non-empty list of descriptors with canonical ids and stripped labels
   * free of `|`.
   */
  lemma {:induction false} ChoicesRoundTrip(cs: seq<Choice>)
    requires |cs| >= 1
    requires forall k :: 0 <= k < |cs| ==> Renderable(cs[k])
    ensures ChoicesForm(RenderChoices(cs)) == cs
  {
    if |cs| == 1 {
      RoundTripOne(cs);
    } else {
      assert forall k :: 0 <= k < |cs[1..]| ==> Renderable(cs[1..][k]) by {
        hide Renderable;
        assert forall k :: 0 <= k < |cs[1..]| ==> cs[1..][k] == cs[k + 1];
      }
      ChoicesRoundTrip(cs[1..]);
      RoundTripCons(cs);
    }
  }

  /** The first choice read back in front of a tail that already reads back. */
  lemma RoundTripCons(cs: seq<Choice>)
    requires |cs| >= 2 && Renderable(cs[0])
    requires ChoicesForm(RenderChoices(cs[1..])) == cs[1..]
    ensures ChoicesForm(RenderChoices(cs)) == cs
  {
    hide ParseChoice;
    RenderedItemHasNoBar(cs[0]);
    ParseRendered(cs[0]);
    var item := RenderChoice(cs[0]);
    RenderCons(cs);
    ChoicesFormCons(item, RenderChoices(cs[1..]));
    hide *;
    assert [cs[0]] + cs[1..] == cs;
  }
}

=== FILE: py_values.dfy ===
/**
 * The few Python built-ins the converters apply to decoded JSON values
 * and definitions: truth, `str` and `repr`, iteration, `d[k]` and
 * `d.get(k, default)`, and the repr texts of the exceptions they raise.
 *
 * A Python exception that is not a conversion error is carried as the
 * text of its repr, e.g. `KeyError('id',)`. How lists and mappings print
 * is Python's business (the key order of a Python 2 dict is not
 * predictable): it is the parameter `show`.
 */
module PyValues {
  import opened Wrappers
  import opened Text
  import opened Structures
  import opened Errors

  /** bool(v). */
  predicate Truthy(v: Value)
  {
    match v
    case VNone => false
    case VBool(b) => b
    case VInt(n) => n != 0
    case VStr(s) => s != ""
    case VSpec(sp) => sp.entries != []
    case VList(xs) => xs != []
  }

  /** Lists and mappings cannot be dict keys. */
  predicate Hashable(v: Value) { !v.VList? && !v.VSpec? }

  /** str(n) for an integer. */
  function IntToString(n: int): (r: string)
    ensures n >= 0 ==> r == NatToString(n)
    ensures n < 0 ==> r == "-" + NatToString(0 - n)
  {
    if n >= 0 then NatToString(n) else "-" + NatToString(0 - n)
  }

  /** The Python 2 name of a value's type, as error messages write it. */
  function TypeName(v: Value): string
  {
    match v
    case VNone => "NoneType"
    case VBool(_) => "bool"
    case VInt(_) => "int"
    case VStr(_) => "unicode"
    case VSpec(_) => "dict"
    case VList(_) => "list"
  }

  /** str(v): a string as it is, a number in decimal, True/False/None by name; lists and mappings as `show` prints them. */
  function StrOf(v: Value, show: Value -> string): (r: string)
    ensures v.VStr? ==> r == v.s
    ensures v.VList? || v.VSpec? ==> r == show(v)
  {
    match v
    case VNone => "None"
    case VBool(b) => if b then "True" else "False"
    case VInt(n) => IntToString(n)
    case VStr(s) => s
    case _ => show(v)
  }

  /** repr(v): a byte string quoted and escaped; scalars as str writes them; anything else as `show` prints it. */
  function ReprOf(v: Value, show: Value -> string): (r: string)
    ensures v.VStr? && IsByteString(v.s) ==> r == Repr(v.s) && UnRepr(r) == Some(v.s)
  {
    match v
    case VStr(s) =>
      if IsByteString(s) then
        ReprRoundTrip(s);
        Repr(s)
      else show(v)
    case VSpec(_) => show(v)
    case VList(_) => show(v)
    case _ => StrOf(v, show)
  }

  /** The repr of a built-in exception with one argument. */
  function ExcText(cls: string, argument: string): string
  {
    cls + "(" + argument + ",)"
  }

  function KeyErrorOf(key: Value, show: Value -> string): (e: Raised)
    ensures e.RaisedOther?
  {
    RaisedOther(ExcText("KeyError", ReprOf(key, show)))
  }

  /** repr of an exception message; the messages built here are byte strings. */
  function MessageRepr(message: string): string
  {
    if IsByteString(message) then Repr(message) else "u'" + message + "'"
  }

  function TypeErrorOf(message: string): (e: Raised)
    ensures e.RaisedOther?
  {
    RaisedOther(ExcText("TypeError", MessageRepr(message)))
  }

  function AttributeErrorOf(v: Value, attribute: string): (e: Raised)
    ensures e.RaisedOther?
  {
    RaisedOther(ExcText("AttributeError", MessageRepr("'" + TypeName(v) + "' object has no attribute '" + attribute + "'")))
  }

  /** repr(exc): a conversion error's own repr, any other exception's carried text. */
  function ExcRepr(exc: Raised): string
  {
    match exc
    case RaisedOther(text) => text
    case RaisedError(f) =>
      if forall k :: 0 <= k < |f.paragraphs| ==> ByteParagraph(f.paragraphs[k]) then ErrorRepr(f) else ErrorStr(f)
  }

  /** `str(exc) if isinstance(exc, Error) else repr(exc)`. */
  function ExcDetail(exc: Raised): (r: string)
    ensures exc.RaisedError? ==> r == ErrorStr(exc.failure)
    ensures exc.RaisedOther? ==> r == exc.name
  {
    match exc
    case RaisedError(f) => ErrorStr(f)
    case RaisedOther(text) => text
  }

  /**
   * iter(v): a list's items, a mapping's keys, a string's characters;
   * numbers, booleans and None are not iterable.
   */
  function Iterate(v: Value): (r: Result<seq<Value>, Raised>)
    ensures v.VList? ==> r == Ok(v.items)
    ensures v.VSpec? ==> r.Ok? && |r.value| == |v.spec.entries| && forall k :: 0 <= k < |r.value| ==> r.value[k] == VStr(v.spec.entries[k].key)
    ensures v.VStr? ==> r.Ok? && |r.value| == |v.s| && forall k :: 0 <= k < |r.value| ==> r.value[k] == VStr([v.s[k]])
    ensures r.Err? <==> v.VNone? || v.VBool? || v.VInt?
  {
    match v
    case VList(xs) => Ok(xs)
    case VSpec(sp) => Ok(seq(|sp.entries|, k requires 0 <= k < |sp.entries| => VStr(sp.entries[k].key)))
    case VStr(s) => Ok(seq(|s|, k requires 0 <= k < |s| => VStr([s[k]])))
    case _ => Err(TypeErrorOf("'" + TypeName(v) + "' object is not iterable"))
  }

  /** d[key] for a string key: a mapping's entry or a KeyError; any other value cannot be indexed by a string. */
  function Index(v: Value, key: string, show: Value -> string): (r: Result<Value, Raised>)
    ensures v.VSpec? && Lookup(v.spec, key).Some? ==> r == Ok(Lookup(v.spec, key).value)
    ensures v.VSpec? && Lookup(v.spec, key).None? ==> r == Err(KeyErrorOf(VStr(key), show))
    ensures r.Ok? ==> v.VSpec?
  {
    match v
    case VSpec(sp) =>
      (match Lookup(sp, key)
       case Some(x) => Ok(x)
       case None => Err(KeyErrorOf(VStr(key), show)))
    case VList(_) => Err(TypeErrorOf("list indices must be integers, not str"))
    case VStr(_) => Err(TypeErrorOf("string indices must be integers"))
    case _ => Err(TypeErrorOf("'" + TypeName(v) + "' object has no attribute '__getitem__'"))
  }

  /** d.get(key, default): only mappings have `get`. */
  function Get(v: Value, key: string, default: Value): (r: Result<Value, Raised>)
    ensures v.VSpec? && Lookup(v.spec, key).Some? ==> r == Ok(Lookup(v.spec, key).value)
    ensures v.VSpec? && Lookup(v.spec, key).None? ==> r == Ok(default)
    ensures r.Err? <==> !v.VSpec?
  {
    if v.VSpec? then
      (match Lookup(v.spec, key)
       case Some(x) => Ok(x)
       case None => Ok(default))
    else Err(AttributeErrorOf(v, "get"))
  }

  /** `.get(key, default)` on a value known to be a mapping. */
  function GetOr(sp: Spec, key: string, default: Value): (r: Value)
    ensures Lookup(sp, key).Some? ==> r == Lookup(sp, key).value
    ensures Lookup(sp, key).None? ==> r == default
    ensures Get(VSpec(sp), key, default) == Ok(r)
  {
    match Lookup(sp, key)
    case Some(x) => x
    case None => default
  }
}

=== FILE: qualtrics_choices.dfy ===
/**
 * The choices of a Qualtrics question: the order in which a mapping of
 * choices is read when the question gives none (its keys sorted, as
 * integers when every key is a string of digits), and the enumeration
 * ids a field type collects from them.
 */
module QualtricsChoices {
  import opened Wrappers
  import opened Text
  import opened Structures
  import opened PyValues

  // ---------------------------------------------------------------------
  // Sorting the keys of a choices mapping

  /** A key of the choices mapping as `sorted` sees it: converted to an integer, or the string. */
  datatype Key = IntKey(n: nat) | StrKey(s: string)

  /** Python 2 orders unicode strings by code point, a prefix first. */
  predicate StrLe(a: string, b: string)
    decreases |a|
  {
    |a| == 0 || (|b| > 0 && (a[0] < b[0] || (a[0] == b[0] && StrLe(a[1..], b[1..]))))
  }

  /** Integers by value; and, as Python 2 compares an int with a string, any integer before any string. */
  predicate KeyLe(a: Key, b: Key)
  {
    match (a, b)
    case (IntKey(x), IntKey(y)) => x <= y
    case (IntKey(_), StrKey(_)) => true
    case (StrKey(_), IntKey(_)) => false
    case (StrKey(x), StrKey(y)) => StrLe(x, y)
  }

  lemma {:induction false} StrLeTotal(a: string, b: string)
    ensures StrLe(a, b) || StrLe(b, a)
    decreases |a|
  {
    if |a| > 0 && |b| > 0 && a[0] == b[0] {
      StrLeTotal(a[1..], b[1..]);
    }
  }

  lemma {:induction false} StrLeAntisymmetric(a: string, b: string)
    requires StrLe(a, b) && StrLe(b, a)
    ensures a == b
    decreases |a|
  {
    if |a| > 0 {
      StrLeAntisymmetric(a[1..], b[1..]);
      assert a == [a[0]] + a[1..] && b == [b[0]] + b[1..];
    }
  }

  lemma {:induction false} StrLeTransitive(a: string, b: string, c: string)
    requires StrLe(a, b) && StrLe(b, c)
    ensures StrLe(a, c)
    decreases |a|
  {
    if |a| > 0 && a[0] == b[0] && b[0] == c[0] {
      StrLeTransitive(a[1..], b[1..], c[1..]);
    }
  }

  lemma KeyLeTransitive(a: Key, b: Key, c: Key)
    requires KeyLe(a, b) && KeyLe(b, c)
    ensures KeyLe(a, c)
  {
    if a.StrKey? && b.StrKey? && c.StrKey? {
      StrLeTransitive(a.s, b.s, c.s);
    }
  }

  lemma KeyLeTotal(a: Key, b: Key)
    ensures KeyLe(a, b) || KeyLe(b, a)
  {
    if a.StrKey? && b.StrKey? {
      StrLeTotal(a.s, b.s);
    }
  }

  lemma KeyLeAntisymmetric(a: Key, b: Key)
    requires KeyLe(a, b) && KeyLe(b, a)
    ensures a == b
  {
    if a.StrKey? && b.StrKey? {
      StrLeAntisymmetric(a.s, b.s);
    }
  }

  predicate Sorted(ks: seq<Key>)
  {
    forall i, j :: 0 <= i < j < |ks| ==> KeyLe(ks[i], ks[j])
  }

  /** `x` placed before the first key it does not follow. */
  function Insert(x: Key, ks: seq<Key>): (r: seq<Key>)
    requires Sorted(ks)
    ensures Sorted(r) && multiset(r) == multiset(ks) + multiset{x}
    decreases |ks|
  {
    if ks == [] then [x]
    else if KeyLe(x, ks[0]) then
      SortedCons(x, ks);
      [x] + ks
    else
      KeyLeTotal(x, ks[0]);
      var rest := Insert(x, ks[1..]);
      assert ks == [ks[0]] + ks[1..];
      LowerBoundKept(ks[0], x, ks[1..], rest);
      SortedCons(ks[0], rest);
      [ks[0]] + rest
  }

  /** A key no greater than the head of a sorted sequence can go in front of it. */
  lemma SortedCons(k: Key, ks: seq<Key>)
    requires Sorted(ks) && (ks == [] || KeyLe(k, ks[0]))
    ensures Sorted([k] + ks)
  {
    forall j | 0 < j < |ks| ensures KeyLe(k, ks[j]) { KeyLeTransitive(k, ks[0], ks[j]); }
    var r := [k] + ks;
    forall i, j | 0 <= i < j < |r| ensures KeyLe(r[i], r[j]) {
      if i > 0 {
        assert r[i] == ks[i - 1] && r[j] == ks[j - 1];
      } else {
        assert r[j] == ks[j - 1];
      }
    }
  }

  /** A lower bound of `x` and of every key in `ks` bounds every key of a permutation of `ks + [x]`. */
  lemma LowerBoundKept(b: Key, x: Key, ks: seq<Key>, r: seq<Key>)
    requires KeyLe(b, x) && multiset(r) == multiset(ks) + multiset{x}
    requires forall j :: 0 <= j < |ks| ==> KeyLe(b, ks[j])
    ensures r == [] || KeyLe(b, r[0])
    ensures forall j :: 0 <= j < |r| ==> KeyLe(b, r[j])
  {
    forall j | 0 <= j < |r| ensures KeyLe(b, r[j]) {
      assert r[j] in multiset(r);
      if r[j] != x {
        assert r[j] in multiset(ks);
        var m :| 0 <= m < |ks| && ks[m] == r[j];
      }
    }
  }

  /** `sorted(keys)`. */
  function Sort(ks: seq<Key>): (r: seq<Key>)
    ensures Sorted(r) && multiset(r) == multiset(ks)
    decreases |ks|
  {
    if ks == [] then []
    else
      assert ks == [ks[0]] + ks[1..];
      Insert(ks[0], Sort(ks[1..]))
  }

  /** The first key of a sorted sequence follows no other key of it. */
  lemma SortedHeads(a: seq<Key>, b: seq<Key>)
    requires Sorted(a) && Sorted(b) && multiset(a) == multiset(b) && a != []
    ensures b != [] && a[0] == b[0]
  {
    assert a[0] in multiset(b);
    assert b != [] && b[0] in multiset(a);
    var i :| 0 <= i < |b| && b[i] == a[0];
    var j :| 0 <= j < |a| && a[j] == b[0];
    if i > 0 && j > 0 {
      KeyLeAntisymmetric(a[0], b[0]);
    }
  }

  lemma MultisetTail(a: seq<Key>, b: seq<Key>)
    requires a != [] && b != [] && a[0] == b[0] && multiset(a) == multiset(b)
    ensures multiset(a[1..]) == multiset(b[1..])
  {
    assert a == [a[0]] + a[1..] && b == [b[0]] + b[1..];
    assert multiset(a) == multiset{a[0]} + multiset(a[1..]);
    assert multiset(b) == multiset{b[0]} + multiset(b[1..]);
    assert multiset(a[1..]) == multiset(a) - multiset{a[0]};
  }

  /** Two sorted arrangements of the same keys are the same sequence: `sorted` has exactly one answer. */
  lemma {:induction false} SortedUnique(a: seq<Key>, b: seq<Key>)
    requires Sorted(a) && Sorted(b) && multiset(a) == multiset(b)
    ensures a == b
    decreases |a|
  {
    if a == [] {
      assert |b| == |multiset(b)| == 0;
    } else {
      SortedHeads(a, b);
      MultisetTail(a, b);
      SortedUnique(a[1..], b[1..]);
      assert a == [a[0]] + a[1..] && b == [b[0]] + b[1..];
    }
  }

  /** `k.isdigit()`: a non-empty string of ASCII digits. */
  predicate IsDigitString(k: string) { |k| > 0 && AllDigits(k) }

  /** The keys as `sorted` receives them: all converted by `int` when all are digit strings, else all left as strings. */
  function KeysOf(names: seq<string>): (r: seq<Key>)
    ensures |r| == |names|
  {
    if forall k :: 0 <= k < |names| ==> IsDigitString(names[k]) then
      seq(|names|, k requires 0 <= k < |names| => IntKey(DecimalValue(names[k])))
    else
      seq(|names|, k requires 0 <= k < |names| => StrKey(names[k]))
  }

  /** A sorted key as the value the choice loop sees. */
  function KeyValue(k: Key): (v: Value)
  {
    match k
    case IntKey(n) => VInt(n)
    case StrKey(s) => VStr(s)
  }

  /** The choice order used when a choices mapping comes without one. */
  function DefaultOrder(choices: Spec): (r: seq<Value>)
    ensures |r| == |choices.entries|
  {
    var sorted := Sort(KeysOf(Keys(choices)));
    assert |sorted| == |multiset(sorted)| == |Keys(choices)|;
    seq(|sorted|, k requires 0 <= k < |sorted| => KeyValue(sorted[k]))
  }

  /** A digit string in canonical form: no leading zero unless it is `0` itself. */
  predicate Canonical(k: string)
  {
    IsDigitString(k) && (k[0] != '0' || |k| == 1)
  }

  lemma {:induction false} DecimalPositive(s: string)
    requires IsDigitString(s) && s[0] != '0'
    ensures DecimalValue(s) >= 1
    decreases |s|
  {
    if |s| > 1 {
      DecimalPositive(s[..|s| - 1]);
    }
  }

  lemma {:induction false} CanonicalRoundTrip(s: string)
    requires Canonical(s)
    ensures NatToString(DecimalValue(s)) == s
    decreases |s|
  {
    if |s| > 1 {
      var p := s[..|s| - 1];
      assert p[0] == s[0];
      CanonicalRoundTrip(p);
      DecimalPositive(p);
      var v := DecimalValue(s);
      assert v / 10 == DecimalValue(p) && v % 10 == DigitValue(s[|s| - 1]);
      assert s == p + [s[|s| - 1]];
    }
  }

  /**
   * A digit key converted by `int` and written back by `str` finds its
   * choice again exactly when it is canonical; `01` comes back as `1`.
   */
  lemma ChoiceKeyRoundTrip(k: string)
    requires IsDigitString(k)
    ensures StrOf(VInt(DecimalValue(k)), x => "") == k <==> Canonical(k)
  {
    if Canonical(k) {
      CanonicalRoundTrip(k);
    } else {
      assert StrOf(VInt(DecimalValue(k)), x => "") == NatToString(DecimalValue(k));
    }
  }

  // ---------------------------------------------------------------------
  // The enumeration ids of the field type

  /** The ids in order of first occurrence, each once. */
  function Dedup(ids: seq<string>): (r: seq<string>)
    ensures forall x :: x in r <==> x in ids
    ensures forall i, j :: 0 <= i < j < |r| ==> r[i] != r[j]
    decreases |ids|
  {
    if ids == [] then []
    else
      var front := Dedup(ids[..|ids| - 1]);
      var last := ids[|ids| - 1];
      assert ids == ids[..|ids| - 1] + [last];
      if last in front then front else front + [last]
  }

  /** `TypeObject.add_enumeration(id)` for each id in turn, starting from the collection `coll`. */
  function AddAll(coll: Spec, ids: seq<string>): (r: Spec)
    decreases |ids|
  {
    if ids == [] then coll else AddAll(AddEnumeration(coll, ids[0], ""), ids[1..])
  }

  /** The ids of `ids` not in `seen`, each once, in order of first occurrence. */
  function DedupAfter(seen: seq<string>, ids: seq<string>): (r: seq<string>)
    decreases |ids|
  {
    if ids == [] then seen
    else DedupAfter(if ids[0] in seen then seen else seen + [ids[0]], ids[1..])
  }

  lemma {:induction false} DedupAfterSnoc(seen: seq<string>, ids: seq<string>, x: string)
    ensures DedupAfter(seen, ids + [x]) == (var d := DedupAfter(seen, ids); if x in d then d else d + [x])
    decreases |ids|
  {
    if ids == [] {
      assert ids + [x] == [x];
    } else {
      assert (ids + [x])[1..] == ids[1..] + [x];
      DedupAfterSnoc(if ids[0] in seen then seen else seen + [ids[0]], ids[1..], x);
    }
  }

  lemma {:induction false} DedupIsDedupAfter(ids: seq<string>)
    ensures Dedup(ids) == DedupAfter([], ids)
    decreases |ids|
  {
    if ids != [] {
      DedupIsDedupAfter(ids[..|ids| - 1]);
      assert ids == ids[..|ids| - 1] + [ids[|ids| - 1]];
      DedupAfterSnoc([], ids[..|ids| - 1], ids[|ids| - 1]);
    }
  }

  lemma {:induction false} AddAllKeys(coll: Spec, ids: seq<string>)
    ensures Keys(AddAll(coll, ids)) == DedupAfter(Keys(coll), ids)
    decreases |ids|
  {
    if ids != [] {
      var next := AddEnumeration(coll, ids[0], "");
      assert Keys(next) == if ids[0] in Keys(coll) then Keys(coll) else Keys(coll) + [ids[0]];
      AddAllKeys(next, ids[1..]);
    }
  }

  /** The enumeration collection a field type builds from an empty one has the ids of `Dedup`, in that order. */
  lemma EnumerationKeys(ids: seq<string>)
    ensures Keys(AddAll(Spec("EnumerationCollectionObject", []), ids)) == Dedup(ids)
  {
    AddAllKeys(Spec("EnumerationCollectionObject", []), ids);
    assert Keys(Spec("EnumerationCollectionObject", [])) == [];
    DedupIsDedupAfter(ids);
  }

  /** Ids that are already distinct are kept as they are. */
  lemma {:induction false} DedupDistinct(ids: seq<string>)
    requires forall i, j :: 0 <= i < j < |ids| ==> ids[i] != ids[j]
    ensures Dedup(ids) == ids
    decreases |ids|
  {
    if ids != [] {
      var front := ids[..|ids| - 1];
      DedupDistinct(front);
      assert ids[|ids| - 1] !in front;
      assert ids == front + [ids[|ids| - 1]];
    }
  }
}

=== FILE: qualtrics_export.dfy ===
/**
 * The Qualtrics exporter (QualtricsFromRios): walks the pages of a RIOS
 * form and writes the Qualtrics "advanced format" text, one line per
 * list item: `[[PageBreak]]` before each page, and per question a
 * numbered text line, `[[MultipleAnswer]]` for a multiple-choice
 * question, a blank line, one line per choice and two blank lines.
 *
 * The exporter is modelled twice, selected by a `Variant`: as written,
 * where the question text is looked up with a call that is one argument
 * short, and where the trimming of the final list returns its input; and
 * as intended, where the text is localized and the leading page breaks
 * and trailing blank lines are dropped.
 */
module QualtricsExport {
  import opened Wrappers
  import opened Text
  import opened Structures
  import opened Errors
  import opened Logger
  import opened PyValues
  import opened ConversionBase

  const PageBreak := "[[PageBreak]]"
  const MultipleAnswer := "[[MultipleAnswer]]"
  const FailureMessage := "RIOS data dictionary conversion failure:"
  const FailurePayload := "Unable to parse the data dictionary"

  /** The exception a call of `get_local_text` with only its second argument raises. */
  const ArityError := TypeErrorOf("get_local_text() takes exactly 2 arguments (1 given)")

  datatype Variant = AsWritten | Intended

  /** The lines written so far, the last question number given out, and what was raised, if anything. */
  datatype Step = Step(lines: seq<Value>, number: nat, raised: Option<Raised>)

  /** A conversion value error with one paragraph. */
  function ValueError(message: string, payload: string): (e: Raised)
    ensures e.RaisedError? && e.failure.cls == ConversionValueError
  {
    RaisedError(NewError(ConversionValueError, message, Some(payload)))
  }

  // ---------------------------------------------------------------------
  // Localized text

  /** `get_local_text(localization, obj)` on a decoded value: only a mapping has `get`. */
  function LocalText(localization: string, obj: Value): (r: Result<Value, Raised>)
    ensures obj.VSpec? ==> r == Ok(GetLocalText(localization, obj.spec))
    ensures r.Err? <==> !obj.VSpec?
  {
    Get(obj, localization, VStr(""))
  }

  /** The text of one enumeration: `get_local_text(localization, enumeration['text'])`. */
  function ChoiceText(localization: string, enumeration: Value, show: Value -> string): (r: Result<Value, Raised>)
    ensures r.Ok? ==> enumeration.VSpec? && Lookup(enumeration.spec, "text").Some?
    ensures r.Ok? ==> LocalText(localization, Lookup(enumeration.spec, "text").value) == r
  {
    var text := Index(enumeration, "text", show);
    if text.Err? then Err(text.error) else LocalText(localization, text.value)
  }

  /** The lines appended for the choices, up to the first that fails, and that failure. */
  datatype Appended = Appended(added: seq<Value>, raised: Option<Raised>)

  function ChoiceLines(localization: string, enumerations: seq<Value>, show: Value -> string): (r: Appended)
    ensures |r.added| <= |enumerations|
    ensures r.raised.None? ==> |r.added| == |enumerations|
    ensures forall k :: 0 <= k < |r.added| ==> ChoiceText(localization, enumerations[k], show) == Ok(r.added[k])
    ensures r.raised.None? <==> forall k :: 0 <= k < |enumerations| ==> ChoiceText(localization, enumerations[k], show).Ok?
    decreases |enumerations|
  {
    if |enumerations| == 0 then Appended([], None)
    else
      var t := ChoiceText(localization, enumerations[0], show);
      if t.Err? then Appended([], Some(t.error))
      else
        var rest := ChoiceLines(localization, enumerations[1..], show);
        ChoiceLinesCons(localization, enumerations, show, t.value, rest);
        Appended([t.value] + rest.added, rest.raised)
  }

  /** What `ChoiceLines` promises about `r` for `enumerations`. */
  predicate ListsChoices(localization: string, enumerations: seq<Value>, show: Value -> string, r: Appended)
  {
    && |r.added| <= |enumerations|
    && (r.raised.None? ==> |r.added| == |enumerations|)
    && (forall k :: 0 <= k < |r.added| ==> ChoiceText(localization, enumerations[k], show) == Ok(r.added[k]))
    && (r.raised.None? <==> forall k :: 0 <= k < |enumerations| ==> ChoiceText(localization, enumerations[k], show).Ok?)
  }

  /** A first choice that renders, followed by the lines of the rest. */
  lemma ChoiceLinesCons(localization: string, enumerations: seq<Value>, show: Value -> string, t: Value, rest: Appended)
    requires |enumerations| > 0 && ChoiceText(localization, enumerations[0], show) == Ok(t)
    requires |rest.added| <= |enumerations[1..]|
    requires rest.raised.None? ==> |rest.added| == |enumerations[1..]|
    requires forall k :: 0 <= k < |rest.added| ==> ChoiceText(localization, enumerations[1..][k], show) == Ok(rest.added[k])
    requires rest.raised.None? <==> forall k :: 0 <= k < |enumerations[1..]| ==> ChoiceText(localization, enumerations[1..][k], show).Ok?
    ensures ListsChoices(localization, enumerations, show, Appended([t] + rest.added, rest.raised))
  {
    hide ChoiceText;
    ChoicesOkCons(localization, enumerations, show);
    AddedCons(localization, enumerations, show, t, rest.added);
  }

  /** Every choice renders exactly when the first does and every later one does. */
  lemma ChoicesOkCons(localization: string, enumerations: seq<Value>, show: Value -> string)
    requires |enumerations| > 0
    ensures (forall k :: 0 <= k < |enumerations| ==> ChoiceText(localization, enumerations[k], show).Ok?)
        <==> ChoiceText(localization, enumerations[0], show).Ok?
             && forall k :: 0 <= k < |enumerations[1..]| ==> ChoiceText(localization, enumerations[1..][k], show).Ok?
  {
    hide *;
    assert forall k :: 1 <= k < |enumerations| ==> enumerations[1..][k - 1] == enumerations[k];
  }

  /** The first rendered choice in front of the rendered later ones lines up with the enumerations. */
  lemma AddedCons(localization: string, enumerations: seq<Value>, show: Value -> string, t: Value, added: seq<Value>)
    requires |enumerations| > 0 && ChoiceText(localization, enumerations[0], show) == Ok(t)
    requires |added| < |enumerations|
    requires forall k :: 0 <= k < |added| ==> ChoiceText(localization, enumerations[1..][k], show) == Ok(added[k])
    ensures forall k :: 0 <= k < |[t] + added| ==> ChoiceText(localization, enumerations[k], show) == Ok(([t] + added)[k])
  {
    hide *;
    forall k | 0 <= k < |[t] + added| ensures ChoiceText(localization, enumerations[k], show) == Ok(([t] + added)[k]) {
      if k > 0 {
        assert enumerations[1..][k - 1] == enumerations[k] && ([t] + added)[k] == added[k - 1];
      }
    }
  }

  // ---------------------------------------------------------------------
  // The intended layout of one question

  /** What a question contributes: its number, its localized text, whether it takes several answers, and its choices' texts. */
  datatype Question = Question(number: nat, text: Value, multiple: bool, choices: seq<Value>)

  /** The first line of a question: its number, a full stop, a space and its text. */
  function Heading(number: nat, text: Value, show: Value -> string): string
  {
    NatToString(number) + ". " + StrOf(text, show)
  }

  /** The lines before the choices. */
  function Head(q: Question, show: Value -> string): seq<Value>
  {
    [VStr(Heading(q.number, q.text, show))] + (if q.multiple then [VStr(MultipleAnswer)] else []) + [VStr("")]
  }

  /** The lines of a question in the Qualtrics advanced format. */
  function Block(q: Question, show: Value -> string): seq<Value>
  {
    Head(q, show) + q.choices + [VStr(""), VStr("")]
  }

  /** A block is its heading, the marker when several answers are allowed, a blank line, the choices and two blank lines; the heading gives the number back. */
  lemma BlockShape(q: Question, show: Value -> string)
    ensures var m := if q.multiple then 1 else 0;
      var b := Block(q, show);
      |b| == |q.choices| + 4 + m &&
      b[0] == VStr(Heading(q.number, q.text, show)) &&
      (q.multiple ==> b[1] == VStr(MultipleAnswer)) &&
      b[1 + m] == VStr("") &&
      b[2 + m..2 + m + |q.choices|] == q.choices &&
      b[|b| - 2..] == [VStr(""), VStr("")]
    ensures DecimalValue(Heading(q.number, q.text, show)[..|NatToString(q.number)|]) == q.number
    ensures Heading(q.number, q.text, show)[|NatToString(q.number)|..][..2] == ". "
  {
    var m := if q.multiple then 1 else 0;
    var h := Head(q, show);
    assert |h| == 2 + m;
    var b := Block(q, show);
    assert b[..2 + m] == h;
    assert b[2 + m..2 + m + |q.choices|] == q.choices;
    var d := NatToString(q.number);
    var line := Heading(q.number, q.text, show);
    assert line[..|d|] == d;
    assert line[|d|..] == ". " + StrOf(q.text, show);
    DecimalOfNatToString(q.number);
  }

  // ---------------------------------------------------------------------
  // question_processor

  /** `self.fields[field_id]`: a list or mapping cannot be a key; a missing id is a KeyError. */
  function FieldOf(fields: map<Value, Spec>, id: Value, show: Value -> string): (r: Result<Spec, Raised>)
    ensures r.Ok? <==> Hashable(id) && id in fields
    ensures r.Ok? ==> r.value == fields[id]
  {
    if !Hashable(id) then Err(TypeErrorOf("unhashable type: '" + TypeName(id) + "'"))
    else if id !in fields then Err(KeyErrorOf(id, show))
    else Ok(fields[id])
  }

  /** The base type of a question's field: its type resolved through `fullType`, then `['base']`. */
  function BaseOf(opts: Value, fields: map<Value, Spec>, fullType: Value -> Result<Value, Raised>, show: Value -> string): (r: Result<Value, Raised>)
    ensures r.Ok? ==> Index(opts, "fieldId", show).Ok?
  {
    var id := Index(opts, "fieldId", show);
    if id.Err? then Err(id.error)
    else
      var field := FieldOf(fields, id.value, show);
      if field.Err? then Err(field.error)
      else
        var ty := Index(VSpec(field.value), "type", show);
        if ty.Err? then Err(ty.error)
        else
          var full := fullType(ty.value);
          if full.Err? then Err(full.error)
          else Index(full.value, "base", show)
  }

  predicate IsChoiceBase(base: Value) { base == VStr("enumeration") || base == VStr("enumerationSet") }

  /**
   * The part of `question_processor` after the question number `n` is
   * taken: the heading, the marker, a blank line, the choices and two
   * blank lines, each appended as soon as it is computed.
   */
  function Render(opts: Value, lines: seq<Value>, n: nat, multiple: bool, localization: string, show: Value -> string, v: Variant): (r: Step)
    ensures lines <= r.lines && r.number == n
    ensures v == AsWritten ==> r.lines == lines && r.raised.Some?
  {
    var text := Index(opts, "text", show);
    if text.Err? then Step(lines, n, Some(text.error))
    else if v == AsWritten then Step(lines, n, Some(ArityError))
    else
      var local := LocalText(localization, text.value);
      if local.Err? then Step(lines, n, Some(local.error))
      else
        var head := Head(Question(n, local.value, multiple, []), show);
        var enums := Index(opts, "enumerations", show);
        if enums.Err? then Step(lines + head, n, Some(enums.error))
        else
          var items := Iterate(enums.value);
          if items.Err? then Step(lines + head, n, Some(items.error))
          else
            var choices := ChoiceLines(localization, items.value, show);
            if choices.raised.Some? then Step(lines + head + choices.added, n, choices.raised)
            else Step(lines + head + choices.added + [VStr(""), VStr("")], n, None)
  }

  /**
   * `question_processor`: resolves the base type, rejects anything but
   * an enumeration, takes the next question number, and appends the
   * question's lines. Lines appended before a failure stay.
   */
  function ProcessQuestion(opts: Value, lines: seq<Value>, number: nat, fields: map<Value, Spec>,
                           fullType: Value -> Result<Value, Raised>, localization: string, show: Value -> string, v: Variant): (r: Step)
    ensures lines <= r.lines
    ensures r.number == number || r.number == number + 1
    ensures r.raised.None? ==> r.number == number + 1
    ensures v == AsWritten ==> r.lines == lines && r.raised.Some?
  {
    var base := BaseOf(opts, fields, fullType, show);
    if base.Err? then Step(lines, number, Some(base.error))
    else if !IsChoiceBase(base.value) then
      var e := ValueError("Invalid question type:", "Type is not \"enumeration\" or \"enumerationSet\"");
      Step(lines, number, Some(RaisedError(Wrap(e.failure, "Got invalid value for type:", Some(StrOf(base.value, show))))))
    else
      hide Render;
      Render(opts, lines, number + 1, base.value == VStr("enumerationSet"), localization, show, v)
  }

  /**
   * Everything a question must have for the intended exporter to render
   * it: a field id naming a record field, a base type that is an
   * enumeration, a localizable text, and enumerations whose texts are
   * localizable.
   */
  function ReadQuestion(opts: Value, number: nat, fields: map<Value, Spec>,
                        fullType: Value -> Result<Value, Raised>, localization: string, show: Value -> string): Option<Question>
  {
    var base := BaseOf(opts, fields, fullType, show);
    var text := Index(opts, "text", show);
    var enums := Index(opts, "enumerations", show);
    if base.Err? || !IsChoiceBase(base.value) || text.Err? || LocalText(localization, text.value).Err? || enums.Err? then None
    else
      var items := Iterate(enums.value);
      if items.Err? then None
      else
        var choices := ChoiceLines(localization, items.value, show);
        if choices.raised.Some? then None
        else Some(Question(number + 1, LocalText(localization, text.value).value, base.value == VStr("enumerationSet"), choices.added))
  }

  /**
   * The intended exporter renders a question exactly when it can be
   * read, and then appends its block under the next number.
   */
  lemma QuestionLayout(opts: Value, lines: seq<Value>, number: nat, fields: map<Value, Spec>,
                       fullType: Value -> Result<Value, Raised>, localization: string, show: Value -> string)
    ensures var r := ProcessQuestion(opts, lines, number, fields, fullType, localization, show, Intended);
      var q := ReadQuestion(opts, number, fields, fullType, localization, show);
      (r.raised.None? <==> q.Some?) &&
      (q.Some? ==> r.lines == lines + Block(q.value, show) && r.number == number + 1 && q.value.number == number + 1)
  {
    hide *;
    QuestionRaises(opts, lines, number, fields, fullType, localization, show);
    if ReadQuestion(opts, number, fields, fullType, localization, show).Some? {
      QuestionBlock(opts, lines, number, fields, fullType, localization, show);
    }
  }

  /** The intended exporter raises exactly when the question cannot be read. */
  lemma QuestionRaises(opts: Value, lines: seq<Value>, number: nat, fields: map<Value, Spec>,
                       fullType: Value -> Result<Value, Raised>, localization: string, show: Value -> string)
    ensures ProcessQuestion(opts, lines, number, fields, fullType, localization, show, Intended).raised.None?
        <==> ReadQuestion(opts, number, fields, fullType, localization, show).Some?
  {
    hide BaseOf, Index, LocalText, Iterate, ChoiceLines, Get, Lookup, Heading, Head;
  }

  /** A question that can be read is appended as its block under the next number. */
  lemma QuestionBlock(opts: Value, lines: seq<Value>, number: nat, fields: map<Value, Spec>,
                      fullType: Value -> Result<Value, Raised>, localization: string, show: Value -> string)
    requires ReadQuestion(opts, number, fields, fullType, localization, show).Some?
    ensures var r := ProcessQuestion(opts, lines, number, fields, fullType, localization, show, Intended);
      var q := ReadQuestion(opts, number, fields, fullType, localization, show).value;
      r.lines == lines + Block(q, show) && r.number == number + 1 && q.number == number + 1
  {
    hide *;
    var base := BaseOf(opts, fields, fullType, show);
    var text := Index(opts, "text", show);
    var enums := Index(opts, "enumerations", show);
    ReadQuestionParts(opts, number, fields, fullType, localization, show);
    var local := LocalText(localization, text.value);
    var items := Iterate(enums.value);
    var choices := ChoiceLines(localization, items.value, show);
    var multiple := base.value == VStr("enumerationSet");
    var q := Question(number + 1, local.value, multiple, choices.added);
    ProcessReadable(opts, lines, number, fields, fullType, localization, show);
    RenderReadable(opts, lines, number + 1, multiple, localization, show);
    HeadIgnoresChoices(q, show);
    BlockParts(q, show);
  }

  /** A question that can be read has every part it was read from. */
  lemma ReadQuestionParts(opts: Value, number: nat, fields: map<Value, Spec>,
                          fullType: Value -> Result<Value, Raised>, localization: string, show: Value -> string)
    requires ReadQuestion(opts, number, fields, fullType, localization, show).Some?
    ensures var base := BaseOf(opts, fields, fullType, show);
      var text := Index(opts, "text", show);
      var enums := Index(opts, "enumerations", show);
      base.Ok? && IsChoiceBase(base.value) && text.Ok? && LocalText(localization, text.value).Ok? && enums.Ok?
      && Iterate(enums.value).Ok? && ChoiceLines(localization, Iterate(enums.value).value, show).raised.None?
      && ReadQuestion(opts, number, fields, fullType, localization, show)
         == Some(Question(number + 1, LocalText(localization, text.value).value, base.value == VStr("enumerationSet"),
                          ChoiceLines(localization, Iterate(enums.value).value, show).added))
  {
    hide BaseOf, Index, LocalText, Iterate, ChoiceLines, IsChoiceBase;
  }

  /** For a choice base, processing a question is rendering it under the next number. */
  lemma ProcessReadable(opts: Value, lines: seq<Value>, number: nat, fields: map<Value, Spec>,
                        fullType: Value -> Result<Value, Raised>, localization: string, show: Value -> string)
    requires BaseOf(opts, fields, fullType, show).Ok? && IsChoiceBase(BaseOf(opts, fields, fullType, show).value)
    ensures ProcessQuestion(opts, lines, number, fields, fullType, localization, show, Intended)
         == Render(opts, lines, number + 1, BaseOf(opts, fields, fullType, show).value == VStr("enumerationSet"), localization, show, Intended)
  {
    hide BaseOf, IsChoiceBase, Render;
  }

  /** Rendering a question whose parts are all there appends its head, its choices and two blank lines. */
  lemma RenderReadable(opts: Value, lines: seq<Value>, n: nat, multiple: bool, localization: string, show: Value -> string)
    requires Index(opts, "text", show).Ok? && LocalText(localization, Index(opts, "text", show).value).Ok?
    requires Index(opts, "enumerations", show).Ok? && Iterate(Index(opts, "enumerations", show).value).Ok?
    requires ChoiceLines(localization, Iterate(Index(opts, "enumerations", show).value).value, show).raised.None?
    ensures var r := Render(opts, lines, n, multiple, localization, show, Intended);
      var local := LocalText(localization, Index(opts, "text", show).value).value;
      var choices := ChoiceLines(localization, Iterate(Index(opts, "enumerations", show).value).value, show).added;
      r.number == n && r.lines == lines + Head(Question(n, local, multiple, []), show) + choices + [VStr(""), VStr("")]
  {
    hide Index, LocalText, Iterate, ChoiceLines, Head;
  }

  /** A block is its head, its choices and two blank lines. */
  lemma BlockParts(q: Question, show: Value -> string)
    ensures Block(q, show) == Head(q, show) + q.choices + [VStr(""), VStr("")]
  {
  }

  /** The lines before the choices do not depend on the choices. */
  lemma HeadIgnoresChoices(q: Question, show: Value -> string)
    ensures Head(q, show) == Head(q.(choices := []), show)
  {
  }

  /** As written, a question is never rendered: once its base type is accepted it fails, with its number used up. */
  lemma QuestionAsWrittenFails(opts: Value, lines: seq<Value>, number: nat, fields: map<Value, Spec>,
                               fullType: Value -> Result<Value, Raised>, localization: string, show: Value -> string)
    ensures var base := BaseOf(opts, fields, fullType, show);
      base.Ok? && IsChoiceBase(base.value) && Index(opts, "text", show).Ok? ==>
      ProcessQuestion(opts, lines, number, fields, fullType, localization, show, AsWritten) == Step(lines, number + 1, Some(ArityError))
  {
  }

  // ---------------------------------------------------------------------
  // page_processor

  /** The identifier quoted in messages: the field id, else the question text in the localization (None when absent). */
  function Identifier(opts: Value, localization: string, show: Value -> string): (r: Result<Value, Raised>)
    ensures Index(opts, "fieldId", show).Ok? ==> r == Index(opts, "fieldId", show)
  {
    var id := Index(opts, "fieldId", show);
    if id.Ok? then id
    else
      var text := Index(opts, "text", show);
      if text.Err? then Err(text.error) else Get(text.value, localization, VNone)
  }

  /** The error that skips the rest of a page when a question fails. */
  function SkipError(identifier: Value, exc: Raised, show: Value -> string): (e: Raised)
    ensures e.RaisedError? && e.failure.cls == ConversionValueError
  {
    ValueError("Skipping form field with ID: " + StrOf(identifier, show) + ". Error:", ExcDetail(exc))
  }

  /** The error for an element that is not a question. */
  function NotQuestionError(identifier: Value, kind: Value, show: Value -> string): (e: Raised)
    ensures e.RaisedError? && e.failure.cls == ConversionValueError
  {
    var e := ValueError("Skipping form field with ID:", StrOf(identifier, show));
    RaisedError(Wrap(e.failure, "Form element type is not \"question\". Got:", Some(StrOf(kind, show))))
  }

  /** The loop of `page_processor` over the elements of a page; the first failure ends the page. */
  function Elements(elements: seq<Value>, lines: seq<Value>, number: nat, fields: map<Value, Spec>,
                    fullType: Value -> Result<Value, Raised>, localization: string, show: Value -> string, v: Variant): (r: Step)
    ensures lines <= r.lines
    ensures number <= r.number <= number + |elements|
    ensures v == AsWritten ==> r.lines == lines
    ensures v == AsWritten && r.raised.None? ==> elements == []
    decreases |elements|
  {
    hide *;
    if |elements| == 0 then Step(lines, number, None)
    else
      var question := elements[0];
      var opts := Index(question, "options", show);
      if opts.Err? then Step(lines, number, Some(opts.error))
      else
        var identifier := Identifier(opts.value, localization, show);
        if identifier.Err? then Step(lines, number, Some(identifier.error))
        else if !Truthy(identifier.value) then
          Step(lines, number, Some(ValueError("Form element has no identifier. Invalid element data:", show(question))))
        else
          var kind := Index(question, "type", show);
          if kind.Err? then Step(lines, number, Some(kind.error))
          else if kind.value != VStr("question") then
            Step(lines, number, Some(NotQuestionError(identifier.value, kind.value, show)))
          else
            var s := ProcessQuestion(opts.value, lines, number, fields, fullType, localization, show, v);
            if s.raised.Some? then Step(s.lines, s.number, Some(SkipError(identifier.value, s.raised.value, show)))
            else
              var rest := Elements(elements[1..], s.lines, s.number, fields, fullType, localization, show, v);
              rest
  }

  /**
   * A question that fails inside `question_processor` is reported as a
   * conversion value error naming the question, and ends the page.
   */
  lemma SkippedQuestion(elements: seq<Value>, lines: seq<Value>, number: nat, fields: map<Value, Spec>,
                        fullType: Value -> Result<Value, Raised>, localization: string, show: Value -> string, v: Variant)
    requires |elements| > 0
    requires Index(elements[0], "options", show).Ok?
    requires Identifier(Index(elements[0], "options", show).value, localization, show).Ok?
    requires Truthy(Identifier(Index(elements[0], "options", show).value, localization, show).value)
    requires Index(elements[0], "type", show) == Ok(VStr("question"))
    requires ProcessQuestion(Index(elements[0], "options", show).value, lines, number, fields, fullType, localization, show, v).raised.Some?
    ensures var r := Elements(elements, lines, number, fields, fullType, localization, show, v);
      var id := Identifier(Index(elements[0], "options", show).value, localization, show).value;
      r.raised.Some? && r.raised.value.RaisedError? && r.raised.value.failure.cls == ConversionValueError &&
      r.raised.value.failure.paragraphs[0].message == "Skipping form field with ID: " + StrOf(id, show) + ". Error:"
  {
  }

  /** An element without an identifier, or one that is not a question, ends the page with a conversion value error. */
  lemma RejectedElement(elements: seq<Value>, lines: seq<Value>, number: nat, fields: map<Value, Spec>,
                        fullType: Value -> Result<Value, Raised>, localization: string, show: Value -> string, v: Variant)
    requires |elements| > 0 && Index(elements[0], "options", show).Ok?
    requires Identifier(Index(elements[0], "options", show).value, localization, show).Ok?
    ensures var r := Elements(elements, lines, number, fields, fullType, localization, show, v);
      var id := Identifier(Index(elements[0], "options", show).value, localization, show).value;
      var kind := Index(elements[0], "type", show);
      (!Truthy(id) ==> r == Step(lines, number, Some(ValueError("Form element has no identifier. Invalid element data:", show(elements[0]))))) &&
      (Truthy(id) && kind.Ok? && kind.value != VStr("question") ==>
        r == Step(lines, number, Some(NotQuestionError(id, kind.value, show))) &&
        |r.raised.value.failure.paragraphs| == 2)
  {
  }

  /** `page_processor`: a page break, then the page's elements. */
  function ProcessPage(page: Value, lines: seq<Value>, number: nat, fields: map<Value, Spec>,
                       fullType: Value -> Result<Value, Raised>, localization: string, show: Value -> string, v: Variant): (r: Step)
    ensures lines + [VStr(PageBreak)] <= r.lines
    ensures r.number >= number
    ensures v == AsWritten ==> r.lines == lines + [VStr(PageBreak)]
  {
    hide *;
    var started := lines + [VStr(PageBreak)];
    var elements := Index(page, "elements", show);
    if elements.Err? then Step(started, number, Some(elements.error))
    else
      var items := Iterate(elements.value);
      if items.Err? then Step(started, number, Some(items.error))
      else
        var r := Elements(items.value, started, number, fields, fullType, localization, show, v);
        r
  }

  // ---------------------------------------------------------------------
  // __call__

  /** The lines, the question number and the log after the pages, and the error that ended them, if any. */
  datatype Walk = Walk(lines: seq<Value>, number: nat, log: Log, raised: Option<Raised>)

  /** The error `__call__` raises for a page failure other than a value error. */
  function PageFailure(exc: Raised): (e: Failure)
    ensures e.cls == BaseError && |e.paragraphs| >= 1
    ensures e.paragraphs[|e.paragraphs| - 1] == Paragraph(FailureMessage, Some(FailurePayload))
  {
    if exc.RaisedError? && exc.failure.cls == QualtricsFormatError then NewError(BaseError, FailureMessage, Some(FailurePayload))
    else Wrap(NewError(BaseError, "An unknown or unexpected error occured:", Some(ExcRepr(exc))), FailureMessage, Some(FailurePayload))
  }

  predicate IsValueError(exc: Raised) { exc.RaisedError? && exc.failure.cls == ConversionValueError }

  /** The conversion ended with the failure paragraph on its error, and the error is the last log entry. */
  predicate Aborted(raised: Option<Raised>, log: Log)
  {
    raised.Some? && var exc := raised.value;
    exc.RaisedError? && exc.failure.cls == BaseError &&
    |exc.failure.paragraphs| >= 1 &&
    exc.failure.paragraphs[|exc.failure.paragraphs| - 1] == Paragraph(FailureMessage, Some(FailurePayload)) &&
    |log.entries| >= 1 && log.entries[|log.entries| - 1] == ErrorPrefix + ErrorStr(exc.failure)
  }

  /** The log after a page failure, and the error raised when the conversion stops there. */
  datatype Handled = Handled(log: Log, raised: Option<Raised>)

  /** The `except` clause of `__call__`: a value error becomes a warning; anything else is logged as an error and raised. */
  function HandlePageError(log: Log, exc: Raised): (h: Handled)
    ensures h.raised.None? <==> IsValueError(exc)
    ensures h.raised.None? ==> h.log.entries == log.entries + [WarningPrefix + ErrorStr(exc.failure)]
    ensures h.raised.Some? ==> Aborted(h.raised, h.log) && |h.log.entries| == |log.entries| + 1
    ensures log.entries <= h.log.entries
  {
    if IsValueError(exc) then Handled(Warning(log, Str(ErrorStr(exc.failure))).value, None)
    else
      var e := PageFailure(exc);
      Handled(Error(log, Str(ErrorStr(e))).value, Some(RaisedError(e)))
  }

  /**
   * The loop of `__call__` over the pages: a conversion value error is
   * logged as a warning and the next page follows; any other failure is
   * logged as an error and ends the conversion.
   */
  function Pages(pages: seq<Value>, lines: seq<Value>, number: nat, log: Log, fields: map<Value, Spec>,
                 fullType: Value -> Result<Value, Raised>, localization: string, show: Value -> string, v: Variant): (r: Walk)
    ensures lines <= r.lines
    ensures log.entries <= r.log.entries
    ensures r.raised.None? ==> WarningsFrom(r.log.entries, |log.entries|)
    ensures r.raised.Some? ==> Aborted(r.raised, r.log) && |r.log.entries| > |log.entries|
    decreases |pages|
  {
    hide ProcessPage, HandlePageError, ErrorStr, Aborted;
    if |pages| == 0 then Walk(lines, number, log, None)
    else
      var s := ProcessPage(pages[0], lines, number, fields, fullType, localization, show, v);
      if s.raised.None? then
        Pages(pages[1..], s.lines, s.number, log, fields, fullType, localization, show, v)
      else
        var h := HandlePageError(log, s.raised.value);
        if h.raised.Some? then Walk(s.lines, s.number, h.log, h.raised)
        else
          var r := Pages(pages[1..], s.lines, s.number, h.log, fields, fullType, localization, show, v);
          assert StartsWith(h.log.entries[|log.entries|], WarningPrefix);
          r
  }

  /** As written, every page contributes its page break and nothing else. */
  predicate AllBreaks(lines: seq<Value>)
  {
    forall k :: 0 <= k < |lines| ==> lines[k] == VStr(PageBreak)
  }

  lemma {:induction false} PagesAsWritten(pages: seq<Value>, lines: seq<Value>, number: nat, log: Log, fields: map<Value, Spec>,
                                          fullType: Value -> Result<Value, Raised>, localization: string, show: Value -> string)
    requires AllBreaks(lines)
    ensures var r := Pages(pages, lines, number, log, fields, fullType, localization, show, AsWritten);
      AllBreaks(r.lines) && |r.lines| <= |lines| + |pages| && (r.raised.None? ==> |r.lines| == |lines| + |pages|)
    decreases |pages|
  {
    hide ProcessPage, HandlePageError, ErrorStr, Aborted, WarningsFrom;
    if |pages| > 0 {
      var s := ProcessPage(pages[0], lines, number, fields, fullType, localization, show, AsWritten);
      assert AllBreaks(s.lines) by {
        assert s.lines == lines + [VStr(PageBreak)];
      }
      if s.raised.None? {
        PagesAsWritten(pages[1..], s.lines, s.number, log, fields, fullType, localization, show);
      } else {
        var h := HandlePageError(log, s.raised.value);
        if h.raised.None? {
          PagesAsWritten(pages[1..], s.lines, s.number, h.log, fields, fullType, localization, show);
        }
      }
    }
  }

  // ---------------------------------------------------------------------
  // rmv_extra_strings

  /**
   * `rmv_extra_strings` as written: the recursive calls' results are
   * dropped and a copy of the argument is returned.
   */
  function RmvAsWritten(lst: seq<Value>): (r: seq<Value>)
    ensures r == lst
    decreases |lst|
  {
    if |lst| > 0 && lst[0] == VStr(PageBreak) then
      var _ := RmvAsWritten(lst[1..]);
      lst
    else if |lst| > 0 && lst[|lst| - 1] == VStr("") then
      var _ := RmvAsWritten(lst[..|lst| - 1]);
      lst
    else lst
  }

  /** `rmv_extra_strings` with the recursive results returned: the leading page breaks and then the trailing blank lines dropped. */
  function Trimmed(lst: seq<Value>): (r: seq<Value>)
    decreases |lst|
  {
    if |lst| > 0 && lst[0] == VStr(PageBreak) then Trimmed(lst[1..])
    else if |lst| > 0 && lst[|lst| - 1] == VStr("") then Trimmed(lst[..|lst| - 1])
    else lst
  }

  predicate AllBlanks(lines: seq<Value>)
  {
    forall k :: 0 <= k < |lines| ==> lines[k] == VStr("")
  }

  /** A list with no leading page break and no trailing blank line. */
  predicate IsTrimmed(lines: seq<Value>)
  {
    lines == [] || (lines[0] != VStr(PageBreak) && lines[|lines| - 1] != VStr(""))
  }

  /** `r` is the slice `lst[i..j]`, with only page breaks before it and only blank lines after it. */
  predicate SliceOf(lst: seq<Value>, r: seq<Value>, i: int, j: int)
  {
    0 <= i <= j <= |lst| && r == lst[i..j] && AllBreaks(lst[..i]) && AllBlanks(lst[j..])
  }

  lemma SliceAfterBreak(lst: seq<Value>, r: seq<Value>, i: int, j: int)
    requires |lst| > 0 && lst[0] == VStr(PageBreak) && SliceOf(lst[1..], r, i, j)
    ensures SliceOf(lst, r, i + 1, j + 1)
  {
    var tail := lst[1..];
    assert tail[i..j] == lst[i + 1..j + 1];
    assert lst[..i + 1] == [lst[0]] + tail[..i];
    assert lst[j + 1..] == tail[j..];
  }

  lemma SliceBeforeBlank(lst: seq<Value>, r: seq<Value>, i: int, j: int)
    requires |lst| > 0 && lst[|lst| - 1] == VStr("") && SliceOf(lst[..|lst| - 1], r, i, j)
    ensures SliceOf(lst, r, i, j)
  {
    var init := lst[..|lst| - 1];
    assert init[i..j] == lst[i..j];
    assert init[..i] == lst[..i];
    assert lst[j..] == init[j..] + [lst[|lst| - 1]];
  }

  /** The trimmed list is a slice of the input after only page breaks and before only blank lines. */
  lemma {:induction false} TrimmedSlice(lst: seq<Value>)
    ensures exists i, j :: SliceOf(lst, Trimmed(lst), i, j)
    decreases |lst|
  {
    var n := |lst|;
    if n > 0 && lst[0] == VStr(PageBreak) {
      TrimmedSlice(lst[1..]);
      var i, j :| SliceOf(lst[1..], Trimmed(lst[1..]), i, j);
      SliceAfterBreak(lst, Trimmed(lst[1..]), i, j);
      assert Trimmed(lst) == Trimmed(lst[1..]);
      assert SliceOf(lst, Trimmed(lst), i + 1, j + 1);
    } else if n > 0 && lst[n - 1] == VStr("") {
      TrimmedSlice(lst[..n - 1]);
      var i, j :| SliceOf(lst[..n - 1], Trimmed(lst[..n - 1]), i, j);
      SliceBeforeBlank(lst, Trimmed(lst[..n - 1]), i, j);
      assert Trimmed(lst) == Trimmed(lst[..n - 1]);
      assert SliceOf(lst, Trimmed(lst), i, j);
    } else {
      assert lst[0..n] == lst && lst[..0] == [] && lst[n..] == [];
      assert SliceOf(lst, Trimmed(lst), 0, n);
    }
  }

  /** The trimmed list neither starts with a page break nor ends with a blank line. */
  lemma {:induction false} TrimmedEnds(lst: seq<Value>)
    ensures IsTrimmed(Trimmed(lst))
    decreases |lst|
  {
    var n := |lst|;
    if n > 0 && lst[0] == VStr(PageBreak) {
      TrimmedEnds(lst[1..]);
    } else if n > 0 && lst[n - 1] == VStr("") {
      TrimmedEnds(lst[..n - 1]);
    }
  }

  /** A list already trimmed is left as it is. */
  lemma TrimmedFixed(lst: seq<Value>)
    requires IsTrimmed(lst)
    ensures Trimmed(lst) == lst
  {
    if lst != [] {
      assert lst[0] != VStr(PageBreak) && lst[|lst| - 1] != VStr("");
    }
  }

  /** Trimming a trimmed list changes nothing. */
  lemma TrimmedIdempotent(lst: seq<Value>)
    ensures Trimmed(Trimmed(lst)) == Trimmed(lst)
  {
    TrimmedEnds(lst);
    TrimmedFixed(Trimmed(lst));
  }

  /** An example that tells the two apart: as written the page break and the blank line stay; trimmed, only the text line is left. */
  lemma RmvKeepsBreaks(text: string)
    requires text != "" && text != PageBreak
    ensures RmvAsWritten([VStr(PageBreak), VStr(text), VStr("")]) == [VStr(PageBreak), VStr(text), VStr("")]
    ensures Trimmed([VStr(PageBreak), VStr(text), VStr("")]) == [VStr(text)]
  {
    var lst := [VStr(PageBreak), VStr(text), VStr("")];
    assert lst[1..] == [VStr(text), VStr("")];
    assert lst[1..][..1] == [VStr(text)];
    assert Trimmed([VStr(text)]) == [VStr(text)];
    assert Trimmed(lst[1..]) == Trimmed([VStr(text)]);
  }

  // ---------------------------------------------------------------------
  // __call__

  /** The converter after `__call__`: its log and definition, the lines and the question count, and what was raised. */
  datatype Exported = Exported(converter: FromRios, lines: seq<Value>, number: nat, raised: Option<Raised>)

  /**
   * `QualtricsFromRios.__call__`: the form's pages are walked; when no
   * page stops the conversion, the trimmed lines are appended to the
   * definition. A form without iterable pages fails before anything is
   * logged.
   */
  function Export(f: FromRios, fullType: Value -> Result<Value, Raised>, show: Value -> string, v: Variant): (r: Exported)
    ensures r.converter == f.(log := r.converter.log, definition := r.converter.definition)
    ensures f.log.entries <= r.converter.log.entries
    ensures Lookup(f.form, "pages").None? ==> r.converter == f && r.raised == Some(KeyErrorOf(VStr("pages"), show))
    ensures r.raised.Some? ==> r.converter.definition == f.definition
    ensures r.raised.None? ==> WarningsFrom(r.converter.log.entries, |f.log.entries|)
    ensures r.raised.None? && v == AsWritten ==> r.converter.definition == f.definition + r.lines
    ensures r.raised.None? && v == Intended ==> r.converter.definition == f.definition + Trimmed(r.lines)
    ensures r.raised.Some? && r.converter.log != f.log ==> Aborted(r.raised, r.converter.log)
  {
    hide Pages;
    var pages := Lookup(f.form, "pages");
    if pages.None? then Exported(f, [], 0, Some(KeyErrorOf(VStr("pages"), show)))
    else
      var items := Iterate(pages.value);
      if items.Err? then Exported(f, [], 0, Some(items.error))
      else
        var w := Pages(items.value, [], 0, f.log, f.fields, fullType, f.localization, show, v);
        if w.raised.Some? then Exported(f.(log := w.log), w.lines, w.number, w.raised)
        else
          var kept := if v == AsWritten then RmvAsWritten(w.lines) else Trimmed(w.lines);
          Exported(f.(log := w.log, definition := f.definition + kept), w.lines, w.number, None)
  }

  /**
   * As written, a conversion that completes yields one page break per
   * page of the form and nothing else: every question is skipped with a
   * warning.
   */
  lemma AsWrittenOnlyBreaks(f: FromRios, fullType: Value -> Result<Value, Raised>, show: Value -> string)
    requires Lookup(f.form, "pages").Some? && Lookup(f.form, "pages").value.VList?
    ensures var r := Export(f, fullType, show, AsWritten);
      var pages := Lookup(f.form, "pages").value.items;
      r.raised.None? ==> r.converter.definition == f.definition + r.lines && AllBreaks(r.lines) && |r.lines| == |pages|
  {
    PagesAsWritten(Lookup(f.form, "pages").value.items, [], 0, f.log, f.fields, fullType, f.localization, show);
  }
}

=== FILE: qualtrics_import.dfy ===
/**
 * The Qualtrics importer (QualtricsToRios): each question payload of a
 * survey becomes a form element and, unless it only displays text, an
 * instrument field; the questions are visited page by page, a question
 * that cannot be converted is skipped with a warning, and a survey that
 * cannot be read or laid out fails with a logged error.
 *
 * The element and field are kept as plain records (what the question
 * shows, the field id, the description, the base type and its
 * enumeration ids) rather than as the definition mappings they fill.
 */
module QualtricsImport {
  import opened Wrappers
  import opened Text
  import opened Structures
  import opened Errors
  import opened PyValues
  import Logger
  import ConversionBase
  import opened QualtricsSurvey
  import opened QualtricsChoices

  // ---------------------------------------------------------------------
  // Processor.clean_question

  /** Every `<br>` deleted in one left-to-right pass. */
  function CleanQuestion(text: string): (r: string)
    ensures |r| <= |text|
  {
    CleanShorter(text, 0);
    Replace(text, "<br>", "")
  }

  lemma {:induction false} CleanShorter(text: string, i: nat)
    requires i <= |text|
    ensures |ReplaceFrom(text, "<br>", "", i)| <= |text| - i
    decreases |text| - i
  {
    if OccursAt(text, "<br>", i) {
      CleanShorter(text, i + 4);
    } else if i < |text| {
      CleanShorter(text, i + 1);
    }
  }

  /** A text without a `<br>` is kept as it is. */
  lemma CleanQuestionKeeps(text: string)
    requires !Contains(text, "<br>")
    ensures CleanQuestion(text) == text
  {
    ReplaceFromAbsent(text, "<br>", "", 0);
  }

  /** One pass is not a fixpoint: the deletion can join the halves of a new `<br>`. */
  lemma CleanQuestionSinglePass()
    ensures CleanQuestion("<<br>br>") == "<br>"
  {
    var s := "<<br>br>";
    assert !OccursAt(s, "<br>", 0) by { assert s[0..4] == "<<br"; }
    assert OccursAt(s, "<br>", 1) by { assert s[1..5] == "<br>"; }
    assert !OccursAt(s, "<br>", 5) && !OccursAt(s, "<br>", 6) && !OccursAt(s, "<br>", 7);
    assert ReplaceFrom(s, "<br>", "", 8) == "";
    assert ReplaceFrom(s, "<br>", "", 7) == ">";
    assert ReplaceFrom(s, "<br>", "", 6) == "r>";
    assert ReplaceFrom(s, "<br>", "", 5) == "br>";
    assert ReplaceFrom(s, "<br>", "", 1) == "br>";
    assert ReplaceFrom(s, "<br>", "", 0) == "<br>";
  }

  // ---------------------------------------------------------------------
  // Processor.question_field_processor

  /** `localized_string_object` with whatever value the question holds; for a string it is ConversionBase.LocalizedString. */
  function Localized(localization: string, v: Value): (r: Spec)
    ensures v.VStr? ==> r == ConversionBase.LocalizedString(localization, v.s)
    ensures Lookup(r, localization) == Some(v)
  {
    var r := Spec("LocalizedStringObject", [Entry(localization, v)]);
    assert IndexOf(r, localization) == Some(0);
    r
  }

  /** A choice of a question: its id and its localized display text. */
  datatype Descriptor = Descriptor(id: string, text: Spec)

  /** What a question puts on its page. */
  datatype Element =
    | TextElement(text: Spec)
    | QuestionElement(fieldId: string, text: Spec, enumerations: seq<Descriptor>)

  /** The field's type: plain text, or an enumeration with its ids. */
  datatype FieldType = TextType | EnumerationType(ids: seq<string>)

  /** An instrument field; it is never required nor identifiable. */
  datatype Field = Field(id: string, description: Value, fieldType: FieldType)

  /** A converted question: its element, and its field unless it only displays text. */
  datatype Converted = Converted(element: Element, field: Option<Field>)

  /** `(x, choices[str(x)])` for each `x` of the order. */
  function Pairs(choices: Spec, order: seq<Value>, show: Value -> string): (r: Result<seq<(Value, Value)>, Raised>)
    ensures r.Ok? ==> |r.value| == |order|
    ensures r.Ok? ==> forall k :: 0 <= k < |order| ==>
      r.value[k].0 == order[k] && Lookup(choices, StrOf(order[k], show)) == Some(r.value[k].1)
    ensures r.Err? <==> exists k :: 0 <= k < |order| && Lookup(choices, StrOf(order[k], show)).None?
    decreases |order|
  {
    hide StrOf, KeyErrorOf;
    if order == [] then Ok([])
    else
      var c := Index(VSpec(choices), StrOf(order[0], show), show);
      if c.Err? then
        PairsMissingHead(choices, order, show);
        Err(c.error)
      else
        var rest := Pairs(choices, order[1..], show);
        if rest.Err? then
          PairsMissingTail(choices, order, show);
          Err(rest.error)
        else
          PairsCons(choices, order, show, c.value, rest.value);
          Ok([(order[0], c.value)] + rest.value)
  }

  /** A choice missing for the first key is missing for the order. */
  lemma PairsMissingHead(choices: Spec, order: seq<Value>, show: Value -> string)
    requires |order| > 0 && Lookup(choices, StrOf(order[0], show)).None?
    ensures exists k :: 0 <= k < |order| && Lookup(choices, StrOf(order[k], show)).None?
  {
  }

  /** A choice missing for a later key is missing for the order. */
  lemma PairsMissingTail(choices: Spec, order: seq<Value>, show: Value -> string)
    requires |order| > 0
    requires exists k :: 0 <= k < |order[1..]| && Lookup(choices, StrOf(order[1..][k], show)).None?
    ensures exists k :: 0 <= k < |order| && Lookup(choices, StrOf(order[k], show)).None?
  {
    var k :| 0 <= k < |order[1..]| && Lookup(choices, StrOf(order[1..][k], show)).None?;
    assert order[1..][k] == order[k + 1];
  }

  /** The pair of the first key in front of the pairs of the later keys. */
  lemma PairsCons(choices: Spec, order: seq<Value>, show: Value -> string, v: Value, rest: seq<(Value, Value)>)
    requires |order| > 0 && Lookup(choices, StrOf(order[0], show)) == Some(v)
    requires |rest| == |order[1..]|
    requires forall k :: 0 <= k < |order[1..]| ==>
      rest[k].0 == order[1..][k] && Lookup(choices, StrOf(order[1..][k], show)) == Some(rest[k].1)
    ensures var r := [(order[0], v)] + rest;
      |r| == |order| &&
      (forall k :: 0 <= k < |order| ==> r[k].0 == order[k] && Lookup(choices, StrOf(order[k], show)) == Some(r[k].1))
    ensures !exists k :: 0 <= k < |order| && Lookup(choices, StrOf(order[k], show)).None?
  {
    var r := [(order[0], v)] + rest;
    forall k | 0 < k < |order|
      ensures r[k].0 == order[k] && Lookup(choices, StrOf(order[k], show)) == Some(r[k].1)
    {
      assert order[1..][k - 1] == order[k];
    }
  }

  /** `enumerate(choices)`. */
  function Enumerate(items: seq<Value>): (r: seq<(Value, Value)>)
    ensures |r| == |items| && forall k :: 0 <= k < |items| ==> r[k] == (VInt(k), items[k])
  {
    seq(|items|, k requires 0 <= k < |items| => (VInt(k), items[k]))
  }

  /** `(str(i).lower(), c['Display'])` for each pair, as descriptors. */
  function Descriptors(pairs: seq<(Value, Value)>, localization: string, show: Value -> string): (r: Result<seq<Descriptor>, Raised>)
    ensures r.Ok? ==> |r.value| == |pairs|
    ensures r.Ok? ==> forall k :: 0 <= k < |pairs| ==>
      r.value[k].id == LowerStr(StrOf(pairs[k].0, show)) &&
      Index(pairs[k].1, "Display", show).Ok? && r.value[k].text == Localized(localization, Index(pairs[k].1, "Display", show).value)
    ensures r.Err? <==> exists k :: 0 <= k < |pairs| && Index(pairs[k].1, "Display", show).Err?
    decreases |pairs|
  {
    hide Localized, LowerStr, StrOf, Index;
    if pairs == [] then Ok([])
    else
      var display := Index(pairs[0].1, "Display", show);
      if display.Err? then Err(display.error)
      else
        var rest := Descriptors(pairs[1..], localization, show);
        assert forall k :: 0 <= k < |pairs| - 1 ==> pairs[1..][k] == pairs[k + 1];
        if rest.Err? then Err(rest.error)
        else Ok([Descriptor(LowerStr(StrOf(pairs[0].0, show)), Localized(localization, display.value))] + rest.value)
  }

  function DescriptorIds(ds: seq<Descriptor>): (ids: seq<string>)
    ensures |ids| == |ds| && forall k :: 0 <= k < |ds| ==> ids[k] == ds[k].id
  {
    seq(|ds|, k requires 0 <= k < |ds| => ds[k].id)
  }

  /**
   * The element under construction when the choices are checked, whose
   * `str` goes into the error: a new `ElementObject` whose `type` is set to
   * `question` and whose `options` is a new `QuestionObject` built with the
   * field id and the text, every other declared property at its zero.
   */
  function QuestionValue(fieldId: string, text: Spec): Value
  {
    var question := Init("QuestionObject", QuestionProps, [], [Entry("fieldId", VStr(fieldId)), Entry("text", VSpec(text))]);
    var element := Update(Init("ElementObject", ElementProps, [], []), "type", VStr("question"));
    VSpec(Update(element, "options", VSpec(question)))
  }

  /** The error for choices that are neither a mapping nor a list. */
  function ChoicesError(choices: Value, fieldId: string, text: Spec, show: Value -> string): (e: Raised)
    ensures e.RaisedError? && e.failure.cls == ConversionValueError && |e.failure.paragraphs| == 2
  {
    var e := NewError(ConversionValueError, "Choices are not formatted correctly. Got choices:", Some(StrOf(choices, show)));
    RaisedError(Wrap(e, "With question data:", Some(show(QuestionValue(fieldId, text)))))
  }

  /** The pairs a choices value gives: a mapping read in the question's order or its sorted keys; a list enumerated. */
  function ChoicePairs(choices: Value, order: Value, fieldId: string, text: Spec, show: Value -> string): (r: Result<seq<(Value, Value)>, Raised>)
    requires Truthy(choices)
    ensures choices.VList? ==> r == Ok(Enumerate(choices.items))
    ensures choices.VSpec? && !Truthy(order) ==> r == Pairs(choices.spec, DefaultOrder(choices.spec), show)
    ensures choices.VSpec? && Truthy(order) && Iterate(order).Ok? ==> r == Pairs(choices.spec, Iterate(order).value, show)
    ensures !choices.VSpec? && !choices.VList? ==> r == Err(ChoicesError(choices, fieldId, text, show))
  {
    if choices.VSpec? then
      var ord := if Truthy(order) then Iterate(order) else Ok(DefaultOrder(choices.spec));
      if ord.Err? then Err(ord.error) else Pairs(choices.spec, ord.value, show)
    else if choices.VList? then Ok(Enumerate(choices.items))
    else Err(ChoicesError(choices, fieldId, text, show))
  }

  /** A string that must have `replace` or `lower`. */
  function StringOf(v: Value, attribute: string): (r: Result<string, Raised>)
    ensures r.Ok? <==> v.VStr?
    ensures r.Ok? ==> r.value == v.s
  {
    if v.VStr? then Ok(v.s) else Err(AttributeErrorOf(v, attribute))
  }

  /** The interactive part of a question: field id, choices and field, after the question text. */
  function QuestionPart(qd: Spec, text: string, localization: string, show: Value -> string): (r: Result<Converted, Raised>)
    ensures r.Ok? ==> r.value.element.QuestionElement? && r.value.field.Some?
    ensures r.Ok? ==> r.value.field.value.id == r.value.element.fieldId
    ensures r.Ok? ==> (Lookup(qd, "DataExportTag").Some? && Lookup(qd, "DataExportTag").value.VStr? &&
      r.value.field.value.id == LowerStr(Lookup(qd, "DataExportTag").value.s))
    ensures r.Ok? ==> Lookup(qd, "QuestionDescription") == Some(r.value.field.value.description)
    ensures r.Ok? ==> (r.value.field.value.fieldType.TextType? <==> r.value.element.enumerations == [])
    ensures r.Ok? && r.value.field.value.fieldType.EnumerationType? ==>
      r.value.field.value.fieldType.ids == Dedup(DescriptorIds(r.value.element.enumerations))
  {
    var tag := Index(VSpec(qd), "DataExportTag", show);
    if tag.Err? then Err(tag.error)
    else
      var tagText := StringOf(tag.value, "lower");
      if tagText.Err? then Err(tagText.error)
      else
        var fieldId := LowerStr(tagText.value);
        var questionText := ConversionBase.LocalizedString(localization, text);
        var choices := GetOr(qd, "Choices", VList([]));
        var order := GetOr(qd, "ChoiceOrder", VList([]));
        var enumerations :=
          if !Truthy(choices) then Ok([])
          else
            var pairs := ChoicePairs(choices, order, fieldId, questionText, show);
            if pairs.Err? then Err(pairs.error) else Descriptors(pairs.value, localization, show);
        if enumerations.Err? then Err(enumerations.error)
        else
          var description := Index(VSpec(qd), "QuestionDescription", show);
          if description.Err? then Err(description.error)
          else
            var fieldType := if !Truthy(choices) then TextType else EnumerationType(Dedup(DescriptorIds(enumerations.value)));
            Ok(Converted(QuestionElement(fieldId, questionText, enumerations.value), Some(Field(fieldId, description.value, fieldType))))
  }

  /**
   * `question_field_processor`: the question's type and text, then a
   * display-only `DB` question gives a text element and no field; any
   * other gives a question element and its field.
   */
  function QuestionFieldProcessor(qd: Value, localization: string, show: Value -> string): (r: Result<Converted, Raised>)
    ensures r.Ok? ==> (qd.VSpec? && Lookup(qd.spec, "QuestionType").Some? &&
      Lookup(qd.spec, "QuestionText").Some? && Lookup(qd.spec, "QuestionText").value.VStr?)
    ensures r.Ok? ==> (r.value.field.None? <==> Lookup(qd.spec, "QuestionType") == Some(VStr("DB")))
    ensures r.Ok? && r.value.field.None? ==>
      r.value.element == TextElement(ConversionBase.LocalizedString(localization, CleanQuestion(Lookup(qd.spec, "QuestionText").value.s)))
    ensures r.Ok? && r.value.field.Some? ==> r == QuestionPart(qd.spec, CleanQuestion(Lookup(qd.spec, "QuestionText").value.s), localization, show)
  {
    var qtype := Index(qd, "QuestionType", show);
    if qtype.Err? then Err(qtype.error)
    else
      var raw := Index(qd, "QuestionText", show);
      if raw.Err? then Err(raw.error)
      else
        var rawText := StringOf(raw.value, "replace");
        if rawText.Err? then Err(rawText.error)
        else
          var text := CleanQuestion(rawText.value);
          if qtype.value == VStr("DB") then Ok(Converted(TextElement(ConversionBase.LocalizedString(localization, text)), None))
          else QuestionPart(qd.spec, text, localization, show)
  }

  /** `Processor.__call__`: any failure is raised again as one value error carrying its repr. */
  function Process(qd: Value, localization: string, show: Value -> string): (r: Result<Converted, Raised>)
    ensures r.Ok? <==> QuestionFieldProcessor(qd, localization, show).Ok?
    ensures r.Ok? ==> r == QuestionFieldProcessor(qd, localization, show)
    ensures r.Err? ==> (r.error.RaisedError? && r.error.failure.cls == ConversionValueError &&
      r.error.failure.paragraphs == [Paragraph("Invalid questions data. Got error:", Some(ExcRepr(QuestionFieldProcessor(qd, localization, show).error)))])
  {
    var result := QuestionFieldProcessor(qd, localization, show);
    if result.Ok? then result
    else Err(RaisedError(NewError(ConversionValueError, "Invalid questions data. Got error:", Some(ExcRepr(result.error)))))
  }

  // ---------------------------------------------------------------------
  // The page loop of QualtricsToRios.__call__

  /** A form page: its name and the elements of the questions converted on it. */
  datatype Page = Page(name: string, elements: seq<Element>)

  /** What the page loop has built so far. */
  datatype Progress = Progress(pages: seq<Page>, fields: seq<Field>, log: Logger.Log)

  /** The warning logged for a question that is skipped. */
  function SkipWarning(id: Value, exc: Raised, show: Value -> string): (message: string)
  {
    ErrorStr(NewError(BaseError, "Skipping question: " + StrOf(id, show) + ". Error:", Some(ExcDetail(exc))))
  }

  lemma WarningsExtend(a: seq<string>, b: seq<string>, c: seq<string>)
    requires b <= c && |b| == |a| + 1 && a <= b && StartsWith(b[|a|], Logger.WarningPrefix)
    requires Logger.WarningsFrom(c, |b|)
    ensures Logger.WarningsFrom(c, |a|)
  {
    assert c[|a|] == b[|a|];
  }

  /** The conversion of each question of a page. */
  function Outcomes(ids: seq<Value>, questions: map<Value, Value>, localization: string, show: Value -> string): (r: seq<Result<Converted, Raised>>)
    requires forall x :: x in ids ==> x in questions
    ensures |r| == |ids| && forall k :: 0 <= k < |ids| ==> r[k] == Process(questions[ids[k]], localization, show)
  {
    seq(|ids|, k requires 0 <= k < |ids| => Process(questions[ids[k]], localization, show))
  }

  /**
   * The questions of one page, in filing order, given their conversions:
   * each converted question adds its element and its field, each failure
   * a warning.
   */
  function Collect(ids: seq<Value>, outcomes: seq<Result<Converted, Raised>>, show: Value -> string,
                   elements: seq<Element>, fields: seq<Field>, log: Logger.Log): (r: (seq<Element>, seq<Field>, Logger.Log))
    requires |outcomes| == |ids|
    ensures elements <= r.0 && fields <= r.1 && log.entries <= r.2.entries
    ensures |r.0| - |elements| + |r.2.entries| - |log.entries| == |ids|
    ensures |r.1| - |fields| <= |r.0| - |elements|
    ensures Logger.WarningsFrom(r.2.entries, |log.entries|)
    decreases |ids|
  {
    hide SkipWarning;
    if ids == [] then (elements, fields, log)
    else
      var c := outcomes[0];
      if c.Ok? then
        var more := if c.value.field.Some? then [c.value.field.value] else [];
        Collect(ids[1..], outcomes[1..], show, elements + [c.value.element], fields + more, log)
      else
        var logged := Logger.Log(log.entries + [Logger.WarningPrefix + SkipWarning(ids[0], c.error, show)]);
        assert logged == Logger.Warning(log, Logger.Str(SkipWarning(ids[0], c.error, show))).value;
        var r := Collect(ids[1..], outcomes[1..], show, elements, fields, logged);
        WarningsExtend(log.entries, logged.entries, r.2.entries);
        r
  }

  /** Every filed id is a known question. */
  predicate Known(filed: map<nat, seq<Value>>, questions: map<Value, Value>)
  {
    forall q, x :: q in filed && x in filed[q] ==> x in questions
  }

  /** Pages `p` to `count` all have questions filed. */
  predicate AllFiled(filed: map<nat, seq<Value>>, p: int, count: int)
  {
    forall q :: p <= q <= count ==> q in filed
  }

  /** Page `q` has no question, and every page before it from `page_01` on has some. */
  predicate FirstEmpty(filed: map<nat, seq<Value>>, q: int, count: int)
  {
    1 <= q <= count && q !in filed && AllFiled(filed, 1, q - 1)
  }

  /** The pages from position `from` of `pages` are named after the numbers from `first` on. */
  predicate NamedFrom(pages: seq<Page>, from: nat, first: nat)
  {
    forall k :: 0 <= k < |pages| && from <= k ==> pages[k].name == PageName(first + k - from)
  }

  /** The conversions of the questions filed under each page. */
  function PageOutcomes(filed: map<nat, seq<Value>>, questions: map<Value, Value>, localization: string, show: Value -> string): (r: map<nat, seq<Result<Converted, Raised>>>)
    requires Known(filed, questions)
    ensures forall q :: q in filed ==> q in r && r[q] == Outcomes(filed[q], questions, localization, show)
  {
    map q | q in filed :: Outcomes(filed[q], questions, localization, show)
  }

  /** Each filed page has one conversion per question. */
  predicate Matches(filed: map<nat, seq<Value>>, outcomes: map<nat, seq<Result<Converted, Raised>>>)
  {
    forall q :: q in filed ==> q in outcomes && |outcomes[q]| == |filed[q]|
  }

  /**
   * The pages from `p` to `count`, in ascending order. The first page
   * with no question filed ends the walk with a KeyError for its name.
   */
  function Walk(count: nat, filed: map<nat, seq<Value>>, outcomes: map<nat, seq<Result<Converted, Raised>>>,
                show: Value -> string, p: nat, acc: Progress): (r: (Progress, Option<Raised>))
    requires 1 <= p <= count + 1 && Matches(filed, outcomes)
    ensures acc.pages <= r.0.pages && acc.fields <= r.0.fields && acc.log.entries <= r.0.log.entries
    ensures Logger.WarningsFrom(r.0.log.entries, |acc.log.entries|)
    decreases count + 1 - p
  {
    hide Collect, KeyErrorOf, PageName;
    if p == count + 1 then (acc, None)
    else if p !in filed then (acc, Some(KeyErrorOf(VStr(PageName(p)), show)))
    else
      var c := Collect(filed[p], outcomes[p], show, [], acc.fields, acc.log);
      var next := Progress(acc.pages + [Page(PageName(p), c.0)], c.1, c.2);
      var r := Walk(count, filed, outcomes, show, p + 1, next);
      assert Logger.WarningsFrom(r.0.log.entries, |acc.log.entries|) by {
        assert forall k :: 0 <= k < |r.0.log.entries| && |acc.log.entries| <= k < |c.2.entries| ==> r.0.log.entries[k] == c.2.entries[k];
      }
      r
  }

  /** A walk does not raise exactly when every page from `p` on has questions filed. */
  lemma {:induction false} WalkCompletes(count: nat, filed: map<nat, seq<Value>>, outcomes: map<nat, seq<Result<Converted, Raised>>>,
                                         show: Value -> string, p: nat, acc: Progress)
    requires 1 <= p <= count + 1 && Matches(filed, outcomes)
    ensures Walk(count, filed, outcomes, show, p, acc).1.None? <==> AllFiled(filed, p, count)
    decreases count + 1 - p
  {
    hide KeyErrorOf, Collect, PageName, Logger.WarningsFrom;
    if p <= count && p in filed {
      var c := Collect(filed[p], outcomes[p], show, [], acc.fields, acc.log);
      var next := Progress(acc.pages + [Page(PageName(p), c.0)], c.1, c.2);
      assert Walk(count, filed, outcomes, show, p, acc) == Walk(count, filed, outcomes, show, p + 1, next);
      WalkCompletes(count, filed, outcomes, show, p + 1, next);
    }
  }

  /** A walk that does not raise adds one page per number from `p` on, named after it. */
  lemma {:induction false} WalkNames(count: nat, filed: map<nat, seq<Value>>, outcomes: map<nat, seq<Result<Converted, Raised>>>,
                                     show: Value -> string, p: nat, acc: Progress)
    requires 1 <= p <= count + 1 && Matches(filed, outcomes)
    ensures var r := Walk(count, filed, outcomes, show, p, acc);
      r.1.None? ==> |r.0.pages| == |acc.pages| + count + 1 - p && NamedFrom(r.0.pages, |acc.pages|, p)
    decreases count + 1 - p
  {
    hide KeyErrorOf, Collect, Logger.WarningsFrom, AllFiled, PageName;
    if p <= count && p in filed {
      var c := Collect(filed[p], outcomes[p], show, [], acc.fields, acc.log);
      var next := Progress(acc.pages + [Page(PageName(p), c.0)], c.1, c.2);
      var r := Walk(count, filed, outcomes, show, p + 1, next);
      assert Walk(count, filed, outcomes, show, p, acc) == r;
      WalkNames(count, filed, outcomes, show, p + 1, next);
      if r.1.None? {
        assert next.pages <= r.0.pages;
        forall k | 0 <= k < |r.0.pages| && |acc.pages| <= k ensures r.0.pages[k].name == PageName(p + k - |acc.pages|) {
          if k == |acc.pages| {
            assert r.0.pages[k] == next.pages[k];
          } else {
            assert r.0.pages[k].name == PageName(p + 1 + k - |next.pages|);
          }
        }
      }
    }
  }

  /** A walk that raises stops at the first page from `p` on with no question, with that page's KeyError. */
  lemma {:induction false} WalkRaises(count: nat, filed: map<nat, seq<Value>>, outcomes: map<nat, seq<Result<Converted, Raised>>>,
                                      show: Value -> string, p: nat, acc: Progress)
    requires 1 <= p <= count + 1 && Matches(filed, outcomes)
    requires Walk(count, filed, outcomes, show, p, acc).1.Some?
    ensures exists q :: (p <= q <= count && q !in filed && AllFiled(filed, p, q - 1)
                          && Walk(count, filed, outcomes, show, p, acc).1.value == KeyErrorOf(VStr(PageName(q)), show))
    decreases count + 1 - p
  {
    hide KeyErrorOf, PageName, Collect;
    if p in filed {
      var c := Collect(filed[p], outcomes[p], show, [], acc.fields, acc.log);
      var next := Progress(acc.pages + [Page(PageName(p), c.0)], c.1, c.2);
      assert Walk(count, filed, outcomes, show, p, acc) == Walk(count, filed, outcomes, show, p + 1, next);
      WalkRaises(count, filed, outcomes, show, p + 1, next);
      var q :| p + 1 <= q <= count && q !in filed && AllFiled(filed, p + 1, q - 1)
        && Walk(count, filed, outcomes, show, p + 1, next).1.value == KeyErrorOf(VStr(PageName(q)), show);
      assert AllFiled(filed, p, q - 1);
    } else {
      assert AllFiled(filed, p, p - 1);
    }
  }

  /** The outcome of an import: the pages and fields built, the log, and the exception raised if any. */
  datatype Imported = Imported(pages: seq<Page>, fields: seq<Field>, log: Logger.Log, raised: Option<Raised>)

  /** The error for a survey that cannot be parsed or read. */
  function ParseFailure(detail: string): (e: Failure)
    ensures e.cls == BaseError && |e.paragraphs| == 2
    ensures e.paragraphs[0] == Paragraph("Unable to parse Qualtrics data dictionary:", Some("Invalid JSON formatted text"))
    ensures e.paragraphs[1] == Paragraph("Parse error:", Some(detail))
  {
    Wrap(NewError(BaseError, "Unable to parse Qualtrics data dictionary:", Some("Invalid JSON formatted text")), "Parse error:", Some(detail))
  }

  /** `log` with one error entry for `e`. */
  function Logged(log: Logger.Log, e: Failure): (r: Logger.Log)
    ensures r == Logger.Error(log, Logger.Str(ErrorStr(e))).value
  {
    Logger.Log(log.entries + [Logger.ErrorPrefix + ErrorStr(e)])
  }

  /** The pages of a survey that has been read: every page from `page_01` to the last has questions. */
  predicate LaidOut(survey: Survey, show: Value -> string, pages: seq<Page>)
  {
    var a := Assign(survey.blockElements, survey.questions, show);
    a.Ok? && AllFiled(a.value.filed, 1, a.value.current) && |pages| == a.value.current && NamedFrom(pages, 0, 1)
  }

  /**
   * The block elements laid out on pages, then the pages walked in order.
   * A format error in the layout is logged before it is raised; any other
   * exception propagates without a log entry.
   */
  function Layout(survey: Survey, localization: string, show: Value -> string, log: Logger.Log): (r: Imported)
    ensures log.entries <= r.log.entries
    ensures r.raised.None? ==> Logger.WarningsFrom(r.log.entries, |log.entries|) && LaidOut(survey, show, r.pages)
    ensures Assign(survey.blockElements, survey.questions, show).Err? ==> (r.pages == [] && r.fields == [] &&
      r.raised == Some(Assign(survey.blockElements, survey.questions, show).error) &&
      r.log == (if r.raised.value.RaisedError? then Logged(log, r.raised.value.failure) else log))
  {
    hide Assign, Walk, Logged, PageOutcomes, Outcomes, KeyErrorOf;
    var a := Assign(survey.blockElements, survey.questions, show);
    if a.Err? then
      var logged := if a.error.RaisedError? then Logged(log, a.error.failure) else log;
      Imported([], [], logged, Some(a.error))
    else
      AssignKnown(survey.blockElements, survey.questions, show);
      var outcomes := PageOutcomes(a.value.filed, survey.questions, localization, show);
      var w := Walk(a.value.current, a.value.filed, outcomes, show, 1, Progress([], [], log));
      WalkCompletes(a.value.current, a.value.filed, outcomes, show, 1, Progress([], [], log));
      WalkNames(a.value.current, a.value.filed, outcomes, show, 1, Progress([], [], log));
      Imported(w.0.pages, w.0.fields, w.0.log, w.1)
  }

  /** The survey read from the JSON text, or the parse error for a text that cannot be parsed or read. */
  function ReadSurvey(json: Result<Value, string>, show: Value -> string): (r: Result<Survey, Failure>)
    ensures json.Err? ==> r == Err(ParseFailure(json.error))
    ensures json.Ok? && Read(json.value, show).Err? ==> r == Err(ParseFailure(ExcDetail(Read(json.value, show).error)))
    ensures r.Ok? <==> json.Ok? && Read(json.value, show).Ok?
    ensures r.Ok? ==> r.value == Read(json.value, show).value
  {
    hide Read, ParseFailure, ExcDetail;
    if json.Err? then Err(ParseFailure(json.error))
    else
      var survey := Read(json.value, show);
      if survey.Err? then Err(ParseFailure(ExcDetail(survey.error))) else Ok(survey.value)
  }

  /**
   * `QualtricsToRios.__call__` up to the assembly of the definitions: the
   * survey's JSON text (decoded, or the parser's message) read, then laid
   * out. A text that cannot be parsed or read fails with one logged error.
   */
  function Import(json: Result<Value, string>, localization: string, show: Value -> string, log: Logger.Log): (r: Imported)
    ensures log.entries <= r.log.entries
    ensures ReadSurvey(json, show).Err? ==> (r.pages == [] && r.fields == [] &&
      r.raised == Some(RaisedError(ReadSurvey(json, show).error)) && r.log == Logged(log, ReadSurvey(json, show).error))
    ensures r.raised.None? ==> Logger.WarningsFrom(r.log.entries, |log.entries|)
    ensures r.raised.None? ==> ReadSurvey(json, show).Ok? && LaidOut(ReadSurvey(json, show).value, show, r.pages)
  {
    hide ReadSurvey, Layout, Logged, LaidOut;
    var survey := ReadSurvey(json, show);
    if survey.Err? then Imported([], [], Logged(log, survey.error), Some(RaisedError(survey.error)))
    else Layout(survey.value, localization, show, log)
  }

  // ---------------------------------------------------------------------
  // Properties of the importer

  /** Digits have no upper case to lower. */
  lemma LowerDigits(s: string)
    requires AllDigits(s)
    ensures LowerStr(s) == s
  {
  }

  /** A list of choices is numbered from 0: the ids are `0`, `1`, … and the field type keeps every one, in order. */
  lemma ListChoiceIds(items: seq<Value>, localization: string, show: Value -> string)
    requires Descriptors(Enumerate(items), localization, show).Ok?
    ensures var ds := Descriptors(Enumerate(items), localization, show).value;
      (forall k :: 0 <= k < |ds| ==> ds[k].id == NatToString(k)) && Dedup(DescriptorIds(ds)) == DescriptorIds(ds)
  {
    var ds := Descriptors(Enumerate(items), localization, show).value;
    var pairs := Enumerate(items);
    forall k | 0 <= k < |ds| ensures ds[k].id == NatToString(k) {
      assert pairs[k].0 == VInt(k);
      assert StrOf(VInt(k), show) == NatToString(k);
      LowerDigits(NatToString(k));
    }
    var ids := DescriptorIds(ds);
    forall i, j | 0 <= i < j < |ids| ensures ids[i] != ids[j] {
      DecimalOfNatToString(i);
      DecimalOfNatToString(j);
    }
    DedupDistinct(ids);
  }

  /**
   * A choices mapping read in its default order finds every choice when
   * its keys are not all digit strings, or are all canonical ones.
   */
  lemma DefaultOrderFound(choices: Spec, show: Value -> string)
    requires var names := Keys(choices);
      (forall k :: 0 <= k < |names| ==> Canonical(names[k])) || !(forall k :: 0 <= k < |names| ==> IsDigitString(names[k]))
    ensures Pairs(choices, DefaultOrder(choices), show).Ok?
  {
    var names := Keys(choices);
    var keys := KeysOf(names);
    var sorted := Sort(keys);
    var order := DefaultOrder(choices);
    assert |sorted| == |multiset(sorted)| == |keys|;
    forall k | 0 <= k < |order| ensures Lookup(choices, StrOf(order[k], show)).Some? {
      assert order[k] == KeyValue(sorted[k]);
      assert sorted[k] in multiset(keys);
      var m :| 0 <= m < |keys| && keys[m] == sorted[k];
      if forall i :: 0 <= i < |names| ==> IsDigitString(names[i]) {
        assert Canonical(names[m]);
        CanonicalRoundTrip(names[m]);
        assert StrOf(order[k], show) == names[m];
      } else {
        assert StrOf(order[k], show) == names[m];
      }
      assert names[m] in Keys(choices);
    }
  }

  /** With the block elements laid out, the import fails exactly when some page has no question, and then with the first such page's name. */
  lemma LayoutPages(survey: Survey, localization: string, show: Value -> string, log: Logger.Log)
    requires Assign(survey.blockElements, survey.questions, show).Ok?
    ensures var a := Assign(survey.blockElements, survey.questions, show).value;
      var r := Layout(survey, localization, show, log);
      (r.raised.None? <==> AllFiled(a.filed, 1, a.current)) &&
      (r.raised.Some? ==> (exists q :: FirstEmpty(a.filed, q, a.current) && r.raised.value == KeyErrorOf(VStr(PageName(q)), show)))
  {
    hide Assign, PageOutcomes, Outcomes, KeyErrorOf, PageName;
    AssignKnown(survey.blockElements, survey.questions, show);
    var a := Assign(survey.blockElements, survey.questions, show).value;
    var outcomes := PageOutcomes(a.filed, survey.questions, localization, show);
    WalkCompletes(a.current, a.filed, outcomes, show, 1, Progress([], [], log));
    if Walk(a.current, a.filed, outcomes, show, 1, Progress([], [], log)).1.Some? {
      WalkRaises(a.current, a.filed, outcomes, show, 1, Progress([], [], log));
    }
  }
}

=== FILE: qualtrics_survey.dfy ===
/**
 * Reading a Qualtrics survey export (a decoded `.qsf` document) for the
 * Qualtrics importer: the page names it generates, the extraction of
 * the block elements and the questions from `SurveyElements`, and the
 * assignment of questions to pages along the block elements.
 */
module QualtricsSurvey {
  import opened Wrappers
  import opened Text
  import opened Structures
  import opened Errors
  import opened PyValues

  // ---------------------------------------------------------------------
  // PageName

  /** The name of the `n`-th page: `page_` and the number, at least two digits wide. */
  function PageName(n: nat): (r: string)
    ensures StartsWith(r, "page_") && |r| >= 7 && AllDigits(r[5..])
  {
    "page_" + ZeroPad(n, 2)
  }

  /** The digits after `page_` give the page number back, so distinct pages get distinct names. */
  lemma PageNameNumber(n: nat)
    ensures DecimalValue(PageName(n)[5..]) == n
  {
    assert PageName(n)[5..] == ZeroPad(n, 2);
    ZeroPadValue(n, 2);
  }

  lemma PageNameInjective(a: nat, b: nat)
    requires PageName(a) == PageName(b)
    ensures a == b
  {
    PageNameNumber(a);
    PageNameNumber(b);
  }

  /** The first pages are `page_01` to `page_09`; from the tenth on the number is written as it is. */
  lemma PageNameDigits(n: nat)
    ensures 1 <= n <= 9 ==> PageName(n) == "page_0" + NatToString(n)
    ensures n >= 10 ==> PageName(n) == "page_" + NatToString(n)
  {
    if n >= 10 {
      assert NatToString(n) == NatToString(n / 10) + [DigitChar(n % 10)];
    }
  }

  // ---------------------------------------------------------------------
  // JsonReaderMainProcessor.processor

  /** What the reader extracts: the block elements and the question payloads by question id. */
  datatype Survey = Survey(blockElements: seq<Value>, questions: map<Value, Value>)

  const EmptySurvey := Survey([], map[])

  function FormatError(message: string, payload: string): (e: Raised)
    ensures e.RaisedError? && e.failure.cls == QualtricsFormatError && |e.failure.paragraphs| == 1
  {
    RaisedError(NewError(QualtricsFormatError, message, Some(payload)))
  }

  /** A block's `BlockElements`, which must be there. */
  function BlockElements(block: Value, show: Value -> string): Result<Value, Raised>
  {
    Index(block, "BlockElements", show)
  }

  /** A block's `BlockElements` that is there and empty. */
  predicate Empty(elements: Result<Value, Raised>)
  {
    elements.Ok? && !Truthy(elements.value)
  }

  /** A block's `BlockElements` that is there and not empty. */
  predicate Full(elements: Result<Value, Raised>)
  {
    elements.Ok? && Truthy(elements.value)
  }

  /** What scanning the blocks' elements from `i` for the first non-empty one may answer. */
  predicate Scanned(elements: seq<Result<Value, Raised>>, i: nat, r: Result<Option<nat>, Raised>)
    requires i <= |elements|
  {
    match r
    case Err(e) => exists k :: i <= k < |elements| && elements[k] == Err(e)
    case Ok(None) => forall k :: i <= k < |elements| ==> Empty(elements[k])
    case Ok(Some(j)) =>
      i <= j < |elements| && Full(elements[j]) && forall k :: i <= k < j ==> Empty(elements[k])
  }

  /** The position of the first block whose `BlockElements` is non-empty, if any, scanning from `i`;
      the first missing `BlockElements` met on the way raises. */
  function FirstBlock(elements: seq<Result<Value, Raised>>, i: nat): (r: Result<Option<nat>, Raised>)
    requires i <= |elements|
    ensures Scanned(elements, i, r)
    decreases |elements| - i
  {
    hide Truthy;
    if i == |elements| then Ok(None)
    else if elements[i].Err? then Err(elements[i].error)
    else if Truthy(elements[i].value) then Ok(Some(i))
    else FirstBlock(elements, i + 1)
  }

  /** The values of a mapping, in key order. */
  function Values(sp: Spec): (r: seq<Value>)
    ensures |r| == |sp.entries| && forall k :: 0 <= k < |r| ==> r[k] == sp.entries[k].value
  {
    seq(|sp.entries|, k requires 0 <= k < |sp.entries| => sp.entries[k].value)
  }

  /** The block elements a `BL` element contributes: those of its first block that has any. */
  function BlockContribution(payload: Value, show: Value -> string): (r: Result<seq<Value>, Raised>)
  {
    var blocks := if payload.VSpec? then Ok(Values(payload.spec)) else Iterate(payload);
    if blocks.Err? then Err(blocks.error)
    else
      var elements := seq(|blocks.value|, k requires 0 <= k < |blocks.value| => BlockElements(blocks.value[k], show));
      var first := FirstBlock(elements, 0);
      if first.Err? then Err(first.error)
      else if first.value.None? then Ok([])
      else Iterate(elements[first.value.value].value)
  }

  /** A survey element's `Element` or `Payload` entry; None when absent or when the element is not a mapping. */
  function Field(se: Value, key: string): Value
  {
    if se.VSpec? then GetOr(se.spec, key, VNone) else VNone
  }

  /** The id an `SQ` element files its payload under, when it has a usable one. */
  function FiledId(se: Value, show: Value -> string): Option<Value>
  {
    var payload := Field(se, "Payload");
    if Field(se, "Element") != VStr("SQ") || !Truthy(payload) then None
    else
      var id := Index(payload, "QuestionID", show);
      if id.Err? || !Hashable(id.value) then None else Some(id.value)
  }

  /** One survey element: `BL` extends the block elements, `SQ` files its payload, anything else named is ignored. */
  function ReadElement(se: Value, acc: Survey, show: Value -> string): (r: Result<Survey, Raised>)
    ensures r.Ok? ==> acc.blockElements <= r.value.blockElements
    ensures r.Ok? && FiledId(se, show).Some? ==> r.value.questions == acc.questions[FiledId(se, show).value := Field(se, "Payload")]
    ensures r.Ok? && FiledId(se, show).None? ==> r.value.questions == acc.questions
    ensures Field(se, "Element") == VStr("SQ") && Truthy(Field(se, "Payload")) ==> (r.Ok? <==> FiledId(se, show).Some?)
  {
    var element := Field(se, "Element");
    var payload := Field(se, "Payload");
    if !Truthy(element) then Err(FormatError("Missing \"Element\" field in \"SurveyElements\":", ReprOf(se, show)))
    else if element == VStr("BL") then
      var more := BlockContribution(payload, show);
      if more.Err? then Err(more.error) else Ok(acc.(blockElements := acc.blockElements + more.value))
    else if element == VStr("SQ") then
      if !Truthy(payload) then Err(FormatError("Missing \"Payload\" field in \"SurveyElements\":", ReprOf(se, show)))
      else
        var id := Index(payload, "QuestionID", show);
        if id.Err? then Err(id.error)
        else if !Hashable(id.value) then Err(TypeErrorOf("unhashable type: '" + TypeName(id.value) + "'"))
        else Ok(acc.(questions := acc.questions[id.value := payload]))
    else Ok(acc)
  }

  /** The loop over `SurveyElements`; the first failure ends it. */
  function ReadElements(ses: seq<Value>, acc: Survey, show: Value -> string): (r: Result<Survey, Raised>)
    ensures r.Ok? ==> acc.blockElements <= r.value.blockElements
    decreases |ses|
  {
    if |ses| == 0 then Ok(acc)
    else
      var next := ReadElement(ses[0], acc, show);
      if next.Err? then next else ReadElements(ses[1..], next.value, show)
  }

  /**
   * `processor`: every failure, a format error of its own or any other
   * exception, is raised again as one format error headed
   * `Processor read error:`.
   */
  function Read(data: Value, show: Value -> string): (r: Result<Survey, Raised>)
    ensures r.Err? ==> RawRead(data, show).Err? && ReadFailure(r.error, RawRead(data, show).error)
    ensures r.Ok? <==> RawRead(data, show).Ok?
    ensures r.Ok? ==> r == RawRead(data, show)
  {
    var raw := RawRead(data, show);
    if raw.Ok? then raw
    else Err(FormatError("Processor read error:", ReadDetail(raw.error)))
  }

  /** The one paragraph `Processor read error:` with the original exception's text, as a format error. */
  predicate ReadFailure(e: Raised, exc: Raised)
  {
    e.RaisedError? && e.failure.cls == QualtricsFormatError &&
    e.failure.paragraphs == [Paragraph("Processor read error:", Some(ReadDetail(exc)))]
  }

  /** `str(exc)` of a format error, `repr(exc)` of anything else. */
  function ReadDetail(exc: Raised): string
  {
    if exc.RaisedError? && exc.failure.cls == QualtricsFormatError then ErrorStr(exc.failure) else ExcRepr(exc)
  }

  /** The body of the `try`: `data['SurveyElements']` walked from an empty survey. */
  function RawRead(data: Value, show: Value -> string): Result<Survey, Raised>
  {
    var ses := Index(data, "SurveyElements", show);
    if ses.Err? then Err(ses.error)
    else
      var items := Iterate(ses.value);
      if items.Err? then Err(items.error) else ReadElements(items.value, EmptySurvey, show)
  }

  /** An id no later element files under keeps its payload. */
  lemma {:induction false} ReadUntouched(ses: seq<Value>, acc: Survey, show: Value -> string, id: Value)
    requires ReadElements(ses, acc, show).Ok?
    requires forall k :: 0 <= k < |ses| ==> FiledId(ses[k], show) != Some(id)
    ensures (id in ReadElements(ses, acc, show).value.questions) == (id in acc.questions)
    ensures id in acc.questions ==> ReadElements(ses, acc, show).value.questions[id] == acc.questions[id]
    decreases |ses|
  {
    hide ReadElement;
    if |ses| > 0 {
      var next := ReadElement(ses[0], acc, show).value;
      assert forall k :: 0 <= k < |ses| - 1 ==> ses[1..][k] == ses[k + 1];
      ReadUntouched(ses[1..], next, show, id);
    }
  }

  /** Under each question id is the payload of the last `SQ` element with that id. */
  lemma {:induction false} ReadLastWins(ses: seq<Value>, acc: Survey, show: Value -> string, j: nat)
    requires ReadElements(ses, acc, show).Ok? && j < |ses| && FiledId(ses[j], show).Some?
    requires forall k :: j < k < |ses| ==> FiledId(ses[k], show) != FiledId(ses[j], show)
    ensures FiledId(ses[j], show).value in ReadElements(ses, acc, show).value.questions
    ensures ReadElements(ses, acc, show).value.questions[FiledId(ses[j], show).value] == Field(ses[j], "Payload")
    decreases |ses|
  {
    hide ReadElement;
    var next := ReadElement(ses[0], acc, show).value;
    assert forall k :: 0 <= k < |ses| - 1 ==> ses[1..][k] == ses[k + 1];
    if j == 0 {
      ReadUntouched(ses[1..], next, show, FiledId(ses[0], show).value);
    } else {
      ReadLastWins(ses[1..], next, show, j - 1);
    }
  }

  // ---------------------------------------------------------------------
  // Page assignment in QualtricsToRios.__call__

  /** What one block element asks for: open the next page, or file a question id under the current one. */
  datatype Step = NextPage | FileId(id: Value)

  /** A block element's `Type`; only mappings have `get`. */
  function Kind(fe: Value): Result<Value, Raised>
  {
    Get(fe, "Type", VNone)
  }

  predicate IsBreak(fe: Value) { Kind(fe) == Ok(VStr("Page Break")) }

  /** The `QuestionID` of a block element, None when absent. */
  function QuestionIdOf(fe: Value): Value
  {
    if fe.VSpec? then GetOr(fe.spec, "QuestionID", VNone) else VNone
  }

  /** The error for a block element that is neither a page break nor a question. */
  function BadKindError(kind: Value, show: Value -> string): (e: Raised)
    ensures e.RaisedError? && e.failure.cls == QualtricsFormatError && |e.failure.paragraphs| == 2
    ensures e.failure.paragraphs[0] == Paragraph("Invalid type for block element. Expected types:", Some("\"Page Break\" or \"Question\""))
  {
    var e := FormatError("Invalid type for block element. Expected types:", "\"Page Break\" or \"Question\"");
    if Truthy(kind) then RaisedError(Wrap(e.failure, "But got invalid type value:", Some(StrOf(kind, show))))
    else RaisedError(Wrap(e.failure, "Missing type value", None))
  }

  /** The checks on one block element; the filing itself does not depend on them and comes after. */
  function Classify(fe: Value, questions: map<Value, Value>, show: Value -> string): (r: Result<Step, Raised>)
    ensures r.Ok? ==> (r.value.NextPage? <==> IsBreak(fe))
    ensures r.Ok? && r.value.FileId? ==> Kind(fe) == Ok(VStr("Question")) && r.value.id == QuestionIdOf(fe) && r.value.id in questions
    ensures Kind(fe) == Ok(VStr("Question")) ==> (r.Ok? <==> QuestionIdOf(fe) != VNone && Hashable(QuestionIdOf(fe)) && QuestionIdOf(fe) in questions)
    ensures Kind(fe).Ok? && Kind(fe).value != VStr("Page Break") && Kind(fe).value != VStr("Question") ==> r == Err(BadKindError(Kind(fe).value, show))
  {
    hide Kind, QuestionIdOf, StrOf, TypeErrorOf, TypeName, FormatError, BadKindError;
    var kind := Kind(fe);
    if kind.Err? then Err(kind.error)
    else if kind.value == VStr("Page Break") then Ok(NextPage)
    else if kind.value == VStr("Question") then
      var id := QuestionIdOf(fe);
      if id == VNone then Err(FormatError("Block element QuestionID value not found in:", StrOf(fe, show)))
      else if !Hashable(id) then Err(TypeErrorOf("unhashable type: '" + TypeName(id) + "'"))
      else if id !in questions then Err(FormatError("QuestionID value not found in question data. Got ID:", StrOf(id, show)))
      else Ok(FileId(id))
    else Err(BadKindError(kind.value, show))
  }

  /** The steps of all block elements, or the error of the first one that fails its checks. */
  function Classified(elements: seq<Value>, questions: map<Value, Value>, show: Value -> string): (r: Result<seq<Step>, Raised>)
    ensures r.Ok? ==> |r.value| == |elements| && forall k :: 0 <= k < |elements| ==> Classify(elements[k], questions, show) == Ok(r.value[k])
    ensures r.Err? ==> exists k :: 0 <= k < |elements| && Classify(elements[k], questions, show) == Err(r.error)
  {
    if |elements| == 0 then Ok([])
    else
      var first := Classify(elements[0], questions, show);
      if first.Err? then Err(first.error)
      else
        var rest := Classified(elements[1..], questions, show);
        if rest.Err? then
          assert forall k :: 0 <= k < |elements| - 1 ==> elements[1..][k] == elements[k + 1];
          Err(rest.error)
        else Ok([first.value] + rest.value)
  }

  /** The current page number and, per page number, the question ids filed under it in order of first filing. */
  datatype Assignment = Assignment(current: nat, filed: map<nat, seq<Value>>)

  /** dict.update with one key: a new id goes last, a known id keeps its place. */
  function AddId(ids: seq<Value>, id: Value): (r: seq<Value>)
    ensures id in r && (forall x :: x in r <==> x in ids || x == id)
    ensures id in ids ==> r == ids
    ensures id !in ids ==> r == ids + [id]
  {
    if id in ids then ids else ids + [id]
  }

  /** The page breaks among the first `i` steps. */
  function Breaks(steps: seq<Step>, i: nat): (n: nat)
    requires i <= |steps|
    ensures n <= i
  {
    if i == 0 then 0 else Breaks(steps, i - 1) + (if steps[i - 1].NextPage? then 1 else 0)
  }

  /** The ids filed so far under page `p`. */
  function FiledUnder(a: Assignment, p: nat): seq<Value>
  {
    if p in a.filed then a.filed[p] else []
  }

  /** The loop over the steps from position `i`. */
  function Place(steps: seq<Step>, i: nat, a: Assignment): (r: Assignment)
    requires i <= |steps|
    ensures r.current == a.current + Breaks(steps, |steps|) - Breaks(steps, i)
    decreases |steps| - i
  {
    if i == |steps| then a
    else
      match steps[i]
      case NextPage => Place(steps, i + 1, a.(current := a.current + 1))
      case FileId(id) => Place(steps, i + 1, a.(filed := a.filed[a.current := AddId(FiledUnder(a, a.current), id)]))
  }

  /** Checking all block elements first, then filing from `page_01` on. */
  function Assign(elements: seq<Value>, questions: map<Value, Value>, show: Value -> string): (r: Result<Assignment, Raised>)
    ensures r.Ok? <==> Classified(elements, questions, show).Ok?
    ensures r.Ok? ==> r.value.current == 1 + Breaks(Classified(elements, questions, show).value, |elements|)
  {
    var steps := Classified(elements, questions, show);
    if steps.Err? then Err(steps.error) else Ok(Place(steps.value, 0, Assignment(1, map[])))
  }

  /** Every filed id comes from a question step, under a page that exists, at most once per page. */
  predicate Consistent(a: Assignment, steps: seq<Step>)
  {
    (forall p :: p in a.filed ==> 1 <= p <= a.current) &&
    (forall p, x :: p in a.filed && x in a.filed[p] ==> FileId(x) in steps) &&
    (forall p :: p in a.filed ==> Distinct(a.filed[p]))
  }

  predicate Distinct(ids: seq<Value>)
  {
    forall j, k :: 0 <= j < k < |ids| ==> ids[j] != ids[k]
  }

  lemma {:induction false} PlaceConsistent(steps: seq<Step>, i: nat, a: Assignment)
    requires i <= |steps| && Consistent(a, steps) && a.current >= 1
    ensures Consistent(Place(steps, i, a), steps)
    decreases |steps| - i
  {
    if i < |steps| {
      match steps[i]
      case NextPage =>
        PlaceConsistent(steps, i + 1, a.(current := a.current + 1));
      case FileId(id) =>
        var b := a.(filed := a.filed[a.current := AddId(FiledUnder(a, a.current), id)]);
        assert Consistent(b, steps);
        PlaceConsistent(steps, i + 1, b);
    }
  }

  /** Filing only ever adds ids. */
  lemma {:induction false} PlaceKeeps(steps: seq<Step>, i: nat, a: Assignment, p: nat, x: Value)
    requires i <= |steps| && p in a.filed && x in a.filed[p]
    ensures p in Place(steps, i, a).filed && x in Place(steps, i, a).filed[p]
    decreases |steps| - i
  {
    hide Breaks;
    if i < |steps| {
      match steps[i]
      case NextPage =>
        PlaceKeeps(steps, i + 1, a.(current := a.current + 1), p, x);
      case FileId(id) =>
        var b := a.(filed := a.filed[a.current := AddId(FiledUnder(a, a.current), id)]);
        assert p in b.filed && x in b.filed[p] by {
          if p == a.current { assert x in FiledUnder(a, p); }
        }
        PlaceKeeps(steps, i + 1, b, p, x);
    }
  }

  /** Each question is filed under the page opened by the page breaks before it. */
  lemma {:induction false} PlaceFiles(steps: seq<Step>, i: nat, a: Assignment, k: nat)
    requires i <= k < |steps| && steps[k].FileId?
    requires a.current == 1 + Breaks(steps, i)
    ensures 1 + Breaks(steps, k) in Place(steps, i, a).filed
    ensures steps[k].id in Place(steps, i, a).filed[1 + Breaks(steps, k)]
    decreases |steps| - i
  {
    match steps[i]
    case NextPage =>
      assert Breaks(steps, i + 1) == Breaks(steps, i) + 1;
      PlaceFiles(steps, i + 1, a.(current := a.current + 1), k);
    case FileId(id) =>
      assert Breaks(steps, i + 1) == Breaks(steps, i);
      var b := a.(filed := a.filed[a.current := AddId(FiledUnder(a, a.current), id)]);
      if i == k {
        PlaceKeeps(steps, i + 1, b, a.current, id);
      } else {
        PlaceFiles(steps, i + 1, b, k);
      }
  }

  /** After a successful assignment every filed id is a known question, filed once per page, under a page from `page_01` to the last. */
  lemma AssignConsistent(elements: seq<Value>, questions: map<Value, Value>, show: Value -> string)
    requires Assign(elements, questions, show).Ok?
    ensures Consistent(Assign(elements, questions, show).value, Classified(elements, questions, show).value)
  {
    hide Classify, Place, Kind, QuestionIdOf;
    var steps := Classified(elements, questions, show).value;
    assert Assign(elements, questions, show).value == Place(steps, 0, Assignment(1, map[]));
    PlaceConsistent(steps, 0, Assignment(1, map[]));
  }

  /** Each question element's id is filed under the page its preceding page breaks select. */
  lemma AssignFiles(elements: seq<Value>, questions: map<Value, Value>, show: Value -> string, k: nat)
    requires Assign(elements, questions, show).Ok? && k < |elements| && !IsBreak(elements[k])
    ensures 1 + Breaks(Classified(elements, questions, show).value, k) in Assign(elements, questions, show).value.filed
    ensures QuestionIdOf(elements[k]) in Assign(elements, questions, show).value.filed[1 + Breaks(Classified(elements, questions, show).value, k)]
  {
    hide Classify, Place, Kind, QuestionIdOf;
    var steps := Classified(elements, questions, show).value;
    assert Assign(elements, questions, show).value == Place(steps, 0, Assignment(1, map[]));
    assert Classify(elements[k], questions, show) == Ok(steps[k]);
    PlaceFiles(steps, 0, Assignment(1, map[]), k);
  }

  /** The ids filed under each page are known questions, and every filed page is one of those counted. */
  lemma AssignKnown(elements: seq<Value>, questions: map<Value, Value>, show: Value -> string)
    requires Assign(elements, questions, show).Ok?
    ensures var a := Assign(elements, questions, show).value;
      (forall p :: p in a.filed ==> 1 <= p <= a.current) &&
      (forall p, x :: p in a.filed && x in a.filed[p] ==> x in questions)
  {
    hide Classify, Place, Kind, QuestionIdOf;
    AssignConsistent(elements, questions, show);
    var steps := Classified(elements, questions, show).value;
    var a := Assign(elements, questions, show).value;
    forall p, x | p in a.filed && x in a.filed[p] ensures x in questions {
      assert FileId(x) in steps;
      var k :| 0 <= k < |steps| && steps[k] == FileId(x);
      assert Classify(elements[k], questions, show) == Ok(FileId(x));
    }
  }
}

=== FILE: redcap_calcs.dfy ===
/**
 * Registration of REDCap calculated fields while a data dictionary is
 * read (the `process_calculation` step of `get_type` and the
 * `calculation_variables` set of the processor). The set decides, in
 * every later expression, whether `[x]` is read from `calculations` or
 * from `assessment`.
 *
 * As written, `page_processor` gives a `calc` row no question, so
 * `get_type` (and with it `process_calculation`) never runs for it: the
 * set stays empty, no calculation is produced, and every reference is
 * sent to `assessment`. The corrected fold registers each calculated
 * field after converting its own expression.
 */
module RedcapCalcs {
  import opened Wrappers
  import opened Names
  import opened RedcapExpr
  import opened RefTokens

  /** The cells of a data-dictionary row that registration reads. */
  datatype CsvRow = CsvRow(name: string, fieldType: string, fieldLabel: string, calculation: string, branching: string)

  /** A calculation of the calculation set: float-typed, method `python`. */
  datatype CalcDef = CalcDef(id: string, description: string, expression: string)

  /**
   * The processor's registration state: the known calculation names, the
   * calculations produced, and the disable-trigger of each question row
   * (None when the row has no branching logic).
   */
  datatype Registry = Registry(calcs: set<string>, calculations: seq<CalcDef>, triggers: seq<Option<string>>)

  const Fresh: Registry := Registry({}, [], [])

  /** The event trigger of a question row, converted against the known calculations. */
  function Trigger(branching: string, calcs: set<string>): (r: Option<string>)
    ensures r.None? <==> branching == ""
  {
    if branching == "" then None else Some(ConvertTrigger(branching, calcs))
  }

  function CalcIds(cs: seq<CalcDef>): (ids: seq<string>)
    ensures |ids| == |cs|
    ensures forall k :: 0 <= k < |cs| ==> ids[k] == cs[k].id
  {
    seq(|cs|, k requires 0 <= k < |cs| => cs[k].id)
  }

  /** The known names are exactly the ids of the calculations produced, each once. */
  ghost predicate Consistent(reg: Registry)
  {
    Distinct(CalcIds(reg.calculations)) && forall x :: x in reg.calcs <==> x in CalcIds(reg.calculations)
  }

  /** The registered names of the `calc` rows, in row order. */
  function CalcNames(rows: seq<CsvRow>): (names: seq<string>)
    ensures |names| <= |rows|
    decreases |rows|
  {
    if |rows| == 0 then []
    else if rows[0].fieldType == "calc" then [Canonical(rows[0].name)] + CalcNames(rows[1..])
    else CalcNames(rows[1..])
  }

  /** Registration succeeds when each calc name is new: none known already, none twice. */
  predicate NewNames(calcs: set<string>, names: seq<string>)
  {
    Distinct(names) && forall k :: 0 <= k < |names| ==> names[k] !in calcs
  }

  // ---------------------------------------------------------------------
  // As written

  /** One row as written: a calc row has no question and registers nothing. */
  function StepAsWritten(reg: Registry, row: CsvRow): (r: Registry)
    ensures r.calcs == reg.calcs && r.calculations == reg.calculations
    ensures row.fieldType == "calc" ==> r == reg
    ensures row.fieldType != "calc" ==> r.triggers == reg.triggers + [Trigger(row.branching, reg.calcs)]
  {
    if row.fieldType == "calc" then reg
    else reg.(triggers := reg.triggers + [Trigger(row.branching, reg.calcs)])
  }

  function RegisterAsWritten(reg: Registry, rows: seq<CsvRow>): (r: Registry)
    decreases |rows|
  {
    if |rows| == 0 then reg else RegisterAsWritten(StepAsWritten(reg, rows[0]), rows[1..])
  }

  /** The triggers of the question rows, all converted against one fixed set. */
  function TriggersWith(rows: seq<CsvRow>, calcs: set<string>): (ts: seq<Option<string>>)
    decreases |rows|
  {
    if |rows| == 0 then []
    else if rows[0].fieldType == "calc" then TriggersWith(rows[1..], calcs)
    else [Trigger(rows[0].branching, calcs)] + TriggersWith(rows[1..], calcs)
  }

  /**
   * As written, the calculation set never grows: no calculation is
   * produced and every trigger is converted against the starting set.
   */
  lemma {:induction false} AsWrittenNeverRegisters(reg: Registry, rows: seq<CsvRow>)
    ensures RegisterAsWritten(reg, rows).calcs == reg.calcs
    ensures RegisterAsWritten(reg, rows).calculations == reg.calculations
    ensures RegisterAsWritten(reg, rows).triggers == reg.triggers + TriggersWith(rows, reg.calcs)
    decreases |rows|
  {
    hide Trigger;
    if |rows| > 0 {
      var next := StepAsWritten(reg, rows[0]);
      assert RegisterAsWritten(reg, rows) == RegisterAsWritten(next, rows[1..]);
      AsWrittenNeverRegisters(next, rows[1..]);
      if rows[0].fieldType != "calc" {
        assert TriggersWith(rows, reg.calcs) == [Trigger(rows[0].branching, reg.calcs)] + TriggersWith(rows[1..], reg.calcs);
        assert next.triggers + TriggersWith(rows[1..], reg.calcs)
          == reg.triggers + ([Trigger(rows[0].branching, reg.calcs)] + TriggersWith(rows[1..], reg.calcs));
      }
    }
  }

  // ---------------------------------------------------------------------
  // Corrected

  /**
   * One row, corrected: a calc row converts its own expression against
   * the names known so far, then registers its name; a name already
   * known fails the assertion of `process_calculation`.
   */
  function Step(reg: Registry, row: CsvRow): (r: Result<Registry, string>)
    ensures r.Err? <==> row.fieldType == "calc" && Canonical(row.name) in reg.calcs
    ensures r.Ok? && row.fieldType == "calc" ==> r.value.calcs == reg.calcs + {Canonical(row.name)} && r.value.triggers == reg.triggers
    ensures r.Ok? && row.fieldType == "calc" ==>
      r.value.calculations == reg.calculations + [CalcDef(Canonical(row.name), row.fieldLabel, ConvertCalc(row.calculation, reg.calcs))]
    ensures r.Ok? && row.fieldType != "calc" ==> r.value == StepAsWritten(reg, row)
  {
    if row.fieldType == "calc" then
      var id := Canonical(row.name);
      var expr := ConvertCalc(row.calculation, reg.calcs);
      if id in reg.calcs then Err("AssertionError")
      else Ok(Registry(reg.calcs + {id}, reg.calculations + [CalcDef(id, row.fieldLabel, expr)], reg.triggers))
    else Ok(reg.(triggers := reg.triggers + [Trigger(row.branching, reg.calcs)]))
  }

  function Register(reg: Registry, rows: seq<CsvRow>): (r: Result<Registry, string>)
    ensures r.Ok? ==> reg.calcs <= r.value.calcs
    decreases |rows|
  {
    if |rows| == 0 then Ok(reg)
    else
      var next := Step(reg, rows[0]);
      if next.Err? then Err(next.error) else Register(next.value, rows[1..])
  }

  /** Registering a new name together with its calculation keeps the two in step. */
  lemma AppendConsistent(reg: Registry, d: CalcDef, triggers: seq<Option<string>>)
    requires Consistent(reg) && d.id !in reg.calcs
    ensures Consistent(Registry(reg.calcs + {d.id}, reg.calculations + [d], triggers))
  {
    assert CalcIds(reg.calculations + [d]) == CalcIds(reg.calculations) + [d.id];
  }

  /** One step keeps the known names in step with the calculations produced. */
  lemma StepConsistent(reg: Registry, row: CsvRow)
    requires Consistent(reg) && Step(reg, row).Ok?
    ensures Consistent(Step(reg, row).value)
  {
    if row.fieldType == "calc" {
      var d := CalcDef(Canonical(row.name), row.fieldLabel, ConvertCalc(row.calculation, reg.calcs));
      assert Step(reg, row).value == Registry(reg.calcs + {d.id}, reg.calculations + [d], reg.triggers);
      AppendConsistent(reg, d, reg.triggers);
    }
  }

  /** Registration keeps the known names in step with the calculations produced. */
  lemma {:induction false} RegisterConsistent(reg: Registry, rows: seq<CsvRow>)
    requires Consistent(reg) && Register(reg, rows).Ok?
    ensures Consistent(Register(reg, rows).value)
    decreases |rows|
  {
    if |rows| > 0 {
      StepConsistent(reg, rows[0]);
      RegisterConsistent(Step(reg, rows[0]).value, rows[1..]);
    }
  }

  lemma NewNamesCons(calcs: set<string>, h: string, t: seq<string>)
    ensures NewNames(calcs, [h] + t) <==> h !in calcs && NewNames(calcs + {h}, t)
  {
    var names := [h] + t;
    assert names[0] == h;
    assert forall k :: 0 <= k < |t| ==> names[k + 1] == t[k];
    if NewNames(calcs, names) {
      forall k | 0 <= k < |t| ensures t[k] !in calcs + {h} {
        assert names[0] != names[k + 1];
      }
      forall i, j | 0 <= i < j < |t| ensures t[i] != t[j] {
        assert names[i + 1] != names[j + 1];
      }
    }
    if h !in calcs && NewNames(calcs + {h}, t) {
      forall i, j | 0 <= i < j < |names| ensures names[i] != names[j] {
        assert names[j] == t[j - 1];
        if i > 0 {
          assert names[i] == t[i - 1];
        }
      }
      forall k | 0 <= k < |names| ensures names[k] !in calcs {
        if k > 0 {
          assert names[k] == t[k - 1];
        }
      }
    }
  }

  /** Registration fails exactly when a calc name is already known or occurs twice. */
  lemma {:induction false} RegisterSucceeds(reg: Registry, rows: seq<CsvRow>)
    ensures Register(reg, rows).Ok? <==> NewNames(reg.calcs, CalcNames(rows))
    decreases |rows|
  {
    if |rows| > 0 {
      var next := Step(reg, rows[0]);
      if rows[0].fieldType == "calc" {
        NewNamesCons(reg.calcs, Canonical(rows[0].name), CalcNames(rows[1..]));
        if next.Ok? {
          RegisterSucceeds(next.value, rows[1..]);
        }
      } else {
        RegisterSucceeds(next.value, rows[1..]);
      }
    }
  }

  /** Without calc rows the correction changes nothing. */
  lemma {:induction false} NoCalcRowsAgree(reg: Registry, rows: seq<CsvRow>)
    requires forall k :: 0 <= k < |rows| ==> rows[k].fieldType != "calc"
    ensures Register(reg, rows) == Ok(RegisterAsWritten(reg, rows))
    decreases |rows|
  {
    if |rows| > 0 {
      NoCalcRowsAgree(StepAsWritten(reg, rows[0]), rows[1..]);
    }
  }

  /**
   * The discrepancy: a calculated field `n`, then a question whose
   * branching logic reads `[n]`. As written the calculation is lost and
   * the trigger is converted without knowing `n`; corrected, `n` is a
   * calculation and the trigger is converted knowing it.
   */
  lemma CalcThenQuestion(n: string, lbl: string, expr: string, q: string, qlbl: string)
    requires IsCanonical(n) && IsName(n)
    ensures RegisterAsWritten(Fresh, [CsvRow(n, "calc", lbl, expr, ""), CsvRow(q, "text", qlbl, "", "[" + n + "]")])
      == Registry({}, [], [Some(ConvertTrigger("[" + n + "]", {}))])
    ensures Register(Fresh, [CsvRow(n, "calc", lbl, expr, ""), CsvRow(q, "text", qlbl, "", "[" + n + "]")])
      == Ok(Registry({n}, [CalcDef(n, lbl, ConvertCalc(expr, {}))], [Some(ConvertTrigger("[" + n + "]", {n}))]))
  {
    hide Canonical, ConvertCalc, ConvertTrigger;
    var row0 := CsvRow(n, "calc", lbl, expr, "");
    var row1 := CsvRow(q, "text", qlbl, "", "[" + n + "]");
    var rows := [row0, row1];
    assert row1.fieldType != "calc" by { assert "text"[0] != "calc"[0]; }
    assert rows[1..] == [row1] && rows[1..][1..] == [];
    CanonicalKeeps(n);
    var r1 := Registry({n}, [CalcDef(n, lbl, ConvertCalc(expr, {}))], []);
    assert Fresh.calcs == {} && Fresh.calculations == [] && Fresh.triggers == [];
    assert Canonical(row0.name) == n;
    assert Step(Fresh, row0).Ok?;
    assert Step(Fresh, row0).value.calcs == {n};
    assert Step(Fresh, row0).value.triggers == [];
    assert Step(Fresh, row0).value.calculations == r1.calculations;
    assert Step(Fresh, row0) == Ok(r1);
    var r2 := r1.(triggers := [Trigger("[" + n + "]", {n})]);
    assert Step(r1, row1).Ok?;
    assert StepAsWritten(r1, row1) == r2;
    assert Register(r2, []) == Ok(r2);
    assert Register(r1, [row1]) == Ok(r2);
    assert Register(Fresh, rows) == Ok(r2);
    var w1 := Fresh.(triggers := [Trigger("[" + n + "]", {})]);
    assert StepAsWritten(Fresh, row0) == Fresh;
    assert StepAsWritten(Fresh, row1) == w1;
    assert RegisterAsWritten(w1, []) == w1;
    assert RegisterAsWritten(Fresh, [row1]) == w1;
    assert RegisterAsWritten(Fresh, rows) == RegisterAsWritten(Fresh, [row1]);
  }

  /** A lone variable reference is read from the table its classification names. */
  lemma VarRefTable(n: string, calcs: set<string>)
    requires IsName(n)
    ensures RefsToRios("[" + n + "]", calcs) == RiosRef(TableOf(n, calcs), n)
  {
    var ts := [Var(n)];
    assert WellFormed(ts) by { assert ts[1..] == []; }
    Unfold(ts, Classify(calcs));
    assert RedcapText(ts) == "[" + n + "]";
    assert RiosText(ts, Classify(calcs)) == RiosRef(TableOf(n, calcs), n);
    RefsToRiosTokens(ts, calcs);
  }

  /** In that trigger, `[n]` is read from `assessment` as written and from `calculations` once corrected. */
  lemma CalcThenQuestionTables(n: string)
    requires IsName(n)
    ensures RefsToRios("[" + n + "]", {}) == RiosRef("assessment", n)
    ensures RefsToRios("[" + n + "]", {n}) == RiosRef("calculations", n)
  {
    VarRefTable(n, {});
    VarRefTable(n, {n});
  }
}

=== FILE: redcap_expr.dfy ===
/**
 * REDCap calculation and branching-logic expressions rewritten as RIOS
 * (Python) expressions: convert_calc, convert_carat_function and
 * convert_trigger of redcap/to_rios.py.
 *
 * Each regular-expression substitution is a left-to-right scanner over the
 * whole string `s` from index `i`: at every index it tries the pattern; on
 * a match it emits the replacement and resumes after the match, otherwise
 * it copies one character.  This is what `re.sub` does for patterns that
 * never match the empty string.
 */
module RedcapExpr {
  import opened Wrappers
  import opened Text
  import opened SymbolTables
  import BalancedMatch

  /** What `[\w_]+` captures. */
  predicate IsName(n: string) { |n| > 0 && AllWordChars(n) }

  lemma WordRunExact(s: string, i: nat, n: string)
    requires IsName(n) && OccursAt(s, n, i) && i + |n| < |s| && !IsWordChar(s[i + |n|])
    ensures WordRun(s, i) == |n|
    decreases |n|
  {
    assert s[i] == n[0];
    if |n| > 1 {
      assert OccursAt(s, n[1..], i + 1) by { assert s[i + 1..i + |n|] == s[i..i + |n|][1..]; }
      WordRunExact(s, i + 1, n[1..]);
    }
  }

  /** `[n]` occurs at index `i`, with `n` a name. */
  predicate BracketOccurs(s: string, n: string, i: nat)
  {
    IsName(n) && OccursAt(s, "[" + n + "]", i)
  }

  /**
   * `\[([\w_]+)\]` at index `i`: the captured name and the index just past
   * the closing bracket.
   */
  function BracketAt(s: string, i: nat): (r: Option<(string, nat)>)
    requires i <= |s|
    ensures r.Some? ==> BracketOccurs(s, r.value.0, i) && r.value.1 == i + |r.value.0| + 2
    ensures r.Some? ==> i < |s| && s[i] == '['
  {
    if i < |s| && s[i] == '[' then
      var n := WordRun(s, i + 1);
      var e := i + 1 + n;
      if n > 0 && e < |s| && s[e] == ']' then
        assert s[i..e + 1] == "[" + s[i + 1..e] + "]";
        Some((s[i + 1..e], e + 1))
      else
        None
    else
      None
  }

  /** The pattern matches exactly where BracketAt says, with the name it says. */
  lemma BracketAtComplete(s: string, i: nat, n: string)
    requires i <= |s| && BracketOccurs(s, n, i)
    ensures BracketAt(s, i) == Some((n, i + |n| + 2))
  {
    var x := "[" + n + "]";
    assert s[i..i + |x|] == x;
    assert s[i] == x[0];
    forall k | 0 <= k < |n| ensures s[i + 1 + k] == n[k] {
      assert s[i + 1 + k] == s[i..i + |x|][1 + k] == x[1 + k];
    }
    assert s[i + 1..i + 1 + |n|] == n;
    assert s[i + 1 + |n|] == s[i..i + |x|][|n| + 1] == ']';
    WordRunExact(s, i + 1, n);
  }

  /** A `[table][field]` match: the captured names and its end. */
  datatype DbRef = DbRef(table: string, field: string, end: nat)

  /** The text `[t][f]` that RE_database_ref matches. */
  function DbRefText(t: string, f: string): string { "[" + t + "][" + f + "]" }

  /** `[t][f]` occurs at `i`: two bracketed names side by side. */
  predicate DbRefOccurs(s: string, t: string, f: string, i: nat)
  {
    BracketOccurs(s, t, i) && BracketOccurs(s, f, i + |t| + 2)
  }

  lemma DbRefOccursText(s: string, t: string, f: string, i: nat)
    requires IsName(t) && IsName(f)
    ensures DbRefOccurs(s, t, f, i) <==> OccursAt(s, DbRefText(t, f), i)
  {
    assert DbRefText(t, f) == ("[" + t + "]") + ("[" + f + "]");
    OccursAtConcat(s, "[" + t + "]", "[" + f + "]", i);
  }

  /** RE_database_ref at index `i`. */
  function DbRefAt(s: string, i: nat): (r: Option<DbRef>)
    requires i <= |s|
    ensures r.Some? ==> DbRefOccurs(s, r.value.table, r.value.field, i)
    ensures r.Some? ==> r.value.end == i + |r.value.table| + |r.value.field| + 4
  {
    var table := BracketAt(s, i);
    if table.None? then None
    else
      var field := BracketAt(s, table.value.1);
      if field.None? then None
      else Some(DbRef(table.value.0, field.value.0, field.value.1))
  }

  lemma DbRefAtComplete(s: string, i: nat, t: string, f: string)
    requires i <= |s| && DbRefOccurs(s, t, f, i)
    ensures DbRefAt(s, i) == Some(DbRef(t, f, i + |t| + |f| + 4))
  {
    BracketAtComplete(s, i, t);
    BracketAtComplete(s, i + |t| + 2, f);
    DbRefAtOfBrackets(s, i, t, f);
  }

  lemma DbRefAtOfBrackets(s: string, i: nat, t: string, f: string)
    requires i <= |s| && BracketAt(s, i) == Some((t, i + |t| + 2))
    requires i + |t| + 2 <= |s| && BracketAt(s, i + |t| + 2) == Some((f, i + |t| + |f| + 4))
    ensures DbRefAt(s, i) == Some(DbRef(t, f, i + |t| + |f| + 4))
  {
  }

  /** The RIOS text of a reference to `name` in `table`: `table["name"]`. */
  function RiosRef(table: string, name: string): string { table + "[\"" + name + "\"]" }

  /** Step 1 of convert_calc: `[t][f]` becomes `t["f"]`; text without a `[` is copied. */
  function SubDbRefs(s: string, i: nat): (r: string)
    requires i <= |s|
    ensures '[' !in s[i..] ==> r == s[i..]
    decreases |s| - i
  {
    if i == |s| then ""
    else
      match DbRefAt(s, i)
      case Some(d) =>
        assert s[i] == s[i..][0] == '[' by { BracketOpens(s, d.table, i); }
        RiosRef(d.table, d.field) + SubDbRefs(s, d.end)
      case None =>
        SuffixAt(s, i, i + 1);
        [s[i]] + SubDbRefs(s, i + 1)
  }

  lemma BracketOpens(s: string, n: string, i: nat)
    requires BracketOccurs(s, n, i)
    ensures i < |s| && s[i] == '['
  {
    assert s[i] == s[i..i + |n| + 2][0];
  }

  /** RE_variable_ref.findall: the names of the `[name]` references, in order. */
  function FindNames(s: string, i: nat): (r: seq<string>)
    requires i <= |s|
    ensures forall k :: 0 <= k < |r| ==> IsName(r[k])
    ensures '[' !in s[i..] ==> r == []
    decreases |s| - i
  {
    if i == |s| then []
    else
      match BracketAt(s, i)
      case Some((n, e)) =>
        assert s[i] == s[i..][0];
        [n] + FindNames(s, e)
      case None =>
        SuffixAt(s, i, i + 1);
        FindNames(s, i + 1)
  }

  /**
   * Step 2 of convert_calc with the table chosen per name: `[v]` becomes
   * `table(v)["v"]`; text without a `[` is copied.
   */
  function SubVarRefs(s: string, i: nat, table: string -> string): (r: string)
    requires i <= |s|
    ensures '[' !in s[i..] ==> r == s[i..]
    decreases |s| - i
  {
    if i == |s| then ""
    else
      match BracketAt(s, i)
      case Some((n, e)) =>
        assert s[i] == s[i..][0];
        RiosRef(table(n), n) + SubVarRefs(s, e, table)
      case None =>
        SuffixAt(s, i, i + 1);
        [s[i]] + SubVarRefs(s, i + 1, table)
  }

  /** Where a variable of a calculation expression lives. */
  function TableOf(name: string, calcs: set<string>): (t: string)
    ensures t == "calculations" <==> name in calcs
    ensures t == "assessment" <==> name !in calcs
  {
    if name in calcs then "calculations" else "assessment"
  }

  /** Every name classified by TableOf. */
  function Classify(calcs: set<string>): string -> string
  {
    v => TableOf(v, calcs)
  }

  /** Step 2 as written sends every name to one table. */
  function OneTable(table: string): string -> string
  {
    _ => table
  }

  /**
   * Step 3 as written: for each name found, a global `str.replace` of
   * `calculations["v"]` by `assessment["v"]` unless `v` is a calculation.
   */
  function ReclassifyAsWritten(s: string, names: seq<string>, calcs: set<string>): string
    decreases |names|
  {
    if |names| == 0 then s
    else
      var v := names[0];
      var s' := if v in calcs then s else Replace(s, RiosRef("calculations", v), RiosRef("assessment", v));
      ReclassifyAsWritten(s', names[1..], calcs)
  }

  /** Steps 1 to 3 of convert_calc as written; an expression without a `[` has no reference and is kept. */
  function RefsToRiosAsWritten(expr: string, calcs: set<string>): (r: string)
    ensures '[' !in expr ==> r == expr
  {
    assert expr[0..] == expr;
    var s := SubDbRefs(expr, 0);
    ReclassifyAsWritten(SubVarRefs(s, 0, OneTable("calculations")), FindNames(s, 0), calcs)
  }

  /**
   * Steps 1 to 3 as intended: each `[v]` is classified where it is
   * rewritten, so database references are never touched by step 3; an
   * expression without a `[` is kept.
   */
  function RefsToRios(expr: string, calcs: set<string>): (r: string)
    ensures '[' !in expr ==> r == expr
  {
    assert expr[0..] == expr;
    SubVarRefs(SubDbRefs(expr, 0), 0, Classify(calcs))
  }

  /** Text without a '[' passes through the reference passes unchanged. */
  lemma {:induction false} SubDbRefsCopies(s: string, i: nat, j: nat)
    requires i <= j <= |s| && '[' !in s[i..j]
    ensures SubDbRefs(s, i) == s[i..j] + SubDbRefs(s, j)
    decreases j - i
  {
    if i < j {
      assert s[i] == s[i..j][0];
      assert s[i..j] == [s[i]] + s[i + 1..j];
      assert '[' !in s[i + 1..j];
      assert DbRefAt(s, i).None?;
      SubDbRefsCopies(s, i + 1, j);
      AppendAssoc([s[i]], s[i + 1..j], SubDbRefs(s, j));
    }
  }

  lemma {:induction false} SubVarRefsCopies(s: string, i: nat, j: nat, table: string -> string)
    requires i <= j <= |s| && '[' !in s[i..j]
    ensures SubVarRefs(s, i, table) == s[i..j] + SubVarRefs(s, j, table)
    ensures FindNames(s, i) == FindNames(s, j)
    decreases j - i
  {
    if i < j {
      assert s[i] == s[i..j][0];
      assert s[i..j] == [s[i]] + s[i + 1..j];
      assert '[' !in s[i + 1..j];
      assert BracketAt(s, i).None?;
      SubVarRefsCopies(s, i + 1, j, table);
      AppendAssoc([s[i]], s[i + 1..j], SubVarRefs(s, j, table));
    }
  }

  /**
   * RE_funcs[name] at index `i`: `\bname\(`, where each `.` of the name is
   * a regular-expression wildcard.
   */
  predicate CallAt(s: string, i: nat, name: string)
  {
    WordBoundary(s, i) && PatternAt(s, name + "(", i)
  }

  /** `RE_funcs[name].sub(target + '(', s)` from index `i`; text without a `(` is copied. */
  function RenameCallsFrom(s: string, i: nat, name: string, target: string): (r: string)
    requires i <= |s|
    ensures '(' !in s[i..] ==> r == s[i..]
    decreases |s| - i
  {
    if i == |s| then ""
    else if CallAt(s, i, name) then
      assert s[i + |name|] == s[i..][|name|] == '(' by { CallOpens(s, i, name); }
      target + "(" + RenameCallsFrom(s, i + |name| + 1, name, target)
    else
      SuffixAt(s, i, i + 1);
      [s[i]] + RenameCallsFrom(s, i + 1, name, target)
  }

  /** Every call pattern ends in a literal `(`. */
  lemma CallOpens(s: string, i: nat, name: string)
    requires CallAt(s, i, name)
    ensures i + |name| < |s| && s[i + |name|] == '('
  {
    assert CharMatches(s[i + |name|], (name + "(")[|name|]);
  }

  /** Step 4: every rename of a function table, in table order; a text without a call is kept. */
  function RenameCalls(s: string, t: Table): (r: string)
    ensures '(' !in s ==> r == s
    decreases |t|
  {
    if |t| == 0 then s
    else
      assert s[0..] == s;
      RenameCalls(RenameCallsFrom(s, 0, t[0].0, t[0].1), t[1..])
  }

  /** Where RE_funcs[name] does not match, the rename pass copies the text. */
  lemma {:induction false} RenameCallsCopies(s: string, i: nat, name: string, target: string)
    requires i <= |s|
    requires forall k :: i <= k < |s| ==> !CallAt(s, k, name)
    ensures RenameCallsFrom(s, i, name, target) == s[i..]
    decreases |s| - i
  {
    if i < |s| {
      RenameCallsCopies(s, i + 1, name, target);
      assert s[i..] == [s[i]] + s[i + 1..];
    }
  }

  /**
   * Renaming a function to itself (`min`, `max` and `abs` in the tables)
   * leaves the text as it is.
   */
  lemma {:induction false} RenameCallsSame(s: string, i: nat, name: string)
    requires i <= |s| && '.' !in name
    ensures RenameCallsFrom(s, i, name, name) == s[i..]
    decreases |s| - i
  {
    hide *;
    if i == |s| {
      RenameStepEnd(s, name);
    } else {
      RenameStep(s, i, name);
      var j := if CallAt(s, i, name) then i + |name| + 1 else i + 1;
      if CallAt(s, i, name) {
        CallAtSpan(s, i, name);
      }
      RenameCallsSame(s, j, name);
      SuffixAt(s, i, j);
    }
  }

  lemma RenameStepEnd(s: string, name: string)
    ensures RenameCallsFrom(s, |s|, name, name) == s[|s|..]
  {
  }

  /** A suffix is the slice up to `j` followed by the suffix from `j`. */
  lemma SuffixAt(s: string, i: nat, j: nat)
    requires i <= j <= |s|
    ensures s[i..] == s[i..j] + s[j..]
    ensures i < |s| ==> s[i..i + 1] == [s[i]]
  {
  }

  /** One step of the rename scan, renaming a function to itself. */
  lemma RenameStep(s: string, i: nat, name: string)
    requires i < |s|
    ensures CallAt(s, i, name) ==> i + |name| + 1 <= |s|
    ensures CallAt(s, i, name) ==> RenameCallsFrom(s, i, name, name) == name + "(" + RenameCallsFrom(s, i + |name| + 1, name, name)
    ensures !CallAt(s, i, name) ==> RenameCallsFrom(s, i, name, name) == [s[i]] + RenameCallsFrom(s, i + 1, name, name)
  {
    hide CallAt;
    if CallAt(s, i, name) {
      CallAtLength(s, i, name);
    }
  }

  lemma CallAtLength(s: string, i: nat, name: string)
    requires CallAt(s, i, name)
    ensures i + |name| + 1 <= |s|
  {
  }

  /** A call of a dot-free name at `i` spells the name and its `(`. */
  lemma CallAtSpan(s: string, i: nat, name: string)
    requires '.' !in name && CallAt(s, i, name)
    ensures i + |name| + 1 <= |s| && s[i..i + |name| + 1] == name + "("
  {
    assert '.' !in name + "(";
    PatternAtLiteral(s, name + "(", i);
  }

  lemma CaretAt(s: string, c: nat)
    requires OccursAt(s, ")^(", c)
    ensures s[c] == ')' && s[c + 2] == '(' && c + 2 < |s|
  {
    assert s[c..c + 3] == ")^(";
    assert s[c] == s[c..c + 3][0] && s[c + 2] == s[c..c + 3][2];
  }

  /** The Python call that replaces `(b)^(e)`. */
  function PowCall(b: string, e: string): string
  {
    "math.pow(" + b + ", " + e + ")"
  }

  /**
   * The operands of the `)^(` at `c`: balanced_match backward from its
   * `)` gives the base, forward from its `(` the exponent.
   */
  function PowOperands(s: string, c: nat): (r: (BalancedMatch.Span, BalancedMatch.Span))
    requires OccursAt(s, ")^(", c)
    ensures r.0.begin <= c && r.0.end == c + 1
    ensures r.1.begin == c + 2 && c + 2 < r.1.end <= |s|
  {
    CaretAt(s, c);
    (BalancedMatch.Match(s, c).value, BalancedMatch.Match(s, c + 2).value)
  }

  /**
   * What one round of the loop appends: the text from `position` up to the
   * base, then `math.pow(base, exponent)` with the delimiters dropped.
   */
  function PowText(s: string, position: nat, base: BalancedMatch.Span, exponent: BalancedMatch.Span): string
    requires base.end > 0 && exponent.end > 0
  {
    PySlice(s, position, base.begin)
      + PowCall(PySlice(s, base.begin + 1, base.end - 1), PySlice(s, exponent.begin + 1, exponent.end - 1))
  }

  /** convert_carat_function from `position` on. */
  function CaretFrom(s: string, position: nat): (r: string)
    requires position <= |s|
    ensures Find(s, ")^(", position).None? ==> r == s[position..]
    decreases |s| - position
  {
    match Find(s, ")^(", position)
    case None => s[position..]
    case Some(c) =>
      var (base, exponent) := PowOperands(s, c);
      PowText(s, position, base, exponent) + CaretFrom(s, exponent.end)
  }

  /** convert_carat_function; a text without a `(` holds no `(b)^(e)` and is kept. */
  function CaretToPow(s: string): (r: string)
    ensures '(' !in s ==> r == s
  {
    if '(' !in s then NoCaret(s); CaretFrom(s, 0) else CaretFrom(s, 0)
  }

  /** Without a `(` there is no `)^(`. */
  lemma NoCaret(s: string)
    requires '(' !in s
    ensures Find(s, ")^(", 0).None? && s[0..] == s
  {
    forall k | 0 <= k ensures !OccursAt(s, ")^(", k) {
      if k + 3 <= |s| {
        assert s[k + 2] == s[k..k + 3][2];
      }
    }
    FindNone(s, ")^(", 0);
  }

  /** The loop of convert_carat_function computes CaretToPow. */
  method ConvertCaratFunction(s: string) returns (answer: string)
    ensures answer == CaretToPow(s)
  {
    answer := "";
    var position := 0;
    var caratPos := Find(s, ")^(", position);
    while caratPos.Some?
      invariant position <= |s|
      invariant caratPos == Find(s, ")^(", position)
      invariant answer + CaretFrom(s, position) == CaretToPow(s)
      decreases |s| - position
    {
      var c := caratPos.value;
      CaretAt(s, c);
      var base := BalancedMatch.BalancedAgrees(s, c);
      var exponent := BalancedMatch.BalancedAgrees(s, c + 2);
      var b, e := base.value, exponent.value;
      assert PowOperands(s, c) == (b, e);
      var piece := PowText(s, position, b, e);
      AppendAssoc(answer, piece, CaretFrom(s, e.end));
      answer := answer + piece;
      position := e.end;
      caratPos := Find(s, ")^(", position);
    }
    answer := answer + s[position..];
  }

  /** Nothing of `t` is a parenthesis. */
  predicate NoParens(t: string) { '(' !in t && ')' !in t }

  /** The REDCap power `(b)^(e)`. */
  function CaretCall(b: string, e: string): string
  {
    "(" + b + ")^(" + e + ")"
  }

  /** With the first `)^(` at `c`, the loop's first round starts there. */
  lemma CaretFindsFirst(s: string, c: nat)
    requires OccursAt(s, ")^(", c)
    requires forall k :: 0 <= k < c ==> s[k] != ')'
    ensures Find(s, ")^(", 0) == Some(c)
  {
    forall k | 0 <= k < c ensures !OccursAt(s, ")^(", k) {
      if k + 3 <= |s| { assert s[k..k + 3][0] == s[k]; }
    }
  }

  /** One round's output when the operands are the spans `[open, c]` and `[c + 2, close]`. */
  lemma PowTextOfSpans(s: string, position: nat, open: nat, c: nat, close: nat)
    requires position <= open < c && c + 2 < close < |s|
    ensures PowText(s, position, BalancedMatch.Span(open, c + 1), BalancedMatch.Span(c + 2, close + 1))
      == s[position..open] + PowCall(s[open + 1..c], s[c + 3..close])
  {
    hide PySlice, PowCall;
    assert PowText(s, position, BalancedMatch.Span(open, c + 1), BalancedMatch.Span(c + 2, close + 1))
      == PySlice(s, position, open) + PowCall(PySlice(s, open + 1, c), PySlice(s, c + 3, close));
  }

  /**
   * One `(b)^(e)` in `s`, found by the scan: the base opens at `open`, the
   * `)^(` sits at `c`, the exponent closes at `close`, and no `)^(` starts
   * after it.
   */
  lemma CaretOnce(s: string, open: nat, c: nat, close: nat)
    requires open < c && c + 2 < close < |s|
    requires Find(s, ")^(", 0) == Some(c)
    requires s[open] == '(' && BalancedMatch.ParenFree(s, open + 1, c)
    requires BalancedMatch.ParenFree(s, c + 3, close) && s[close] == ')'
    requires Find(s, ")^(", close + 1).None?
    ensures CaretToPow(s) == s[..open] + PowCall(s[open + 1..c], s[c + 3..close]) + s[close + 1..]
  {
    CaretAt(s, c);
    BalancedMatch.MatchBackOverFree(s, open, c);
    BalancedMatch.MatchForwardOverFree(s, c + 2, close);
    var base, exponent := BalancedMatch.Span(open, c + 1), BalancedMatch.Span(c + 2, close + 1);
    assert PowOperands(s, c) == (base, exponent);
    var rest := CaretFrom(s, close + 1);
    assert rest == s[close + 1..];
    var piece := PowText(s, 0, base, exponent);
    PowTextOfSpans(s, 0, open, c, close);
    assert CaretFrom(s, 0) == piece + rest;
  }

  /** Where the pieces of `(b)^(e)` sit. */
  lemma CaretCallLayout(b: string, e: string)
    ensures var m := CaretCall(b, e);
      |m| == |b| + |e| + 5 && m[0] == '(' && m[1..1 + |b|] == b
      && m[1 + |b|..4 + |b|] == ")^(" && m[4 + |b|..4 + |b| + |e|] == e && m[|m| - 1] == ')'
  {
    var m := CaretCall(b, e);
    assert m == "(" + (b + (")^(" + (e + ")")));
  }

  /** Where the pieces of `p + (b)^(e) + q` sit, with `c` the caret's `)` and `close` the exponent's `)`. */
  lemma CaretTextLayout(s: string, p: string, b: string, e: string, q: string)
    requires s == p + CaretCall(b, e) + q
    ensures var c, close := |p| + 1 + |b|, |p| + 4 + |b| + |e|;
      close < |s| && s[..|p|] == p && s[|p|] == '(' && s[|p| + 1..c] == b
      && OccursAt(s, ")^(", c) && s[c + 3..close] == e && s[close] == ')' && s[close + 1..] == q
  {
    var m := CaretCall(b, e);
    CaretCallLayout(b, e);
    var o := |p|;
    assert s[o..o + |m|] == m;
    SliceOfSlice(s, o, o + |m|, 1, 1 + |b|);
    SliceOfSlice(s, o, o + |m|, 1 + |b|, 4 + |b|);
    SliceOfSlice(s, o, o + |m|, 4 + |b|, 4 + |b| + |e|);
    assert s[o] == m[0] && s[o + |m| - 1] == m[|m| - 1];
    assert s[o + |m|..] == q;
  }

  lemma SliceOfSlice(s: string, i: nat, j: nat, a: nat, b: nat)
    requires i <= j <= |s| && a <= b <= j - i
    ensures s[i..j][a..b] == s[i + a..i + b]
  {
    forall t | 0 <= t < b - a ensures s[i..j][a..b][t] == s[i + a..i + b][t] {
      assert s[i..j][a..b][t] == s[i..j][a + t];
    }
  }

  lemma SliceParenFree(s: string, i: nat, j: nat)
    requires i <= j <= |s| && NoParens(s[i..j])
    ensures BalancedMatch.ParenFree(s, i, j)
  {
    forall k | i <= k < j ensures s[k] != '(' && s[k] != ')' {
      assert s[k] == s[i..j][k - i];
    }
  }

  /** No `)^(` starts in the suffix `s[i..]` when none starts in it as a string of its own. */
  lemma NoCaretInSuffix(s: string, i: nat)
    requires i <= |s| && Find(s[i..], ")^(", 0).None?
    ensures Find(s, ")^(", i).None?
  {
    forall k | i <= k ensures !OccursAt(s, ")^(", k) {
      OccursInSuffix(s, ")^(", i, k);
    }
    FindNone(s, ")^(", i);
  }

  /** An occurrence at `k` is one at `k - i` of the suffix from `i`. */
  lemma OccursInSuffix(s: string, p: string, i: nat, k: nat)
    requires i <= k && i <= |s|
    ensures OccursAt(s, p, k) <==> OccursAt(s[i..], p, k - i)
  {
    if k + |p| <= |s| {
      assert s[k..k + |p|] == s[i..][k - i..k - i + |p|];
    }
  }

  /**
   * `(b)^(e)` with parenthesis-free operands becomes `math.pow(b, e)`; the
   * text around it is kept when the prefix closes no parenthesis and the
   * suffix holds no `)^(`.
   */
  lemma CaretSimple(p: string, b: string, e: string, q: string)
    requires ')' !in p && NoParens(b) && NoParens(e)
    requires Find(q, ")^(", 0).None?
    ensures CaretToPow(p + CaretCall(b, e) + q) == p + PowCall(b, e) + q
  {
    var s := p + CaretCall(b, e) + q;
    var open, c := |p|, |p| + 1 + |b|;
    var close := c + 3 + |e|;
    CaretTextLayout(s, p, b, e, q);
    SliceParenFree(s, open + 1, c);
    SliceParenFree(s, c + 3, close);
    NoCloseBefore(s, open, c);
    hide *;
    CaretFindsFirst(s, c);
    NoCaretInSuffix(s, close + 1);
    CaretOnce(s, open, c, close);
  }

  /** No `)` before the caret: none in the prefix, the `(` itself, and a parenthesis-free base. */
  lemma NoCloseBefore(s: string, open: nat, c: nat)
    requires open < c <= |s| && ')' !in s[..open] && s[open] == '(' && BalancedMatch.ParenFree(s, open + 1, c)
    ensures forall k :: 0 <= k < c ==> s[k] != ')'
  {
    forall k | 0 <= k < c ensures s[k] != ')' {
      if k < open { assert s[k] == s[..open][k]; }
    }
  }

  /**
   * `(a)^(b)^(c)`: only the first caret is rewritten, since the scan
   * resumes after `(b)`, so the second `^` is left to the expression
   * language as it stands.
   */
  lemma CaretChain(a: string, b: string, c: string)
    requires NoParens(a) && NoParens(b) && NoParens(c)
    ensures CaretToPow(CaretCall(a, b) + ("^(" + c + ")")) == PowCall(a, b) + ("^(" + c + ")")
  {
    var q := "^(" + c + ")";
    forall k | 0 <= k ensures !OccursAt(q, ")^(", k) {
      if k + 3 <= |q| {
        assert q[k..k + 3][0] == q[k];
        if 2 <= k { assert q[k] == c[k - 2]; }
      }
    }
    FindNone(q, ")^(", 0);
    CaretSimple("", a, b, q);
    assert "" + CaretCall(a, b) == CaretCall(a, b);
    assert "" + PowCall(a, b) == PowCall(a, b);
  }

  /**
   * Step 6: each (REDCap, RIOS) operator pair applied in order as a literal
   * replace; a text in which no key occurs is kept.
   */
  function ReplaceAll(s: string, t: Table): (r: string)
    requires forall k :: 0 <= k < |t| ==> |t[k].0| > 0
    ensures (forall k :: 0 <= k < |t| ==> !Contains(s, t[k].0)) ==> r == s
    decreases |t|
  {
    if |t| == 0 then s
    else
      ReplaceAbsent(s, t[0].0, t[0].1);
      ReplaceAll(Replace(s, t[0].0, t[0].1), t[1..])
  }

  /** A literal replace of a pattern that does not occur keeps the text. */
  lemma ReplaceAbsent(s: string, pat: string, rep: string)
    requires |pat| > 0
    ensures !Contains(s, pat) ==> Replace(s, pat, rep) == s
  {
    if !Contains(s, pat) {
      forall k | 0 <= k ensures !OccursAt(s, pat, k) {
        if k <= |s| { assert !OccursAt(s, pat, k); }
      }
      ReplaceFromAbsent(s, pat, rep, 0);
      assert s[0..] == s;
    }
  }

  /**
   * convert_calc with the corrected passes (classification where each `[v]`
   * is rewritten, `median` to the functions module): an expression with no
   * reference, call, power or `<>` is kept.
   */
  function ConvertCalc(expr: string, calcs: set<string>): (r: string)
    ensures '[' !in expr && '(' !in expr && !Contains(expr, "<>") ==> r == expr
  {
    var s := RenameCalls(RefsToRios(expr, calcs), FunctionToPython);
    ReplaceAll(CaretToPow(s), OperatorToRexl)
  }

  /** convert_calc as written: the reclassifying step 3 and the as-written FUNCTION_TO_PYTHON. */
  function ConvertCalcAsWritten(expr: string, calcs: set<string>): (r: string)
    ensures '[' !in expr && '(' !in expr && !Contains(expr, "<>") ==> r == expr
  {
    var s := RenameCalls(RefsToRiosAsWritten(expr, calcs), FunctionToPythonAsWritten);
    ReplaceAll(CaretToPow(s), OperatorToRexl)
  }

  /**
   * convert_trigger: the RIOS trigger fires when the REDCap logic is false,
   * so it is the converted logic negated as a whole.
   */
  function ConvertTrigger(trigger: string, calcs: set<string>): (r: string)
    ensures |r| >= 3 && r[..2] == "!(" && r[|r| - 1] == ')'
    ensures '[' !in trigger && '(' !in trigger && !Contains(trigger, "<>") ==> r == Negation(trigger)
  {
    Negation(ConvertCalc(trigger, calcs))
  }

  /** convert_trigger over the as-written convert_calc. */
  function ConvertTriggerAsWritten(trigger: string, calcs: set<string>): (r: string)
    ensures |r| >= 3 && r[..2] == "!(" && r[|r| - 1] == ')'
    ensures '[' !in trigger && '(' !in trigger && !Contains(trigger, "<>") ==> r == Negation(trigger)
  {
    Negation(ConvertCalcAsWritten(trigger, calcs))
  }

  /** `!(x)`: the expression `x` negated as a whole. */
  function Negation(x: string): (r: string)
    ensures |r| == |x| + 3 && r[..2] == "!(" && r[2..|r| - 1] == x && r[|r| - 1] == ')'
  {
    "!(" + x + ")"
  }
}

=== FILE: redcap_rows.dfy ===
/**
 * The REDCap data dictionary written from a RIOS form (RedcapFromRios in
 * redcap/from_rios.py): the 18-column sheet, the type table, the rows of
 * questions, matrices and calculations, the section-header hand-over and
 * the error handling of the page loop.  The type table of the opposite
 * direction (convert_text_type and the field-type dispatch of get_type in
 * redcap/to_rios.py) is here too, as the partner of the first.
 */
module RedcapRows {
  import opened Wrappers
  import opened Text
  import opened Names
  import opened RexlExpr
  import Errors

  const Columns: seq<string> := [
    "Variable / Field Name",
    "Form Name",
    "Section Header",
    "Field Type",
    "Field Label",
    "Choices, Calculations, OR Slider Labels",
    "Field Note",
    "Text Validation Type OR Show Slider Number",
    "Text Validation Min",
    "Text Validation Max",
    "Identifier?",
    "Branching Logic (Show field only if...)",
    "Required Field?",
    "Custom Alignment",
    "Question Number (surveys only)",
    "Matrix Group Name",
    "Matrix Ranking?",
    "Field Annotation"
  ]

  /** One data row of the sheet, a field per column in column order. */
  datatype SheetRow = SheetRow(
    name: string,
    form: string,
    sectionHeader: string,
    fieldType: string,
    fieldLabel: string,
    choices: string,
    note: string,
    validation: string,
    validationMin: string,
    validationMax: string,
    identifier: string,
    branching: string,
    required: string,
    alignment: string,
    questionNumber: string,
    matrixGroup: string,
    matrixRanking: string,
    annotation: string)

  /** The cells of a row as the CSV writer receives them: one per column. */
  function Cells(r: SheetRow): (cells: seq<string>)
    ensures |cells| == |Columns|
    ensures cells[0] == r.name && cells[2] == r.sectionHeader && cells[11] == r.branching
  {
    [r.name, r.form, r.sectionHeader, r.fieldType, r.fieldLabel, r.choices, r.note, r.validation,
     r.validationMin, r.validationMax, r.identifier, r.branching, r.required, r.alignment,
     r.questionNumber, r.matrixGroup, r.matrixRanking, r.annotation]
  }

  // ---------------------------------------------------------------------
  // Types

  /** get_type_tuple: the REDCap field type and text validation of a RIOS base type and widget. */
  function TypeTuple(base: string, widget: string): (r: (string, string))
    ensures r.0 in {"text", "notes", "dropdown", "radio", "checkbox"}
    ensures r.1 in {"number", "integer", ""}
    ensures r.1 == "number" <==> base == "float"
    ensures r.1 == "integer" <==> base == "integer"
    ensures r.0 == "checkbox" <==> base == "enumerationSet"
    ensures r.0 == "notes" <==> base == "text" && widget == "textArea"
    ensures r.0 == "dropdown" <==> base == "enumeration" && widget != "radioGroup"
    ensures r.0 == "radio" <==> base == "matrix" || (base == "enumeration" && widget == "radioGroup")
  {
    if base == "float" then ("text", "number")
    else if base == "integer" then ("text", "integer")
    else if base == "text" then (if widget == "textArea" then "notes" else "text", "")
    else if base == "enumeration" then (if widget == "radioGroup" then "radio" else "dropdown", "")
    else if base == "enumerationSet" then ("checkbox", "")
    else if base == "matrix" then ("radio", "")
    else ("text", "")
  }

  /** convert_text_type (redcap/to_rios.py): the RIOS base of a REDCap text validation. */
  function ConvertTextType(validation: string): (r: string)
    ensures r in {"dateTime", "integer", "float", "text"}
    ensures r == "dateTime" <==> StartsWith(validation, "date")
    ensures r == "float" <==> validation in {"number", "numeric"}
  {
    DateNotNumeric();
    if StartsWith(validation, "date") then "dateTime"
    else if validation == "integer" then "integer"
    else if validation in {"number", "numeric"} then "float"
    else "text"
  }

  /** The failures of a conversion, by the exception class that carries them. */
  datatype Failure =
    | ValueFailure(message: string)    // ConversionValueError
    | FormatFailure(message: string)   // RiosFormatError
    | Crash(message: string)           // any other exception, re-raised

  /**
   * The RIOS base type get_type (redcap/to_rios.py) gives a REDCap field
   * type when the row has no validation bounds; a calculation has none.
   */
  function FieldBase(fieldType: string, validation: string): (r: Result<Option<string>, Failure>)
    ensures r.Err? <==> (fieldType !in {"text", "notes", "dropdown", "radio", "checkbox", "calc", "slider", "truefalse", "yesno"})
    ensures r == Ok(None) <==> fieldType == "calc"
  {
    if fieldType == "text" then Ok(Some(ConvertTextType(validation)))
    else if fieldType == "notes" then Ok(Some("text"))
    else if fieldType in {"dropdown", "radio", "truefalse", "yesno"} then Ok(Some("enumeration"))
    else if fieldType == "checkbox" then Ok(Some("enumerationSet"))
    else if fieldType == "calc" then Ok(None)
    else if fieldType == "slider" then Ok(Some("float"))
    else Err(ValueFailure("Unknown Field Type value. Got: " + fieldType))
  }

  /** get_widget_type in get_type: the widget of a text question. */
  function TextWidget(textType: string): (r: Result<string, Failure>)
    ensures r.Ok? <==> textType in {"text", "integer", "float", "dateTime"}
  {
    if textType == "text" then Ok("inputText")
    else if textType in {"integer", "float"} then Ok("inputNumber")
    else if textType == "dateTime" then Ok("dateTimePicker")
    else Err(ValueFailure("Unexpected text type. Got: " + textType))
  }

  /** The "Unexpected text type" branch cannot be reached from a validation column. */
  lemma TextWidgetTotal(validation: string)
    ensures TextWidget(ConvertTextType(validation)).Ok?
  {
  }

  lemma DateNotNumeric()
    ensures !StartsWith("number", "date") && !StartsWith("numeric", "date")
    ensures !StartsWith("integer", "date") && !StartsWith("", "date")
  {
    assert "numeric"[0] != "date"[0];
    assert "number"[0] != "date"[0];
    assert "integer"[0] != "date"[0];
  }

  /**
   * A field type written by get_type_tuple reads back as the RIOS base it
   * came from, for every base the reverse table distinguishes.
   */
  lemma TypeRoundTrip(base: string, widget: string)
    requires base in {"float", "integer", "text", "enumeration", "enumerationSet"}
    ensures FieldBase(TypeTuple(base, widget).0, TypeTuple(base, widget).1) == Ok(Some(base))
  {
    DateNotNumeric();
  }

  // ---------------------------------------------------------------------
  // Rows

  function Flag(b: bool): string { if b then "y" else "" }

  /** The parts of a RIOS question the row builder reads; texts are already localized. */
  datatype Question = Question(
    fieldId: string,
    text: string,
    help: string,
    enumerations: Option<seq<Choice>>,
    trigger: string,
    base: string,
    widget: string,
    rangeMin: string,
    rangeMax: string,
    identifiable: bool,
    required: bool)

  /** get_choices in process_question: the rendered enumerations, or empty. */
  function ChoicesCell(enumerations: Option<seq<Choice>>): string
  {
    match enumerations
    case None => ""
    case Some(cs) => RenderChoices(cs)
  }

  /** A row whose layout columns (alignment, question number, matrix, annotation) are blank. */
  predicate PlainLayout(r: SheetRow)
  {
    r.alignment == "" && r.questionNumber == "" && r.matrixGroup == "" && r.matrixRanking == "" && r.annotation == ""
  }

  /** process_question: the row of a plain question. */
  function QuestionRow(q: Question, form: string, header: string): (row: SheetRow)
    ensures row.name == q.fieldId && row.form == form && row.sectionHeader == header
    ensures (row.fieldType, row.validation) == TypeTuple(q.base, q.widget)
    ensures row.fieldLabel == q.text && row.note == q.help
    ensures row.choices == ChoicesCell(q.enumerations)
    ensures row.validationMin == q.rangeMin && row.validationMax == q.rangeMax
    ensures row.branching == ConvertRexl(q.trigger)
    ensures row.identifier == "y" <==> q.identifiable
    ensures row.required == "y" <==> q.required
    ensures PlainLayout(row)
  {
    var t := TypeTuple(q.base, q.widget);
    SheetRow(q.fieldId, form, header, t.0, q.text, ChoicesCell(q.enumerations), q.help, t.1,
      q.rangeMin, q.rangeMax, Flag(q.identifiable), ConvertRexl(q.trigger), Flag(q.required),
      "", "", "", "", "")
  }

  /** The choices cell of a question reads back, through get_choices_form, as its enumerations. */
  lemma QuestionChoicesRoundTrip(q: Question, form: string, header: string)
    requires q.enumerations.Some? && |q.enumerations.value| >= 1
    requires forall k :: 0 <= k < |q.enumerations.value| ==> Renderable(q.enumerations.value[k])
    ensures ChoicesForm(QuestionRow(q, form, header).choices) == q.enumerations.value
  {
    ChoicesRoundTrip(q.enumerations.value);
  }

  datatype MatrixRow = MatrixRow(id: string, text: string, help: string)

  /**
   * A matrix question: its rows, and its columns (`questions`), each with
   * optional enumerations; a single column object counts as a list of one.
   */
  datatype Matrix = Matrix(
    fieldId: string,
    rows: seq<MatrixRow>,
    columns: seq<Option<seq<Choice>>>,
    base: string,
    widget: string,
    identifiable: bool,
    required: bool)

  function MatrixSheetRow(m: Matrix, r: MatrixRow, form: string, header: string, choices: string): (row: SheetRow)
    ensures row.name == r.id && row.sectionHeader == header && row.choices == choices
    ensures row.matrixGroup == m.fieldId && row.matrixRanking == "y" && row.branching == ""
  {
    var t := TypeTuple(m.base, m.widget);
    SheetRow(r.id, form, header, t.0, r.text, choices, r.help, t.1, "", "",
      Flag(m.identifiable), "", Flag(m.required), "", "", m.fieldId, "y", "")
  }

  function MatrixRowsFrom(m: Matrix, form: string, header: string, choices: string, k: nat): (rows: seq<SheetRow>)
    requires k <= |m.rows|
    ensures |rows| == |m.rows| - k
    decreases |m.rows| - k
  {
    if k == |m.rows| then []
    else [MatrixSheetRow(m, m.rows[k], form, header, choices)] + MatrixRowsFrom(m, form, "", choices, k + 1)
  }

  /** process_matrix: one row per matrix row, or the failure that skips the element. */
  function ProcessMatrix(m: Matrix, form: string, header: string): (r: Result<seq<SheetRow>, Failure>)
    ensures r.Ok? ==> |r.value| == |m.rows|
    ensures r.Ok? <==> |m.columns| == 1 && m.columns[0].Some?
  {
    if |m.columns| > 1 then Err(ValueFailure("REDCap matrices support only one question."))
    else if |m.columns| == 0 then Err(Crash("IndexError: list index out of range"))
    else if m.columns[0].None? then Err(ValueFailure("REDCap matrix column must be an enumeration."))
    else Ok(MatrixRowsFrom(m, form, header, RenderChoices(m.columns[0].value), 0))
  }

  /** The section header appears on the first matrix row only; every row names the matrix group. */
  lemma {:induction false} MatrixHeaderOnce(m: Matrix, form: string, header: string, choices: string, k: nat)
    requires k <= |m.rows|
    ensures k < |m.rows| ==> MatrixRowsFrom(m, form, header, choices, k)[0].sectionHeader == header
    ensures forall j :: 1 <= j < |m.rows| - k ==> MatrixRowsFrom(m, form, header, choices, k)[j].sectionHeader == ""
    ensures forall j :: 0 <= j < |m.rows| - k ==>
      MatrixRowsFrom(m, form, header, choices, k)[j].name == m.rows[k + j].id &&
      MatrixRowsFrom(m, form, header, choices, k)[j].matrixGroup == m.fieldId
    decreases |m.rows| - k
  {
    if k < |m.rows| {
      MatrixHeaderOnce(m, form, "", choices, k + 1);
      var rest := MatrixRowsFrom(m, form, "", choices, k + 1);
      var rows := MatrixRowsFrom(m, form, header, choices, k);
      assert rows == [MatrixSheetRow(m, m.rows[k], form, header, choices)] + rest;
      forall j | 1 <= j < |m.rows| - k
        ensures rows[j].sectionHeader == "" && rows[j].name == m.rows[k + j].id && rows[j].matrixGroup == m.fieldId
      {
        assert rows[j] == rest[j - 1];
        assert k + 1 + (j - 1) == k + j;
      }
    }
  }

  /** process_matrix as a whole: the header on the first row, blank on the others. */
  lemma MatrixSectionHeader(m: Matrix, form: string, header: string)
    requires ProcessMatrix(m, form, header).Ok? && |m.rows| > 0
    ensures ProcessMatrix(m, form, header).value[0].sectionHeader == header
    ensures forall j :: 1 <= j < |m.rows| ==> ProcessMatrix(m, form, header).value[j].sectionHeader == ""
  {
    MatrixHeaderOnce(m, form, header, RenderChoices(m.columns[0].value), 0);
  }

  // ---------------------------------------------------------------------
  // The page loop

  datatype Element =
    | Header(text: string)          // `header` and `text` elements
    | QuestionElement(q: Question)
    | MatrixElement(m: Matrix)
    | OtherElement(kind: string)

  /** A form element with the identifier page_processor reports it by. */
  datatype FormElement = FormElement(identifier: string, body: Element)

  datatype Page = Page(id: string, elements: seq<FormElement>)

  /** The rows written so far, the pending section header and the logged warnings. */
  datatype Sheet = Sheet(rows: seq<SheetRow>, header: string, warnings: seq<string>)

  /** The sheet as far as it got, and the failure that stopped it, if any. */
  datatype Outcome = Outcome(sheet: Sheet, failure: Option<Failure>)

  /** process_element: a header is kept for the next row; a question or matrix consumes it. */
  function ProcessElement(sh: Sheet, form: string, e: Element): (r: Result<Sheet, Failure>)
    ensures r.Ok? && !e.Header? ==> r.value.header == ""
    ensures r.Ok? && e.Header? ==> r.value.header == e.text && r.value.rows == sh.rows
    ensures r.Ok? ==> r.value.warnings == sh.warnings
    ensures r.Ok? ==> |sh.rows| <= |r.value.rows| && r.value.rows[..|sh.rows|] == sh.rows
    ensures r.Ok? && e.QuestionElement? ==> r.value.rows == sh.rows + [QuestionRow(e.q, form, sh.header)]
    ensures r.Err? <==> e.OtherElement? || (e.MatrixElement? && ProcessMatrix(e.m, form, sh.header).Err?)
  {
    match e
    case Header(t) => Ok(sh.(header := t))
    case QuestionElement(q) =>
      Ok(sh.(rows := sh.rows + [QuestionRow(q, form, sh.header)], header := ""))
    case MatrixElement(m) =>
      var rows := ProcessMatrix(m, form, sh.header);
      if rows.Err? then Err(rows.error)
      else Ok(sh.(rows := sh.rows + rows.value, header := ""))
    case OtherElement(k) =>
      Err(ValueFailure("Invalid form element type. Got: " + k))
  }

  /**
   * The element loop of page_processor: an element without identifier
   * ends the page with the rows written so far; a ConversionValueError
   * from an element skips it (the error object built for it is neither
   * logged nor raised); any other failure ends the conversion.
   */
  function ProcessElements(sh: Sheet, form: string, es: seq<FormElement>, show: FormElement -> string): (r: Outcome)
    ensures |sh.rows| <= |r.sheet.rows| && r.sheet.rows[..|sh.rows|] == sh.rows
    ensures r.sheet.warnings == sh.warnings
    decreases |es|
  {
    if |es| == 0 then Outcome(sh, None)
    else if es[0].identifier == "" then
      Outcome(sh, Some(ValueFailure(NoIdentifierMessage(show(es[0])))))
    else
      var next := ProcessElement(sh, form, es[0].body);
      if next.Ok? then
        var r := ProcessElements(next.value, form, es[1..], show);
        assert r.sheet.rows[..|sh.rows|] == r.sheet.rows[..|next.value.rows|][..|sh.rows|];
        r
      else if next.error.ValueFailure? then ProcessElements(sh, form, es[1..], show)
      else Outcome(sh, Some(next.error))
  }

  /**
   * str of the ConversionValueError raised for an element without
   * identifier: the message, then `str(element)` indented as its payload.
   */
  function NoIdentifierMessage(shown: string): (m: string)
    ensures StartsWith(m, "Form element has no identifier. Invalid element data:\n")
  {
    var e := Errors.NewError(Errors.ConversionValueError, "Form element has no identifier. Invalid element data:", Some(shown));
    assert Errors.ParagraphStrs(e.paragraphs) == [Errors.ParagraphStr(e.paragraphs[0])];
    Errors.ErrorStr(e)
  }

  /** A header element followed by a question: the header lands on that question's row only. */
  lemma HeaderThenQuestion(sh: Sheet, form: string, h: string, q: Question, id1: string, id2: string, show: FormElement -> string)
    requires id1 != "" && id2 != ""
    ensures ProcessElements(sh, form, [FormElement(id1, Header(h)), FormElement(id2, QuestionElement(q))], show)
      == Outcome(Sheet(sh.rows + [QuestionRow(q, form, h)], "", sh.warnings), None)
  {
    var es := [FormElement(id1, Header(h)), FormElement(id2, QuestionElement(q))];
    var tail := [FormElement(id2, QuestionElement(q))];
    assert es[1..] == tail && tail[1..] == [];
    var s1 := sh.(header := h);
    assert ProcessElement(sh, form, Header(h)) == Ok(s1);
    var s2 := s1.(rows := s1.rows + [QuestionRow(q, form, h)], header := "");
    assert ProcessElement(s1, form, QuestionElement(q)) == Ok(s2);
    assert ProcessElements(s2, form, [], show) == Outcome(s2, None);
    assert ProcessElements(s1, form, tail, show) == Outcome(s2, None);
  }

  /** An element that fails with a ConversionValueError leaves the sheet as it was. */
  lemma SkippedElement(sh: Sheet, form: string, e: FormElement, es: seq<FormElement>, show: FormElement -> string)
    requires e.identifier != "" && e.body.OtherElement?
    ensures ProcessElements(sh, form, [e] + es, show) == ProcessElements(sh, form, es, show)
  {
    assert ([e] + es)[1..] == es;
  }

  /** page_processor: a page needs an id and elements. */
  function ProcessPage(sh: Sheet, p: Page, show: FormElement -> string): (r: Outcome)
    ensures |sh.rows| <= |r.sheet.rows| && r.sheet.rows[..|sh.rows|] == sh.rows
    ensures r.sheet.warnings == sh.warnings
    ensures p.id == "" || |p.elements| == 0 ==> r.sheet == sh && r.failure.Some? && r.failure.value.FormatFailure?
  {
    if p.id == "" || |p.elements| == 0 then
      Outcome(sh, Some(FormatFailure("RIOS form does not contain valid page data")))
    else ProcessElements(sh, p.id, p.elements, show)
  }

  /**
   * The page loop of `__call__`: a ConversionValueError ends only its page
   * and is logged as a warning; any other failure is raised.
   */
  function ProcessPages(sh: Sheet, pages: seq<Page>, show: FormElement -> string): (r: Result<Sheet, Failure>)
    ensures r.Ok? ==> |sh.rows| <= |r.value.rows| && r.value.rows[..|sh.rows|] == sh.rows
    ensures r.Ok? ==> |sh.warnings| <= |r.value.warnings|
    ensures r.Err? ==> !r.error.ValueFailure?
    decreases |pages|
  {
    if |pages| == 0 then Ok(sh)
    else
      var o := ProcessPage(sh, pages[0], show);
      if o.failure.None? then
        var r := ProcessPages(o.sheet, pages[1..], show);
        assert r.Ok? ==> r.value.rows[..|sh.rows|] == r.value.rows[..|o.sheet.rows|][..|sh.rows|];
        r
      else if o.failure.value.ValueFailure? then
        var logged := o.sheet.(warnings := o.sheet.warnings + ["WARNING: " + o.failure.value.message]);
        var r := ProcessPages(logged, pages[1..], show);
        assert r.Ok? ==> r.value.rows[..|sh.rows|] == r.value.rows[..|o.sheet.rows|][..|sh.rows|];
        r
      else Err(o.failure.value)
  }

  /**
   * An element without identifier ends its page, and the logged warning
   * carries the element's text under the error message.
   */
  lemma NoIdentifierWarning(sh: Sheet, p: Page, pages: seq<Page>, show: FormElement -> string)
    requires p.id != "" && |p.elements| > 0 && p.elements[0].identifier == ""
    ensures ProcessPages(sh, [p] + pages, show)
         == ProcessPages(sh.(warnings := sh.warnings + ["WARNING: " + NoIdentifierMessage(show(p.elements[0]))]), pages, show)
  {
    assert ([p] + pages)[1..] == pages;
  }

  /** A calculation of the calculation set; `description` may be missing. */
  datatype Calculation = Calculation(id: string, description: Option<string>, calcMethod: string, expression: string)

  /** process_calculation: a python expression is converted, any other is copied. */
  function CalculationRow(c: Calculation): (row: SheetRow)
    requires c.description.Some?
    ensures row.name == c.id && row.form == "calculations" && row.sectionHeader == "" && row.fieldType == "calc"
    ensures row.fieldLabel == c.description.value
    ensures row.choices == (if c.calcMethod == "python" then ConvertRexl(c.expression) else c.expression)
    ensures row.note == "" && row.validation == "" && row.validationMin == "" && row.validationMax == ""
    ensures row.branching == "" && row.identifier == "" && row.required == "" && PlainLayout(row)
  {
    var expr := if c.calcMethod == "python" then ConvertRexl(c.expression) else c.expression;
    SheetRow(c.id, "calculations", "", "calc", c.description.value, expr, "", "", "", "", "", "", "", "", "", "", "", "")
  }

  /** A calculation row is read back as a calculation: to_rios gives it no question. */
  lemma CalculationRowIsCalc(c: Calculation)
    requires c.description.Some?
    ensures FieldBase(CalculationRow(c).fieldType, CalculationRow(c).validation) == Ok(None)
  {
  }

  /**
   * The calculation loop: a calculation without id raises a
   * RiosFormatError, which is not a ConversionValueError and so ends the
   * conversion; so does the KeyError of one without description.
   */
  function ProcessCalculations(rows: seq<SheetRow>, cs: seq<Calculation>): (r: Result<seq<SheetRow>, Failure>)
    ensures r.Ok? ==> |r.value| == |rows| + |cs| && r.value[..|rows|] == rows
    ensures r.Ok? <==> forall k :: 0 <= k < |cs| ==> cs[k].id != "" && cs[k].description.Some?
    ensures r.Err? ==> !r.error.ValueFailure?
    decreases |cs|
  {
    if |cs| == 0 then Ok(rows)
    else if cs[0].id == "" then Err(FormatFailure("Missing ID or description for a calculation"))
    else if cs[0].description.None? then Err(Crash("KeyError: 'description'"))
    else
      var longer := rows + [CalculationRow(cs[0])];
      var r := ProcessCalculations(longer, cs[1..]);
      assert forall k :: 1 <= k < |cs| ==> cs[k] == cs[1..][k - 1];
      assert r.Ok? ==> r.value[..|rows|] == r.value[..|longer|][..|rows|];
      r
  }

  /** RedcapFromRios.__call__: the pages, then the calculations, under the column header row. */
  function FromRios(pages: seq<Page>, calculations: seq<Calculation>, show: FormElement -> string): (r: Result<Sheet, Failure>)
    ensures |pages| == 0 ==> r.Err? && r.error.FormatFailure?
    ensures r.Err? ==> !r.error.ValueFailure?
  {
    if |pages| == 0 then Err(FormatFailure("RIOS form configuration does not contain page data"))
    else
      var sh := ProcessPages(Sheet([], "", []), pages, show);
      if sh.Err? then Err(sh.error)
      else
        var rows := ProcessCalculations(sh.value.rows, calculations);
        if rows.Err? then Err(rows.error)
        else Ok(sh.value.(rows := rows.value))
  }

  /** The lines of the dictionary: the column names, then one line of cells per row. */
  function SheetLines(sh: Sheet): (lines: seq<seq<string>>)
    ensures |lines| == |sh.rows| + 1 && lines[0] == Columns
    ensures forall k :: 0 <= k < |lines| ==> |lines[k]| == |Columns|
  {
    [Columns] + seq(|sh.rows|, k requires 0 <= k < |sh.rows| => Cells(sh.rows[k]))
  }
}

=== FILE: ref_tokens.dfy ===
/**
 * Variable references in both directions.  A REDCap expression is viewed
 * as a sequence of tokens — plain characters, `[name]` variables and
 * `[table][field]` database references — and the reference passes of
 * convert_calc (to RIOS) and convert_variables (back to REDCap) are shown
 * to act token by token, so that one undoes the other.
 */
module RefTokens {
  import opened Wrappers
  import opened Text
  import opened RedcapExpr
  import opened RexlExpr

  datatype Token = Plain(c: char) | Var(name: string) | Db(table: string, field: string)

  /** The REDCap text of one token. */
  function RedcapOf(t: Token): string
  {
    match t
    case Plain(c) => [c]
    case Var(n) => "[" + n + "]"
    case Db(tb, f) => DbRefText(tb, f)
  }

  /** The text of one token once database references are rewritten. */
  function MidOf(t: Token): string
  {
    match t
    case Plain(c) => [c]
    case Var(n) => "[" + n + "]"
    case Db(tb, f) => RiosRef(tb, f)
  }

  /** The RIOS text of one token, variables placed by `table`. */
  function RiosOf(t: Token, table: string -> string): string
  {
    match t
    case Plain(c) => [c]
    case Var(n) => RiosRef(table(n), n)
    case Db(tb, f) => RiosRef(tb, f)
  }

  function RedcapText(ts: seq<Token>): string
  {
    if |ts| == 0 then "" else RedcapOf(ts[0]) + RedcapText(ts[1..])
  }

  function MidText(ts: seq<Token>): string
  {
    if |ts| == 0 then "" else MidOf(ts[0]) + MidText(ts[1..])
  }

  function RiosText(ts: seq<Token>, table: string -> string): string
  {
    if |ts| == 0 then "" else RiosOf(ts[0], table) + RiosText(ts[1..], table)
  }

  /** The names of the variable tokens, in order. */
  function VarNames(ts: seq<Token>): seq<string>
  {
    if |ts| == 0 then [] else (if ts[0].Var? then [ts[0].name] else []) + VarNames(ts[1..])
  }

  /**
   * A token the patterns read back as itself: plain characters are not
   * `[`, names are words, and a database table starts with a letter and is
   * not one of the two tables a bare variable goes to.
   */
  predicate TokenOk(t: Token)
  {
    match t
    case Plain(c) => c != '['
    case Var(n) => IsName(n)
    case Db(tb, f) =>
      IsName(tb) && IsName(f) && IsAsciiLetter(tb[0]) && tb != "assessment" && tb != "calculations"
  }

  /**
   * A variable, or a plain word character, is followed by a plain
   * character: `[a][b]` would read as a database reference, and a word
   * character glued to a RIOS reference would become part of its table.
   */
  predicate Joins(t: Token, u: Token)
  {
    (t.Var? || (t.Plain? && IsWordChar(t.c))) ==> u.Plain?
  }

  predicate WellFormed(ts: seq<Token>)
  {
    |ts| == 0 || (TokenOk(ts[0]) && (|ts| == 1 || Joins(ts[0], ts[1])) && WellFormed(ts[1..]))
  }

  /** `p + (x + r)` seen as `x` placed at index `|p|`. */
  lemma Split3(p: string, x: string, r: string)
    ensures p + (x + r) == (p + x) + r
    ensures OccursAt(p + (x + r), x, |p|)
    ensures forall k :: 0 <= k < |x| ==> (p + (x + r))[|p| + k] == x[k]
  {
    assert (p + (x + r))[|p|..|p| + |x|] == x;
  }

  /** The first character of the text of a non-empty token list. */
  lemma FirstChar(ts: seq<Token>, table: string -> string)
    requires |ts| > 0 && ts[0].Plain?
    ensures |RedcapText(ts)| > 0 && RedcapText(ts)[0] == ts[0].c
    ensures |MidText(ts)| > 0 && MidText(ts)[0] == ts[0].c
    ensures |RiosText(ts, table)| > 0 && RiosText(ts, table)[0] == ts[0].c
  {
  }

  /** Step 1 of convert_calc over one plain character. */
  lemma DbStepPlain(s: string, i: nat)
    requires i < |s| && s[i] != '['
    ensures SubDbRefs(s, i) == [s[i]] + SubDbRefs(s, i + 1)
  {
    assert DbRefAt(s, i).None?;
  }

  /** Step 1 where no database reference matches: one character is copied. */
  lemma DbStepCopy(s: string, i: nat)
    requires i < |s| && DbRefAt(s, i).None?
    ensures SubDbRefs(s, i) == [s[i]] + SubDbRefs(s, i + 1)
  {
    hide DbRefAt;
  }

  /** Step 1 over a variable: `[n]` is copied, since no bracket follows it. */
  lemma DbStepVar(s: string, i: nat, n: string)
    requires IsName(n) && OccursAt(s, "[" + n + "]", i)
    requires i + |n| + 2 == |s| || s[i + |n| + 2] != '['
    ensures SubDbRefs(s, i) == ("[" + n + "]") + SubDbRefs(s, i + |n| + 2)
  {
    hide *;
    var e := i + |n| + 2;
    VarIsNoDbRef(s, i, n);
    DbStepCopy(s, i);
    CopyBracketedTail(s, i, e, n);
  }

  /** A `[n]` not followed by `[` is no database reference. */
  lemma VarIsNoDbRef(s: string, i: nat, n: string)
    requires IsName(n) && OccursAt(s, "[" + n + "]", i)
    requires i + |n| + 2 == |s| || s[i + |n| + 2] != '['
    ensures i < |s| && DbRefAt(s, i).None?
    ensures i + |n| + 2 <= |s| && s[i..i + |n| + 2] == "[" + n + "]"
  {
    assert BracketOccurs(s, n, i);
    BracketAtComplete(s, i, n);
    assert BracketAt(s, i + |n| + 2).None?;
  }

  /** After its `[`, the rest `n]` of a variable holds no `[` and is copied. */
  lemma CopyBracketedTail(s: string, i: nat, e: nat, n: string)
    requires i < e <= |s| && IsName(n) && s[i..e] == "[" + n + "]"
    ensures [s[i]] + SubDbRefs(s, i + 1) == s[i..e] + SubDbRefs(s, e)
  {
    hide *;
    var tail := s[i + 1..e];
    assert tail == s[i..e][1..] == n + "]";
    NameThenClose(n);
    SubDbRefsCopies(s, i + 1, e);
    assert s[i..e] == [s[i]] + tail;
    AppendAssoc([s[i]], tail, SubDbRefs(s, e));
  }

  /** A name followed by `]` holds no `[`. */
  lemma NameThenClose(n: string)
    requires IsName(n)
    ensures '[' !in n + "]"
  {
  }

  /** RE_database_ref matches the text of a database reference exactly. */
  lemma DbRefAtText(s: string, i: nat, tb: string, f: string)
    requires IsName(tb) && IsName(f) && OccursAt(s, DbRefText(tb, f), i)
    ensures DbRefAt(s, i) == Some(DbRef(tb, f, i + |tb| + |f| + 4))
  {
    DbRefOccursText(s, tb, f, i);
    DbRefAtComplete(s, i, tb, f);
  }

  /** One step of SubDbRefs where a database reference matches. */
  lemma DbStepMatch(s: string, i: nat, tb: string, f: string)
    requires i <= |s| && DbRefAt(s, i) == Some(DbRef(tb, f, i + |tb| + |f| + 4))
    ensures SubDbRefs(s, i) == RiosRef(tb, f) + SubDbRefs(s, i + |tb| + |f| + 4)
  {
    hide DbRefAt, RiosRef;
  }

  /** Step 1 over a database reference. */
  lemma DbStepDb(s: string, i: nat, tb: string, f: string)
    requires IsName(tb) && IsName(f) && OccursAt(s, DbRefText(tb, f), i)
    ensures SubDbRefs(s, i) == RiosRef(tb, f) + SubDbRefs(s, i + |tb| + |f| + 4)
  {
    assert i <= |s|;
    hide *;
    DbRefAtText(s, i, tb, f);
    DbStepMatch(s, i, tb, f);
  }

  /** Step 1 over any token: its text becomes its text after step 1. */
  lemma DbStep(s: string, i: nat, t: Token)
    requires TokenOk(t) && OccursAt(s, RedcapOf(t), i)
    requires t.Var? ==> i + |RedcapOf(t)| == |s| || s[i + |RedcapOf(t)|] != '['
    ensures SubDbRefs(s, i) == MidOf(t) + SubDbRefs(s, i + |RedcapOf(t)|)
  {
    hide SubDbRefs, DbRefAt, BracketAt, DbRefText, RiosRef, IsName;
    match t
    case Plain(c) => DbStepPlainToken(s, i, c);
    case Var(n) => DbStepVarToken(s, i, n);
    case Db(tb, f) => DbStepDbToken(s, i, tb, f);
  }

  /** Step 1 over a plain-character token. */
  lemma DbStepPlainToken(s: string, i: nat, c: char)
    requires c != '[' && OccursAt(s, [c], i)
    ensures SubDbRefs(s, i) == [c] + SubDbRefs(s, i + 1)
  {
    OccursChar(s, c, i);
    hide *;
    DbStepPlain(s, i);
  }

  /** Step 1 over a variable token. */
  lemma DbStepVarToken(s: string, i: nat, n: string)
    requires IsName(n) && OccursAt(s, "[" + n + "]", i)
    requires i + |"[" + n + "]"| == |s| || s[i + |"[" + n + "]"|] != '['
    ensures SubDbRefs(s, i) == ("[" + n + "]") + SubDbRefs(s, i + |"[" + n + "]"|)
  {
    assert |"[" + n + "]"| == |n| + 2;
    DbStepVar(s, i, n);
  }

  /** Step 1 over a database-reference token. */
  lemma DbStepDbToken(s: string, i: nat, tb: string, f: string)
    requires IsName(tb) && IsName(f) && OccursAt(s, DbRefText(tb, f), i)
    ensures SubDbRefs(s, i) == RiosRef(tb, f) + SubDbRefs(s, i + |DbRefText(tb, f)|)
  {
    hide *;
    DbRefTextLength(tb, f);
    DbStepDb(s, i, tb, f);
  }

  /** `[t][f]` is four characters longer than its names. */
  lemma DbRefTextLength(tb: string, f: string)
    ensures |DbRefText(tb, f)| == |tb| + |f| + 4
  {
  }

  /** The first token and the rest of a token list. */
  lemma Unfold(ts: seq<Token>, table: string -> string)
    requires |ts| > 0
    ensures RedcapText(ts) == RedcapOf(ts[0]) + RedcapText(ts[1..])
    ensures MidText(ts) == MidOf(ts[0]) + MidText(ts[1..])
    ensures RiosText(ts, table) == RiosOf(ts[0], table) + RiosText(ts[1..], table)
    ensures VarNames(ts) == (if ts[0].Var? then [ts[0].name] else []) + VarNames(ts[1..])
    ensures WellFormed(ts) ==> TokenOk(ts[0]) && WellFormed(ts[1..])
    ensures WellFormed(ts) && |ts| > 1 ==> Joins(ts[0], ts[1])
    ensures WellFormed(ts) && |ts| > 1 && ts[0].Var? ==> ts[1].Plain? && ts[1].c != '['
    ensures |ts| == 1 ==> RedcapText(ts[1..]) == MidText(ts[1..]) == RiosText(ts[1..], table) == []
  {
  }

  /** The texts of no tokens, and the passes at the end of a string. */
  lemma Empty(ts: seq<Token>, p: string, table: string -> string)
    requires |ts| == 0
    ensures p + RedcapText(ts) == p && p + MidText(ts) == p && p + RiosText(ts, table) == p
    ensures RedcapText(ts) == MidText(ts) == RiosText(ts, table) == [] && VarNames(ts) == []
    ensures SubDbRefs(p, |p|) == [] && SubVarRefs(p, |p|, table) == [] && FindNames(p, |p|) == []
    ensures forall anchored :: VarsFrom(p, |p|, anchored) == []
  {
  }

  /** Step 1 of convert_calc rewrites exactly the database tokens. */
  lemma SubDbRefsTokens(p: string, ts: seq<Token>)
    requires WellFormed(ts)
    ensures SubDbRefs(p + RedcapText(ts), |p|) == MidText(ts)
  {
    var s := p + RedcapText(ts);
    assert s[|p|..|p| + |RedcapText(ts)|] == RedcapText(ts);
    SubDbRefsFrom(s, |p|, ts);
  }

  /** Step 1 over the text of a token list that ends the expression at `i`. */
  lemma {:induction false} SubDbRefsFrom(s: string, i: nat, ts: seq<Token>)
    requires WellFormed(ts) && OccursAt(s, RedcapText(ts), i) && i + |RedcapText(ts)| == |s|
    ensures SubDbRefs(s, i) == MidText(ts)
    decreases |ts|
  {
    hide *;
    if |ts| == 0 {
      Empty(ts, s, OneTable(""));
    } else {
      Unfold(ts, OneTable(""));
      var x := RedcapOf(ts[0]);
      var rest := RedcapText(ts[1..]);
      OccursAtConcat(s, x, rest, i);
      SubDbRefsFrom(s, i + |x|, ts[1..]);
      if ts[0].Var? && |ts| > 1 {
        FirstChar(ts[1..], OneTable(""));
        OccursHead(s, rest, i + |x|);
      }
      DbStep(s, i, ts[0]);
    }
  }

  /** One step of SubVarRefs where a variable reference matches. */
  lemma VarStepMatch(s: string, i: nat, n: string, table: string -> string)
    requires i <= |s| && BracketAt(s, i) == Some((n, i + |n| + 2))
    ensures SubVarRefs(s, i, table) == RiosRef(table(n), n) + SubVarRefs(s, i + |n| + 2, table)
    ensures FindNames(s, i) == [n] + FindNames(s, i + |n| + 2)
  {
    hide BracketAt, RiosRef;
  }

  /** Step 2 over a variable. */
  lemma VarStepVar(s: string, i: nat, n: string, table: string -> string)
    requires IsName(n) && OccursAt(s, "[" + n + "]", i)
    ensures SubVarRefs(s, i, table) == RiosRef(table(n), n) + SubVarRefs(s, i + |n| + 2, table)
    ensures FindNames(s, i) == [n] + FindNames(s, i + |n| + 2)
  {
    assert i <= |s|;
    assert BracketOccurs(s, n, i);
    hide *;
    BracketAtComplete(s, i, n);
    VarStepMatch(s, i, n, table);
  }

  /** Adjacent slices join. */
  lemma JoinSlices(s: string, a: nat, b: nat, c: nat)
    requires a <= b <= c <= |s|
    ensures s[a..b] + s[b..c] == s[a..c]
  {
  }

  /** Where the pieces of `tb["f"]` sit: its only bracket is followed by a quote. */
  lemma RiosRefLayout(s: string, i: nat, tb: string, f: string)
    requires IsName(tb) && IsName(f) && OccursAt(s, RiosRef(tb, f), i)
    ensures i + |tb| + |f| + 4 <= |s| && s[i..i + |tb| + |f| + 4] == RiosRef(tb, f)
    ensures '[' !in s[i..i + |tb|] && s[i + |tb| + 1] == '"'
    ensures '[' !in s[i + |tb| + 1..i + |tb| + |f| + 4]
  {
    var x := RiosRef(tb, f);
    var j := i + |tb|;
    var e := i + |x|;
    NoBracketInName(tb);
    NoBracketInName(f);
    assert s[i..e] == x;
    assert s[i..j] == x[..|tb|] == tb;
    assert s[j + 1] == x[|tb| + 1];
    assert s[j + 1..e] == x[|tb| + 1..] == "\"" + f + "\"]";
  }

  lemma NoBracketInName(n: string)
    requires IsName(n)
    ensures '[' !in n && '[' !in "\"" + n + "\"]"
  {
    assert forall k :: 0 <= k < |n| ==> IsWordChar(n[k]);
  }

  /** A bracket followed by a quote opens no `[name]`. */
  lemma VarStepQuote(s: string, j: nat, table: string -> string)
    requires j + 1 < |s| && s[j + 1] == '"'
    ensures SubVarRefs(s, j, table) == s[j..j + 1] + SubVarRefs(s, j + 1, table)
    ensures FindNames(s, j) == FindNames(s, j + 1)
  {
    assert WordRun(s, j + 1) == 0;
    assert BracketAt(s, j).None?;
    hide BracketAt;
    assert s[j..j + 1] == [s[j]];
  }

  /** Step 2 copies a bracket-free run, a bracket before a quote, and another bracket-free run. */
  lemma VarStepPieces(s: string, i: nat, j: nat, e: nat, table: string -> string)
    requires i <= j && j + 1 < e <= |s| && s[j + 1] == '"'
    requires '[' !in s[i..j] && '[' !in s[j + 1..e]
    ensures SubVarRefs(s, i, table) == s[i..j] + (s[j..j + 1] + (s[j + 1..e] + SubVarRefs(s, e, table)))
    ensures FindNames(s, i) == FindNames(s, e)
  {
    hide *;
    SubVarRefsCopies(s, i, j, table);
    VarStepQuote(s, j, table);
    SubVarRefsCopies(s, j + 1, e, table);
  }

  /** Step 2 over RIOS database text `tb["f"]`: its one bracket opens no name. */
  lemma VarStepDb(s: string, i: nat, tb: string, f: string, table: string -> string)
    requires IsName(tb) && IsName(f) && OccursAt(s, RiosRef(tb, f), i)
    ensures SubVarRefs(s, i, table) == RiosRef(tb, f) + SubVarRefs(s, i + |tb| + |f| + 4, table)
    ensures FindNames(s, i) == FindNames(s, i + |tb| + |f| + 4)
  {
    var j := i + |tb|;
    var e := i + |tb| + |f| + 4;
    hide *;
    RiosRefLayout(s, i, tb, f);
    VarStepPieces(s, i, j, e, table);
    JoinSlices(s, j, j + 1, e);
    JoinSlices(s, i, j, e);
    AppendAssoc(s[j..j + 1], s[j + 1..e], SubVarRefs(s, e, table));
    AppendAssoc(s[i..j], s[j..e], SubVarRefs(s, e, table));
  }
  /** Step 2 over any token once step 1 has run. */
  lemma VarStep(s: string, i: nat, t: Token, table: string -> string)
    requires TokenOk(t) && OccursAt(s, MidOf(t), i)
    ensures SubVarRefs(s, i, table) == RiosOf(t, table) + SubVarRefs(s, i + |MidOf(t)|, table)
    ensures FindNames(s, i) == (if t.Var? then [t.name] else []) + FindNames(s, i + |MidOf(t)|)
  {
    hide SubVarRefs, FindNames, BracketAt;
    match t
    case Plain(c) =>
      assert s[i..i + 1] == [c];
      SubVarRefsCopies(s, i, i + 1, table);
    case Var(n) =>
      VarStepVar(s, i, n, table);
    case Db(tb, f) =>
      assert |MidOf(t)| == |tb| + |f| + 4;
      VarStepDb(s, i, tb, f, table);
  }

  /** Step 2 of convert_calc places each variable token by `table` and leaves the rest. */
  lemma SubVarRefsTokens(p: string, ts: seq<Token>, table: string -> string)
    requires WellFormed(ts)
    ensures SubVarRefs(p + MidText(ts), |p|, table) == RiosText(ts, table)
    ensures FindNames(p + MidText(ts), |p|) == VarNames(ts)
  {
    var s := p + MidText(ts);
    assert s[|p|..|p| + |MidText(ts)|] == MidText(ts);
    SubVarRefsFrom(s, |p|, ts, table);
  }

  /** Step 2 over the text of a token list that ends the expression at `i`. */
  lemma {:induction false} SubVarRefsFrom(s: string, i: nat, ts: seq<Token>, table: string -> string)
    requires WellFormed(ts) && OccursAt(s, MidText(ts), i) && i + |MidText(ts)| == |s|
    ensures SubVarRefs(s, i, table) == RiosText(ts, table)
    ensures FindNames(s, i) == VarNames(ts)
    decreases |ts|
  {
    hide *;
    if |ts| == 0 {
      Empty(ts, s, table);
    } else {
      Unfold(ts, table);
      var x := MidOf(ts[0]);
      OccursAtConcat(s, x, MidText(ts[1..]), i);
      SubVarRefsFrom(s, i + |x|, ts[1..], table);
      VarStep(s, i, ts[0], table);
    }
  }

  /** Steps 1 and 2 of convert_calc, as intended, on a token list. */
  lemma RefsToRiosTokens(ts: seq<Token>, calcs: set<string>)
    requires WellFormed(ts)
    ensures RefsToRios(RedcapText(ts), calcs) == RiosText(ts, Classify(calcs))
  {
    SubDbRefsTokens("", ts);
    assert "" + RedcapText(ts) == RedcapText(ts);
    SubVarRefsTokens("", ts, Classify(calcs));
    assert "" + MidText(ts) == MidText(ts);
  }
  /** `[^\2\]]*` from `a` stops at the first `]`. */
  lemma {:induction false} FieldRunExact(s: string, a: nat, m: nat)
    requires a <= m < |s| && s[m] == ']'
    requires forall k :: a <= k < m ==> s[k] != ']' && s[k] != 2 as char
    ensures FieldRun(s, a) == m - a
    decreases m - a
  {
    if a < m {
      FieldRunExact(s, a + 1, m);
    }
  }

  /** The characters of `tb["f"]` as RE_variable_reference reads them. */
  lemma RiosRefChars(s: string, i: nat, tb: string, f: string)
    requires IsName(tb) && IsName(f) && OccursAt(s, RiosRef(tb, f), i)
    ensures i + |tb| + |f| + 4 <= |s|
    ensures s[i..i + |tb|] == tb && s[i + |tb|] == '[' && s[i + |tb| + 1] == '"'
    ensures s[i + |tb| + 2..i + |tb| + |f| + 2] == f
    ensures s[i + |tb| + |f| + 2] == '"' && s[i + |tb| + |f| + 3] == ']'
    ensures forall k :: i + |tb| + 2 <= k < i + |tb| + |f| + 3 ==> s[k] != ']' && s[k] != 2 as char
  {
    var x := RiosRef(tb, f);
    var o := i + |tb|;
    RiosRefShape(tb, f);
    var w := s[i..i + |x|];
    assert w == x;
    hide RiosRef, OccursAt;
    assert s[i..o] == w[..|tb|];
    assert s[o] == w[|tb|] && s[o + 1] == w[|tb| + 1];
    assert s[o + 2..o + |f| + 2] == w[|tb| + 2..|tb| + |f| + 2];
    assert s[o + |f| + 2] == w[|tb| + |f| + 2] && s[o + |f| + 3] == w[|tb| + |f| + 3];
    forall k | o + 2 <= k < o + |f| + 3
      ensures s[k] != ']' && s[k] != 2 as char
    {
      if k < o + |f| + 2 {
        assert s[k] == w[|tb| + 2..|tb| + |f| + 2][k - o - 2];
        assert IsWordChar(f[k - o - 2]);
      }
    }
  }

  /** Where the pieces of `tb["f"]` sit. */
  lemma RiosRefShape(tb: string, f: string)
    ensures var x := RiosRef(tb, f);
      && |x| == |tb| + |f| + 4 && x[..|tb|] == tb && x[|tb|] == '[' && x[|tb| + 1] == '"'
      && x[|tb| + 2..|tb| + |f| + 2] == f && x[|tb| + |f| + 2] == '"' && x[|tb| + |f| + 3] == ']'
  {
    var x := RiosRef(tb, f);
    assert x == tb + ['[', '"'] + f + ['"', ']'];
    assert x[..|tb|] == tb;
    assert x[|tb| + 2..|tb| + |f| + 2] == f;
  }

  /** A quote ends a run of spaces on either side. */
  lemma QuoteStopsSpaces(s: string, q: nat, lo: nat, m: nat)
    requires q < |s| && s[q] == '"' && lo < m <= |s| && s[m - 1] == '"'
    ensures SpaceRun(s, q) == 0 && SpacesBefore(s, lo, m) == 0
  {
  }

  /** RE_variable_reference at `i` from the positions of its pieces: `[` at `o`, `]` at `m`. */
  lemma VarRefAtOf(s: string, i: nat, anchored: bool, o: nat, m: nat)
    requires i < o && o + 2 < m < |s|
    requires IsAsciiLetter(s[i]) && (anchored || i == 0 || !IsWordChar(s[i - 1]))
    requires WordRun(s, i) == o - i && s[o] == '[' && s[o + 1] == '"'
    requires FieldRun(s, o + 2) == m - o - 2 && s[m] == ']' && s[m - 1] == '"'
    ensures VarRefAt(s, i, anchored) == Some(VarMatch(s[i..o], s[o + 2..m - 1], m + 1))
  {
    hide WordRun, SpaceRun, FieldRun, SpacesBefore, IsAsciiLetter, IsWordChar, IsSpace;
    QuoteStopsSpaces(s, o + 1, o + 2, m);
  }

  /** RE_variable_reference matches `tb["f"]` exactly, where `\b` holds before it. */
  lemma VarRefAtRios(s: string, i: nat, anchored: bool, tb: string, f: string)
    requires IsName(tb) && IsAsciiLetter(tb[0]) && IsName(f) && OccursAt(s, RiosRef(tb, f), i)
    requires anchored || i == 0 || !IsWordChar(s[i - 1])
    ensures VarRefAt(s, i, anchored) == Some(VarMatch(tb, f, i + |tb| + |f| + 4))
  {
    hide VarRefAt, WordRun, FieldRun, RiosRef, SpaceRun, SpacesBefore;
    var o := i + |tb|;
    var m := o + |f| + 3;
    RiosRefChars(s, i, tb, f);
    assert s[i] == tb[0];
    WordRunExact(s, i, tb);
    FieldRunExact(s, o + 2, m);
    hide *;
    VarRefAtOf(s, i, anchored, o, m);
  }
  /** Where no reference can start, convert_variables copies a character. */
  lemma VarRefAtNone(s: string, i: nat, anchored: bool)
    requires i < |s|
    requires IsAsciiLetter(s[i]) ==> i + WordRun(s, i) == |s| || s[i + WordRun(s, i)] != '['
    ensures VarRefAt(s, i, anchored).None?
  {
  }

  lemma VarsStepNone(s: string, i: nat, anchored: bool)
    requires i < |s| && VarRefAt(s, i, anchored).None?
    ensures VarsFrom(s, i, anchored) == [s[i]] + VarsFrom(s, i + 1, false)
  {
    hide VarRefAt;
  }

  lemma VarsStepMatch(s: string, i: nat, anchored: bool, m: VarMatch)
    requires i <= |s| && VarRefAt(s, i, anchored) == Some(m)
    ensures VarsFrom(s, i, anchored) == VarReplacement(m) + VarsFrom(s, m.end, true)
  {
    hide VarRefAt, VarReplacement;
  }

  /** The two tables a bare variable goes to are names starting with a letter. */
  lemma VariableTables(calcs: set<string>, n: string)
    ensures var tb := TableOf(n, calcs);
      IsName(tb) && IsAsciiLetter(tb[0]) && (tb == "assessment" || tb == "calculations")
  {
    var tb := TableOf(n, calcs);
    assert forall k :: 0 <= k < |tb| ==> IsAsciiLetter(tb[k]);
  }
  /** convert_variables over RIOS text `tb["f"]`. */
  lemma RevStepRef(s: string, i: nat, anchored: bool, tb: string, f: string)
    requires IsName(tb) && IsAsciiLetter(tb[0]) && IsName(f) && OccursAt(s, RiosRef(tb, f), i)
    requires anchored || i == 0 || !IsWordChar(s[i - 1])
    ensures VarsFrom(s, i, anchored) == VarReplacement(VarMatch(tb, f, i + |tb| + |f| + 4))
                                       + VarsFrom(s, i + |tb| + |f| + 4, true)
  {
    hide *;
    VarRefAtRios(s, i, anchored, tb, f);
    assert i < |s|;
    VarsStepMatch(s, i, anchored, VarMatch(tb, f, i + |tb| + |f| + 4));
  }

  lemma RiosRefLength(tb: string, f: string)
    ensures |RiosRef(tb, f)| == |tb| + |f| + 4
  {
  }

  /** What convert_variables writes for a match, by table. */
  lemma Replacements(tb: string, f: string, e: nat)
    ensures tb == "assessment" || tb == "calculations" ==> VarReplacement(VarMatch(tb, f, e)) == "[" + f + "]"
    ensures tb != "assessment" && tb != "calculations" ==> VarReplacement(VarMatch(tb, f, e)) == DbRefText(tb, f)
  {
  }

  /** convert_variables over a variable's RIOS text gives back `[n]`. */
  lemma RevStepVar(s: string, i: nat, anchored: bool, n: string, calcs: set<string>)
    requires IsName(n) && OccursAt(s, RiosRef(TableOf(n, calcs), n), i)
    requires anchored || i == 0 || !IsWordChar(s[i - 1])
    ensures VarsFrom(s, i, anchored) == ("[" + n + "]") + VarsFrom(s, i + |RiosRef(TableOf(n, calcs), n)|, true)
  {
    hide *;
    var tb := TableOf(n, calcs);
    VariableTables(calcs, n);
    RiosRefLength(tb, n);
    Replacements(tb, n, i + |tb| + |n| + 4);
    RevStepRef(s, i, anchored, tb, n);
  }

  /** convert_variables over a database reference's RIOS text gives back `[tb][f]`. */
  lemma RevStepDb(s: string, i: nat, anchored: bool, tb: string, f: string)
    requires IsName(tb) && IsAsciiLetter(tb[0]) && IsName(f) && OccursAt(s, RiosRef(tb, f), i)
    requires tb != "assessment" && tb != "calculations"
    requires anchored || i == 0 || !IsWordChar(s[i - 1])
    ensures VarsFrom(s, i, anchored) == DbRefText(tb, f) + VarsFrom(s, i + |RiosRef(tb, f)|, true)
  {
    hide *;
    RiosRefLength(tb, f);
    Replacements(tb, f, i + |tb| + |f| + 4);
    RevStepRef(s, i, anchored, tb, f);
  }

  /** convert_variables over a plain character copies it. */
  lemma RevStepPlain(s: string, i: nat, anchored: bool)
    requires i < |s|
    requires IsAsciiLetter(s[i]) ==> i + WordRun(s, i) == |s| || s[i + WordRun(s, i)] != '['
    ensures VarsFrom(s, i, anchored) == s[i..i + 1] + VarsFrom(s, i + 1, false)
  {
    hide VarsFrom;
    VarRefAtNone(s, i, anchored);
    VarsStepNone(s, i, anchored);
    assert s[i..i + 1] == [s[i]];
  }

  /** The texts of one token, case by case. */
  lemma TokenFacts(t: Token, calcs: set<string>)
    ensures t.Plain? ==> RedcapOf(t) == [t.c] && RiosOf(t, Classify(calcs)) == [t.c]
    ensures t.Var? ==>
      RedcapOf(t) == "[" + t.name + "]" && RiosOf(t, Classify(calcs)) == RiosRef(TableOf(t.name, calcs), t.name)
    ensures t.Var? && TokenOk(t) ==> IsName(t.name)
    ensures t.Db? ==> RedcapOf(t) == DbRefText(t.table, t.field) && RiosOf(t, Classify(calcs)) == RiosRef(t.table, t.field)
    ensures t.Db? && TokenOk(t) ==>
      IsName(t.table) && IsAsciiLetter(t.table[0]) && IsName(t.field) && t.table != "assessment" && t.table != "calculations"
  {
  }

  /** A one-character occurrence. */
  /** An occurrence starts with the pattern's first character. */
  lemma OccursHead(s: string, r: string, k: nat)
    requires OccursAt(s, r, k) && |r| > 0
    ensures k < |s| && s[k] == r[0]
  {
    assert s[k] == s[k..k + |r|][0];
  }

  lemma OccursChar(s: string, c: char, i: nat)
    requires OccursAt(s, [c], i)
    ensures i < |s| && s[i] == c && s[i..i + 1] == [c]
  {
    assert s[i] == s[i..i + 1][0];
  }

  /** convert_variables over any token of RIOS text. */
  lemma RevStep(s: string, i: nat, t: Token, anchored: bool, calcs: set<string>)
    requires TokenOk(t) && OccursAt(s, RiosOf(t, Classify(calcs)), i)
    requires !t.Plain? ==> anchored || i == 0 || !IsWordChar(s[i - 1])
    requires t.Plain? && IsAsciiLetter(t.c) ==> i + WordRun(s, i) == |s| || s[i + WordRun(s, i)] != '['
    ensures VarsFrom(s, i, anchored) == RedcapOf(t) + VarsFrom(s, i + |RiosOf(t, Classify(calcs))|, !t.Plain?)
  {
    hide *;
    TokenFacts(t, calcs);
    if t.Plain? {
      OccursChar(s, t.c, i);
      RevStepPlain(s, i, anchored);
    } else if t.Var? {
      RevStepVar(s, i, anchored, t.name, calcs);
    } else {
      RevStepDb(s, i, anchored, t.table, t.field);
    }
  }

  /** A plain token is its character in every form. */
  lemma PlainTexts(t: Token, table: string -> string)
    requires t.Plain?
    ensures RedcapOf(t) == MidOf(t) == RiosOf(t, table) == [t.c]
  {
  }

  /**
   * convert_variables turns the RIOS text of a well-formed token list back
   * into its REDCap text; `anchored` says the search starts at `|p|`.
   */
  lemma VarsFromTokens(p: string, ts: seq<Token>, calcs: set<string>, anchored: bool)
    requires WellFormed(ts)
    requires |ts| > 0 && !ts[0].Plain? && !anchored && |p| > 0 ==> !IsWordChar(p[|p| - 1])
    ensures VarsFrom(p + RiosText(ts, Classify(calcs)), |p|, anchored) == RedcapText(ts)
  {
    var x := RiosText(ts, Classify(calcs));
    var s := p + x;
    assert s[|p|..|p| + |x|] == x;
    if |p| > 0 {
      assert s[|p| - 1] == p[|p| - 1];
    }
    hide *;
    VarsFromAt(s, |p|, ts, calcs, anchored);
  }

  /** convert_variables over the RIOS text of a token list that ends the text at `i`. */
  lemma {:induction false} VarsFromAt(s: string, i: nat, ts: seq<Token>, calcs: set<string>, anchored: bool)
    requires WellFormed(ts)
    requires OccursAt(s, RiosText(ts, Classify(calcs)), i) && i + |RiosText(ts, Classify(calcs))| == |s|
    requires |ts| > 0 && !ts[0].Plain? && !anchored && i > 0 ==> !IsWordChar(s[i - 1])
    ensures VarsFrom(s, i, anchored) == RedcapText(ts)
    decreases |ts|
  {
    hide *;
    var table := Classify(calcs);
    if |ts| == 0 {
      Empty(ts, s, table);
    } else {
      Unfold(ts, table);
      var x := RiosOf(ts[0], table);
      OccursAtConcat(s, x, RiosText(ts[1..], table), i);
      VarsFromTail(s, i, ts, table);
      VarsFromAt(s, i + |x|, ts[1..], calcs, !ts[0].Plain?);
      if ts[0].Plain? {
        PlainRunStops(s, i, ts, table);
      }
      RevStep(s, i, ts[0], anchored, calcs);
    }
  }

  /** After a plain head, a reference of the tail is not glued to a word character. */
  lemma VarsFromTail(s: string, i: nat, ts: seq<Token>, table: string -> string)
    requires WellFormed(ts) && |ts| > 0 && OccursAt(s, RiosOf(ts[0], table), i)
    ensures WellFormed(ts[1..])
    ensures |ts[1..]| > 0 && !ts[1..][0].Plain? && ts[0].Plain? && i + |RiosOf(ts[0], table)| > 0
      ==> !IsWordChar(s[i + |RiosOf(ts[0], table)| - 1])
  {
    Unfold(ts, table);
    if ts[0].Plain? {
      PlainTexts(ts[0], table);
      OccursChar(s, ts[0].c, i);
    }
  }

  /** A run of plain word characters ends at the end or before a character that is not `[`. */
  lemma {:induction false} PlainRunStops(s: string, i: nat, ts: seq<Token>, table: string -> string)
    requires WellFormed(ts) && |ts| > 0 && ts[0].Plain?
    requires OccursAt(s, RiosText(ts, table), i) && i + |RiosText(ts, table)| == |s|
    ensures i + WordRun(s, i) == |s| || s[i + WordRun(s, i)] != '['
    decreases |ts|
  {
    hide *;
    var c := ts[0].c;
    PlainHead(ts, table);
    var x, rest := RiosOf(ts[0], table), RiosText(ts[1..], table);
    PlainTexts(ts[0], table);
    OccursAtConcat(s, x, rest, i);
    OccursHead(s, x, i);
    WordRunStep(s, i);
    if IsWordChar(c) {
      var n := WordRun(s, i + 1);
      if |ts| > 1 {
        PlainRunStops(s, i + 1, ts[1..], table);
      } else {
        Empty(ts[1..], s, table);
      }
      assert i + WordRun(s, i) == i + 1 + n;
    }
  }

  /** `\w*` from `i` takes the character at `i` exactly when it is a word character. */
  /** A leading plain token is not `[`, splits off the text, and a word character is followed by another plain token. */
  lemma PlainHead(ts: seq<Token>, table: string -> string)
    requires WellFormed(ts) && |ts| > 0 && ts[0].Plain?
    ensures ts[0].c != '[' && WellFormed(ts[1..])
    ensures IsWordChar(ts[0].c) && |ts| > 1 ==> ts[1].Plain?
    ensures RiosText(ts, table) == RiosOf(ts[0], table) + RiosText(ts[1..], table)
  {
    Unfold(ts, table);
  }

  lemma WordRunStep(s: string, i: nat)
    requires i < |s|
    ensures IsWordChar(s[i]) ==> WordRun(s, i) == 1 + WordRun(s, i + 1)
    ensures !IsWordChar(s[i]) ==> WordRun(s, i) == 0
  {
  }

  /** convert_variables undoes steps 1 and 2 of convert_calc on well-formed references. */
  lemma RefsRoundTrip(ts: seq<Token>, calcs: set<string>)
    requires WellFormed(ts)
    ensures VarsFrom(RefsToRios(RedcapText(ts), calcs), 0, true) == RedcapText(ts)
  {
    RefsToRiosTokens(ts, calcs);
    VarsFromTokens("", ts, calcs, true);
    assert "" + RiosText(ts, Classify(calcs)) == RiosText(ts, Classify(calcs));
  }
  /** One of the two tables with a prefix letter glued on is still a database table name. */
  lemma GluedTable(w: char, t: string)
    requires IsAsciiLetter(w) && (t == "calculations" || t == "assessment")
    ensures var tb := [w] + t;
      IsName(tb) && IsAsciiLetter(tb[0]) && tb != "assessment" && tb != "calculations"
  {
    var tb := [w] + t;
    assert forall k :: 1 <= k < |tb| ==> IsLower(tb[k]);
    assert |tb| == |t| + 1;
  }

  /** The RIOS text of a reference to a table `w + t` is `w` glued to the reference to `t`. */
  lemma GluedRef(w: char, t: string, v: string)
    ensures RiosRef([w] + t, v) == [w] + RiosRef(t, v)
  {
  }

  /** The tokens of `[tb][v] [v]`: a database reference and a variable with the same field. */
  function Glued(tb: string, v: string): seq<Token>
  {
    [Db(tb, v), Plain(' '), Var(v)]
  }

  lemma GluedTexts(tb: string, v: string, table: string -> string)
    requires TokenOk(Db(tb, v))
    ensures WellFormed(Glued(tb, v)) && VarNames(Glued(tb, v)) == [v]
    ensures RiosText(Glued(tb, v), table) == RiosRef(tb, v) + " " + RiosRef(table(v), v)
  {
    var ts := Glued(tb, v);
    var t1 := [Plain(' '), Var(v)];
    var t2 := [Var(v)];
    assert ts[1..] == t1 && t1[1..] == t2 && t2[1..] == [];
    assert WellFormed(t2);
    assert WellFormed(t1);
    assert WellFormed(ts);
    assert VarNames(t2) == [v];
    assert VarNames(t1) == [v];
    assert RiosText(t2, table) == RiosRef(table(v), v);
    assert RiosText(t1, table) == " " + RiosRef(table(v), v);
    assert RiosText(ts, table) == RiosRef(tb, v) + (" " + RiosRef(table(v), v));
  }

  /** The REDCap text of `[tb][v] [v]`. */
  lemma GluedRedcap(tb: string, v: string)
    ensures RedcapText(Glued(tb, v)) == DbRefText(tb, v) + " " + "[" + v + "]"
  {
    hide RedcapText, DbRefText;
    var ts := Glued(tb, v);
    var t1 := [Plain(' '), Var(v)];
    var t2 := [Var(v)];
    assert ts[1..] == t1 && t1[1..] == t2 && t2[1..] == [];
    assert ts[0] == Db(tb, v) && t1[0] == Plain(' ') && t2[0] == Var(v);
    RedcapCons(t2);
    assert RedcapText(t2) == "[" + v + "]";
    RedcapCons(t1);
    assert RedcapText(t1) == " " + ("[" + v + "]");
    RedcapCons(ts);
    assert RedcapText(ts) == DbRefText(tb, v) + (" " + ("[" + v + "]"));
  }

  /** The text of a non-empty token sequence is its first token's text, then the rest's. */
  lemma RedcapCons(ts: seq<Token>)
    requires |ts| > 0
    ensures RedcapText(ts) == RedcapOf(ts[0]) + RedcapText(ts[1..])
    ensures |ts| == 1 ==> RedcapText(ts) == RedcapOf(ts[0])
  {
    if |ts| == 1 {
      assert ts[1..] == [];
    }
  }

  /** The tokens of `[xcalculations][v] [v]`. */
  function GluedExample(w: char, v: string): seq<Token>
  {
    Glued([w] + "calculations", v)
  }

  lemma GluedExampleTexts(w: char, v: string, table: string -> string)
    requires IsAsciiLetter(w) && IsName(v)
    ensures WellFormed(GluedExample(w, v)) && VarNames(GluedExample(w, v)) == [v]
    ensures RiosText(GluedExample(w, v), table) == [w] + RiosRef("calculations", v) + " " + RiosRef(table(v), v)
  {
    GluedTable(w, "calculations");
    GluedRef(w, "calculations", v);
    GluedTexts([w] + "calculations", v, table);
  }

  /** The replace of step 3 finds the copy of `pat` glued to a letter as well as the free one. */
  lemma ReplaceGlued(w: char, pat: string, rep: string)
    requires |pat| > 0 && w != pat[0] && pat[0] != ' '
    ensures Replace([w] + pat + " " + pat, pat, rep) == [w] + rep + " " + rep
  {
    var x := [w] + pat + " " + pat;
    var n := |pat|;
    GluedOccurrences(w, pat);
    hide OccursAt;
    assert ReplaceFrom(x, pat, rep, |x|) == "";
    assert ReplaceFrom(x, pat, rep, 2 + n) == rep + ReplaceFrom(x, pat, rep, 2 + n + n);
    assert ReplaceFrom(x, pat, rep, 1 + n) == [' '] + ReplaceFrom(x, pat, rep, 2 + n);
    assert ReplaceFrom(x, pat, rep, 1) == rep + ReplaceFrom(x, pat, rep, 1 + n);
    assert ReplaceFrom(x, pat, rep, 0) == [w] + ReplaceFrom(x, pat, rep, 1);
    assert [w] + (rep + ([' '] + (rep + ""))) == [w] + rep + " " + rep;
  }

  /** Where `pat` occurs in `[w] + pat + " " + pat`: right after `w` and at the end. */
  lemma GluedOccurrences(w: char, pat: string)
    requires |pat| > 0 && w != pat[0] && pat[0] != ' '
    ensures var x := [w] + pat + " " + pat; var n := |pat|;
      |x| == 2 + n + n && x[0] == w && x[1 + n] == ' ' &&
      !OccursAt(x, pat, 0) && OccursAt(x, pat, 1) && !OccursAt(x, pat, 1 + n) &&
      OccursAt(x, pat, 2 + n) && !OccursAt(x, pat, |x|)
  {
    var x := [w] + pat + " " + pat;
    var n := |pat|;
    assert !OccursAt(x, pat, 0) by { assert x[0] == w; }
    assert OccursAt(x, pat, 1) by { assert x[1..1 + n] == pat; }
    assert !OccursAt(x, pat, 1 + n) by { assert x[1 + n] == ' '; }
    assert OccursAt(x, pat, 2 + n) by { assert x[2 + n..2 + n + n] == pat; }
  }

  /** Steps 1 and 2 as written send every variable token to `calculations`; step 3 then replaces text. */
  lemma AsWrittenTokens(ts: seq<Token>, calcs: set<string>)
    requires WellFormed(ts)
    ensures RefsToRiosAsWritten(RedcapText(ts), calcs)
         == ReclassifyAsWritten(RiosText(ts, OneTable("calculations")), VarNames(ts), calcs)
  {
    SubDbRefsTokens("", ts);
    SubVarRefsTokens("", ts, OneTable("calculations"));
    assert "" + RedcapText(ts) == RedcapText(ts);
    assert "" + MidText(ts) == MidText(ts);
  }

  /** Step 3 as written for one name that is not a calculation. */
  lemma ReclassifyOne(s: string, v: string, calcs: set<string>)
    requires v !in calcs
    ensures ReclassifyAsWritten(s, [v], calcs) == Replace(s, RiosRef("calculations", v), RiosRef("assessment", v))
  {
    assert [v][1..] == [];
  }

  /**
   * As written, step 3 of convert_calc replaces `calculations["v"]` all
   * over the text, so `[xcalculations][v] [v]` with `v` not a calculation
   * has its database reference rewritten to `xassessment["v"]`.
   */
  lemma ReclassifyRewritesDbRefs(w: char, v: string)
    requires IsAsciiLetter(w) && w != 'c' && IsName(v)
    ensures var expr := RedcapText(GluedExample(w, v));
      RefsToRiosAsWritten(expr, {}) == [w] + RiosRef("assessment", v) + " " + RiosRef("assessment", v)
      && RefsToRios(expr, {}) == [w] + RiosRef("calculations", v) + " " + RiosRef("assessment", v)
      && RefsToRiosAsWritten(expr, {}) != RefsToRios(expr, {})
  {
    var pat := RiosRef("calculations", v);
    var rep := RiosRef("assessment", v);
    GluedAsWritten(w, v);
    GluedCorrected(w, v);
    assert pat[0] == 'c' && rep[0] == 'a';
    hide *;
    SecondChar(w, pat, rep);
    SecondChar(w, rep, rep);
  }

  lemma SecondChar(w: char, p: string, q: string)
    requires |p| > 0
    ensures |[w] + p + " " + q| > 1 && ([w] + p + " " + q)[1] == p[0]
  {
  }

  lemma GluedAsWritten(w: char, v: string)
    requires IsAsciiLetter(w) && w != 'c' && IsName(v)
    ensures RefsToRiosAsWritten(RedcapText(GluedExample(w, v)), {}) == [w] + RiosRef("assessment", v) + " " + RiosRef("assessment", v)
  {
    var ts := GluedExample(w, v);
    var pat := RiosRef("calculations", v);
    var rep := RiosRef("assessment", v);
    GluedExampleTexts(w, v, OneTable("calculations"));
    assert OneTable("calculations")(v) == "calculations";
    assert pat[0] == 'c' && w != 'c';
    hide *;
    AsWrittenTokens(ts, {});
    ReclassifyOne([w] + pat + " " + pat, v, {});
    ReplaceGlued(w, pat, rep);
  }

  lemma GluedCorrected(w: char, v: string)
    requires IsAsciiLetter(w) && IsName(v)
    ensures RefsToRios(RedcapText(GluedExample(w, v)), {}) == [w] + RiosRef("calculations", v) + " " + RiosRef("assessment", v)
  {
    var ts := GluedExample(w, v);
    GluedExampleTexts(w, v, Classify({}));
    assert Classify({})(v) == "assessment";
    hide *;
    RefsToRiosTokens(ts, {});
  }

  lemma TextsAppend(xs: seq<Token>, ys: seq<Token>, table: string -> string)
    ensures RedcapText(xs + ys) == RedcapText(xs) + RedcapText(ys)
    ensures RiosText(xs + ys, table) == RiosText(xs, table) + RiosText(ys, table)
  {
    RedcapTextAppend(xs, ys);
    RiosTextAppend(xs, ys, table);
  }

  lemma {:induction false} RedcapTextAppend(xs: seq<Token>, ys: seq<Token>)
    ensures RedcapText(xs + ys) == RedcapText(xs) + RedcapText(ys)
    decreases |xs|
  {
    hide RedcapOf;
    if |xs| == 0 {
      assert xs + ys == ys;
    } else {
      assert (xs + ys)[0] == xs[0] && (xs + ys)[1..] == xs[1..] + ys;
      RedcapTextAppend(xs[1..], ys);
      AppendAssoc(RedcapOf(xs[0]), RedcapText(xs[1..]), RedcapText(ys));
    }
  }

  lemma {:induction false} RiosTextAppend(xs: seq<Token>, ys: seq<Token>, table: string -> string)
    ensures RiosText(xs + ys, table) == RiosText(xs, table) + RiosText(ys, table)
    decreases |xs|
  {
    hide RiosOf;
    if |xs| == 0 {
      assert xs + ys == ys;
    } else {
      assert (xs + ys)[0] == xs[0] && (xs + ys)[1..] == xs[1..] + ys;
      RiosTextAppend(xs[1..], ys, table);
      AppendAssoc(RiosOf(xs[0], table), RiosText(xs[1..], table), RiosText(ys, table));
    }
  }

  lemma {:induction false} WellFormedAppend(xs: seq<Token>, ys: seq<Token>)
    requires WellFormed(xs) && WellFormed(ys)
    requires |xs| > 0 && |ys| > 0 ==> Joins(xs[|xs| - 1], ys[0])
    ensures WellFormed(xs + ys)
    decreases |xs|
  {
    if |xs| > 0 {
      assert (xs + ys)[1..] == xs[1..] + ys;
      WellFormedAppend(xs[1..], ys);
    } else {
      assert xs + ys == ys;
    }
  }

  /** ` + ` as plain tokens. */
  function PlusTokens(): seq<Token> { [Plain(' '), Plain('+'), Plain(' ')] }

  lemma PlusTokensFacts(table: string -> string)
    ensures WellFormed(PlusTokens())
    ensures RedcapText(PlusTokens()) == " + " && RiosText(PlusTokens(), table) == " + "
  {
    var ts := PlusTokens();
    assert ts[1..] == [Plain('+'), Plain(' ')] && ts[1..][1..] == [Plain(' ')] && ts[1..][1..][1..] == [];
  }

  lemma OneToken(t: Token, table: string -> string)
    requires TokenOk(t)
    ensures WellFormed([t]) && RedcapText([t]) == RedcapOf(t) && RiosText([t], table) == RiosOf(t, table)
  {
    assert [t][1..] == [];
  }

  /** The tokens of `[a] + [c] + [t][f]`. */
  function ExampleTokens(a: string, c: string, t: string, f: string): seq<Token>
  {
    [Var(a)] + (PlusTokens() + ([Var(c)] + (PlusTokens() + [Db(t, f)])))
  }

  lemma ExampleWellFormed(a: string, c: string, t: string, f: string)
    requires IsName(a) && IsName(c)
    requires IsName(t) && IsAsciiLetter(t[0]) && t != "assessment" && t != "calculations" && IsName(f)
    ensures WellFormed(ExampleTokens(a, c, t, f))
  {
    var plus := PlusTokens();
    var tail := [Var(c)] + (plus + [Db(t, f)]);
    PlusTokensFacts(OneTable(""));
    OneToken(Var(a), OneTable(""));
    OneToken(Var(c), OneTable(""));
    OneToken(Db(t, f), OneTable(""));
    assert Joins(plus[|plus| - 1], [Db(t, f)][0]);
    assert Joins([Var(c)][0], (plus + [Db(t, f)])[0]);
    assert Joins(plus[|plus| - 1], tail[0]);
    assert Joins([Var(a)][0], (plus + tail)[0]);
    hide *;
    WellFormedAppend(plus, [Db(t, f)]);
    WellFormedAppend([Var(c)], plus + [Db(t, f)]);
    WellFormedAppend(plus, tail);
    WellFormedAppend([Var(a)], plus + tail);
  }

  lemma ExampleTexts(a: string, c: string, t: string, f: string, table: string -> string)
    requires IsName(a) && IsName(c)
    requires IsName(t) && IsAsciiLetter(t[0]) && t != "assessment" && t != "calculations" && IsName(f)
    ensures RiosText(ExampleTokens(a, c, t, f), table)
         == RiosRef(table(a), a) + (" + " + (RiosRef(table(c), c) + (" + " + RiosRef(t, f))))
    ensures RedcapText(ExampleTokens(a, c, t, f))
         == ("[" + a + "]") + (" + " + (("[" + c + "]") + (" + " + DbRefText(t, f))))
  {
    var plus := PlusTokens();
    var tail := [Var(c)] + (plus + [Db(t, f)]);
    PlusTokensFacts(table);
    OneToken(Var(a), table);
    OneToken(Var(c), table);
    OneToken(Db(t, f), table);
    assert RiosOf(Var(a), table) == RiosRef(table(a), a) && RiosOf(Var(c), table) == RiosRef(table(c), c);
    assert RiosOf(Db(t, f), table) == RiosRef(t, f);
    assert RedcapOf(Var(a)) == "[" + a + "]" && RedcapOf(Var(c)) == "[" + c + "]";
    assert RedcapOf(Db(t, f)) == DbRefText(t, f);
    hide *;
    TextsAppend(plus, [Db(t, f)], table);
    TextsAppend([Var(c)], plus + [Db(t, f)], table);
    TextsAppend(plus, tail, table);
    TextsAppend([Var(a)], plus + tail, table);
  }

  /**
   * The convert_variables test: `assessment["a"] + calculations["c"] + t["f"]`
   * becomes `[a] + [c] + [t][f]`.
   */
  lemma ConvertVariablesExample(a: string, c: string, t: string, f: string)
    requires IsName(a) && IsName(c) && a != c
    requires IsName(t) && IsAsciiLetter(t[0]) && t != "assessment" && t != "calculations" && IsName(f)
    ensures VarsFrom(RiosRef("assessment", a) + " + " + RiosRef("calculations", c) + " + " + RiosRef(t, f), 0, true)
         == "[" + a + "] + [" + c + "] + " + DbRefText(t, f)
  {
    var calcs := {c};
    var table := Classify(calcs);
    assert table(a) == "assessment" && table(c) == "calculations";
    var A, C, D := RiosRef("assessment", a), RiosRef("calculations", c), RiosRef(t, f);
    assert A + " + " + C + " + " + D == A + (" + " + (C + (" + " + D)));
    var ra, rc, rd := "[" + a + "]", "[" + c + "]", DbRefText(t, f);
    assert "[" + a + "] + [" + c + "] + " + rd == ra + (" + " + (rc + (" + " + rd)));
    var ts := ExampleTokens(a, c, t, f);
    hide *;
    ExampleWellFormed(a, c, t, f);
    ExampleTexts(a, c, t, f, table);
    VarsFromTokens("", ts, calcs, true);
    assert "" + RiosText(ts, table) == RiosText(ts, table);
  }

  /** The two tables a bare variable goes to are names. */
  lemma TableNames()
    ensures IsName("assessment") && IsName("calculations")
  {
  }

  /** Steps 1 and 2 send `[t][f]` to `t["f"]`, whatever the table is called. */
  lemma DbRefToRios(tb: string, f: string, calcs: set<string>)
    requires IsName(tb) && IsName(f)
    ensures RefsToRios(DbRefText(tb, f), calcs) == RiosRef(tb, f)
  {
    var s := DbRefText(tb, f);
    var m := RiosRef(tb, f);
    DbRefTextLength(tb, f);
    RiosRefLength(tb, f);
    assert s[0..|s|] == s;
    DbStepDb(s, 0, tb, f);
    Empty([], s, OneTable(""));
    assert SubDbRefs(s, 0) == m;
    assert m[0..|m|] == m;
    VarStepDb(m, 0, tb, f, Classify(calcs));
    Empty([], m, Classify(calcs));
  }

  /**
   * A database reference into one of the two variable tables is read back
   * as a bare variable: `[assessment][f]` and `[calculations][f]` both come
   * back as `[f]`, whatever the calculations are.
   */
  lemma TableRefReadsAsVariable(tb: string, f: string, calcs: set<string>)
    requires (tb == "assessment" || tb == "calculations") && IsName(f)
    ensures VarsFrom(RefsToRios(DbRefText(tb, f), calcs), 0, true) == "[" + f + "]" != DbRefText(tb, f)
  {
    var placed: set<string> := if tb == "calculations" then {f} else {};
    var table := Classify(placed);
    assert table(f) == tb;
    OneToken(Var(f), table);
    assert RedcapOf(Var(f)) == "[" + f + "]" && RiosOf(Var(f), table) == RiosRef(tb, f);
    TableNames();
    DbRefToRios(tb, f, calcs);
    RefsToRiosTokens([Var(f)], placed);
    RefsRoundTrip([Var(f)], placed);
    assert |"[" + f + "]"| != |DbRefText(tb, f)|;
  }
}

=== FILE: rexl_expr.dfy ===
/**
 * RIOS (Python) expressions rewritten back into REDCap syntax:
 * convert_rexl_expression and convert_variables of redcap/from_rios.py.
 *
 * As in RedcapExpr, every `re.sub` is a left-to-right scanner that tries
 * the pattern at each index, emits the replacement on a match and resumes
 * after it.
 */
module RexlExpr {
  import opened Wrappers
  import opened Text
  import opened SymbolTables
  import opened RedcapExpr

  /** Step 1: each RIOS operator back to its REDCap form (`!=` to `<>`); a text without `!=` is kept. */
  function OpsToRedcap(s: string): (r: string)
    ensures !Contains(s, "!=") ==> r == s
  {
    assert Invert(OperatorToRexl) == [("!=", "<>")];
    ReplaceAll(s, Invert(OperatorToRexl))
  }

  /*
   * RE_pow_function is `\bmath.pow\(\s*(.+)\s*,\s*(.+)\s*\)`.  After the
   * prefix the match is fixed by four lengths, tried by the backtracking
   * matcher from the longest down: `a` for the first `\s*`, `b` for the
   * base `(.+)`, `d` for the `\s*` after the comma and `e` for the exponent
   * `(.+)`.  The other two `\s*` have no choice: the character after each
   * run of spaces must be the `,` or `)` that follows, and a space is
   * neither, so they take the whole run.  `.` matches anything but a
   * newline.
   */

  /** The four lengths of one way to match the tail of RE_pow_function. */
  datatype PowChoice = PowChoice(a: nat, b: nat, d: nat, e: nat)

  /** The order in which the matcher prefers choices: longer first, `a` most significant. */
  predicate LexLe(x: PowChoice, y: PowChoice)
  {
    x.a < y.a || (x.a == y.a && (x.b < y.b || (x.b == y.b && (x.d < y.d || (x.d == y.d && x.e <= y.e)))))
  }

  /** `\s*\)` right after index `y`: the index just past the `)`. */
  function CloseAfter(s: string, y: nat): (r: Option<nat>)
    requires y <= |s|
    ensures r.Some? ==> y < r.value <= |s| && s[r.value - 1] == ')'
  {
    var z := y + SpaceRun(s, y);
    if z < |s| && s[z] == ')' then Some(z + 1) else None
  }

  /** `\s*,` right after index `y`: the index of the comma. */
  function CommaAfter(s: string, y: nat): (r: Option<nat>)
    requires y <= |s|
    ensures r.Some? ==> y <= r.value < |s| && s[r.value] == ','
  {
    var z := y + SpaceRun(s, y);
    if z < |s| && s[z] == ',' then Some(z) else None
  }

  /** The longest exponent length `e <= hi` from `x` that `\s*\)` can follow. */
  function ExponentSearch(s: string, x: nat, hi: nat): (r: Option<nat>)
    requires x + hi <= |s|
    ensures r.Some? ==> 1 <= r.value <= hi && CloseAfter(s, x + r.value).Some?
    decreases hi
  {
    if hi == 0 then None
    else if CloseAfter(s, x + hi).Some? then Some(hi)
    else ExponentSearch(s, x, hi - 1)
  }

  /** The exponent group from `x` can be followed by `\s*\)`. */
  predicate ExponentFits(s: string, x: nat, e: nat)
  {
    1 <= e && x <= |s| && e <= LineRun(s, x) && CloseAfter(s, x + e).Some?
  }

  /** The longest `d <= hi` after the comma at `c` for which an exponent fits, with that exponent. */
  function CommaSearch(s: string, c: nat, hi: nat): (r: Option<(nat, nat)>)
    requires c + 1 + hi <= |s|
    ensures r.Some? ==> r.value.0 <= hi && ExponentFits(s, c + 1 + r.value.0, r.value.1)
    decreases hi
  {
    var x := c + 1 + hi;
    var e := ExponentSearch(s, x, LineRun(s, x));
    if e.Some? then Some((hi, e.value))
    else if hi == 0 then None
    else CommaSearch(s, c, hi - 1)
  }

  /** Everything after the comma at `c` fits with spaces `d` and exponent `e`. */
  predicate TailFits(s: string, c: nat, d: nat, e: nat)
  {
    c < |s| && d <= SpaceRun(s, c + 1) && ExponentFits(s, c + 1 + d, e)
  }

  /** What follows a base that ends at `y` fits with spaces `d` and exponent `e`. */
  predicate RestFits(s: string, y: nat, d: nat, e: nat)
  {
    y <= |s| && CommaAfter(s, y).Some? && TailFits(s, CommaAfter(s, y).value, d, e)
  }

  /** The matcher's way to fit what follows a base that ends at `y`. */
  function TailSearch(s: string, y: nat): (r: Option<(nat, nat)>)
    requires y <= |s|
    ensures r.Some? ==> RestFits(s, y, r.value.0, r.value.1)
  {
    var c := CommaAfter(s, y);
    if c.None? then None else CommaSearch(s, c.value, SpaceRun(s, c.value + 1))
  }

  /** The longest base length `b <= hi` from `y0` for which the rest fits. */
  function BaseSearch(s: string, y0: nat, hi: nat): (r: Option<(nat, nat, nat)>)
    requires y0 + hi <= |s|
    ensures r.Some? ==> 1 <= r.value.0 <= hi
    decreases hi
  {
    if hi == 0 then None
    else
      match TailSearch(s, y0 + hi)
      case Some((d, e)) => Some((hi, d, e))
      case None => BaseSearch(s, y0, hi - 1)
  }

  /** The base from `y0` fits with length `b`, spaces `d` and exponent `e`. */
  predicate BaseFits(s: string, y0: nat, b: nat, d: nat, e: nat)
  {
    1 <= b && y0 <= |s| && b <= LineRun(s, y0)
    && RestFits(s, y0 + b, d, e)
  }

  /** The longest leading-space length `a <= hi` from `q` for which the rest fits. */
  function LeadSearch(s: string, q: nat, hi: nat): (r: Option<PowChoice>)
    requires q + hi <= |s|
    ensures r.Some? ==> r.value.a <= hi
    decreases hi
  {
    var y0 := q + hi;
    var t := BaseSearch(s, y0, LineRun(s, y0));
    if t.Some? then Some(PowChoice(hi, t.value.0, t.value.1, t.value.2))
    else if hi == 0 then None
    else LeadSearch(s, q, hi - 1)
  }

  lemma {:induction false} BaseSearchSound(s: string, y0: nat, hi: nat)
    requires y0 + hi <= |s| && hi <= LineRun(s, y0)
    ensures var r := BaseSearch(s, y0, hi);
      r.Some? ==> BaseFits(s, y0, r.value.0, r.value.1, r.value.2)
    decreases hi
  {
    hide RestFits, LineRun, SpaceRun, CommaSearch, ExponentSearch, CloseAfter, CommaAfter;
    if hi > 0 && TailSearch(s, y0 + hi).None? {
      BaseSearchSound(s, y0, hi - 1);
    }
  }

  lemma {:induction false} LeadSearchSound(s: string, q: nat, hi: nat)
    requires q + hi <= |s|
    ensures var r := LeadSearch(s, q, hi);
      r.Some? ==> BaseFits(s, q + r.value.a, r.value.b, r.value.d, r.value.e)
    decreases hi
  {
    hide BaseFits, RestFits, LineRun, SpaceRun, TailSearch, CommaSearch, ExponentSearch, CloseAfter, CommaAfter;
    BaseSearchSound(s, q + hi, LineRun(s, q + hi));
    if hi > 0 && BaseSearch(s, q + hi, LineRun(s, q + hi)).None? {
      LeadSearchSound(s, q, hi - 1);
    }
  }

  /** A way to match the tail of RE_pow_function from `q`, the index after `math.pow(`. */
  predicate PowFits(s: string, q: nat, ch: PowChoice)
  {
    q <= |s| && ch.a <= SpaceRun(s, q) && BaseFits(s, q + ch.a, ch.b, ch.d, ch.e)
  }

  lemma {:induction false} ExponentSearchGreatest(s: string, x: nat, hi: nat, e: nat)
    requires x + hi <= |s| && 1 <= e <= hi && CloseAfter(s, x + e).Some?
    ensures ExponentSearch(s, x, hi).Some? && e <= ExponentSearch(s, x, hi).value
    decreases hi
  {
    if e < hi && CloseAfter(s, x + hi).None? {
      ExponentSearchGreatest(s, x, hi - 1, e);
    }
  }

  lemma CommaSearchHit(s: string, c: nat, hi: nat, d: nat, e: nat)
    requires c + 1 + hi <= |s| && d <= hi && ExponentFits(s, c + 1 + d, e)
    requires ExponentSearch(s, c + 1 + hi, LineRun(s, c + 1 + hi)).Some?
    ensures CommaSearch(s, c, hi).Some?
    ensures var r := CommaSearch(s, c, hi).value; d < r.0 || (d == r.0 && e <= r.1)
  {
    hide ExponentSearch, LineRun, SpaceRun, CloseAfter;
    if d == hi {
      ExponentSearchGreatest(s, c + 1 + hi, LineRun(s, c + 1 + hi), e);
    }
  }

  lemma CommaSearchMiss(s: string, c: nat, hi: nat, d: nat, e: nat)
    requires c + 1 + hi <= |s| && d <= hi && ExponentFits(s, c + 1 + d, e)
    requires ExponentSearch(s, c + 1 + hi, LineRun(s, c + 1 + hi)).None?
    ensures d < hi && CommaSearch(s, c, hi) == CommaSearch(s, c, hi - 1)
  {
    hide ExponentSearch, LineRun, SpaceRun, CloseAfter;
    if d == hi {
      ExponentSearchGreatest(s, c + 1 + hi, LineRun(s, c + 1 + hi), e);
      assert false;
    }
  }

  lemma {:induction false} CommaSearchGreatest(s: string, c: nat, hi: nat, d: nat, e: nat)
    requires c + 1 + hi <= |s| && d <= hi && ExponentFits(s, c + 1 + d, e)
    ensures CommaSearch(s, c, hi).Some?
    ensures var r := CommaSearch(s, c, hi).value; d < r.0 || (d == r.0 && e <= r.1)
    decreases hi
  {
    hide *;
    if ExponentSearch(s, c + 1 + hi, LineRun(s, c + 1 + hi)).Some? {
      CommaSearchHit(s, c, hi, d, e);
    } else {
      CommaSearchMiss(s, c, hi, d, e);
      CommaSearchGreatest(s, c, hi - 1, d, e);
    }
  }

  lemma TailSearchGreatest(s: string, y: nat, d: nat, e: nat)
    requires RestFits(s, y, d, e)
    ensures TailSearch(s, y).Some?
    ensures var r := TailSearch(s, y).value; d < r.0 || (d == r.0 && e <= r.1)
  {
    var c := CommaAfter(s, y).value;
    CommaSearchGreatest(s, c, SpaceRun(s, c + 1), d, e);
  }

  lemma BaseSearchHit(s: string, y0: nat, hi: nat, b: nat, d: nat, e: nat)
    requires y0 + hi <= |s| && b <= hi && BaseFits(s, y0, b, d, e)
    requires TailSearch(s, y0 + hi).Some?
    ensures BaseSearch(s, y0, hi).Some?
    ensures var r := BaseSearch(s, y0, hi).value;
      b < r.0 || (b == r.0 && (d < r.1 || (d == r.1 && e <= r.2)))
  {
    hide TailSearch, RestFits, LineRun, SpaceRun, CommaSearch, ExponentSearch, CloseAfter, CommaAfter;
    if b == hi {
      TailSearchGreatest(s, y0 + hi, d, e);
    }
  }

  lemma BaseSearchMiss(s: string, y0: nat, hi: nat, b: nat, d: nat, e: nat)
    requires y0 + hi <= |s| && b <= hi && BaseFits(s, y0, b, d, e)
    requires TailSearch(s, y0 + hi).None?
    ensures b < hi && BaseSearch(s, y0, hi) == BaseSearch(s, y0, hi - 1)
  {
    hide TailSearch, RestFits, LineRun, SpaceRun, CommaSearch, ExponentSearch, CloseAfter, CommaAfter;
    if b == hi {
      TailSearchGreatest(s, y0 + hi, d, e);
      assert false;
    }
  }

  lemma {:induction false} BaseSearchGreatest(s: string, y0: nat, hi: nat, b: nat, d: nat, e: nat)
    requires y0 + hi <= |s| && b <= hi && BaseFits(s, y0, b, d, e)
    ensures BaseSearch(s, y0, hi).Some?
    ensures var r := BaseSearch(s, y0, hi).value;
      b < r.0 || (b == r.0 && (d < r.1 || (d == r.1 && e <= r.2)))
    decreases hi
  {
    hide *;
    if TailSearch(s, y0 + hi).Some? {
      BaseSearchHit(s, y0, hi, b, d, e);
    } else {
      BaseSearchMiss(s, y0, hi, b, d, e);
      BaseSearchGreatest(s, y0, hi - 1, b, d, e);
    }
  }

  lemma LeadSearchHit(s: string, q: nat, hi: nat, ch: PowChoice)
    requires q + hi <= |s| && ch.a <= hi && BaseFits(s, q + ch.a, ch.b, ch.d, ch.e)
    requires BaseSearch(s, q + hi, LineRun(s, q + hi)).Some?
    ensures LeadSearch(s, q, hi).Some? && LexLe(ch, LeadSearch(s, q, hi).value)
  {
    hide BaseSearch, RestFits, LineRun, SpaceRun, TailSearch, CommaSearch, ExponentSearch, CloseAfter, CommaAfter;
    if ch.a == hi {
      BaseSearchGreatest(s, q + hi, LineRun(s, q + hi), ch.b, ch.d, ch.e);
    }
  }

  lemma LeadSearchMiss(s: string, q: nat, hi: nat, ch: PowChoice)
    requires q + hi <= |s| && ch.a <= hi && BaseFits(s, q + ch.a, ch.b, ch.d, ch.e)
    requires BaseSearch(s, q + hi, LineRun(s, q + hi)).None?
    ensures ch.a < hi && LeadSearch(s, q, hi) == LeadSearch(s, q, hi - 1)
  {
    hide BaseSearch, RestFits, LineRun, SpaceRun, TailSearch, CommaSearch, ExponentSearch, CloseAfter, CommaAfter;
    if ch.a == hi {
      BaseSearchGreatest(s, q + hi, LineRun(s, q + hi), ch.b, ch.d, ch.e);
      assert false;
    }
  }

  lemma {:induction false} LeadSearchGreatest(s: string, q: nat, hi: nat, ch: PowChoice)
    requires q + hi <= |s| && ch.a <= hi && BaseFits(s, q + ch.a, ch.b, ch.d, ch.e)
    ensures LeadSearch(s, q, hi).Some? && LexLe(ch, LeadSearch(s, q, hi).value)
    decreases hi
  {
    hide *;
    if BaseSearch(s, q + hi, LineRun(s, q + hi)).Some? {
      LeadSearchHit(s, q, hi, ch);
    } else {
      LeadSearchMiss(s, q, hi, ch);
      LeadSearchGreatest(s, q, hi - 1, ch);
    }
  }

  /** The choice the matcher settles on from `q`: the greatest one that fits. */
  function PowTail(s: string, q: nat): (r: Option<PowChoice>)
    requires q <= |s|
    ensures r.Some? ==> PowFits(s, q, r.value)
  {
    LeadSearchSound(s, q, SpaceRun(s, q));
    LeadSearch(s, q, SpaceRun(s, q))
  }

  /** The matcher finds a way whenever there is one, and prefers it to every other. */
  lemma PowTailGreatest(s: string, q: nat, ch: PowChoice)
    requires PowFits(s, q, ch)
    ensures PowTail(s, q).Some? && LexLe(ch, PowTail(s, q).value)
  {
    LeadSearchGreatest(s, q, SpaceRun(s, q), ch);
  }
  /** The groups of one RE_pow_function match and the index just past it. */
  datatype PowMatch = PowMatch(base: string, exponent: string, end: nat)

  /** The groups a fitting choice captures. */
  function PowGroups(s: string, q: nat, ch: PowChoice): (m: PowMatch)
    requires PowFits(s, q, ch)
    ensures q < m.end <= |s| && |m.base| == ch.b && |m.exponent| == ch.e
  {
    var y0 := q + ch.a;
    var c := CommaAfter(s, y0 + ch.b).value;
    var x := c + 1 + ch.d;
    PowMatch(s[y0..y0 + ch.b], s[x..x + ch.e], CloseAfter(s, x + ch.e).value)
  }

  /** The literal part `\bmath.pow\(` at index `i`; its `.` is a wildcard. */
  predicate PowPrefixAt(s: string, i: nat)
  {
    WordBoundary(s, i) && PatternAt(s, "math.pow(", i)
  }

  /** RE_pow_function at index `i`. */
  function PowAt(s: string, i: nat): (r: Option<PowMatch>)
    requires i <= |s|
    ensures r.Some? ==> i + 9 < r.value.end <= |s|
  {
    if PowPrefixAt(s, i) then
      match PowTail(s, i + 9)
      case Some(ch) => Some(PowGroups(s, i + 9, ch))
      case None => None
    else None
  }

  /** Step 2: `RE_pow_function.sub(r'(\1)^(\2)', s)` from index `i`. */
  function PowToCaretFrom(s: string, i: nat): string
    requires i <= |s|
    decreases |s| - i
  {
    if i == |s| then ""
    else
      match PowAt(s, i)
      case Some(m) => CaretCall(m.base, m.exponent) + PowToCaretFrom(s, m.end)
      case None => [s[i]] + PowToCaretFrom(s, i + 1)
  }

  /** Step 2 over the whole text; a text without `(` holds no `math.pow(` and is kept. */
  function PowToCaret(s: string): (r: string)
    ensures '(' !in s ==> r == s
  {
    if '(' !in s then PowSuffixCopied(s, 0); PowToCaretFrom(s, 0) else PowToCaretFrom(s, 0)
  }

  /** A match of RE_pow_function needs the `(` of its prefix eight places on. */
  lemma PowAtNeedsParen(s: string, k: nat)
    requires k <= |s|
    ensures PowAt(s, k).Some? ==> k + 8 < |s| && s[k + 8] == '('
  {
    if PowAt(s, k).Some? {
      assert CharMatches(s[k + 8], "math.pow("[8]);
    }
  }

  /** Indices where RE_pow_function does not match are copied one by one. */
  lemma {:induction false} PowCopies(s: string, i: nat, j: nat)
    requires i <= j <= |s|
    requires forall k :: i <= k < j ==> PowAt(s, k).None?
    ensures PowToCaretFrom(s, i) == s[i..j] + PowToCaretFrom(s, j)
    decreases j - i
  {
    hide PowAt, PowToCaretFrom;
    if i < j {
      PowCopyStep(s, i);
      PowCopies(s, i + 1, j);
      assert s[i..j] == [s[i]] + s[i + 1..j];
      AppendAssoc([s[i]], s[i + 1..j], PowToCaretFrom(s, j));
    }
  }

  /** Where RE_pow_function does not match, one character is copied. */
  lemma PowCopyStep(s: string, i: nat)
    requires i < |s| && PowAt(s, i).None?
    ensures PowToCaretFrom(s, i) == [s[i]] + PowToCaretFrom(s, i + 1)
  {
    hide PowAt;
  }

  /** A tail without `(` is copied whole. */
  lemma PowSuffixCopied(s: string, i: nat)
    requires i <= |s|
    requires forall k :: i <= k < |s| ==> s[k] != '('
    ensures PowToCaretFrom(s, i) == s[i..|s|]
  {
    forall k | i <= k < |s| ensures PowAt(s, k).None? {
      PowAtNeedsParen(s, k);
    }
    hide *;
    PowCopies(s, i, |s|);
    PowToCaretEnd(s);
  }

  lemma PowToCaretEnd(s: string)
    ensures PowToCaretFrom(s, |s|) == ""
  {
  }


  /*
   * RE_variable_reference is `\b([a-zA-Z][\w_]*)\[\s*(["'])([^\2\]]*)\2\s*\]`.
   * Inside a character class `\2` is the octal escape for the character
   * with code 2, not a back-reference, so the field may hold quotes and
   * stops only at `]` or that character.  The table group must take the
   * whole word, since `[` is not a word character; the `\s*` runs take
   * every space, since a quote and `]` are not spaces; and the field,
   * greedy, gives back characters until what is left is the quote that
   * opened it followed by spaces and the first `]`.
   */

  /** The groups of one RE_variable_reference match and the index just past it. */
  datatype VarMatch = VarMatch(table: string, field: string, end: nat)

  predicate IsQuote(c: char) { c == '"' || c == '\'' }

  /** How far `[^\2\]]*` reaches from `i`. */
  function FieldRun(s: string, i: nat): (n: nat)
    requires i <= |s|
    ensures i + n <= |s|
    ensures i + n == |s| || s[i + n] == ']' || s[i + n] == 2 as char
    decreases |s| - i
  {
    if i < |s| && s[i] != ']' && s[i] != 2 as char then 1 + FieldRun(s, i + 1) else 0
  }

  /** The number of spaces just before index `j`, not reaching below `lo`. */
  function SpacesBefore(s: string, lo: nat, j: nat): (n: nat)
    requires lo <= j <= |s|
    ensures n <= j - lo
    ensures n < j - lo ==> !IsSpace(s[j - n - 1])
    decreases j
  {
    if lo < j && IsSpace(s[j - 1]) then 1 + SpacesBefore(s, lo, j - 1) else 0
  }

  /**
   * RE_variable_reference at index `i` of `s` when the search runs over a
   * suffix of `s` that starts at `i` (`anchored`) or earlier.  `\b` holds at
   * the start of the searched suffix whatever precedes it in `s`.
   */
  function VarRefAt(s: string, i: nat, anchored: bool): (r: Option<VarMatch>)
    requires i <= |s|
    ensures r.Some? ==> i < r.value.end <= |s|
  {
    if i < |s| && IsAsciiLetter(s[i]) && (anchored || i == 0 || !IsWordChar(s[i - 1])) then
      var o := i + WordRun(s, i);
      if o < |s| && s[o] == '[' then
        var open := o + 1 + SpaceRun(s, o + 1);
        if open < |s| && IsQuote(s[open]) then
          var m := open + 1 + FieldRun(s, open + 1);
          if m < |s| && s[m] == ']' then
            var close := m - SpacesBefore(s, open + 1, m) - 1;
            if open < close && s[close] == s[open] then
              Some(VarMatch(s[i..o], s[open + 1..close], m + 1))
            else None
          else None
        else None
      else None
    else None
  }

  /** The REDCap text of a matched reference. */
  function VarReplacement(m: VarMatch): string
  {
    if m.table == "assessment" || m.table == "calculations" then "[" + m.field + "]"
    else "[" + m.table + "][" + m.field + "]"
  }

  /** convert_variables from index `i`, the text scanned one character at a time; text without `[` is copied. */
  function VarsFrom(s: string, i: nat, anchored: bool): (r: string)
    requires i <= |s|
    ensures '[' !in s[i..] ==> r == s[i..]
    decreases |s| - i
  {
    if i == |s| then ""
    else
      match VarRefAt(s, i, anchored)
      case Some(m) =>
        VarRefOpens(s, i, anchored);
        VarReplacement(m) + VarsFrom(s, m.end, true)
      case None =>
        SuffixAt(s, i, i + 1);
        [s[i]] + VarsFrom(s, i + 1, false)
  }

  /** A variable reference holds the `[` after its table name. */
  lemma VarRefOpens(s: string, i: nat, anchored: bool)
    requires i <= |s| && VarRefAt(s, i, anchored).Some?
    ensures '[' in s[i..]
  {
    var o := i + WordRun(s, i);
    assert s[i..][o - i] == s[o];
  }

  /** `RE_variable_reference.search(s[start:])`: the first match and where it starts. */
  function SearchVar(s: string, i: nat, anchored: bool): (r: Option<(nat, VarMatch)>)
    requires i <= |s|
    ensures r.Some? ==> i <= r.value.0 < r.value.1.end <= |s|
    decreases |s| - i
  {
    match VarRefAt(s, i, anchored)
    case Some(m) => Some((i, m))
    case None => if i == |s| then None else SearchVar(s, i + 1, false)
  }

  /** What one round of the convert_variables loop relies on. */
  lemma {:induction false} SearchVarSplits(s: string, i: nat, anchored: bool)
    requires i <= |s|
    ensures SearchVar(s, i, anchored).None? ==> VarsFrom(s, i, anchored) == s[i..]
    ensures SearchVar(s, i, anchored).Some? ==>
      var (p, m) := SearchVar(s, i, anchored).value;
      VarsFrom(s, i, anchored) == s[i..p] + VarReplacement(m) + VarsFrom(s, m.end, true)
    decreases |s| - i
  {
    hide *;
    if VarRefAt(s, i, anchored).None? && i < |s| {
      VarsFromCopy(s, i, anchored);
      SearchVarSplits(s, i + 1, false);
      match SearchVar(s, i + 1, false)
      case None =>
        ConsSlice(s, i, |s|, [], []);
      case Some((p, m)) =>
        ConsSlice(s, i, p, VarReplacement(m), VarsFrom(s, m.end, true));
    } else if VarRefAt(s, i, anchored).Some? {
      VarsFromMatch(s, i, anchored, VarRefAt(s, i, anchored).value);
    } else {
      VarsFromEnd(s, anchored);
    }
  }

  /** A character copied in front of the rest of a slice extends the slice. */
  lemma ConsSlice(s: string, i: nat, p: nat, a: string, b: string)
    requires i < p <= |s|
    ensures [s[i]] + (s[i + 1..p] + a + b) == s[i..p] + a + b
    ensures p == |s| ==> [s[i]] + s[i + 1..] == s[i..]
  {
    assert s[i..p] == [s[i]] + s[i + 1..p];
  }

  /** Where no reference starts, one character is copied and the search moves on. */
  lemma VarsFromCopy(s: string, i: nat, anchored: bool)
    requires i < |s| && VarRefAt(s, i, anchored).None?
    ensures VarsFrom(s, i, anchored) == [s[i]] + VarsFrom(s, i + 1, false)
    ensures SearchVar(s, i, anchored) == SearchVar(s, i + 1, false)
  {
    hide VarRefAt;
  }

  /** At the end no reference starts and nothing is left to copy. */
  lemma VarsFromEnd(s: string, anchored: bool)
    ensures VarRefAt(s, |s|, anchored).None? && SearchVar(s, |s|, anchored).None?
    ensures VarsFrom(s, |s|, anchored) == s[|s|..]
  {
    hide VarReplacement;
  }

  /** Where a reference starts, the search stops there and the reference is replaced. */
  lemma VarsFromMatch(s: string, i: nat, anchored: bool, m: VarMatch)
    requires i <= |s| && VarRefAt(s, i, anchored) == Some(m)
    ensures SearchVar(s, i, anchored) == Some((i, m))
    ensures VarsFrom(s, i, anchored) == s[i..i] + VarReplacement(m) + VarsFrom(s, m.end, true)
  {
    hide *;
    VarsFromMatchStep(s, i, anchored, m);
    assert s[i..i] == [];
  }

  /** One step of convert_variables at a reference. */
  lemma VarsFromMatchStep(s: string, i: nat, anchored: bool, m: VarMatch)
    requires i <= |s| && VarRefAt(s, i, anchored) == Some(m)
    ensures SearchVar(s, i, anchored) == Some((i, m))
    ensures VarsFrom(s, i, anchored) == VarReplacement(m) + VarsFrom(s, m.end, true)
  {
    hide VarRefAt, VarReplacement;
  }


  /** The loop of convert_variables computes VarsFrom from the start. */
  method ConvertVariables(s: string) returns (answer: string)
    ensures answer == VarsFrom(s, 0, true)
  {
    var start := 0;
    answer := "";
    var found := SearchVar(s, start, true);
    SearchVarSplits(s, start, true);
    while found.Some?
      invariant start <= |s| && found == SearchVar(s, start, true)
      invariant answer + VarsFrom(s, start, true) == VarsFrom(s, 0, true)
      decreases |s| - start
    {
      var (p, m) := found.value;
      SearchVarSplits(s, start, true);
      var piece := s[start..p] + VarReplacement(m);
      AppendAssoc(answer, piece, VarsFrom(s, m.end, true));
      answer := answer + piece;
      start := m.end;
      found := SearchVar(s, start, true);
    }
    SearchVarSplits(s, start, true);
    answer := answer + s[start..];
  }

  /**
   * convert_rexl_expression with the corrected FUNCTION_TO_REDCAP:
   * operators, powers, function names, then variables.  An expression with
   * no reference, call or `!=` is kept.
   */
  function ConvertRexl(rexl: string): (r: string)
    ensures '[' !in rexl && '(' !in rexl && !Contains(rexl, "!=") ==> r == rexl
  {
    assert rexl[0..] == rexl;
    var s := RenameCalls(PowToCaret(OpsToRedcap(rexl)), FunctionToRedcap);
    VarsFrom(s, 0, true)
  }

  /** convert_rexl_expression as written, over the inverse of the as-written FUNCTION_TO_PYTHON. */
  function ConvertRexlAsWritten(rexl: string): (r: string)
    ensures '[' !in rexl && '(' !in rexl && !Contains(rexl, "!=") ==> r == rexl
  {
    assert rexl[0..] == rexl;
    var s := RenameCalls(PowToCaret(OpsToRedcap(rexl)), FunctionToRedcapAsWritten);
    VarsFrom(s, 0, true)
  }
}

=== FILE: rexl_round_trip.dfy ===
/**
 * How the reverse rewrites of RexlExpr undo the forward rewrites of
 * RedcapExpr: the power rewrite `math.pow(b, e)` back to `(b)^(e)`, and the
 * operator table back to REDCap operators.
 */
module RexlRoundTrip {
  import opened Wrappers
  import opened Text
  import opened RedcapExpr
  import opened RexlExpr
  import opened SymbolTables

  /**
   * Operands the greedy RE_pow_function captures exactly: one line each,
   * not starting with a space (`\s*` would swallow it), and no comma in the
   * exponent (the base would grow up to it).
   */
  predicate PowOperandsOk(b: string, e: string)
  {
    |b| > 0 && |e| > 0 && '\n' !in b && '\n' !in e && !IsSpace(b[0]) && !IsSpace(e[0]) && ',' !in e
  }

  /**
   * Text around one `math.pow` call that neither starts another match nor
   * lets the greedy groups run past the call's own `,` and `)`.
   */
  predicate PowContextOk(p: string, q: string)
  {
    '(' !in p && (|p| == 0 || !IsWordChar(p[|p| - 1])) && '(' !in q && ')' !in q && ',' !in q
  }

  /** Where each piece of `p + math.pow(b, e) + q` sits. */
  lemma PowLayout(s: string, p: string, b: string, e: string, q: string)
    requires s == p + PowCall(b, e) + q
    ensures |s| == |p| + 12 + |b| + |e| + |q|
    ensures s[..|p|] == p && s[|p| + 9..|p| + 9 + |b|] == b
    ensures s[|p| + 11 + |b|..|p| + 11 + |b| + |e|] == e && s[|p| + 12 + |b| + |e|..] == q
    ensures forall k :: 0 <= k < 9 ==> s[|p| + k] == "math.pow("[k]
    ensures s[|p| + 9 + |b|] == ',' && s[|p| + 10 + |b|] == ' ' && s[|p| + 11 + |b| + |e|] == ')'
  {
    var head := p + "math.pow(";
    assert s == head + b + ", " + e + ")" + q;
    assert s[..|p|] == head[..|p|];
    assert s[|p| + 9..|p| + 9 + |b|] == (head + b)[|head|..];
  }

  /** The characters of the call and its context that the pow scanner looks at. */
  lemma PowCharacters(s: string, p: string, b: string, e: string, q: string)
    requires s == p + PowCall(b, e) + q && PowOperandsOk(b, e) && PowContextOk(p, q)
    ensures forall k :: |p| + 9 + |b| < k < |s| ==> s[k] != ','
    ensures forall k :: |p| + 11 + |b| + |e| < k < |s| ==> s[k] != ')' && s[k] != '('
    ensures forall k :: 0 <= k < |p| + 8 ==> s[k] != '('
    ensures !IsSpace(s[|p| + 9]) && !IsSpace(s[|p| + 11 + |b|])
    ensures forall k :: |p| + 9 <= k < |p| + 9 + |b| ==> s[k] != '\n'
    ensures forall k :: |p| + 11 + |b| <= k < |p| + 11 + |b| + |e| ==> s[k] != '\n'
  {
    PowTailCharacters(s, p, b, e, q);
    PowHeadCharacters(s, p, b, e, q);
    PowOperandCharacters(s, p, b, e, q);
  }

  /** After the comma: no other comma, and after the `)` no parenthesis. */
  lemma PowTailCharacters(s: string, p: string, b: string, e: string, q: string)
    requires s == p + PowCall(b, e) + q && PowOperandsOk(b, e) && PowContextOk(p, q)
    ensures forall k :: |p| + 9 + |b| < k < |s| ==> s[k] != ','
    ensures forall k :: |p| + 11 + |b| + |e| < k < |s| ==> s[k] != ')' && s[k] != '('
  {
    PowLayout(s, p, b, e, q);
    var c := |p| + 9 + |b|;
    var x, close := c + 2, c + 2 + |e|;
    forall k | c < k < |s| ensures s[k] != ',' {
      if x <= k < close {
        assert s[k] == s[x..close][k - x];
      } else if close < k {
        assert s[k] == s[close + 1..][k - close - 1];
      }
    }
    forall k | close < k < |s| ensures s[k] != ')' && s[k] != '(' {
      assert s[k] == s[close + 1..][k - close - 1];
    }
  }

  /** No `(` before the one that opens the call. */
  lemma PowHeadCharacters(s: string, p: string, b: string, e: string, q: string)
    requires s == p + PowCall(b, e) + q && PowContextOk(p, q)
    ensures forall k :: 0 <= k < |p| + 8 ==> s[k] != '('
  {
    PowLayout(s, p, b, e, q);
    forall k | 0 <= k < |p| + 8 ensures s[k] != '(' {
      if k < |p| {
        assert s[k] == s[..|p|][k];
      } else {
        assert s[k] == "math.pow("[k - |p|];
      }
    }
  }

  /** Each operand starts with a non-blank and stays on one line. */
  lemma PowOperandCharacters(s: string, p: string, b: string, e: string, q: string)
    requires s == p + PowCall(b, e) + q && PowOperandsOk(b, e)
    ensures |s| == |p| + 12 + |b| + |e| + |q|
    ensures !IsSpace(s[|p| + 9]) && !IsSpace(s[|p| + 11 + |b|])
    ensures forall k :: |p| + 9 <= k < |p| + 9 + |b| ==> s[k] != '\n'
    ensures forall k :: |p| + 11 + |b| <= k < |p| + 11 + |b| + |e| ==> s[k] != '\n'
  {
    PowLayout(s, p, b, e, q);
    var c := |p| + 9 + |b|;
    var x, close := c + 2, c + 2 + |e|;
    assert s[|p| + 9] == s[|p| + 9..c][0];
    assert s[x] == s[x..close][0];
    forall k | |p| + 9 <= k < c ensures s[k] != '\n' {
      assert s[k] == s[|p| + 9..c][k - |p| - 9];
    }
    forall k | x <= k < close ensures s[k] != '\n' {
      assert s[k] == s[x..close][k - x];
    }
  }

  /**
   * What the pow scanner sees of a call `math.pow(` at `i`, a base of `nb`
   * characters, `, `, an exponent of `ne` characters and `)`, followed by
   * text without a comma or a closing parenthesis.
   */
  predicate CallShape(s: string, i: nat, nb: nat, ne: nat)
  {
    var c := i + 9 + nb;
    var close := c + 2 + ne;
    0 < nb && 0 < ne && close < |s|
    && PatternAt(s, "math.pow(", i) && WordBoundary(s, i)
    && !IsSpace(s[i + 9]) && !IsSpace(s[c + 2])
    && s[c] == ',' && s[c + 1] == ' ' && s[close] == ')'
    && (forall k :: i + 9 <= k < c ==> s[k] != '\n')
    && (forall k :: c + 2 <= k < close ==> s[k] != '\n')
    && (forall k :: c < k < |s| ==> s[k] != ',')
    && (forall k :: close < k < |s| ==> s[k] != ')')
  }

  /** The choice the matcher must settle on for a call of that shape. */
  function CallChoice(nb: nat, ne: nat): PowChoice
  {
    PowChoice(0, nb, 1, ne)
  }

  /** After the comma: one space, then the exponent and its `)`. */
  lemma CallTailFits(s: string, i: nat, nb: nat, ne: nat)
    requires CallShape(s, i, nb, ne)
    ensures TailFits(s, i + 9 + nb, 1, ne)
  {
    var c := i + 9 + nb;
    var x := c + 2;
    LineRunSpans(s, x, ne);
    assert SpaceRun(s, x + ne) == 0;
    assert CloseAfter(s, x + ne).Some?;
    assert ExponentFits(s, x, ne);
    assert SpaceRun(s, x) == 0;
    assert SpaceRun(s, c + 1) == 1;
  }

  /** The call's own lengths fit the tail of RE_pow_function. */
  lemma CallChoiceFits(s: string, i: nat, nb: nat, ne: nat)
    requires CallShape(s, i, nb, ne)
    ensures PowFits(s, i + 9, CallChoice(nb, ne))
  {
    var q0 := i + 9;
    var c := q0 + nb;
    LineRunSpans(s, q0, nb);
    CallTailFits(s, i, nb, ne);
    assert SpaceRun(s, c) == 0;
    assert CommaAfter(s, c) == Some(c);
    assert RestFits(s, c, 1, ne);
    assert BaseFits(s, q0, nb, 1, ne);
  }

  /** With the base taken whole, no exponent reaches past the call's `)`. */
  lemma CallTailGreatest(s: string, i: nat, nb: nat, ne: nat, d: nat, e: nat)
    requires CallShape(s, i, nb, ne)
    requires TailFits(s, i + 9 + nb, d, e)
    ensures d <= 1 && (d == 1 ==> e <= ne)
  {
    var c := i + 9 + nb;
    assert SpaceRun(s, c + 2) == 0;
    assert SpaceRun(s, c + 1) == 1;
    if d == 1 {
      var w := CloseAfter(s, c + 2 + e).value;
      assert s[w - 1] == ')';
    }
  }

  /** No other way to match the tail reaches further than the call's own. */
  lemma CallChoiceGreatest(s: string, i: nat, nb: nat, ne: nat, ch: PowChoice)
    requires CallShape(s, i, nb, ne)
    requires PowFits(s, i + 9, ch)
    ensures LexLe(ch, CallChoice(nb, ne))
  {
    hide CallShape, PowFits, TailFits;
    CallBaseGreatest(s, i, nb, ne, ch);
    if ch.b == nb {
      CallTailGreatest(s, i, nb, ne, ch.d, ch.e);
    }
  }

  /** No leading space, and the base stops at the call's comma at the latest. */
  lemma CallBaseGreatest(s: string, i: nat, nb: nat, ne: nat, ch: PowChoice)
    requires CallShape(s, i, nb, ne)
    requires PowFits(s, i + 9, ch)
    ensures ch.a == 0 && ch.b <= nb
    ensures ch.b == nb ==> TailFits(s, i + 9 + nb, ch.d, ch.e)
  {
    var q0 := i + 9;
    var c := q0 + nb;
    CallShapeRuns(s, i, nb, ne);
    hide CallShape, LineRun, TailFits;
    assert RestFits(s, q0 + ch.b, ch.d, ch.e);
    var z := CommaAfter(s, q0 + ch.b).value;
    assert s[z] == ',';
  }

  /** No blank opens the base, none precedes the call's comma, and no comma follows it. */
  lemma CallShapeRuns(s: string, i: nat, nb: nat, ne: nat)
    requires CallShape(s, i, nb, ne)
    ensures SpaceRun(s, i + 9) == 0 && SpaceRun(s, i + 9 + nb) == 0
    ensures s[i + 9 + nb] == ',' && forall k :: i + 9 + nb < k < |s| ==> s[k] != ','
  {
  }

  /** The matcher's choice is the call's own. */
  lemma CallPowTail(s: string, i: nat, nb: nat, ne: nat)
    requires CallShape(s, i, nb, ne)
    ensures PowTail(s, i + 9) == Some(CallChoice(nb, ne))
  {
    CallChoiceFits(s, i, nb, ne);
    PowTailGreatest(s, i + 9, CallChoice(nb, ne));
    CallChoiceGreatest(s, i, nb, ne, PowTail(s, i + 9).value);
  }

  /** RE_pow_function matches the call with its own operands as groups. */
  lemma CallPowAt(s: string, i: nat, nb: nat, ne: nat)
    requires CallShape(s, i, nb, ne)
    ensures PowAt(s, i) == Some(PowMatch(s[i + 9..i + 9 + nb], s[i + 11 + nb..i + 11 + nb + ne], i + 12 + nb + ne))
  {
    var c := i + 9 + nb;
    hide PowTail, CommaAfter, CloseAfter, PowFits, PowPrefixAt, CallShape, SpaceRun, LineRun;
    CallPowTail(s, i, nb, ne);
    CallChoiceFits(s, i, nb, ne);
    CallAnchors(s, i, nb, ne);
    assert PowGroups(s, i + 9, CallChoice(nb, ne)) == PowMatch(s[i + 9..c], s[c + 2..c + 2 + ne], c + 3 + ne);
  }

  /** The call's prefix matches, its comma and its `)` are found where the shape puts them. */
  lemma CallAnchors(s: string, i: nat, nb: nat, ne: nat)
    requires CallShape(s, i, nb, ne)
    ensures i + 12 + nb + ne <= |s| && PowPrefixAt(s, i)
    ensures CommaAfter(s, i + 9 + nb) == Some(i + 9 + nb)
    ensures CloseAfter(s, i + 11 + nb + ne) == Some(i + 12 + nb + ne)
  {
    var c := i + 9 + nb;
    assert SpaceRun(s, c) == 0;
    assert SpaceRun(s, c + 2 + ne) == 0;
  }

  /** `p + math.pow(b, e) + q` has the call shape when the pieces are suitable. */
  lemma CallShapeOf(s: string, p: string, b: string, e: string, q: string)
    requires s == p + PowCall(b, e) + q && PowOperandsOk(b, e) && PowContextOk(p, q)
    ensures CallShape(s, |p|, |b|, |e|)
  {
    PowLayout(s, p, b, e, q);
    PowCharacters(s, p, b, e, q);
    assert WordBoundary(s, |p|) by {
      assert s[|p|] == "math.pow("[0];
      if 0 < |p| { assert s[|p| - 1] == s[..|p|][|p| - 1]; }
    }
    assert PatternAt(s, "math.pow(", |p|);
  }

  /**
   * The reverse power rewrite turns `math.pow(b, e)` back into `(b)^(e)`
   * and leaves the text around it as it is.
   */
  lemma PowToCaretCall(p: string, b: string, e: string, q: string)
    requires PowOperandsOk(b, e) && PowContextOk(p, q)
    ensures PowToCaret(p + PowCall(b, e) + q) == p + CaretCall(b, e) + q
  {
    var s := p + PowCall(b, e) + q;
    CallFacts(s, p, b, e, q);
    PowToCaretPieces(s, p, b, e, q);
  }

  /** PowToCaretShape with the pieces named. */
  lemma PowToCaretPieces(s: string, p: string, b: string, e: string, q: string)
    requires CallShape(s, |p|, |b|, |e|)
    requires forall k :: 0 <= k < |p| + 8 ==> s[k] != '('
    requires forall k :: |p| + 11 + |b| + |e| < k < |s| ==> s[k] != '('
    requires s[0..|p|] == p && s[|p| + 9..|p| + 9 + |b|] == b
    requires s[|p| + 11 + |b|..|p| + 11 + |b| + |e|] == e && s[|p| + 12 + |b| + |e|..|s|] == q
    ensures PowToCaret(s) == p + CaretCall(b, e) + q
  {
    hide *;
    PowToCaretShape(s, |p|, |b|, |e|);
  }

  /** What PowToCaretShape needs of `p + math.pow(b, e) + q`. */
  lemma CallFacts(s: string, p: string, b: string, e: string, q: string)
    requires s == p + PowCall(b, e) + q && PowOperandsOk(b, e) && PowContextOk(p, q)
    ensures CallShape(s, |p|, |b|, |e|)
    ensures forall k :: 0 <= k < |p| + 8 ==> s[k] != '('
    ensures forall k :: |p| + 11 + |b| + |e| < k < |s| ==> s[k] != '('
    ensures s[0..|p|] == p && s[|p| + 9..|p| + 9 + |b|] == b
    ensures s[|p| + 11 + |b|..|p| + 11 + |b| + |e|] == e && s[|p| + 12 + |b| + |e|..|s|] == q
  {
    PowLayout(s, p, b, e, q);
    PowCharacters(s, p, b, e, q);
    CallShapeOf(s, p, b, e, q);
  }

  /** The same, stated on the indices of a text of that shape. */
  lemma PowToCaretShape(s: string, i: nat, nb: nat, ne: nat)
    requires CallShape(s, i, nb, ne)
    requires forall k :: 0 <= k < i + 8 ==> s[k] != '('
    requires forall k :: i + 11 + nb + ne < k < |s| ==> s[k] != '('
    ensures PowToCaret(s) == s[0..i] + CaretCall(s[i + 9..i + 9 + nb], s[i + 11 + nb..i + 11 + nb + ne]) + s[i + 12 + nb + ne..|s|]
  {
    hide *;
    CallShapeFits(s, i, nb, ne);
    var end := i + 12 + nb + ne;
    var b, e := s[i + 9..i + 9 + nb], s[i + 11 + nb..i + 11 + nb + ne];
    PowToCaretStart(s);
    CallStep(s, i, nb, ne);
    PowPrefixCopied(s, i);
    PowSuffixCopied(s, end);
    JoinThree(PowToCaretFrom(s, 0), s[0..i], PowToCaretFrom(s, i), CaretCall(b, e), PowToCaretFrom(s, end), s[end..|s|]);
  }

  lemma CallShapeFits(s: string, i: nat, nb: nat, ne: nat)
    requires CallShape(s, i, nb, ne)
    ensures i + 12 + nb + ne <= |s|
  {
  }

  lemma JoinThree(x: string, a: string, y: string, m: string, z: string, c: string)
    requires x == a + y && y == m + z && z == c
    ensures x == a + m + c
  {
  }

  /** Before the first `(` that could end a prefix, the scanner copies. */
  lemma PowPrefixCopied(s: string, i: nat)
    requires i <= |s|
    requires forall k :: 0 <= k < i + 8 && k < |s| ==> s[k] != '('
    ensures PowToCaretFrom(s, 0) == s[0..i] + PowToCaretFrom(s, i)
  {
    forall k | 0 <= k < i ensures PowAt(s, k).None? {
      PowAtNeedsParen(s, k);
    }
    hide *;
    PowCopies(s, 0, i);
  }

  /** One round of the scanner at the call. */
  lemma CallStep(s: string, i: nat, nb: nat, ne: nat)
    requires CallShape(s, i, nb, ne)
    ensures PowToCaretFrom(s, i)
         == CaretCall(s[i + 9..i + 9 + nb], s[i + 11 + nb..i + 11 + nb + ne]) + PowToCaretFrom(s, i + 12 + nb + ne)
  {
    hide CallShape, PowAt;
    CallPowAt(s, i, nb, ne);
  }

  lemma PowToCaretStart(s: string)
    ensures PowToCaret(s) == PowToCaretFrom(s, 0)
  {
  }

  /**
   * A REDCap power with simple operands survives the trip to RIOS and back:
   * convert_carat_function then the reverse power rewrite give the text
   * that went in.
   */
  lemma CaretRoundTrip(p: string, b: string, e: string, q: string)
    requires NoParens(b) && NoParens(e) && PowOperandsOk(b, e) && PowContextOk(p, q) && ')' !in p
    ensures PowToCaret(CaretToPow(p + CaretCall(b, e) + q)) == p + CaretCall(b, e) + q
  {
    forall k | 0 <= k ensures !OccursAt(q, ")^(", k) {
      if k + 3 <= |q| { assert q[k..k + 3][0] == q[k]; }
    }
    FindNone(q, ")^(", 0);
    CaretSimple(p, b, e, q);
    PowToCaretCall(p, b, e, q);
  }

  /**
   * OPERATOR_TO_REXL and its inverse undo each other: `<>` to `!=` and back
   * restores a REDCap expression that did not already hold a `!=`.
   */
  lemma OpsRoundTrip(s: string)
    requires forall k :: !OccursAt(s, "!=", k)
    ensures OpsToRedcap(ReplaceAll(s, OperatorToRexl)) == s
  {
    assert ReplaceAll(s, OperatorToRexl) == Replace(s, "<>", "!=");
    var t := Replace(s, "<>", "!=");
    var back := Invert(OperatorToRexl);
    assert back == [("!=", "<>")] && back[1..] == [];
    assert ReplaceAll(t, back) == ReplaceAll(Replace(t, "!=", "<>"), []);
    assert OpsToRedcap(t) == Replace(t, "!=", "<>");
    ReplaceBackFrom(s, "<>", "!=", 0);
  }

  /** The reverse direction: `!=` to `<>` and back restores a RIOS expression without a `<>`. */
  lemma OpsRoundTripBack(t: string)
    requires forall k :: !OccursAt(t, "<>", k)
    ensures ReplaceAll(OpsToRedcap(t), OperatorToRexl) == t
  {
    var back := Invert(OperatorToRexl);
    assert back == [("!=", "<>")] && back[1..] == [];
    assert ReplaceAll(t, back) == ReplaceAll(Replace(t, "!=", "<>"), []);
    assert OpsToRedcap(t) == Replace(t, "!=", "<>");
    var s := Replace(t, "!=", "<>");
    assert ReplaceAll(s, OperatorToRexl) == Replace(s, "<>", "!=");
    ReplaceBackFrom(t, "!=", "<>", 0);
  }
}

=== FILE: storage.dfy ===
/**
 * InstrumentCalcStorage: a mapping with exactly two keys, `i` holding
 * instrument field objects and `c` holding calculation objects, where
 * assignment appends to the key's list.
 */
module Storage {
  import opened Wrappers

  /** The objects a caller may try to store. */
  datatype Obj = FieldObject(id: string) | CalculationObject(id: string) | OtherObject(kind: string)

  datatype StorageError = KeyError | ValueError

  /** The two lists; the key order of iteration is `i`, then `c`. */
  datatype Store = Store(fields: seq<Obj>, calcs: seq<Obj>)

  const Keys: seq<string> := ["i", "c"]

  const NewStore := Store([], [])

  predicate IsKey(k: string) { k == "i" || k == "c" }

  /** Every stored object has the type its key accepts. */
  predicate Valid(s: Store)
  {
    (forall k :: 0 <= k < |s.fields| ==> s.fields[k].FieldObject?) &&
    (forall k :: 0 <= k < |s.calcs| ==> s.calcs[k].CalculationObject?)
  }

  /** The type a key accepts. */
  predicate Accepts(key: string, v: Obj)
  {
    (key == "i" && v.FieldObject?) || (key == "c" && v.CalculationObject?)
  }

  /** s[key]: the list of a key; any other key is a KeyError. */
  function Get(s: Store, key: string): (r: Result<seq<Obj>, StorageError>)
    ensures r.Err? <==> !IsKey(key)
    ensures r.Err? ==> r.error == KeyError
  {
    if key == "i" then Ok(s.fields) else if key == "c" then Ok(s.calcs) else Err(KeyError)
  }

  /** s[key] = v: appends `v` to the key's list; a bad key or a wrong type changes nothing. */
  function Set(s: Store, key: string, v: Obj): (r: Result<Store, StorageError>)
    ensures !IsKey(key) ==> r == Err(KeyError)
    ensures IsKey(key) && !Accepts(key, v) ==> r == Err(ValueError)
    ensures r.Ok? <==> Accepts(key, v)
  {
    if !IsKey(key) then Err(KeyError)
    else if !Accepts(key, v) then Err(ValueError)
    else if key == "i" then Ok(s.(fields := s.fields + [v]))
    else Ok(s.(calcs := s.calcs + [v]))
  }

  /** del s[key]: empties the key's list. */
  function Delete(s: Store, key: string): (r: Result<Store, StorageError>)
    ensures r.Err? <==> !IsKey(key)
    ensures r.Err? ==> r.error == KeyError
  {
    if key == "i" then Ok(s.(fields := [])) else if key == "c" then Ok(s.(calcs := [])) else Err(KeyError)
  }

  function Clear(s: Store): (r: Store)
    ensures Valid(r)
  {
    NewStore
  }

  /** The keys, in iteration order; the length is their count. */
  function Iter(s: Store): (ks: seq<string>)
    ensures forall k :: 0 <= k < |ks| ==> IsKey(ks[k]) && Get(s, ks[k]).Ok?
  {
    Keys
  }

  function Len(s: Store): (n: nat)
    ensures n == |Iter(s)| == 2
  {
    |Keys|
  }

  /** A fresh or cleared store has both keys, each with an empty list. */
  lemma NewStoreEmpty(s: Store)
    ensures Get(Clear(s), "i") == Ok([]) && Get(Clear(s), "c") == Ok([])
    ensures Get(NewStore, "i") == Ok([]) && Get(NewStore, "c") == Ok([])
  {
  }

  /** Storing appends to that key's list only; the other list is untouched. */
  lemma SetThenGet(s: Store, key: string, v: Obj, other: string)
    requires Accepts(key, v) && IsKey(other) && other != key
    ensures Get(Set(s, key, v).value, key) == Ok(Get(s, key).value + [v])
    ensures Get(Set(s, key, v).value, other) == Get(s, other)
  {
  }

  /** Deleting resets that key's list only. */
  lemma DeleteThenGet(s: Store, key: string, other: string)
    requires IsKey(key) && IsKey(other) && other != key
    ensures Get(Delete(s, key).value, key) == Ok([])
    ensures Get(Delete(s, key).value, other) == Get(s, other)
  {
  }

  /** Storing and deleting keep every list of the type its key accepts. */
  lemma ValidKept(s: Store, key: string, v: Obj)
    requires Valid(s)
    ensures Set(s, key, v).Ok? ==> Valid(Set(s, key, v).value)
    ensures IsKey(key) ==> Valid(Delete(s, key).value)
  {
    if Set(s, key, v).Ok? {
      var r := Set(s, key, v).value;
      if key == "i" {
        assert r.fields == s.fields + [v];
      } else {
        assert r.calcs == s.calcs + [v];
      }
    }
  }
}

=== FILE: structures.dfy ===
/**
 * The RIOS definition objects: ordered mappings from keys to values
 * (DefinitionSpecification), the key filter of their constructor, the
 * `clean` pass that prunes empty values before validation, and the
 * `add_*` helpers of the subclasses.
 */
module Structures {
  import opened Wrappers

  /**
   * A value stored in a definition. Numbers are integers (a float zero
   * behaves as `0` for `clean`); lists hold definitions in practice.
   */
  datatype Value =
    | VNone
    | VBool(b: bool)
    | VInt(n: int)
    | VStr(s: string)
    | VSpec(spec: Spec)
    | VList(items: seq<Value>)

  datatype Entry = Entry(key: string, value: Value)

  /**
   * A definition object: its class name and its entries in key order, each
   * key once. A plain Python dict is a Spec whose class is `dict`.
   */
  datatype Spec = Spec(cls: string, entries: seq<Entry>)

  /** A plain dict rather than a definition object: it has no `clean`. */
  predicate PlainDict(sp: Spec) { sp.cls == "dict" }

  // ---------------------------------------------------------------------
  // The ordered mapping

  function Keys(sp: Spec): (ks: seq<string>)
    ensures |ks| == |sp.entries|
    ensures forall k :: 0 <= k < |ks| ==> ks[k] == sp.entries[k].key
  {
    seq(|sp.entries|, k requires 0 <= k < |sp.entries| => sp.entries[k].key)
  }

  predicate UniqueKeys(sp: Spec)
  {
    forall i, j :: 0 <= i < j < |sp.entries| ==> sp.entries[i].key != sp.entries[j].key
  }

  /** The position of a key, if present. */
  function IndexOf(sp: Spec, key: string): (r: Option<nat>)
    ensures r.Some? ==> r.value < |sp.entries| && sp.entries[r.value].key == key
    ensures r.None? <==> key !in Keys(sp)
  {
    IndexFrom(sp, key, 0)
  }

  function IndexFrom(sp: Spec, key: string, i: nat): (r: Option<nat>)
    requires i <= |sp.entries|
    ensures r.Some? ==> i <= r.value < |sp.entries| && sp.entries[r.value].key == key
    ensures r.Some? ==> forall k :: i <= k < r.value ==> sp.entries[k].key != key
    ensures r.None? <==> forall k :: i <= k < |sp.entries| ==> sp.entries[k].key != key
    decreases |sp.entries| - i
  {
    if i == |sp.entries| then None
    else if sp.entries[i].key == key then Some(i)
    else IndexFrom(sp, key, i + 1)
  }

  /** self[key], or None when the key is missing (a KeyError). */
  function Lookup(sp: Spec, key: string): (r: Option<Value>)
    ensures r.Some? <==> key in Keys(sp)
  {
    var i := IndexOf(sp, key);
    if i.None? then None else Some(sp.entries[i.value].value)
  }

  /** The position of a key depends only on the keys. */
  lemma {:induction false} IndexFromKeys(a: Spec, b: Spec, key: string, i: nat)
    requires Keys(a) == Keys(b) && i <= |a.entries|
    ensures IndexFrom(a, key, i) == IndexFrom(b, key, i)
    decreases |a.entries| - i
  {
    if i < |a.entries| {
      assert a.entries[i].key == Keys(a)[i] == b.entries[i].key;
      IndexFromKeys(a, b, key, i + 1);
    }
  }

  /** Appending an entry moves no key already present. */
  lemma {:induction false} IndexFromAppend(sp: Spec, e: Entry, key: string, i: nat)
    requires i <= |sp.entries|
    ensures key != e.key ==> IndexFrom(sp.(entries := sp.entries + [e]), key, i) == IndexFrom(sp, key, i)
    ensures key == e.key && key !in Keys(sp) ==> IndexFrom(sp.(entries := sp.entries + [e]), key, i) == Some(|sp.entries|)
    decreases |sp.entries| - i
  {
    var r := sp.(entries := sp.entries + [e]);
    if i < |sp.entries| {
      assert r.entries[i] == sp.entries[i];
      assert sp.entries[i].key == Keys(sp)[i];
      IndexFromAppend(sp, e, key, i + 1);
    } else {
      assert r.entries[i] == e;
    }
  }

  lemma UpdateAt(sp: Spec, key: string, v: Value, i: nat)
    requires IndexOf(sp, key) == Some(i)
    ensures Keys(sp.(entries := sp.entries[i := Entry(key, v)])) == Keys(sp)
    ensures Lookup(sp.(entries := sp.entries[i := Entry(key, v)]), key) == Some(v)
    ensures forall k :: k != key ==> Lookup(sp.(entries := sp.entries[i := Entry(key, v)]), k) == Lookup(sp, k)
  {
    var r := sp.(entries := sp.entries[i := Entry(key, v)]);
    assert Keys(r) == Keys(sp);
    forall k ensures IndexOf(r, k) == IndexOf(sp, k) {
      IndexFromKeys(r, sp, k, 0);
    }
  }

  lemma UpdateNew(sp: Spec, key: string, v: Value)
    requires key !in Keys(sp)
    ensures Keys(sp.(entries := sp.entries + [Entry(key, v)])) == Keys(sp) + [key]
    ensures Lookup(sp.(entries := sp.entries + [Entry(key, v)]), key) == Some(v)
    ensures forall k :: k != key ==> Lookup(sp.(entries := sp.entries + [Entry(key, v)]), k) == Lookup(sp, k)
  {
    var r := sp.(entries := sp.entries + [Entry(key, v)]);
    assert Keys(r) == Keys(sp) + [key];
    forall k {
      IndexFromAppend(sp, Entry(key, v), k, 0);
    }
  }

  /** self[key] = v: an existing key keeps its place, a new key goes last. */
  function Update(sp: Spec, key: string, v: Value): (r: Spec)
    ensures r.cls == sp.cls
    ensures Lookup(r, key) == Some(v)
    ensures forall k :: k != key ==> Lookup(r, k) == Lookup(sp, k)
    ensures key in Keys(sp) ==> Keys(r) == Keys(sp)
    ensures key !in Keys(sp) ==> Keys(r) == Keys(sp) + [key]
  {
    var i := IndexOf(sp, key);
    if i.Some? then
      UpdateAt(sp, key, v, i.value);
      sp.(entries := sp.entries[i.value := Entry(key, v)])
    else
      UpdateNew(sp, key, v);
      sp.(entries := sp.entries + [Entry(key, v)])
  }

  /** Keys stay unique under assignment. */
  lemma UpdateUnique(sp: Spec, key: string, v: Value)
    requires UniqueKeys(sp)
    ensures UniqueKeys(Update(sp, key, v))
  {
    var r := Update(sp, key, v);
    forall i, j | 0 <= i < j < |r.entries| ensures r.entries[i].key != r.entries[j].key {
      assert r.entries[i].key == Keys(r)[i] && r.entries[j].key == Keys(r)[j];
      if key !in Keys(sp) && j == |sp.entries| {
        assert Keys(r)[i] == Keys(sp)[i];
      } else {
        assert Keys(r)[i] == Keys(sp)[i] && Keys(r)[j] == Keys(sp)[j];
      }
    }
  }

  // ---------------------------------------------------------------------
  // Construction

  /**
   * The declared type of a property; a new object starts with that type's
   * zero value.  A nested definition class carries its own declared
   * properties, since calling the class builds it with its own zeros.
   */
  datatype PropType = TStr | TBool | TList | TSpec(cls: string, props: seq<Prop>)

  datatype Prop = Prop(key: string, ptype: PropType)

  /** `v()` for the declared type `v`: `str()`, `bool()`, `list()`, or the nested class with its zeros. */
  function Zero(t: PropType): (r: Value)
    ensures t.TStr? <==> r == VStr("")
    ensures t.TBool? <==> r == VBool(false)
    ensures t.TList? <==> r == VList([])
    ensures t.TSpec? <==> r.VSpec? && r.spec.cls == t.cls && |r.spec.entries| == |t.props|
  {
    match t
    case TStr => VStr("")
    case TBool => VBool(false)
    case TList => VList([])
    case TSpec(c, ps) =>
      VSpec(Spec(c, seq(|ps|, k requires 0 <= k < |ps| => Entry(ps[k].key, Zero(ps[k].ptype)))))
  }

  function PropKeys(props: seq<Prop>): (ks: seq<string>)
    ensures |ks| == |props|
    ensures forall k :: 0 <= k < |props| ==> ks[k] == props[k].key
  {
    seq(|props|, k requires 0 <= k < |props| => props[k].key)
  }

  /** The filter of `__init__`: a key passes when no properties are declared or it is one of them. */
  predicate Admits(props: seq<Prop>, key: string)
  {
    props == [] || key in PropKeys(props)
  }

  /** The keys of `given` that the filter lets through, in order. */
  function Admitted(given: seq<Entry>, props: seq<Prop>): (ks: seq<string>)
    ensures forall k :: 0 <= k < |ks| ==> Admits(props, ks[k])
    decreases |given|
  {
    if |given| == 0 then []
    else if Admits(props, given[0].key) then [given[0].key] + Admitted(given[1..], props)
    else Admitted(given[1..], props)
  }

  /** Sets every given entry that the filter lets through, in order. */
  function UpdateAll(sp: Spec, given: seq<Entry>, props: seq<Prop>): (r: Spec)
    ensures r.cls == sp.cls
    ensures forall k :: k in Keys(r) <==> k in Keys(sp) || k in Admitted(given, props)
    decreases |given|
  {
    if |given| == 0 then sp
    else
      var g := given[0];
      var next := if Admits(props, g.key) then Update(sp, g.key, g.value) else sp;
      UpdateAll(next, given[1..], props)
  }

  /** The zero values of the declared properties, in declaration order. */
  function Zeros(props: seq<Prop>): (es: seq<Entry>)
    ensures |es| == |props|
    ensures forall k :: 0 <= k < |props| ==> es[k] == Entry(props[k].key, Zero(props[k].ptype))
  {
    seq(|props|, k requires 0 <= k < |props| => Entry(props[k].key, Zero(props[k].ptype)))
  }

  /**
   * `DefinitionSpecification.__init__`: every declared property at its
   * zero value, then the `props` mapping, then the keyword arguments;
   * when properties are declared, undeclared keys are dropped.
   */
  function Init(cls: string, props: seq<Prop>, given: seq<Entry>, kwargs: seq<Entry>): (r: Spec)
    ensures UniqueKeys(r) && r.cls == cls
  {
    var zeros := UpdateAll(Spec(cls, []), Zeros(props), []);
    var mid := UpdateAll(zeros, given, props);
    UpdateAllUnique(Spec(cls, []), Zeros(props), []);
    UpdateAllUnique(zeros, given, props);
    UpdateAllUnique(mid, kwargs, props);
    UpdateAll(mid, kwargs, props)
  }

  lemma {:induction false} UpdateAllUnique(sp: Spec, given: seq<Entry>, props: seq<Prop>)
    requires UniqueKeys(sp)
    ensures UniqueKeys(UpdateAll(sp, given, props))
    decreases |given|
  {
    if |given| > 0 {
      var g := given[0];
      if Admits(props, g.key) {
        UpdateUnique(sp, g.key, g.value);
      }
      var next := if Admits(props, g.key) then Update(sp, g.key, g.value) else sp;
      UpdateAllUnique(next, given[1..], props);
    }
  }

  /**
   * The value a key ends up with once `given` is applied over `prior`,
   * read entry by entry: the last admitted entry for the key wins.
   */
  function Assigned(given: seq<Entry>, props: seq<Prop>, key: string, prior: Option<Value>): Option<Value>
    decreases |given|
  {
    if |given| == 0 then prior
    else Assigned(given[1..], props, key, if given[0].key == key && Admits(props, key) then Some(given[0].value) else prior)
  }

  /** Applying the entries to the mapping gives each key its last admitted value. */
  lemma {:induction false} UpdateAllLookup(sp: Spec, given: seq<Entry>, props: seq<Prop>, key: string)
    ensures Lookup(UpdateAll(sp, given, props), key) == Assigned(given, props, key, Lookup(sp, key))
    decreases |given|
  {
    if |given| > 0 {
      var g := given[0];
      var next := if Admits(props, g.key) then Update(sp, g.key, g.value) else sp;
      UpdateAllLookup(next, given[1..], props, key);
    }
  }

  /** A key no entry mentions keeps its prior value. */
  lemma {:induction false} AssignedUntouched(given: seq<Entry>, props: seq<Prop>, key: string, prior: Option<Value>)
    requires forall j :: 0 <= j < |given| ==> given[j].key != key
    ensures Assigned(given, props, key, prior) == prior
    decreases |given|
  {
    if |given| > 0 {
      AssignedUntouched(given[1..], props, key, prior);
    }
  }

  /** Setting a new key first appends its entry, then the rest are set. */
  lemma UpdateAllFreshStep(sp: Spec, es: seq<Entry>)
    requires |es| > 0 && forall j :: 0 <= j < |sp.entries| ==> sp.entries[j].key != es[0].key
    ensures UpdateAll(sp, es, []) == UpdateAll(Spec(sp.cls, sp.entries + [es[0]]), es[1..], [])
  {
    var e := es[0];
    assert e.key !in Keys(sp);
    assert IndexOf(sp, e.key).None?;
    assert Update(sp, e.key, e.value) == Spec(sp.cls, sp.entries + [e]);
    assert Admits([], e.key);
  }

  /** Distinct new keys remain distinct and new once the first entry is appended. */
  lemma FreshTail(sp: Spec, es: seq<Entry>)
    requires |es| > 0
    requires forall a, b :: 0 <= a < b < |es| ==> es[a].key != es[b].key
    requires forall a, j :: 0 <= a < |es| && 0 <= j < |sp.entries| ==> es[a].key != sp.entries[j].key
    ensures forall a, j :: 0 <= a < |es| - 1 && 0 <= j < |sp.entries + [es[0]]| ==>
      es[1..][a].key != (sp.entries + [es[0]])[j].key
    ensures forall a, b :: 0 <= a < b < |es| - 1 ==> es[1..][a].key != es[1..][b].key
  {
    var next := sp.entries + [es[0]];
    forall a, j | 0 <= a < |es| - 1 && 0 <= j < |next| ensures es[1..][a].key != next[j].key {
      assert es[1..][a] == es[a + 1];
      if j < |sp.entries| { assert next[j] == sp.entries[j]; } else { assert next[j] == es[0]; }
    }
    forall a, b | 0 <= a < b < |es| - 1 ensures es[1..][a].key != es[1..][b].key {
      assert es[1..][a] == es[a + 1] && es[1..][b] == es[b + 1];
    }
  }

  /** Setting entries whose keys are new and distinct appends them in order. */
  lemma {:induction false} UpdateAllFresh(sp: Spec, es: seq<Entry>)
    requires forall a, b :: 0 <= a < b < |es| ==> es[a].key != es[b].key
    requires forall a, j :: 0 <= a < |es| && 0 <= j < |sp.entries| ==> es[a].key != sp.entries[j].key
    ensures UpdateAll(sp, es, []) == Spec(sp.cls, sp.entries + es)
    decreases |es|
  {
    if |es| == 0 {
      assert sp.entries + es == sp.entries;
    } else {
      var next := Spec(sp.cls, sp.entries + [es[0]]);
      UpdateAllFreshStep(sp, es);
      FreshTail(sp, es);
      UpdateAllFresh(next, es[1..]);
      AppendHeadTail(sp.entries, es);
    }
  }

  lemma AppendHeadTail(x: seq<Entry>, es: seq<Entry>)
    requires |es| > 0
    ensures (x + [es[0]]) + es[1..] == x + es
  {
    assert es == [es[0]] + es[1..];
  }

  /**
   * The zero of a nested class is the object the class builds when it is
   * called with no arguments: its declared properties at their own zeros.
   */
  lemma NestedZeroIsInit(c: string, ps: seq<Prop>)
    requires forall a, b :: 0 <= a < b < |ps| ==> ps[a].key != ps[b].key
    ensures Zero(TSpec(c, ps)) == VSpec(Init(c, ps, [], []))
  {
    var zs := Zeros(ps);
    assert Zero(TSpec(c, ps)) == VSpec(Spec(c, zs));
    assert forall a, b :: 0 <= a < b < |zs| ==> zs[a].key != zs[b].key;
    UpdateAllFresh(Spec(c, []), zs);
    assert Spec(c, [] + zs) == Spec(c, zs);
  }

  /**
   * A declared property that neither `props` nor the keyword arguments
   * mention starts at its type's zero value.
   */
  lemma InitZero(cls: string, props: seq<Prop>, given: seq<Entry>, kwargs: seq<Entry>, j: nat)
    requires j < |props| && forall a, b :: 0 <= a < b < |props| ==> props[a].key != props[b].key
    requires forall t :: 0 <= t < |given| ==> given[t].key != props[j].key
    requires forall t :: 0 <= t < |kwargs| ==> kwargs[t].key != props[j].key
    ensures Lookup(Init(cls, props, given, kwargs), props[j].key) == Some(Zero(props[j].ptype))
  {
    var key := props[j].key;
    var zs := Zeros(props);
    ZerosLookup(cls, props, j);
    var zeros := UpdateAll(Spec(cls, []), zs, []);
    var mid := UpdateAll(zeros, given, props);
    UpdateAllLookup(zeros, given, props, key);
    AssignedUntouched(given, props, key, Lookup(zeros, key));
    UpdateAllLookup(mid, kwargs, props, key);
    AssignedUntouched(kwargs, props, key, Lookup(mid, key));
  }

  lemma ZerosLookup(cls: string, props: seq<Prop>, j: nat)
    requires j < |props| && forall a, b :: 0 <= a < b < |props| ==> props[a].key != props[b].key
    ensures Lookup(UpdateAll(Spec(cls, []), Zeros(props), []), props[j].key) == Some(Zero(props[j].ptype))
  {
    var zs := Zeros(props);
    var key := props[j].key;
    UpdateAllLookup(Spec(cls, []), zs, [], key);
    AssignedAt(zs, [], key, j);
  }

  /** Over entries with distinct keys, the value assigned to the admitted key of entry `j` is that entry's. */
  lemma {:induction false} AssignedAt(zs: seq<Entry>, props: seq<Prop>, key: string, j: nat)
    requires j < |zs| && zs[j].key == key && Admits(props, key)
    requires forall a, b :: 0 <= a < b < |zs| ==> zs[a].key != zs[b].key
    ensures forall prior :: Assigned(zs, props, key, prior) == Some(zs[j].value)
    decreases |zs|
  {
    forall prior ensures Assigned(zs, props, key, prior) == Some(zs[j].value) {
      if j == 0 {
        AssignedUntouched(zs[1..], props, key, Some(zs[0].value));
      } else {
        AssignedAt(zs[1..], props, key, j - 1);
      }
    }
  }

  /** A keyword argument the filter admits sets its key, whatever came before. */
  lemma InitKwarg(cls: string, props: seq<Prop>, given: seq<Entry>, kwargs: seq<Entry>, j: nat)
    requires j < |kwargs| && Admits(props, kwargs[j].key)
    requires forall a, b :: 0 <= a < b < |kwargs| ==> kwargs[a].key != kwargs[b].key
    ensures Lookup(Init(cls, props, given, kwargs), kwargs[j].key) == Some(kwargs[j].value)
  {
    var zeros := UpdateAll(Spec(cls, []), Zeros(props), []);
    var mid := UpdateAll(zeros, given, props);
    UpdateAllLookup(mid, kwargs, props, kwargs[j].key);
    AssignedAt(kwargs, props, kwargs[j].key, j);
  }

  /** An admitted key of `props` that no keyword argument names takes the value `props` gives it. */
  lemma InitGiven(cls: string, props: seq<Prop>, given: seq<Entry>, kwargs: seq<Entry>, j: nat)
    requires j < |given| && Admits(props, given[j].key)
    requires forall a, b :: 0 <= a < b < |given| ==> given[a].key != given[b].key
    requires forall t :: 0 <= t < |kwargs| ==> kwargs[t].key != given[j].key
    ensures Lookup(Init(cls, props, given, kwargs), given[j].key) == Some(given[j].value)
  {
    var key := given[j].key;
    var zeros := UpdateAll(Spec(cls, []), Zeros(props), []);
    var mid := UpdateAll(zeros, given, props);
    UpdateAllLookup(zeros, given, props, key);
    AssignedAt(given, props, key, j);
    UpdateAllLookup(mid, kwargs, props, key);
    AssignedUntouched(kwargs, props, key, Lookup(mid, key));
  }

  /** With declared properties, a new object has exactly the declared keys. */
  lemma InitKeys(cls: string, props: seq<Prop>, given: seq<Entry>, kwargs: seq<Entry>)
    requires props != []
    ensures forall k :: k in Keys(Init(cls, props, given, kwargs)) <==> k in PropKeys(props)
  {
    var zeros := UpdateAll(Spec(cls, []), Zeros(props), []);
    AdmittedAll(Zeros(props), []);
    assert forall k :: k in Admitted(Zeros(props), []) <==> k in PropKeys(props) by {
      forall k ensures k in Keys(Spec(cls, Zeros(props))) <==> k in PropKeys(props) {
        if k in PropKeys(props) {
          var j :| 0 <= j < |props| && PropKeys(props)[j] == k;
          assert Keys(Spec(cls, Zeros(props)))[j] == k;
        }
      }
    }
  }

  /** With no properties declared every key passes the filter. */
  lemma {:induction false} AdmittedAll(given: seq<Entry>, props: seq<Prop>)
    requires props == []
    ensures forall k :: k in Admitted(given, props) <==> k in Keys(Spec("", given))
    decreases |given|
  {
    if |given| > 0 {
      AdmittedAll(given[1..], props);
      assert Keys(Spec("", given)) == [given[0].key] + Keys(Spec("", given[1..]));
    }
  }

  /** Without declared properties, every given key is kept. */
  lemma InitOpen(cls: string, given: seq<Entry>, kwargs: seq<Entry>)
    ensures forall k :: k in Keys(Init(cls, [], given, kwargs)) <==> k in Keys(Spec(cls, given)) || k in Keys(Spec(cls, kwargs))
  {
    AdmittedAll(given, []);
    AdmittedAll(kwargs, []);
    AdmittedAll(Zeros([]), []);
    assert Keys(Spec(cls, given)) == Keys(Spec("", given));
    assert Keys(Spec(cls, kwargs)) == Keys(Spec("", kwargs));
  }

  // ---------------------------------------------------------------------
  // clean
  //
  // `filter` selects between the pass as written, which cleans the
  // elements of a list in place but keeps the list itself as it was
  // (`filter == false`), and the evidently intended pass that also drops
  // the elements that end up empty (`filter == true`).

  predicate IsScalar(v: Value) { v.VNone? || v.VBool? || v.VInt? }

  /**
   * The cleaned value of one entry, or None when the key is deleted:
   * False, 0 and None stay; empty strings, lists and dicts go; a
   * definition is cleaned in place and goes if it ends up empty; a
   * non-empty plain dict stays as it is, uncleaned; the elements of a list
   * are cleaned, and the list goes when none of them is left non-empty. An
   * element that is not a definition has no `clean` (an AttributeError).
   */
  function CleanValue(v: Value, filter: bool): (r: Result<Option<Value>, string>)
    ensures r.Ok? && IsScalar(v) ==> r.value == Some(v)
    ensures r.Ok? && r.value.Some? ==> Cleaned(r.value.value, filter)
    ensures v == VStr("") || v == VList([]) ==> r == Ok(None)
    ensures v.VStr? && v.s != "" ==> r == Ok(Some(v))
    ensures v.VSpec? && PlainDict(v.spec) ==> r == Ok(if v.spec.entries == [] then None else Some(v))
    ensures v.VSpec? && !PlainDict(v.spec) ==> (r.Ok? <==> CleanSpec(v.spec, filter).Ok?)
    ensures v.VSpec? && !PlainDict(v.spec) && r.Ok? ==> (r.value.None? <==> CleanSpec(v.spec, filter).value.entries == [])
    ensures v.VList? && r.Ok? && r.value.Some? ==> r.value.value.VList? && (!filter ==> |r.value.value.items| == |v.items|)
    decreases v, 2
  {
    match v
    case VNone => Ok(Some(v))
    case VBool(_) => Ok(Some(v))
    case VInt(_) => Ok(Some(v))
    case VStr(s) => if s == "" then Ok(None) else Ok(Some(v))
    case VSpec(sp) =>
      if PlainDict(sp) then
        if sp.entries == [] then Ok(None) else Ok(Some(v))
      else
        var c := CleanSpec(sp, filter);
        if c.Err? then Err(c.error)
        else if c.value.entries == [] then Ok(None)
        else Ok(Some(VSpec(c.value)))
    case VList(xs) =>
      if xs == [] then Ok(None)
      else
        var c := CleanItems(v, 0, filter);
        if c.Err? then Err(c.error)
        else if !SomeNonEmpty(c.value) then Ok(None)
        else Ok(Some(VList(c.value)))
  }

  /** Some element of a cleaned list is a non-empty definition. */
  predicate SomeNonEmpty(xs: seq<Value>)
  {
    exists k :: 0 <= k < |xs| && xs[k].VSpec? && xs[k].spec.entries != []
  }

  /** An element of a list that `clean` can call `clean` on: a definition object. */
  predicate Cleanable(x: Value) { x.VSpec? && !PlainDict(x.spec) }

  /** The elements of list `v` from `i` on, each cleaned; with `filter`, the empty ones left out. */
  function CleanItems(v: Value, i: nat, filter: bool): (r: Result<seq<Value>, string>)
    requires v.VList? && i <= |v.items|
    ensures r.Ok? && !filter ==> |r.value| == |v.items| - i
    ensures r.Ok? ==> |r.value| <= |v.items| - i
    ensures r.Ok? ==> forall k :: 0 <= k < |r.value| ==> Cleanable(r.value[k]) && CleanedSpec(r.value[k].spec, filter)
    ensures r.Ok? && filter ==> forall k :: 0 <= k < |r.value| ==> r.value[k].VSpec? && r.value[k].spec.entries != []
    ensures r.Ok? <==> forall k :: i <= k < |v.items| ==> Cleanable(v.items[k]) && CleanSpec(v.items[k].spec, filter).Ok?
    decreases v, 1, |v.items| - i
  {
    if i == |v.items| then Ok([])
    else
      var x := v.items[i];
      assert x in v.items;
      if !Cleanable(x) then Err("AttributeError: object has no attribute 'clean'")
      else
        var c := CleanSpec(x.spec, filter);
        var rest := CleanItems(v, i + 1, filter);
        if c.Err? then Err(c.error)
        else if rest.Err? then Err(rest.error)
        else if filter && c.value.entries == [] then Ok(rest.value)
        else Ok([VSpec(c.value)] + rest.value)
  }

  /** `clean` on a definition: each entry cleaned, the empty ones deleted. */
  function CleanSpec(sp: Spec, filter: bool): (r: Result<Spec, string>)
    ensures r.Ok? ==> r.value.cls == sp.cls && CleanedSpec(r.value, filter)
    decreases sp, 1
  {
    var es := CleanEntries(sp, 0, filter);
    if es.Err? then Err(es.error) else Ok(Spec(sp.cls, es.value))
  }

  /** The entries of `sp` from `i` on, cleaned, the deleted ones left out. */
  function CleanEntries(sp: Spec, i: nat, filter: bool): (r: Result<seq<Entry>, string>)
    requires i <= |sp.entries|
    ensures r.Ok? ==> forall k :: 0 <= k < |r.value| ==> Cleaned(r.value[k].value, filter)
    ensures r.Ok? ==> forall k :: 0 <= k < |r.value| ==> r.value[k].key in Keys(sp)[i..]
    ensures r.Ok? ==> forall k :: i <= k < |sp.entries| && IsScalar(sp.entries[k].value) ==> sp.entries[k] in r.value
    ensures r.Ok? ==> forall k :: i <= k < |sp.entries| && sp.entries[k].value.VSpec? && PlainDict(sp.entries[k].value.spec) && sp.entries[k].value.spec.entries != [] ==> sp.entries[k] in r.value
    decreases sp, 0, |sp.entries| - i
  {
    if i == |sp.entries| then Ok([])
    else
      var e := sp.entries[i];
      assert e in sp.entries;
      var c := CleanValue(e.value, filter);
      var rest := CleanEntries(sp, i + 1, filter);
      if c.Err? then Err(c.error)
      else if rest.Err? then Err(rest.error)
      else if c.value.None? then Ok(rest.value)
      else Ok([Entry(e.key, c.value.value)] + rest.value)
  }

  /**
   * What `clean` leaves: no empty string, no empty definition or dict as a
   * value, no list without a non-empty element; with `filter`, no empty
   * definition inside a list either. The inside of a plain dict is not
   * cleaned.
   */
  predicate Cleaned(v: Value, filter: bool)
    decreases v, 2
  {
    match v
    case VNone => true
    case VBool(_) => true
    case VInt(_) => true
    case VStr(s) => s != ""
    case VSpec(sp) => sp.entries != [] && (PlainDict(sp) || CleanedSpec(sp, filter))
    case VList(xs) => SomeNonEmpty(xs) && CleanedItems(v, filter)
  }

  predicate CleanedItems(v: Value, filter: bool)
    requires v.VList?
    decreases v, 1
  {
    forall k :: 0 <= k < |v.items| ==>
      Cleanable(v.items[k]) && (v.items[k] in v.items && CleanedSpec(v.items[k].spec, filter)) &&
      (filter ==> v.items[k].spec.entries != [])
  }

  predicate CleanedSpec(sp: Spec, filter: bool)
    decreases sp, 0
  {
    forall k :: 0 <= k < |sp.entries| ==> sp.entries[k] in sp.entries && Cleaned(sp.entries[k].value, filter)
  }

  /** A cleaned value is a fixed point of `clean`. */
  lemma {:induction false} CleanValueFix(v: Value, filter: bool)
    requires Cleaned(v, filter)
    ensures CleanValue(v, filter) == Ok(Some(v))
    decreases v, 2
  {
    match v
    case VNone =>
    case VBool(_) =>
    case VInt(_) =>
    case VStr(_) =>
    case VSpec(sp) =>
      if !PlainDict(sp) {
        CleanSpecFix(sp, filter);
      }
    case VList(xs) =>
      CleanItemsFix(v, 0, filter);
      assert xs[0..] == xs;
  }

  lemma {:induction false} CleanItemsFix(v: Value, i: nat, filter: bool)
    requires v.VList? && i <= |v.items| && CleanedItems(v, filter)
    ensures CleanItems(v, i, filter) == Ok(v.items[i..])
    decreases v, 1, |v.items| - i
  {
    if i < |v.items| {
      var x := v.items[i];
      assert x in v.items && Cleanable(x) && CleanedSpec(x.spec, filter);
      assert filter ==> x.spec.entries != [];
      CleanSpecFix(x.spec, filter);
      CleanItemsFix(v, i + 1, filter);
      assert CleanItems(v, i, filter) == Ok([VSpec(x.spec)] + v.items[i + 1..]);
      assert v.items[i..] == [x] + v.items[i + 1..];
    } else {
      assert v.items[i..] == [];
    }
  }

  lemma {:induction false} CleanSpecFix(sp: Spec, filter: bool)
    requires CleanedSpec(sp, filter)
    ensures CleanSpec(sp, filter) == Ok(sp)
    decreases sp, 1
  {
    CleanEntriesFix(sp, 0, filter);
    assert sp.entries[0..] == sp.entries;
  }

  lemma {:induction false} CleanEntriesFix(sp: Spec, i: nat, filter: bool)
    requires i <= |sp.entries| && CleanedSpec(sp, filter)
    ensures CleanEntries(sp, i, filter) == Ok(sp.entries[i..])
    decreases sp, 0, |sp.entries| - i
  {
    hide *;
    if i < |sp.entries| {
      var e := sp.entries[i];
      CleanedEntry(sp, i, filter);
      CleanValueFix(e.value, filter);
      CleanEntriesFix(sp, i + 1, filter);
    }
    CleanEntriesStep(sp, i, filter);
  }

  /** Each entry of a cleaned definition holds a cleaned value. */
  lemma CleanedEntry(sp: Spec, i: nat, filter: bool)
    requires i < |sp.entries| && CleanedSpec(sp, filter)
    ensures sp.entries[i] in sp.entries && Cleaned(sp.entries[i].value, filter)
  {
  }

  /** `clean` keeps the entries from `i` on when it keeps entry `i` and those after it. */
  lemma CleanEntriesStep(sp: Spec, i: nat, filter: bool)
    requires i <= |sp.entries|
    requires i < |sp.entries| ==> CleanValue(sp.entries[i].value, filter) == Ok(Some(sp.entries[i].value))
    requires i < |sp.entries| ==> CleanEntries(sp, i + 1, filter) == Ok(sp.entries[i + 1..])
    ensures CleanEntries(sp, i, filter) == Ok(sp.entries[i..])
  {
    hide *;
    if i < |sp.entries| {
      CleanEntriesKeep(sp, i, filter, sp.entries[i + 1..]);
      EntriesFrom(sp.entries, i);
    } else {
      CleanEntriesEnd(sp, filter);
      EntriesFrom(sp.entries, i);
    }
  }

  /** The entries from `i` on: none at the end, else entry `i` and those after it. */
  lemma EntriesFrom(es: seq<Entry>, i: nat)
    requires i <= |es|
    ensures i == |es| ==> es[i..] == []
    ensures i < |es| ==> es[i..] == [es[i]] + es[i + 1..]
  {
  }

  /** An entry that cleans to itself is kept in front of what the later entries clean to. */
  lemma CleanEntriesKeep(sp: Spec, i: nat, filter: bool, rest: seq<Entry>)
    requires i < |sp.entries|
    requires CleanValue(sp.entries[i].value, filter) == Ok(Some(sp.entries[i].value))
    requires CleanEntries(sp, i + 1, filter) == Ok(rest)
    ensures CleanEntries(sp, i, filter) == Ok([sp.entries[i]] + rest)
  {
    hide Cleaned, CleanedSpec, CleanValue, Keys, IsScalar;
    var e := sp.entries[i];
    assert Entry(e.key, e.value) == e;
  }

  /** No entries are left to clean at the end. */
  lemma CleanEntriesEnd(sp: Spec, filter: bool)
    ensures CleanEntries(sp, |sp.entries|, filter) == Ok([])
  {
  }

  /** Cleaning twice is cleaning once. */
  lemma CleanIdempotent(sp: Spec, filter: bool)
    requires CleanSpec(sp, filter).Ok?
    ensures CleanSpec(CleanSpec(sp, filter).value, filter) == CleanSpec(sp, filter)
  {
    CleanSpecFix(CleanSpec(sp, filter).value, filter);
  }

  /** A definition with one non-empty string entry, and one with no entries. */
  const Kept := Spec("DescriptorObject", [Entry("id", VStr("a"))])
  const Hollow := Spec("DescriptorObject", [Entry("id", VStr(""))])

  /**
   * As written, a list element that cleans to an empty definition stays in
   * the list: `[Kept, Hollow]` comes out as `[Kept, {}]`.
   */
  lemma ListKeepsEmptyElement()
    ensures CleanValue(VList([VSpec(Kept), VSpec(Hollow)]), false)
         == Ok(Some(VList([VSpec(Kept), VSpec(Spec("DescriptorObject", []))])))
    ensures CleanValue(VList([VSpec(Kept), VSpec(Hollow)]), true) == Ok(Some(VList([VSpec(Kept)])))
  {
    var v := VList([VSpec(Kept), VSpec(Hollow)]);
    var e := Spec("DescriptorObject", []);
    assert CleanValue(VStr("a"), false) == Ok(Some(VStr("a")));
    assert CleanValue(VStr("a"), true) == Ok(Some(VStr("a")));
    assert CleanValue(VStr(""), false) == Ok(None);
    assert CleanValue(VStr(""), true) == Ok(None);
    assert CleanEntries(Hollow, 1, false) == Ok([]);
    assert CleanEntries(Hollow, 0, false) == Ok([]);
    assert CleanEntries(Kept, 1, false) == Ok([]);
    assert CleanEntries(Kept, 0, false) == Ok([Entry("id", VStr("a"))] + []);
    assert [Entry("id", VStr("a"))] + [] == Kept.entries;
    assert CleanSpec(Kept, false) == Ok(Kept);
    assert CleanSpec(Hollow, false) == Ok(e);
    assert CleanItems(v, 2, false) == Ok([]);
    assert CleanItems(v, 1, false) == Ok([VSpec(e)] + []);
    assert [VSpec(e)] + [] == [VSpec(e)];
    assert CleanItems(v, 0, false) == Ok([VSpec(Kept)] + [VSpec(e)]);
    assert [VSpec(Kept)] + [VSpec(e)] == [VSpec(Kept), VSpec(e)];
    assert SomeNonEmpty([VSpec(Kept), VSpec(e)]) by {
      assert [VSpec(Kept), VSpec(e)][0] == VSpec(Kept);
    }
    assert CleanEntries(Hollow, 1, true) == Ok([]);
    assert CleanEntries(Hollow, 0, true) == Ok([]);
    assert CleanEntries(Kept, 1, true) == Ok([]);
    assert CleanEntries(Kept, 0, true) == Ok([Entry("id", VStr("a"))] + []);
    assert [Entry("id", VStr("a"))] + [] == Kept.entries;
    assert CleanSpec(Kept, true) == Ok(Kept);
    assert CleanSpec(Hollow, true) == Ok(e);
    assert CleanItems(v, 2, true) == Ok([]);
    assert CleanItems(v, 1, true) == Ok([]);
    assert CleanItems(v, 0, true) == Ok([VSpec(Kept)] + []);
    assert [VSpec(Kept)] + [] == [VSpec(Kept)];
    assert SomeNonEmpty([VSpec(Kept)]) by {
      assert [VSpec(Kept)][0] == VSpec(Kept);
    }
  }

  /** Element options stored as a plain dict holding an empty localized string. */
  const DictOptions := Spec("dict", [Entry("text", VSpec(Spec("LocalizedStringObject", [Entry("en", VStr(""))])))])

  /**
   * `clean` does not look inside a plain dict: a non-empty one is kept as
   * it is, although the definition it holds is empty.
   */
  lemma PlainDictKept(filter: bool)
    ensures CleanSpec(Spec("ElementObject", [Entry("type", VStr("text")), Entry("options", VSpec(DictOptions))]), filter)
         == Ok(Spec("ElementObject", [Entry("type", VStr("text")), Entry("options", VSpec(DictOptions))]))
  {
    var sp := Spec("ElementObject", [Entry("type", VStr("text")), Entry("options", VSpec(DictOptions))]);
    assert Cleaned(sp.entries[0].value, filter);
    assert Cleaned(sp.entries[1].value, filter);
    assert CleanedSpec(sp, filter);
    hide *;
    CleanSpecFix(sp, filter);
  }

  /** An empty plain dict is deleted. */
  lemma EmptyDictDeleted(filter: bool)
    ensures CleanSpec(Spec("ElementObject", [Entry("type", VStr("text")), Entry("options", VSpec(Spec("dict", [])))]), filter)
         == Ok(Spec("ElementObject", [Entry("type", VStr("text"))]))
  {
    var hollow := Spec("ElementObject", [Entry("type", VStr("text")), Entry("options", VSpec(Spec("dict", [])))]);
    assert CleanValue(VStr("text"), filter) == Ok(Some(VStr("text")));
    assert CleanValue(VSpec(Spec("dict", [])), filter) == Ok(None);
    assert CleanEntries(hollow, 2, filter) == Ok([]);
    assert CleanEntries(hollow, 1, filter) == Ok([]);
    assert CleanEntries(hollow, 0, filter) == Ok([Entry("type", VStr("text"))] + []);
    assert [Entry("type", VStr("text"))] + [] == [Entry("type", VStr("text"))];
  }

  /** A plain dict inside a list has no `clean`: cleaning the list fails. */
  lemma DictInListFails(filter: bool)
    ensures CleanSpec(Spec("X", [Entry("l", VList([VSpec(Spec("dict", [Entry("a", VInt(1))]))]))]), filter).Err?
  {
    var l := VList([VSpec(Spec("dict", [Entry("a", VInt(1))]))]);
    assert !Cleanable(l.items[0]);
    assert CleanItems(l, 0, filter).Err?;
  }

  // ---------------------------------------------------------------------
  // The add_* helpers of the subclasses

  /**
   * The declared properties of the definition classes, in declaration
   * order.  The classes without a `props` table declare none; a nested
   * class is named with its own table.
   */
  const BoundConstraintProps := [Prop("min", TStr), Prop("max", TStr)]
  const EnumerationProps := [Prop("description", TStr)]
  const InstrumentReferenceProps := [Prop("id", TStr), Prop("version", TStr)]
  const ParameterProps := [Prop("type", TStr)]

  function Open(cls: string): PropType { TSpec(cls, []) }

  const InstrumentProps := [Prop("id", TStr), Prop("version", TStr), Prop("title", TStr),
    Prop("description", TStr), Prop("types", Open("TypeCollectionObject")), Prop("record", TList)]
  const FieldProps := [Prop("id", TStr), Prop("description", TStr), Prop("type", TStr), Prop("required", TBool),
    Prop("annotation", TStr), Prop("explanation", TStr), Prop("identifiable", TBool)]
  const TypeObjectProps := [Prop("base", TStr), Prop("range", TSpec("BoundConstraintObject", BoundConstraintProps)),
    Prop("length", TSpec("BoundConstraintObject", BoundConstraintProps)), Prop("pattern", TStr),
    Prop("enumerations", Open("EnumerationCollectionObject")), Prop("record", TList),
    Prop("columns", TList), Prop("rows", TList)]
  const ColumnProps := [Prop("id", TStr), Prop("description", TStr), Prop("type", TStr), Prop("required", TBool),
    Prop("identifiable", TBool)]
  const RowProps := [Prop("id", TStr), Prop("description", TStr), Prop("required", TBool)]
  const CalculationSetProps := [Prop("instrument", TSpec("InstrumentReferenceObject", InstrumentReferenceProps)),
    Prop("calculations", TList)]
  const CalculationProps := [Prop("id", TStr), Prop("description", TStr), Prop("type", TStr), Prop("method", TStr),
    Prop("options", Open("DefinitionSpecification"))]
  const WebFormProps := [Prop("instrument", TSpec("InstrumentReferenceObject", InstrumentReferenceProps)),
    Prop("defaultLocalization", TStr), Prop("title", TStr), Prop("pages", TList),
    Prop("parameters", Open("DefinitionSpecification"))]
  const PageProps := [Prop("id", TStr), Prop("elements", TList)]
  const ElementProps := [Prop("type", TStr), Prop("options", Open("DefinitionSpecification")), Prop("tags", TList)]
  const WidgetConfigurationProps := [Prop("type", TStr), Prop("options", Open("DefinitionSpecification"))]
  const QuestionProps := [Prop("fieldId", TStr), Prop("text", Open("LocalizedStringObject")),
    Prop("audio", Open("AudioSourceObject")), Prop("help", Open("LocalizedStringObject")),
    Prop("error", Open("LocalizedStringObject")), Prop("enumerations", TList), Prop("questions", TList),
    Prop("rows", TList), Prop("widget", TSpec("WidgetConfigurationObject", WidgetConfigurationProps)),
    Prop("events", TList)]
  const DescriptorProps := [Prop("id", TStr), Prop("text", Open("LocalizedStringObject")),
    Prop("audio", Open("AudioSourceObject")), Prop("help", Open("LocalizedStringObject"))]
  const EventProps := [Prop("trigger", TStr), Prop("action", TStr), Prop("targets", TList),
    Prop("options", Open("DefinitionSpecification"))]

  /** A new `TypeObject` holds a `BoundConstraintObject` with empty bounds under `range`. */
  lemma TypeObjectRangeZero()
    ensures Lookup(Init("TypeObject", TypeObjectProps, [], []), "range")
         == Some(VSpec(Spec("BoundConstraintObject", [Entry("min", VStr("")), Entry("max", VStr(""))])))
  {
    hide Init, Lookup, Zero;
    TypeObjectKeysDistinct();
    InitZero("TypeObject", TypeObjectProps, [], [], 1);
    BoundConstraintZero();
  }

  /** The props of `TypeObject` have pairwise distinct keys. */
  lemma TypeObjectKeysDistinct()
    ensures forall a, b :: 0 <= a < b < |TypeObjectProps| ==> TypeObjectProps[a].key != TypeObjectProps[b].key
  {
  }

  /** A zeroed `BoundConstraintObject` has both bounds empty. */
  lemma BoundConstraintZero()
    ensures Zero(TSpec("BoundConstraintObject", BoundConstraintProps))
         == VSpec(Spec("BoundConstraintObject", [Entry("min", VStr("")), Entry("max", VStr(""))]))
  {
    var z := Zero(TSpec("BoundConstraintObject", BoundConstraintProps));
    assert z.spec.entries == [Entry("min", VStr("")), Entry("max", VStr(""))];
  }

  /** Why an add_* helper fails: a failed type assertion, a missing key, or a value of the wrong kind. */
  datatype AddError = AssertionError | KeyError | AttributeError | TypeError

  /** `self[key].append(item)` after asserting that `item` is a `cls`. */
  function AppendTo(sp: Spec, key: string, item: Spec, cls: string): (r: Result<Spec, AddError>)
    ensures item.cls != cls ==> r == Err(AssertionError)
    ensures item.cls == cls && Lookup(sp, key).None? ==> r == Err(KeyError)
    ensures r.Ok? <==> item.cls == cls && Lookup(sp, key).Some? && Lookup(sp, key).value.VList?
    ensures r.Ok? ==> Lookup(r.value, key) == Some(VList(Lookup(sp, key).value.items + [VSpec(item)]))
    ensures r.Ok? ==> Keys(r.value) == Keys(sp) && r.value.cls == sp.cls
    ensures r.Ok? ==> forall k :: k != key ==> Lookup(r.value, k) == Lookup(sp, k)
  {
    if item.cls != cls then Err(AssertionError)
    else
      match Lookup(sp, key)
      case None => Err(KeyError)
      case Some(VList(xs)) => Ok(Update(sp, key, VList(xs + [VSpec(item)])))
      case Some(_) => Err(AttributeError)
  }

  /**
   * `add_element`: a single element or a list of them, each asserted to
   * be an ElementObject and appended in turn; an empty list touches
   * nothing.
   */
  function AppendEach(sp: Spec, key: string, items: seq<Spec>, cls: string): (r: Result<Spec, AddError>)
    ensures items == [] ==> r == Ok(sp)
    ensures r.Ok? ==> Keys(r.value) == Keys(sp) && r.value.cls == sp.cls
    ensures r.Ok? ==> forall k :: k != key ==> Lookup(r.value, k) == Lookup(sp, k)
    decreases |items|
  {
    if items == [] then Ok(sp)
    else
      var first := AppendTo(sp, key, items[0], cls);
      if first.Err? then first else AppendEach(first.value, key, items[1..], cls)
  }

  /** The list of definitions a sequence of items appends. */
  function Wrapped(items: seq<Spec>): (vs: seq<Value>)
    ensures |vs| == |items|
    ensures forall k :: 0 <= k < |items| ==> vs[k] == VSpec(items[k])
  {
    seq(|items|, k requires 0 <= k < |items| => VSpec(items[k]))
  }

  predicate AllOfClass(items: seq<Spec>, cls: string)
  {
    forall k :: 0 <= k < |items| ==> items[k].cls == cls
  }

  lemma AllOfClassCons(items: seq<Spec>, cls: string)
    requires items != []
    ensures AllOfClass(items, cls) <==> items[0].cls == cls && AllOfClass(items[1..], cls)
  {
    if items[0].cls == cls && AllOfClass(items[1..], cls) {
      forall k | 0 <= k < |items| ensures items[k].cls == cls {
        if k > 0 { assert items[k] == items[1..][k - 1]; }
      }
    }
  }

  /** Appending a list of items appends them all, in order, exactly when each is a `cls`. */
  lemma {:induction false} AppendEachContents(sp: Spec, key: string, items: seq<Spec>, cls: string, xs: seq<Value>)
    requires Lookup(sp, key) == Some(VList(xs))
    ensures AppendEach(sp, key, items, cls).Ok? <==> AllOfClass(items, cls)
    ensures AppendEach(sp, key, items, cls).Ok? ==> Lookup(AppendEach(sp, key, items, cls).value, key) == Some(VList(xs + Wrapped(items)))
    decreases |items|
  {
    hide AppendTo, Update, Lookup, Keys, Wrapped;
    if items == [] {
      assert xs + Wrapped(items) == xs;
    } else {
      AllOfClassCons(items, cls);
      var first := AppendTo(sp, key, items[0], cls);
      if first.Ok? {
        AppendEachContents(first.value, key, items[1..], cls, xs + [VSpec(items[0])]);
        assert Wrapped(items) == [VSpec(items[0])] + Wrapped(items[1..]);
        assert xs + [VSpec(items[0])] + Wrapped(items[1..]) == xs + Wrapped(items);
      }
    }
  }

  /** `self[key][name] = item` after asserting that `item` is a `cls` (add_type, add_parameter). */
  function SetIn(sp: Spec, key: string, name: string, item: Spec, cls: string): (r: Result<Spec, AddError>)
    ensures item.cls != cls ==> r == Err(AssertionError)
    ensures item.cls == cls && Lookup(sp, key).None? ==> r == Err(KeyError)
    ensures r.Ok? <==> item.cls == cls && Lookup(sp, key).Some? && Lookup(sp, key).value.VSpec?
    ensures r.Ok? ==> Lookup(r.value, key).Some? && Lookup(r.value, key).value.VSpec?
    ensures r.Ok? ==> Lookup(Lookup(r.value, key).value.spec, name) == Some(VSpec(item))
    ensures r.Ok? ==> forall n :: n != name ==> Lookup(Lookup(r.value, key).value.spec, n) == Lookup(Lookup(sp, key).value.spec, n)
    ensures r.Ok? ==> Keys(r.value) == Keys(sp) && forall k :: k != key ==> Lookup(r.value, k) == Lookup(sp, k)
  {
    if item.cls != cls then Err(AssertionError)
    else
      match Lookup(sp, key)
      case None => Err(KeyError)
      case Some(VSpec(inner)) => Ok(Update(sp, key, VSpec(Update(inner, name, VSpec(item)))))
      case Some(_) => Err(TypeError)
  }

  /** `EnumerationCollectionObject.add`: a description gives an EnumerationObject, none gives None. */
  function AddEnumeration(coll: Spec, name: string, description: string): (r: Spec)
    ensures description != "" ==> Lookup(r, name) == Some(VSpec(Spec("EnumerationObject", [Entry("description", VStr(description))])))
    ensures description == "" ==> Lookup(r, name) == Some(VNone)
    ensures forall n :: n != name ==> Lookup(r, n) == Lookup(coll, n)
    ensures r.cls == coll.cls
  {
    var v := if description != "" then VSpec(Init("EnumerationObject", EnumerationProps, [], [Entry("description", VStr(description))])) else VNone;
    EnumerationInit(description);
    Update(coll, name, v)
  }

  /** EnumerationObject(description=d) has the one entry `description: d`. */
  lemma EnumerationInit(d: string)
    ensures Init("EnumerationObject", EnumerationProps, [], [Entry("description", VStr(d))])
         == Spec("EnumerationObject", [Entry("description", VStr(d))])
  {
    var props := EnumerationProps;
    var z := Spec("EnumerationObject", []);
    assert Zeros(props) == [Entry("description", VStr(""))];
    assert Admits(props, "description") by {
      assert PropKeys(props)[0] == "description";
    }
    var zeros := UpdateAll(z, Zeros(props), []);
    assert UpdateAll(z, Zeros(props)[1..], []) == z;
    assert Update(z, "description", VStr("")) == Spec("EnumerationObject", [Entry("description", VStr(""))]);
    assert zeros == Spec("EnumerationObject", [Entry("description", VStr(""))]);
    assert UpdateAll(zeros, [], props) == zeros;
    var e := Spec("EnumerationObject", [Entry("description", VStr(d))]);
    assert Update(zeros, "description", VStr(d)) == e by {
      assert IndexOf(zeros, "description") == Some(0);
    }
    var kw := [Entry("description", VStr(d))];
    assert kw[1..] == [];
    assert UpdateAll(e, kw[1..], props) == e;
    assert UpdateAll(zeros, kw, props) == e;
  }

  /** `TypeObject.add_enumeration`: delegates to the collection under `enumerations`, which must have `add`. */
  function TypeAddEnumeration(sp: Spec, name: string, description: string): (r: Result<Spec, AddError>)
    ensures Lookup(sp, "enumerations").None? ==> r == Err(KeyError)
    ensures r.Ok? <==> Lookup(sp, "enumerations").Some? && Lookup(sp, "enumerations").value.VSpec?
                       && Lookup(sp, "enumerations").value.spec.cls == "EnumerationCollectionObject"
    ensures r.Ok? ==> Lookup(r.value, "enumerations") == Some(VSpec(AddEnumeration(Lookup(sp, "enumerations").value.spec, name, description)))
    ensures r.Ok? ==> Keys(r.value) == Keys(sp) && forall k :: k != "enumerations" ==> Lookup(r.value, k) == Lookup(sp, k)
  {
    match Lookup(sp, "enumerations")
    case None => Err(KeyError)
    case Some(v) =>
      if v.VSpec? && v.spec.cls == "EnumerationCollectionObject" then
        Ok(Update(sp, "enumerations", VSpec(AddEnumeration(v.spec, name, description))))
      else Err(AttributeError)
  }

  /** `QuestionObject.set_widget`: asserts the class, then assigns, adding the key if missing. */
  function SetWidget(sp: Spec, widget: Spec): (r: Result<Spec, AddError>)
    ensures r.Err? <==> widget.cls != "WidgetConfigurationObject"
    ensures r.Ok? ==> Lookup(r.value, "widget") == Some(VSpec(widget))
    ensures r.Ok? ==> forall k :: k != "widget" ==> Lookup(r.value, k) == Lookup(sp, k)
  {
    if widget.cls != "WidgetConfigurationObject" then Err(AssertionError)
    else Ok(Update(sp, "widget", VSpec(widget)))
  }

  /**
   * The list helpers by owner class and method name: the key they append
   * to and the class they assert; `add` and `add_element` included.
   */
  function ListAdder(owner: string, methodName: string): (r: Option<(string, string)>)
  {
    match (owner, methodName)
    case ("Instrument", "add_field") => Some(("record", "FieldObject"))
    case ("TypeObject", "add_column") => Some(("columns", "ColumnObject"))
    case ("TypeObject", "add_field") => Some(("record", "FieldObject"))
    case ("TypeObject", "add_row") => Some(("rows", "RowObject"))
    case ("CalculationSetObject", "add") => Some(("calculations", "CalculationObject"))
    case ("WebForm", "add_page") => Some(("pages", "PageObject"))
    case ("PageObject", "add_element") => Some(("elements", "ElementObject"))
    case ("QuestionObject", "add_enumeration") => Some(("enumerations", "DescriptorObject"))
    case ("QuestionObject", "add_question") => Some(("questions", "QuestionObject"))
    case ("QuestionObject", "add_row") => Some(("rows", "DescriptorObject"))
    case ("QuestionObject", "add_event") => Some(("events", "EventObject"))
    case _ => None
  }

  /** A new Instrument, WebForm or PageObject accepts the append of its helpers. */
  lemma NewInstrumentAcceptsField(item: Spec)
    requires item.cls == "FieldObject"
    ensures AppendTo(Init("Instrument", InstrumentProps, [], []), "record", item, "FieldObject").Ok?
  {
    hide Init;
    InstrumentPropsDistinct();
    assert InstrumentProps[5].key == "record" && InstrumentProps[5].ptype == TList;
    InitZero("Instrument", InstrumentProps, [], [], 5);
  }

  lemma InstrumentPropsDistinct()
    ensures forall a, b :: 0 <= a < b < |InstrumentProps| ==> InstrumentProps[a].key != InstrumentProps[b].key
  {
  }

  lemma NewWebFormAcceptsPage(item: Spec)
    requires item.cls == "PageObject"
    ensures AppendTo(Init("WebForm", WebFormProps, [], []), "pages", item, "PageObject").Ok?
  {
    hide Init;
    WebFormPropsDistinct();
    assert WebFormProps[3].key == "pages" && WebFormProps[3].ptype == TList;
    InitZero("WebForm", WebFormProps, [], [], 3);
  }

  lemma WebFormPropsDistinct()
    ensures forall a, b :: 0 <= a < b < |WebFormProps| ==> WebFormProps[a].key != WebFormProps[b].key
  {
  }

  lemma NewPageAcceptsElements(items: seq<Spec>)
    requires AllOfClass(items, "ElementObject")
    ensures AppendEach(Init("PageObject", PageProps, [], []), "elements", items, "ElementObject").Ok?
    ensures Lookup(AppendEach(Init("PageObject", PageProps, [], []), "elements", items, "ElementObject").value, "elements")
         == Some(VList(Wrapped(items)))
  {
    assert PageProps[1].key == "elements" && PageProps[1].ptype == TList;
    InitZero("PageObject", PageProps, [], [], 1);
    AppendEachContents(Init("PageObject", PageProps, [], []), "elements", items, "ElementObject", []);
    assert [] + Wrapped(items) == Wrapped(items);
  }
}

=== FILE: symbol_tables.dfy ===
/**
 * The symbol tables shared by both directions of the expression translator
 * (redcap/to_rios.py and redcap/from_rios.py).
 *
 * Python 2 iterates a dict in an order fixed by string hashes; the model
 * fixes it to the order of the dict literal, which is also the order in
 * which the rename passes run.
 */
module SymbolTables {
  import opened Wrappers

  /** An ordered table of (key, value) string pairs standing for a dict. */
  type Table = seq<(string, string)>

  /** dict lookup; when a key repeats, the later entry wins as in a dict display. */
  function Lookup(t: Table, k: string): (r: Option<string>)
    ensures r.Some? ==> exists i :: 0 <= i < |t| && t[i] == (k, r.value)
    ensures r.None? ==> forall i :: 0 <= i < |t| ==> t[i].0 != k
  {
    if |t| == 0 then None
    else if t[|t| - 1].0 == k then Some(t[|t| - 1].1)
    else
      var r := Lookup(t[..|t| - 1], k);
      assert forall i :: 0 <= i < |t| - 1 ==> t[..|t| - 1][i] == t[i];
      r
  }

  /** `{v: k for k, v in t.items()}`, keeping the entry order. */
  function Invert(t: Table): (r: Table)
    ensures |r| == |t|
    ensures forall i :: 0 <= i < |t| ==> r[i] == (t[i].1, t[i].0)
  {
    seq(|t|, i requires 0 <= i < |t| => (t[i].1, t[i].0))
  }

  ghost predicate DistinctValues(t: Table)
  {
    forall i, j :: 0 <= i < j < |t| ==> t[i].1 != t[j].1
  }

  ghost predicate DistinctKeys(t: Table)
  {
    forall i, j :: 0 <= i < j < |t| ==> t[i].0 != t[j].0
  }

  /**
   * When the values of a table are pairwise distinct, looking up the value
   * a key maps to in the inverted table gives the key back.
   */
  lemma {:induction false} InvertLookup(t: Table, k: string)
    requires DistinctValues(t)
    requires Lookup(t, k).Some?
    ensures Lookup(Invert(t), Lookup(t, k).value) == Some(k)
  {
    var n := |t| - 1;
    var v := Lookup(t, k).value;
    assert Invert(t)[n] == (t[n].1, t[n].0);
    if t[n].0 != k {
      var t' := t[..n];
      assert Lookup(t', k) == Some(v);
      assert DistinctValues(t') by {
        forall i, j | 0 <= i < j < |t'| ensures t'[i].1 != t'[j].1 {
          assert t'[i] == t[i] && t'[j] == t[j];
        }
      }
      InvertLookup(t', k);
      var i :| 0 <= i < |t'| && t'[i] == (k, v);
      assert t[i].1 == v;
      assert t[n].1 != v;
      assert Invert(t)[..n] == Invert(t');
    }
  }

  /** FUNCTION_TO_PYTHON exactly as written, including the `function.median` entry. */
  const FunctionToPythonAsWritten: Table := [
    ("min", "min"),
    ("max", "max"),
    ("mean", "rios.conversion.redcap.functions.mean"),
    ("median", "rios.conversion.redcap.function.median"),
    ("sum", "rios.conversion.redcap.functions.sum_"),
    ("stdev", "rios.conversion.redcap.functions.stdev"),
    ("round", "rios.conversion.redcap.functions.round_"),
    ("roundup", "rios.conversion.redcap.functions.roundup"),
    ("rounddown", "rios.conversion.redcap.functions.rounddown"),
    ("sqrt", "math.sqrt"),
    ("abs", "abs"),
    ("datediff", "rios.conversion.redcap.functions.datediff")
  ]

  /** The module that implements the REDCap functions, and what it exports. */
  const FunctionsModule := "rios.conversion.redcap.functions."
  const FunctionsExports: seq<string> :=
    ["datediff", "mean", "median", "round_", "rounddown", "roundup", "stdev", "sum_"]

  /** Names the translated expression may call without a module prefix. */
  const PythonBuiltins: seq<string> := ["min", "max", "abs", "math.sqrt"]

  /** FUNCTION_TO_PYTHON with `median` pointing at the module that defines it. */
  const FunctionToPython: Table := [
    ("min", "min"),
    ("max", "max"),
    ("mean", "rios.conversion.redcap.functions.mean"),
    ("median", "rios.conversion.redcap.functions.median"),
    ("sum", "rios.conversion.redcap.functions.sum_"),
    ("stdev", "rios.conversion.redcap.functions.stdev"),
    ("round", "rios.conversion.redcap.functions.round_"),
    ("roundup", "rios.conversion.redcap.functions.roundup"),
    ("rounddown", "rios.conversion.redcap.functions.rounddown"),
    ("sqrt", "math.sqrt"),
    ("abs", "abs"),
    ("datediff", "rios.conversion.redcap.functions.datediff")
  ]

  /** FUNCTION_TO_REDCAP, the inverse table used by the RIOS to REDCap direction. */
  const FunctionToRedcap: Table := Invert(FunctionToPython)

  /** FUNCTION_TO_REDCAP as written: the inverse of the as-written FUNCTION_TO_PYTHON. */
  const FunctionToRedcapAsWritten: Table := Invert(FunctionToPythonAsWritten)

  /** A call target resolves: a builtin, or an export of the functions module. */
  ghost predicate Resolves(target: string)
  {
    target in PythonBuiltins
    || exists e :: e in FunctionsExports && target == FunctionsModule + e
  }

  /** As written, the `median` entry names a module that does not exist. */
  lemma MedianTargetAsWrittenDoesNotResolve()
    ensures Lookup(FunctionToPythonAsWritten, "median") == Some("rios.conversion.redcap.function.median")
    ensures !Resolves(Lookup(FunctionToPythonAsWritten, "median").value)
  {
    FunctionTablesDistinct();
    LookupEntry(FunctionToPythonAsWritten, 3);
    var target := "rios.conversion.redcap.function.median";
    forall e | e in FunctionsExports ensures target != FunctionsModule + e {
      assert target[31] == '.' && (FunctionsModule + e)[31] == 's';
    }
  }

  /** In the corrected table every target resolves. */
  lemma EveryTargetResolves(k: string)
    requires Lookup(FunctionToPython, k).Some?
    ensures Resolves(Lookup(FunctionToPython, k).value)
  {
    var t := FunctionToPython;
    var i :| 0 <= i < |t| && t[i] == (k, Lookup(t, k).value);
    RowResolves(i);
  }

  /** The target in row `i` of the corrected table resolves. */
  lemma RowResolves(i: nat)
    requires i < |FunctionToPython|
    ensures Resolves(FunctionToPython[i].1)
  {
    var t := FunctionToPython;
    if i == 2 {
      assert FunctionsModule + "mean" == t[2].1;
    } else if i == 3 {
      assert FunctionsModule + "median" == t[3].1;
    } else if i == 4 {
      assert FunctionsModule + "sum_" == t[4].1;
    } else if i == 5 {
      assert FunctionsModule + "stdev" == t[5].1;
    } else if i == 6 {
      assert FunctionsModule + "round_" == t[6].1;
    } else if i == 7 {
      assert FunctionsModule + "roundup" == t[7].1;
    } else if i == 8 {
      assert FunctionsModule + "rounddown" == t[8].1;
    } else if i == 11 {
      assert FunctionsModule + "datediff" == t[11].1;
    }
  }

  /**
   * Two strings that differ in length, first or last character differ;
   * stated over a whole table this settles distinctness cheaply.
   */
  ghost predicate KeysTellApart(t: Table)
  {
    (forall i :: 0 <= i < |t| ==> |t[i].0| > 0)
    && forall i :: 0 <= i < |t| ==> KeyApartFromLater(t, i)
  }

  /** The key at `i` is told apart from every later key. */
  ghost predicate KeyApartFromLater(t: Table, i: int)
    requires 0 <= i < |t| && forall i :: 0 <= i < |t| ==> |t[i].0| > 0
  {
    forall j :: i < j < |t| ==>
      |t[i].0| != |t[j].0| || t[i].0[0] != t[j].0[0] || t[i].0[|t[i].0| - 1] != t[j].0[|t[j].0| - 1]
  }

  ghost predicate ValuesTellApart(t: Table)
  {
    (forall i :: 0 <= i < |t| ==> |t[i].1| > 0)
    && forall i :: 0 <= i < |t| ==> ValueApartFromLater(t, i)
  }

  /** The value at `i` is told apart from every later value. */
  ghost predicate ValueApartFromLater(t: Table, i: int)
    requires 0 <= i < |t| && forall i :: 0 <= i < |t| ==> |t[i].1| > 0
  {
    forall j :: i < j < |t| ==>
      |t[i].1| != |t[j].1| || t[i].1[0] != t[j].1[0] || t[i].1[|t[i].1| - 1] != t[j].1[|t[j].1| - 1]
  }

  lemma TellApartDistinct(t: Table)
    ensures KeysTellApart(t) ==> DistinctKeys(t)
    ensures ValuesTellApart(t) ==> DistinctValues(t)
  {
    if KeysTellApart(t) {
      forall i, j | 0 <= i < j < |t| ensures t[i].0 != t[j].0 {
        assert KeyApartFromLater(t, i);
      }
    }
    if ValuesTellApart(t) {
      forall i, j | 0 <= i < j < |t| ensures t[i].1 != t[j].1 {
        assert ValueApartFromLater(t, i);
      }
    }
  }

  lemma FunctionTablesDistinct()
    ensures DistinctKeys(FunctionToPython) && DistinctValues(FunctionToPython)
    ensures DistinctKeys(FunctionToPythonAsWritten) && DistinctValues(FunctionToPythonAsWritten)
  {
    KeysApart();
    ValuesApart();
    AsWrittenKeysApart();
    AsWrittenValuesApart();
    TellApartDistinct(FunctionToPython);
    TellApartDistinct(FunctionToPythonAsWritten);
  }

  lemma KeysApart() ensures KeysTellApart(FunctionToPython)
  {
    KeysApartLow();
    KeysApartHigh();
  }
  lemma KeysApartLow()
    ensures forall i :: 0 <= i < |FunctionToPython| ==> |FunctionToPython[i].0| > 0
    ensures forall i :: 0 <= i < 6 ==> KeyApartFromLater(FunctionToPython, i)
  { }
  lemma KeysApartHigh()
    ensures forall i :: 6 <= i < |FunctionToPython| ==> KeyApartFromLater(FunctionToPython, i)
  { }

  lemma ValuesApart() ensures ValuesTellApart(FunctionToPython)
  {
    ValuesApartLow();
    ValuesApartHigh();
  }
  lemma ValuesApartLow()
    ensures forall i :: 0 <= i < |FunctionToPython| ==> |FunctionToPython[i].1| > 0
    ensures forall i :: 0 <= i < 6 ==> ValueApartFromLater(FunctionToPython, i)
  { }
  lemma ValuesApartHigh()
    ensures forall i :: 6 <= i < |FunctionToPython| ==> ValueApartFromLater(FunctionToPython, i)
  { }

  lemma AsWrittenKeysApart() ensures KeysTellApart(FunctionToPythonAsWritten)
  {
    AsWrittenKeysApartLow();
    AsWrittenKeysApartHigh();
  }
  lemma AsWrittenKeysApartLow()
    ensures forall i :: 0 <= i < |FunctionToPythonAsWritten| ==> |FunctionToPythonAsWritten[i].0| > 0
    ensures forall i :: 0 <= i < 6 ==> KeyApartFromLater(FunctionToPythonAsWritten, i)
  { }
  lemma AsWrittenKeysApartHigh()
    ensures forall i :: 6 <= i < |FunctionToPythonAsWritten| ==> KeyApartFromLater(FunctionToPythonAsWritten, i)
  { }

  lemma AsWrittenValuesApart() ensures ValuesTellApart(FunctionToPythonAsWritten)
  {
    AsWrittenValuesApartLow();
    AsWrittenValuesApartHigh();
  }
  lemma AsWrittenValuesApartLow()
    ensures forall i :: 0 <= i < |FunctionToPythonAsWritten| ==> |FunctionToPythonAsWritten[i].1| > 0
    ensures forall i :: 0 <= i < 6 ==> ValueApartFromLater(FunctionToPythonAsWritten, i)
  { }
  lemma AsWrittenValuesApartHigh()
    ensures forall i :: 6 <= i < |FunctionToPythonAsWritten| ==> ValueApartFromLater(FunctionToPythonAsWritten, i)
  { }

  /** In a table with distinct keys every entry is what its key looks up. */
  lemma {:induction false} LookupEntry(t: Table, i: nat)
    requires DistinctKeys(t) && i < |t|
    ensures Lookup(t, t[i].0) == Some(t[i].1)
  {
    var n := |t| - 1;
    if i < n {
      assert t[n].0 != t[i].0;
      var t' := t[..n];
      assert DistinctKeys(t') by {
        forall a, b | 0 <= a < b < |t'| ensures t'[a].0 != t'[b].0 {
          assert t'[a] == t[a] && t'[b] == t[b];
        }
      }
      LookupEntry(t', i);
    }
  }

  /** FUNCTION_TO_REDCAP[FUNCTION_TO_PYTHON[k]] == k for every REDCap function name. */
  lemma FunctionTablesInverse(k: string)
    requires Lookup(FunctionToPython, k).Some?
    ensures Lookup(FunctionToRedcap, Lookup(FunctionToPython, k).value) == Some(k)
  {
    FunctionTablesDistinct();
    InvertLookup(FunctionToPython, k);
  }

  /** OPERATOR_TO_REXL: (REDCap operator, RIOS operator) pairs, applied in order. */
  const OperatorToRexl: Table := [("<>", "!=")]
}

=== FILE: text.dfy ===
/**
 * Character classes and string operations with the meaning Python 2 gives
 * them on byte strings (`str`, no LOCALE or UNICODE regex flags).  Strings
 * are `seq<char>`; the model uses only the characters' code points.
 */
module Text {
  import opened Wrappers

  predicate IsUpper(c: char) { 'A' <= c <= 'Z' }
  predicate IsLower(c: char) { 'a' <= c <= 'z' }
  predicate IsAsciiLetter(c: char) { IsUpper(c) || IsLower(c) }
  predicate IsDigit(c: char) { '0' <= c <= '9' }

  /** The regex class `\w`: `[A-Za-z0-9_]`. */
  predicate IsWordChar(c: char) { IsAsciiLetter(c) || IsDigit(c) || c == '_' }

  /** The regex class `\s` and `str.isspace`: space, tab, LF, VT, FF, CR. */
  predicate IsSpace(c: char) { c == ' ' || 9 <= c as int <= 13 }

  predicate AllWordChars(s: string) { forall i :: 0 <= i < |s| ==> IsWordChar(s[i]) }
  predicate AllSpace(s: string) { forall i :: 0 <= i < |s| ==> IsSpace(s[i]) }
  predicate AllDigits(s: string) { forall i :: 0 <= i < |s| ==> IsDigit(s[i]) }

  /** `str.lower` on a byte string: only ASCII capitals change. */
  function Lower(c: char): (r: char)
    ensures !IsUpper(r)
    ensures IsUpper(c) ==> r as int == c as int + 32
    ensures !IsUpper(c) ==> r == c
  {
    if IsUpper(c) then (c as int + 32) as char else c
  }

  function LowerStr(s: string): (r: string)
    ensures |r| == |s|
    ensures forall i :: 0 <= i < |s| ==> r[i] == Lower(s[i])
  {
    if |s| == 0 then "" else [Lower(s[0])] + LowerStr(s[1..])
  }

  predicate StartsWith(s: string, p: string) { |p| <= |s| && s[..|p|] == p }

  /** `p` occurs in `s` starting at index `i`. */
  predicate OccursAt(s: string, p: string, i: nat) { i + |p| <= |s| && s[i..i + |p|] == p }

  /** Python's `p in s` for strings. */
  predicate Contains(s: string, p: string) { exists i :: 0 <= i <= |s| && OccursAt(s, p, i) }

  /** `str.lstrip()` with no argument. */
  function StripLeft(s: string): (r: string)
    ensures |r| <= |s| && r == s[|s| - |r|..]
    ensures AllSpace(s[..|s| - |r|])
    ensures r == [] || !IsSpace(r[0])
  {
    if |s| > 0 && IsSpace(s[0]) then
      var r := StripLeft(s[1..]);
      assert s[..|s| - |r|] == [s[0]] + s[1..][..|s| - 1 - |r|];
      r
    else s
  }

  /** `str.rstrip()` with no argument. */
  function StripRight(s: string): (r: string)
    ensures |r| <= |s| && r == s[..|r|]
    ensures AllSpace(s[|r|..])
    ensures r == [] || !IsSpace(r[|r| - 1])
  {
    if |s| > 0 && IsSpace(s[|s| - 1]) then
      var t := s[..|s| - 1];
      var r := StripRight(t);
      assert s[|r|..] == t[|r|..] + [s[|s| - 1]];
      r
    else s
  }

  /** `str.strip()` with no argument. */
  function Strip(s: string): string
  {
    StripRight(StripLeft(s))
  }

  lemma StripKeepsTrimmed(s: string)
    requires s == [] || (!IsSpace(s[0]) && !IsSpace(s[|s| - 1]))
    ensures Strip(s) == s
  {
  }

  lemma StripResultTrimmed(s: string)
    ensures Strip(s) == [] || (!IsSpace(Strip(s)[0]) && !IsSpace(Strip(s)[|Strip(s)| - 1]))
  {
    var l := StripLeft(s);
    var r := StripRight(l);
    if r != [] {
      assert r[0] == l[0];
    }
  }

  /**
   * Python's `s[i:j]` for non-negative `i` and `j`: both bounds are clamped
   * to the length and an empty string results when `i >= j`.
   */
  function PySlice(s: string, i: nat, j: nat): (r: string)
    ensures i <= j <= |s| ==> r == s[i..j]
    ensures j <= i ==> r == ""
  {
    var lo := if i <= |s| then i else |s|;
    var hi := if j <= |s| then j else |s|;
    if lo < hi then s[lo..hi] else ""
  }

  /**
   * Python's `s.find(p, from)` for a non-empty `p`: the least index at or
   * after `from` where `p` occurs, or None for -1.
   */
  function Find(s: string, p: string, from: nat): (r: Option<nat>)
    requires |p| > 0
    ensures r.Some? ==> from <= r.value && OccursAt(s, p, r.value)
    ensures r.Some? ==> forall k :: from <= k < r.value ==> !OccursAt(s, p, k)
    ensures r.None? ==> forall k :: from <= k ==> !OccursAt(s, p, k)
    decreases |s| - from
  {
    if from + |p| > |s| then None
    else if s[from..from + |p|] == p then Some(from)
    else Find(s, p, from + 1)
  }
  /** Find reports -1 exactly when no occurrence starts at or after `from`. */
  lemma {:induction false} FindNone(s: string, p: string, from: nat)
    requires |p| > 0 && forall k :: from <= k ==> !OccursAt(s, p, k)
    ensures Find(s, p, from).None?
    decreases |s| - from
  {
    if from + |p| <= |s| {
      assert !OccursAt(s, p, from);
      FindNone(s, p, from + 1);
    }
  }


  /**
   * Python's `s.replace(old, new)` from index `i` on: occurrences are found
   * left to right and do not overlap; text between them is copied.
   */
  function ReplaceFrom(s: string, pat: string, rep: string, i: nat): (r: string)
    requires |pat| > 0 && i <= |s|
    decreases |s| - i
  {
    if OccursAt(s, pat, i) then rep + ReplaceFrom(s, pat, rep, i + |pat|)
    else if i < |s| then [s[i]] + ReplaceFrom(s, pat, rep, i + 1)
    else ""
  }

  /** Without an occurrence of the pattern, replace changes nothing. */
  lemma {:induction false} ReplaceFromAbsent(s: string, pat: string, rep: string, i: nat)
    requires |pat| > 0 && i <= |s|
    requires forall k :: i <= k ==> !OccursAt(s, pat, k)
    ensures ReplaceFrom(s, pat, rep, i) == s[i..]
    decreases |s| - i
  {
    if i < |s| {
      ReplaceFromAbsent(s, pat, rep, i + 1);
      assert s[i..] == [s[i]] + s[i + 1..];
    }
  }

  function Replace(s: string, pat: string, rep: string): string
    requires |pat| > 0
  {
    ReplaceFrom(s, pat, rep, 0)
  }

  /** Replacing from inside `x + y` at or after `|x|` only sees `y`. */
  lemma {:induction false} ReplaceFromShift(x: string, y: string, pat: string, rep: string, j: nat)
    requires |pat| > 0 && j <= |y|
    ensures ReplaceFrom(x + y, pat, rep, |x| + j) == ReplaceFrom(y, pat, rep, j)
    decreases |y| - j
  {
    var s := x + y;
    var i := |x| + j;
    assert OccursAt(s, pat, i) <==> OccursAt(y, pat, j) by {
      if i + |pat| <= |s| {
        assert s[i..i + |pat|] == y[j..j + |pat|];
      }
    }
    if OccursAt(y, pat, j) {
      assert ReplaceFrom(s, pat, rep, i) == rep + ReplaceFrom(s, pat, rep, i + |pat|);
      assert ReplaceFrom(y, pat, rep, j) == rep + ReplaceFrom(y, pat, rep, j + |pat|);
      hide *;
      ReplaceFromShift(x, y, pat, rep, j + |pat|);
    } else if j < |y| {
      assert s[i] == y[j];
      assert ReplaceFrom(s, pat, rep, i) == [s[i]] + ReplaceFrom(s, pat, rep, i + 1);
      assert ReplaceFrom(y, pat, rep, j) == [y[j]] + ReplaceFrom(y, pat, rep, j + 1);
      hide *;
      ReplaceFromShift(x, y, pat, rep, j + 1);
    }
  }

  /** The first character a replacement from `i` produces. */
  lemma ReplaceFromFirst(s: string, pat: string, rep: string, i: nat)
    requires |pat| > 0 && |rep| > 0 && i < |s|
    ensures var r := ReplaceFrom(s, pat, rep, i);
      |r| > 0 && r[0] == (if OccursAt(s, pat, i) then rep[0] else s[i])
  {
  }

  /**
   * Replacing a two-character pattern by a two-character text with distinct
   * characters, then the text back by the pattern, restores the input when
   * the text did not occur in it: no occurrence of the text can straddle a
   * replacement.
   */
  lemma {:induction false} ReplaceBackFrom(s: string, pat: string, rep: string, i: nat)
    requires |pat| == 2 && |rep| == 2 && rep[0] != rep[1] && i <= |s|
    requires forall k :: i <= k ==> !OccursAt(s, rep, k)
    ensures ReplaceFrom(ReplaceFrom(s, pat, rep, i), rep, pat, 0) == s[i..]
    decreases |s| - i
  {
    var y := ReplaceFrom(s, pat, rep, i);
    if OccursAt(s, pat, i) {
      var tail := ReplaceFrom(s, pat, rep, i + 2);
      assert y == rep + tail;
      assert OccursAt(y, rep, 0) by { assert y[0..2] == rep; }
      ReplaceFromShift(rep, tail, rep, pat, 0);
      ReplaceBackFrom(s, pat, rep, i + 2);
      assert s[i..] == pat + s[i + 2..] by { assert s[i..i + 2] == pat; }
    } else if i < |s| {
      var tail := ReplaceFrom(s, pat, rep, i + 1);
      assert y == [s[i]] + tail;
      assert !OccursAt(y, rep, 0) by {
        if i + 1 < |s| {
          ReplaceFromFirst(s, pat, rep, i + 1);
          assert !OccursAt(s, rep, i);
          assert s[i..i + 2] == [s[i], s[i + 1]];
          assert y[0] == s[i] && y[1] == tail[0];
        } else {
          assert tail == "";
        }
      }
      ReplaceFromShift([s[i]], tail, rep, pat, 0);
      ReplaceBackFrom(s, pat, rep, i + 1);
      assert s[i..] == [s[i]] + s[i + 1..];
    }
  }

  lemma AppendAssoc<T>(a: seq<T>, b: seq<T>, c: seq<T>)
    ensures a + (b + c) == (a + b) + c
  {
  }

  /** An occurrence of `a + b` is an occurrence of `a` followed by one of `b`. */
  lemma OccursAtConcat(s: string, a: string, b: string, i: nat)
    ensures OccursAt(s, a + b, i) <==> OccursAt(s, a, i) && OccursAt(s, b, i + |a|)
  {
    if OccursAt(s, a + b, i) {
      forall k | 0 <= k < |a| ensures s[i + k] == a[k] {
        assert s[i + k] == s[i..i + |a + b|][k] == (a + b)[k];
      }
      forall k | 0 <= k < |b| ensures s[i + |a| + k] == b[k] {
        assert s[i + |a| + k] == s[i..i + |a + b|][|a| + k] == (a + b)[|a| + k];
      }
      assert s[i..i + |a|] == a;
      assert s[i + |a|..i + |a| + |b|] == b;
    }
    if OccursAt(s, a, i) && OccursAt(s, b, i + |a|) {
      assert s[i..i + |a + b|] == s[i..i + |a|] + s[i + |a|..i + |a| + |b|];
    }
  }

  /** Length of the longest run of word characters starting at `i` (`\w*`). */
  function WordRun(s: string, i: nat): (n: nat)
    requires i <= |s|
    ensures i + n <= |s| && AllWordChars(s[i..i + n])
    ensures i + n == |s| || !IsWordChar(s[i + n])
    decreases |s| - i
  {
    hide IsWordChar;
    if i < |s| && IsWordChar(s[i]) then
      var m := WordRun(s, i + 1);
      assert s[i..i + 1 + m] == [s[i]] + s[i + 1..i + 1 + m];
      1 + m
    else 0
  }

  /** Length of the longest run of whitespace starting at `i` (`\s*`). */
  function SpaceRun(s: string, i: nat): (n: nat)
    requires i <= |s|
    ensures i + n <= |s|
    ensures i + n == |s| || !IsSpace(s[i + n])
    decreases |s| - i
  {
    if i < |s| && IsSpace(s[i]) then 1 + SpaceRun(s, i + 1) else 0
  }

  /** The run is all whitespace, and `k` spaces from `i` fit in it. */
  lemma {:induction false} SpaceRunSpans(s: string, i: nat, k: nat)
    requires i <= |s|
    ensures i <= k < i + SpaceRun(s, i) ==> IsSpace(s[k])
    ensures i + k <= |s| && AllSpace(s[i..i + k]) ==> k <= SpaceRun(s, i)
    decreases |s| - i
  {
    if i < |s| && IsSpace(s[i]) {
      SpaceRunSpans(s, i + 1, k);
      if 0 < k && i + k <= |s| && AllSpace(s[i..i + k]) {
        assert s[i + 1..i + k] == s[i..i + k][1..];
        SpaceRunSpans(s, i + 1, k - 1);
      }
    } else if 0 < k && i + k <= |s| {
      assert s[i..i + k][0] == s[i];
    }
  }

  /** Length of the longest run without a newline starting at `i` (`.*`). */
  function LineRun(s: string, i: nat): (n: nat)
    requires i <= |s|
    ensures i + n <= |s|
    ensures i + n == |s| || s[i + n] == '\n'
    decreases |s| - i
  {
    if i < |s| && s[i] != '\n' then 1 + LineRun(s, i + 1) else 0
  }

  /** The run holds no newline, and `k` characters without one from `i` fit in it. */
  lemma {:induction false} LineRunSpans(s: string, i: nat, k: nat)
    requires i <= |s|
    ensures i <= k < i + LineRun(s, i) ==> s[k] != '\n'
    ensures i + k <= |s| && '\n' !in s[i..i + k] ==> k <= LineRun(s, i)
    decreases |s| - i
  {
    if i < |s| && s[i] != '\n' {
      LineRunSpans(s, i + 1, k);
      if 0 < k && i + k <= |s| && '\n' !in s[i..i + k] {
        assert s[i + 1..i + k] == s[i..i + k][1..];
        LineRunSpans(s, i + 1, k - 1);
      }
    } else if 0 < k && i + k <= |s| {
      assert s[i..i + k][0] == s[i];
    }
  }

  /** One character of a regular expression without metacharacters other than `.`. */
  predicate CharMatches(c: char, p: char) { if p == '.' then c != '\n' else c == p }

  /**
   * The regular expression `pat`, whose only metacharacter is `.` (any
   * character but a newline), matches at index `i`.
   */
  predicate PatternAt(s: string, pat: string, i: nat)
  {
    i + |pat| <= |s| && forall j :: 0 <= j < |pat| ==> CharMatches(s[i + j], pat[j])
  }

  /** Without a `.`, the pattern matches exactly where it occurs literally. */
  lemma PatternAtLiteral(s: string, pat: string, i: nat)
    requires '.' !in pat
    ensures PatternAt(s, pat, i) <==> OccursAt(s, pat, i)
  {
    if PatternAt(s, pat, i) {
      assert forall j :: 0 <= j < |pat| ==> s[i..i + |pat|][j] == pat[j];
    }
    if OccursAt(s, pat, i) {
      forall j | 0 <= j < |pat| ensures CharMatches(s[i + j], pat[j]) {
        assert s[i + j] == s[i..i + |pat|][j];
      }
    }
  }

  /** `\b` at index `i`: word characters on exactly one side. */
  predicate WordBoundary(s: string, i: nat)
  {
    (0 < i <= |s| && IsWordChar(s[i - 1])) != (i < |s| && IsWordChar(s[i]))
  }

  /** Text where the pattern does not start is copied unchanged. */
  lemma {:induction false} ReplaceSkips(s: string, pat: string, rep: string, i: nat, j: nat)
    requires |pat| > 0 && i <= j <= |s|
    requires forall k :: i <= k < j ==> !OccursAt(s, pat, k)
    ensures ReplaceFrom(s, pat, rep, i) == s[i..j] + ReplaceFrom(s, pat, rep, j)
    decreases j - i
  {
    if i < j {
      var rest := ReplaceFrom(s, pat, rep, i + 1);
      assert ReplaceFrom(s, pat, rep, i) == [s[i]] + rest;
      ReplaceSkips(s, pat, rep, i + 1, j);
      assert s[i..j] == [s[i]] + s[i + 1..j];
      AppendAssoc([s[i]], s[i + 1..j], ReplaceFrom(s, pat, rep, j));
    } else {
      assert s[i..j] == [];
    }
  }

  /** Text before the next possible occurrence is copied unchanged. */
  lemma {:induction false} ReplaceCopies(s: string, pat: string, rep: string, i: nat, j: nat)
    requires |pat| > 0 && i <= j <= |s|
    requires forall k :: i <= k < j ==> s[k] != pat[0]
    ensures ReplaceFrom(s, pat, rep, i) == s[i..j] + ReplaceFrom(s, pat, rep, j)
    decreases j - i
  {
    if i < j {
      assert !OccursAt(s, pat, i) by {
        if i + |pat| <= |s| { assert s[i..i + |pat|][0] == s[i] != pat[0]; }
      }
      var rest := ReplaceFrom(s, pat, rep, i + 1);
      assert ReplaceFrom(s, pat, rep, i) == [s[i]] + rest;
      ReplaceCopies(s, pat, rep, i + 1, j);
      assert s[i..j] == [s[i]] + s[i + 1..j];
      AppendAssoc([s[i]], s[i + 1..j], ReplaceFrom(s, pat, rep, j));
    } else {
      assert s[i..j] == [];
    }
  }

  /** `sep.join(parts)`. */
  function Join(sep: string, parts: seq<string>): string
  {
    if |parts| == 0 then ""
    else if |parts| == 1 then parts[0]
    else parts[0] + sep + Join(sep, parts[1..])
  }

  lemma JoinSnoc(sep: string, parts: seq<string>, last: string)
    requires |parts| > 0
    ensures Join(sep, parts + [last]) == Join(sep, parts) + sep + last
  {
    if |parts| == 1 {
      assert parts + [last] == [parts[0], last];
    } else {
      assert (parts + [last])[1..] == parts[1..] + [last];
      JoinSnoc(sep, parts[1..], last);
    }
  }

  lemma JoinExtendFirst(sep: string, c: char, p: string, ps: seq<string>)
    ensures Join(sep, [[c] + p] + ps) == [c] + Join(sep, [p] + ps)
  {
    assert ([[c] + p] + ps)[1..] == ps;
    assert ([p] + ps)[1..] == ps;
  }

  /**
   * `s.split(sep)` for a one-character separator: always one more part
   * than there are separators, and joining the parts gives `s` back.
   */
  function Split(s: string, sep: char): (parts: seq<string>)
    ensures |parts| >= 1
    ensures forall i :: 0 <= i < |parts| ==> sep !in parts[i]
    ensures Join([sep], parts) == s
  {
    if |s| == 0 then [""]
    else if s[0] == sep then
      var rest := Split(s[1..], sep);
      assert ([""] + rest)[1..] == rest;
      [""] + rest
    else
      var rest := Split(s[1..], sep);
      JoinExtendFirst([sep], s[0], rest[0], rest[1..]);
      assert [rest[0]] + rest[1..] == rest;
      [[s[0]] + rest[0]] + rest[1..]
  }

  lemma {:induction false} SplitOfJoin(sep: char, parts: seq<string>)
    requires |parts| >= 1
    requires forall i :: 0 <= i < |parts| ==> sep !in parts[i]
    ensures Split(Join([sep], parts), sep) == parts
  {
    if |parts| == 1 {
      SplitWithoutSeparator(parts[0], sep);
    } else {
      SplitOfJoin(sep, parts[1..]);
      SplitPrefix(parts[0], sep, Join([sep], parts[1..]));
      assert [parts[0]] + parts[1..] == parts;
    }
  }

  lemma {:induction false} SplitWithoutSeparator(s: string, sep: char)
    requires sep !in s
    ensures Split(s, sep) == [s]
  {
    if |s| > 0 {
      SplitWithoutSeparator(s[1..], sep);
      assert [s[0]] + s[1..] == s;
    }
  }

  lemma {:induction false} SplitPrefix(p: string, sep: char, t: string)
    requires sep !in p
    ensures Split(p + [sep] + t, sep) == [p] + Split(t, sep)
  {
    if |p| == 0 {
      assert p + [sep] + t == [sep] + t;
      assert ([sep] + t)[1..] == t;
    } else {
      assert (p + [sep] + t)[1..] == p[1..] + [sep] + t;
      SplitPrefix(p[1..], sep, t);
      assert [p[0]] + p[1..] == p;
    }
  }

  function DigitChar(d: nat): (c: char)
    requires d < 10
    ensures IsDigit(c)
  {
    ('0' as int + d) as char
  }

  function DigitValue(c: char): (d: nat)
    requires IsDigit(c)
    ensures d < 10 && DigitChar(d) == c
  {
    c as int - '0' as int
  }

  /** `str(n)` / `'%d' % n` for a non-negative integer. */
  function NatToString(n: nat): (r: string)
    ensures |r| >= 1 && AllDigits(r)
    ensures r[0] == '0' ==> n == 0
    decreases n
  {
    if n < 10 then [DigitChar(n)] else NatToString(n / 10) + [DigitChar(n % 10)]
  }

  /** The value of a non-empty string of decimal digits. */
  function DecimalValue(s: string): nat
    requires AllDigits(s)
  {
    if |s| == 0 then 0 else DecimalValue(s[..|s| - 1]) * 10 + DigitValue(s[|s| - 1])
  }

  lemma {:induction false} DecimalOfNatToString(n: nat)
    ensures DecimalValue(NatToString(n)) == n
  {
    if n >= 10 {
      DecimalOfNatToString(n / 10);
      var s := NatToString(n);
      assert s[..|s| - 1] == NatToString(n / 10);
    }
  }

  /** `'%0Nd' % n`: the decimal digits of `n`, padded with zeros on the left to `width`. */
  function ZeroPad(n: nat, width: nat): (r: string)
    ensures AllDigits(r) && |r| >= 1 && |r| >= width
  {
    var s := NatToString(n);
    if |s| >= width then s else Zeros(width - |s|) + s
  }

  function Zeros(k: nat): (r: string)
    ensures |r| == k && AllDigits(r)
    ensures forall i :: 0 <= i < k ==> r[i] == '0'
  {
    seq(k, i => '0')
  }

  lemma {:induction false} LeadingZeros(z: string, s: string)
    requires AllDigits(s) && forall i :: 0 <= i < |z| ==> z[i] == '0'
    ensures AllDigits(z + s) && DecimalValue(z + s) == DecimalValue(s)
    decreases |s|
  {
    if |s| == 0 {
      ZerosValue(z);
      assert z + s == z;
    } else {
      var t := z + s;
      assert t[..|t| - 1] == z + s[..|s| - 1];
      LeadingZeros(z, s[..|s| - 1]);
    }
  }

  lemma {:induction false} ZerosValue(z: string)
    requires forall i :: 0 <= i < |z| ==> z[i] == '0'
    ensures AllDigits(z) && DecimalValue(z) == 0
    decreases |z|
  {
    if |z| > 0 {
      ZerosValue(z[..|z| - 1]);
    }
  }

  /** A zero-padded number reads back as the number. */
  lemma ZeroPadValue(n: nat, width: nat)
    ensures DecimalValue(ZeroPad(n, width)) == n
  {
    var s := NatToString(n);
    DecimalOfNatToString(n);
    if |s| < width {
      LeadingZeros(Zeros(width - |s|), s);
    }
  }
}

=== FILE: wrappers.dfy ===
/** Failure-carrying result types shared by every module of the model. */
module Wrappers {

  datatype Option<+T> = None | Some(value: T)

  /** A computation that either yields a value or fails with an error. */
  datatype Result<+T, +E> = Ok(value: T) | Err(error: E) {
    predicate IsFailure() { Err? }

    function PropagateFailure<U>(): Result<U, E>
      requires Err?
    {
      Err(error)
    }

    function Extract(): T
      requires Ok?
    {
      value
    }
  }
}
